=== FILE: README.md ===
# KAIRO core, modelled in Dafny

KAIRO is a mesh overlay. Agents hold Ed25519 identities, are given virtual P addresses, and
exchange signed, sequenced packets through seed nodes, daemons and mailboxes. This project
models the sequential logic of that system and proves properties about it. The model covers:

- **Packet envelope and anti-replay.** The ordered checks of `validate_packet`, the `last + 1`
  counter of `PacketParser`, the Go `Serialize` layout, and the IPv6 Destination Options
  packets and pcap framing of the capture generators (sections 3 and 4.6 of RFC 8200).
- **Identity registries and address allocation.** The soft-delete name registry, the registry
  checker, the three seed nodes' register, revoke and reissue machines, the `10.0.0.n` pools,
  the lowest-free `100.64.x.y` node manager, the coordination node's peer table, the
  connection table and the deny-list firewall.
- **Signature-gated mailboxes and quorum.** Per-destination FIFO inboxes that keep only
  verified packets, override quorum counting, and agent-config validation with the
  `"p_address:public_key"` signature.
- **Trust, scope and rate.** The weighted trust score, the per-scope WAU thresholds, the cosine
  anomaly test, the five-state scope machine with hysteresis, the decrease-only rate
  controller and the Go client's 429 backoff. All of these are over `real`.
- **Runtime utilities.** The witness ring, the sliding-window burst detector, 60-byte
  nickname truncation, the daemon's send path with IP encoding and classification (section 3
  of RFC 1918), and zone labels.
- **Text and JSON helpers.** The KAIRO-Nexus router and CLI, the Python Nexus task parser,
  destination choice, JSON daemon and queue, the log validator, the mesh-config generator and
  the Cargo.lock duplicate scanner.

Ed25519, SHA-256, CRC-32, `DefaultHasher`, uuid generation, text decoders, JSON parsing and
validity, IP text parsing and `sqrt` are function-valued parameters. A lemma that needs
Ed25519 to accept genuine signatures requires the soundness predicate `Crypto.Sound`. Clocks
are parameters as well. Hex, UTF-8 encoding, little- and big-endian integers and Python's
string operations are modelled concretely (modules `Bytes`, `Text` and `Json`).

Each source file has one module, or one module per type, named after the program's own type
or file. Operations are pure functions over immutable datatypes. The state of a server or
daemon is a value that every handler takes and returns.

## Model

| member | source | states |
|---|---|---|
| AddressPool.RequestAddress | src/kairo-daemon/kairo_p_daemon.rs:27-39 | a request answers `10.0.0.` followed by the current counter, and the counter goes up by one modulo 256 (the `u8` wraps) |
| AddressPool.RequestsCount | src/kairo_daemon/src/main.rs:61-67 | until the counter would pass 255, the i-th of k successive requests answers counter + i and the counter ends k higher |
| AddressPool.KthRequest | bin/daemon/kairo_p_daemon.rs:16-26 | from the initial pool (counter 1), the k-th request answers `10.0.0.k` for k from 1 to 255 |
| AddressPool.DistinctUpTo255 | src/kairo-daemon/kairo_p_daemon.rs:22-32 | the first 255 requests answer pairwise distinct addresses |
| AddressPool.CounterWraps | src/kairo-daemon/kairo_p_daemon.rs:14-30 | after 255 requests the counter is 0 and the 256th request answers `10.0.0.0` |
| AddressPool.ObjectReply | src/kairo-daemon/kairo_p_daemon.rs:8-11 | this daemon replies with an object whose only member `p_address` holds the address |
| AddressPool.BareReply | bin/daemon/kairo_p_daemon.rs:26 | this daemon (and the agent daemon) replies with the address as a bare JSON string, which has no `p_address` member |
| AddressPool.RepliesDiffer | src/kairo_daemon/src/main.rs:67 | the two reply shapes are never equal, though the object's `p_address` is the bare reply |
| AgentConfig.Generate | src/kairo-lib/config.rs:31-43 | a generated config has empty p_address and signature, and its key texts decode to the public key of the random secret and to the secret itself |
| AgentConfig.CreateSignature | src/kairo-lib/config.rs:47-51 | the signature text decodes to the Ed25519 signature of `"p_address:public_key"` |
| AgentConfig.VerifySignature | src/kairo-lib/config.rs:54-73 | verification succeeds exactly when both texts are hex, the key parses, the signature is 64 bytes and ed25519 accepts it over "p_address:public_key" |
| AgentConfig.SignThenVerify | src/kairo-lib/config.rs:47-73 | a config signed with the secret matching its public key verifies |
| AgentConfig.VerdictIsSignatureCheck | src/kairo-lib/config.rs:54-73 | with a parseable public key and a 64-byte hex signature, the verdict is exactly ed25519's check over "p_address:public_key", so a forged signature is rejected |
| AgentConfig.MalformedSignatureRejected | src/kairo-lib/config.rs:63-70 | a signature text that is not hex, or not 64 bytes, never verifies |
| AgentConfig.HexKeyTextIsSixtyFourDigits | src/kairo-lib/config.rs:127 | the byte-length test on a key text is a character-count test, because hex digits are ASCII |
| AgentConfig.ValidateAgentConfig | src/kairo-lib/config.rs:123-134 | validation passes exactly when p_address contains '/' and both keys are 64 hex digits; the subnet check comes first, then the public key |
| AgentConfig.GeneratedFailsValidation | src/kairo-lib/config.rs:38 | a freshly generated config fails validation for its missing subnet |
| AgentConfig.GeneratedKeysWellFormed | src/kairo-lib/config.rs:39-40 | the keys `generate` writes pass validation once a p_address with a '/' is filled in |
| Witness.DefaultRecord | clear-mini/src/witness.rs:21-35 | the default witness record has every numeric field zero, 16 zero ip bytes and 48 zero padding bytes |
| Witness.New | clear-mini/src/witness.rs:64-69 | a new ring has the given capacity and an empty snapshot |
| Witness.Push | clear-mini/src/witness.rs:71-77 | a push keeps the capacity and makes the pushed record the newest |
| Witness.PushKeepsNewest | clear-mini/src/witness.rs:71-81 | on a ring within its capacity (at least 1), a push keeps the newest `cap` records of the old snapshot plus the new one: appended when there is room, oldest dropped when full |
| Witness.PushAllKeepsNewest | clear-mini/src/witness.rs:71-81 | any run of pushes leaves exactly the newest `cap` records, in push order, and the ring stays within its capacity |
| Witness.FromEmpty | clear-mini/src/witness.rs:64-81 | from a new ring, the snapshot is the last `cap` records pushed, ending with the last one |
| Witness.ZeroCapacityGrows | clear-mini/src/witness.rs:73-76 | a ring of capacity 0 never evicts: the length check only compares for equality, so every record is kept |
| KairoP.Default | clear-mini/src/kairo_p.rs:8-15 | the default record has id 0 and 60 zero nickname bytes |
| KairoP.FitCount | clear-mini/src/kairo_p.rs:21-29 | the number of whole characters copied, never more than the nickname has; FitCountIsLongestFit shows none is split and the next would not fit |
| KairoP.FitCountIsLongestFit | clear-mini/src/kairo_p.rs:21-29 | the characters copied fit in the room, and the next one would not: no character is split |
| KairoP.FitIsUtf8Prefix | clear-mini/src/kairo_p.rs:21-29 | the copied bytes are a prefix of the nickname's UTF-8 encoding |
| KairoP.AsciiFits | clear-mini/src/kairo_p.rs:21-29 | an ASCII nickname of at most 60 characters is copied whole |
| KairoP.New | clear-mini/src/kairo_p.rs:18-32 | the record keeps the id and holds the 60 stored nickname bytes: the longest whole-character UTF-8 prefix that fits, then zeros |
| KairoP.StoredLayout | clear-mini/src/kairo_p.rs:19-29 | the stored bytes start with a prefix of the UTF-8 encoding and end in zeros, and a short ASCII nickname is stored verbatim |
| ClearMiniApi.NewClearMini | clear-mini/src/api.rs:10-15 | a new recorder has an empty ring of capacity 4096 |
| ClearMiniApi.Record | clear-mini/src/api.rs:17-41 | the newest record carries the endpoints' ids, the given fields, the CRC-32 of the ip bytes and default values elsewhere |
| ClearMiniApi.RecordPushesOne | clear-mini/src/api.rs:40 | each call adds exactly one record: earlier records are kept, less the oldest when 4096 are held |
| ClearMiniApi.RecordHashesIpOnly | clear-mini/src/api.rs:26-38 | the hash depends on the ip bytes alone, and the padding is always zero |
| Detector.New | clear-mini/src/detector.rs:10-15 | a new window has the given number of seconds as its length and no keys |
| Detector.Since | clear-mini/src/detector.rs:23 | the elapsed time is the difference for an earlier instant and never negative |
| Detector.Prune | clear-mini/src/detector.rs:22-28 | pruning drops a prefix of the queue; what remains starts inside the window, and a last instant inside the window is never dropped |
| Detector.Hit | clear-mini/src/detector.rs:17-31 | a hit appends `now` to its key's queue and returns the queue's new length (at least 1); other keys are untouched |
| Detector.Within | clear-mini/src/detector.rs:22-28 | the instants of a queue inside the window of `now`, in order, as a filter; PruneIsWithin shows the pruning loop computes it |
| Detector.PruneIsWithin | clear-mini/src/detector.rs:22-28 | on a queue of past instants in order, pruning from the front equals filtering by the window |
| Detector.WithinWithin | clear-mini/src/detector.rs:22-28 | filtering for an earlier `now` and then a later one is filtering for the later one |
| Detector.HitCountsWindow | clear-mini/src/detector.rs:17-31 | with time not going backwards, the returned count is exactly the key's hits within the window, the boundary included, and the queue keeps tracking that window |
| Detector.NewTracksNothing | clear-mini/src/detector.rs:10-15 | a new window tracks the empty history of every key |
| Detector.OutOfOrderOvercounts | clear-mini/src/detector.rs:22-28 | if instants arrive out of order, a stale instant behind a fresh one is still counted |
| PacketValidator.ValidatePacket | rust-core/src/packet_validator.rs:15-55 | the packet passes iff the sequence field is 8 bytes, its little-endian value is the expected one, the signature is 64 bytes and it verifies over the payload; a wrong-length field is reported before anything else, a mismatch names both values, and the signature-length error is reported exactly when the sequence is right and the signature is not 64 bytes |
| PacketValidator.SequenceOf | rust-core/src/packet_validator.rs:27-31 | the sequence is the little-endian value of the 8 bytes, and writing it back little-endian gives those bytes |
| PacketValidator.GenuinePacketAccepted | rust-core/src/packet_validator.rs:15-55 | a packet whose sequence is written little-endian and whose payload is signed by the sender passes at its own sequence number |
| PacketValidator.OtherSequenceRejected | rust-core/src/packet_validator.rs:15-34 | the validator keeps no state: the same genuine packet checked against any other expected number is a mismatch naming both values |
| PacketValidator.SequenceCheckedBeforeSignature | rust-core/src/packet_validator.rs:20-46 | a wrong sequence is reported as a mismatch whatever the signature is |
| PacketValidator.EmptySignatureRejected | rust-core/src/packet_validator.rs:37-40 | an empty signature on a packet with the right sequence is rejected for its length |
| PacketValidator.EmptyPayloadGoesToVerification | rust-core/src/packet_validator.rs:48-54 | there is no empty-payload check: a genuine signature over the empty payload passes |
| PacketParser.NewParser | rust-core/src/packet_parser.rs:13-18 | a new parser keeps the session key and expects sequence number 1 first |
| PacketParser.NextExpected | rust-core/src/packet_parser.rs:35 | the number accepted next is last + 1 on a u64, which wraps to 0 only after 2^64 - 1 |
| PacketParser.DecryptSequenceId | rust-core/src/packet_parser.rs:21-27 | the result's big-endian bytes are the first min(len, 8) input bytes followed by zeros |
| PacketParser.Parse | rust-core/src/packet_parser.rs:30-43 | a missing sequence field is exactly the MissingSequenceId error and changes nothing; a present field is a mismatch exactly when its decoded number is not last + 1, and a mismatch changes nothing; success returns the payload and sets the counter to that number; a missing payload still advances the counter |
| PacketParser.DecryptOfBigEndian | rust-core/src/packet_parser.rs:21-27 | a number written as 8 big-endian bytes decodes back to itself |
| PacketParser.ReplayRejected | rust-core/src/packet_parser.rs:35-39 | the packet numbered last + 1 is accepted, and the same packet offered again is rejected with the state unchanged |
| PacketParser.OnlyNextAccepted | rust-core/src/packet_parser.rs:35-39 | for every state and number, the packet numbered last + 1 is taken (Ok exactly when it has a payload) and any other number is a mismatch that leaves the parser unchanged |
| PacketParser.MissingPayloadConsumesSequence | rust-core/src/packet_parser.rs:39-41 | a packet with the right number but no payload is an error that still uses up its sequence number |
| PacketParser.LittleEndianOneMisread | rust-core/src/packet_parser.rs:26 | the number 1 written little-endian decodes here as 2^56 |
| PacketParser.ParseAll | rust-core/src/packet_parser.rs:30-43 | feeding a stream of packets to one parser takes at most one sequence number per packet and keeps the session key; TakenAreConsecutive gives the numbers |
| PacketParser.TakenAreConsecutive | rust-core/src/packet_parser.rs:35-39 | over any stream of packets, the numbers accepted are consecutive after the starting counter, and the final counter is the last one accepted |
| Serializer.Serialize | go-p2p/pkg/serializer.go:18-36 | the output length is the sum of the field lengths plus 8 prefix bytes; it starts with the version, then the key length modulo 256, then the key bytes verbatim |
| Serializer.Read8Prefixed | go-p2p/pkg/serializer.go:22-25 | a field under 256 bytes after its one-byte length reads back exactly |
| Serializer.Read16Prefixed | go-p2p/pkg/serializer.go:27-35 | a field under 65536 bytes after its two-byte big-endian length reads back exactly |
| Serializer.RoundTrip | go-p2p/pkg/serializer.go:18-36 | when every length fits its prefix, decoding the output recovers the packet |
| Serializer.SerializeInjective | go-p2p/pkg/serializer.go:18-36 | when every length fits its prefix, different packets serialize differently |
| Serializer.LongKeyTruncated | go-p2p/pkg/serializer.go:22 | a 256-byte key gets length byte 0, and the output no longer decodes to the packet |
| Override.CountWhere | src/kairo_lib/src/override.rs:16-27 | the loop over the map, in any visiting order, counts exactly the keys that satisfy the test |
| Override.VerifyOverridePackage | src/kairo_lib/src/override.rs:10-29 | the count is the number of distinct signatories with a known, well-formed key whose signature verifies over the payload bytes, and the result is true iff that count reaches the threshold |
| Override.CountBounded | src/kairo_lib/src/override.rs:7-17 | the count never exceeds the number of signatures, one per signatory |
| Override.ThresholdMonotone | src/kairo_lib/src/override.rs:28 | raising the threshold never turns a rejection into an acceptance, and threshold 0 always accepts |
| Override.SkippedSignatures | src/kairo_lib/src/override.rs:18-20 | a signatory with no quorum key, or with a key or signature that is not hex, is skipped without error and never counted |
| Override.GenuineSignatureCounts | src/kairo_lib/src/override.rs:18-25 | a signature made over the payload with the secret matching the signatory's quorum key counts |
| NameRegistry.AnyActiveName | src/kairo-lib/registry.rs:66 | the scan finds a name iff a non-deleted entry carries it |
| NameRegistry.AnyActiveAddress | src/kairo-lib/registry.rs:70-73 | the scan finds an address iff a non-deleted entry carries it |
| NameRegistry.RegisterAgent | src/kairo-lib/registry.rs:66-81 | registration succeeds iff neither the name nor the address is active; a clash on the name is reported first; on success the entry is appended and earlier entries are unchanged |
| NameRegistry.AddEntry | src/kairo-lib/registry.rs:123-125 | adding an entry succeeds under the same conditions as registration and appends it |
| NameRegistry.FirstActive | src/kairo-lib/registry.rs:106 | the search finds the first non-deleted entry with the name, or nothing iff there is none |
| NameRegistry.SoftDeleteAgent | src/kairo-lib/registry.rs:106-111 | deletion fails with "not found" iff no active entry has the name; otherwise the first active entry with that name is marked deleted, the record is kept and nothing else changes |
| NameRegistry.RegisterPreservesUnique | src/kairo-lib/registry.rs:66-81 | registration keeps active names and active addresses unique |
| NameRegistry.SoftDeletePreservesUnique | src/kairo-lib/registry.rs:106-107 | soft deletion keeps active names and active addresses unique |
| NameRegistry.SoftDeleteDeactivates | src/kairo-lib/registry.rs:106-107 | in a registry with unique active names, deleting a name leaves no active entry with it |
| NameRegistry.DeletedDoNotBlock | src/kairo-lib/registry.rs:66-72 | entries that are all deleted never block registering their name or address again |
| NameRegistry.ReRegisterAfterDelete | src/kairo-lib/registry.rs:66-107 | register, delete, register again: both registrations succeed and both records are kept |
| RegistryCheck.CheckRegistry | src/agent/check_registry.rs:8-20 | the check passes iff all names and all addresses, deleted entries included, are pairwise distinct; a failure names the first offending entry, with the name tested before the address |
| RegistryCheck.EmptyPasses | src/agent/check_registry.rs:20 | an empty registry passes |
| RegistryCheck.ReRegistrationFailsCheck | src/agent/check_registry.rs:10-18 | a re-registration after soft deletion, which the registry allows, fails this check |
| AgentRegistry.Validate | src/kairo-lib/agent_registry.rs:35-37 | validation holds iff one single entry matches both the address and the key |
| AgentRegistry.SplitMatchRejected | src/kairo-lib/agent_registry.rs:36 | an address matching one entry and a key matching another do not validate, and an empty registry validates nothing |
| AgentRegistry.StatusIgnored | src/kairo-lib/agent_registry.rs:12-36 | changing an entry's status never changes the outcome, so a revoked entry still validates |
| SeedNode.AnyActive | src/server/seed_node.rs:141 | the scan finds an id iff an active record carries it |
| SeedNode.FirstWithId | src/server/seed_node.rs:161-175 | the search finds the first record with the id (active only, when asked), or nothing iff there is none |
| SeedNode.HandleRegistration | src/server/seed_node.rs:137-156 | an id that is already active gets "exists" and nothing changes; otherwise an active record with no `replaces` link is appended and the reply is success |
| SeedNode.HandleRevocation | src/server/seed_node.rs:158-170 | not_found iff no active record has the id, with nothing changed; otherwise the first active record with the id becomes revoked and nothing else changes |
| SeedNode.HandleReissue | src/server/seed_node.rs:172-198 | 404 iff no record has the old id; 400 iff the first record with the old id is not revoked, checked before the new id; 409 iff that record is revoked and the new id is active; success iff it is revoked and the new id is not active, and then an active record replacing the old id is appended; every refusal leaves the list unchanged |
| SeedNode.HandleEmergencyReissue | src/server/seed_node.rs:200-203 | the package is ignored: registry and mailbox are unchanged and the reply is "received" |
| SeedNode.AppendActivePreserves | src/server/seed_node.rs:141-151 | appending an active record for an id that is not active keeps at most one active record per id |
| SeedNode.OperationsPreserveAtMostOneActive | src/server/seed_node.rs:141-194 | registration, revocation and reissue each keep at most one active record per id |
| SeedNode.RevokeThenReissue | src/server/seed_node.rs:137-198 | register, revoke, then reissue to a fresh id: all three succeed and the new record points back at the old id |
| SeedNode.ReissueOfActiveRefused | src/server/seed_node.rs:175-179 | reissuing from an id that is still active is refused with 400 and nothing changes |
| SeedNode.SenderKey | src/server/seed_node.rs:78-81 | the sender is found iff some configured verifying key, hex-encoded, equals the source address |
| SeedNode.VerifyPacketSignature | src/server/seed_node.rs:77-107 | a packet verifies exactly when its sender is found by hex key, the key parses, the signature is hex of 64 bytes and ed25519 accepts it over the payload bytes |
| SeedNode.GenuinePacketVerifies | src/server/seed_node.rs:77-107 | a packet signed over its payload by a configured key, and addressed from that key in hex, verifies |
| SeedNode.VerdictIsSignatureCheck | src/server/seed_node.rs:77-104 | for a packet from a configured, parseable key with a 64-byte hex signature, the verdict is exactly ed25519's check over the payload bytes, so a forged signature is rejected |
| SeedNode.HandleSend | src/server/seed_node.rs:111-123 | the reply is always "packet_queued", but only a verified packet is appended to its destination's inbox |
| SeedNode.HandleReceive | src/server/seed_node.rs:125-135 | the reply is the address's inbox in arrival order, and the inbox is left empty; an unknown address gets an empty list and nothing changes |
| SeedNode.SendKeepsQueueVerified | src/server/seed_node.rs:115-121 | if every queued packet verifies, every queued packet still verifies after a send |
| DevSeedNode.AnyActive | bin/dev/seed_node.rs:52 | the scan finds an id iff an active record carries it |
| DevSeedNode.FirstActive | bin/dev/seed_node.rs:77 | the search finds an active record with the id, or nothing iff there is none |
| DevSeedNode.HandleRegistration | bin/dev/seed_node.rs:46-68 | an id already active gets "exists" with no change; otherwise exactly one active record is appended |
| DevSeedNode.HandleRevocation | bin/dev/seed_node.rs:71-88 | not_found iff no active record has the id, with no change; otherwise the first active record with the id becomes revoked, nothing else changes and the length is kept |
| DevSeedNode.AgreesWithSeedNode | bin/dev/seed_node.rs:46-88 | registration and revocation give the same replies and, up to the `replaces` link, the same records as the unified seed node |
| DevSeedNode.OperationsPreserveAtMostOneActive | bin/dev/seed_node.rs:52-82 | registration and revocation keep at most one active record per id |
| IdListSeedNode.HandleRegistration | src/bin/seed_node.rs:40-57 | a listed id gets "exists" and the list is unchanged; a new id is appended at the end; either way the id is listed afterwards |
| IdListSeedNode.RegistrationKeepsListDistinct | src/bin/seed_node.rs:46-51 | registration keeps the list free of duplicates, and registering the same id twice is the same as once |
| Mailbox.Enqueue | src/server/src/main.rs:72-73 | a packet is appended to its destination's inbox, and every other inbox is unchanged |
| Mailbox.Inbox | src/server/src/main.rs:83-89 | the packets held for an address, none for an unknown one; Enqueue, Drain and InboxIsFifo state how it changes |
| Mailbox.Drain | src/server/src/main.rs:83-90 | draining returns the inbox, leaves it empty and leaves every other inbox unchanged; an unknown address leaves the queue unchanged |
| Mailbox.InboxIsFifo | src/server/src/main.rs:70-91 | after any run of sends, an inbox holds its earlier packets followed by the packets sent to it, in sending order |
| Mailbox.EnqueuePreserves | src/server/src/main.rs:70-73 | a property that holds of every queued packet and of the new one holds of every packet after the send |
| Mailbox.DrainPreserves | src/server/src/main.rs:81-85 | draining keeps any property that held of every queued packet |
| MailboxServer.FindSender | src/server/src/main.rs:32-38 | the sender is the first config whose p_address is the source address, or nothing iff there is none |
| MailboxServer.VerifyPacketSignature | src/server/src/main.rs:31-62 | a packet verifies iff its sender is known, the sender's key is hex and parses, the signature is hex of 64 bytes, and it checks over the payload bytes |
| MailboxServer.UnknownSenderRejected | src/server/src/main.rs:32-37 | a packet from an unknown sender never verifies |
| MailboxServer.GenuinePacketVerifies | src/server/src/main.rs:40-61 | a packet signed over its payload with the secret matching its sender's configured key verifies |
| MailboxServer.HandleSend | src/server/src/main.rs:66-79 | the reply is always "packet_queued", but only a verified packet is queued |
| MailboxServer.HandleReceive | src/server/src/main.rs:81-91 | the requested inbox is returned in order and cleared; other inboxes are unchanged; an unknown address gets an empty list |
| MailboxServer.QueueHoldsOnlyVerified | src/server/src/main.rs:66-91 | if every queued packet verifies, that stays true after a send or a receive |
| MailboxServer.SendThenReceive | src/server/src/main.rs:70-87 | a verified send and then a receive at its destination deliver the earlier backlog followed by the packet |
| KairoDaemon.VerifyPacketSignature | src/kairo_daemon/src/main.rs:18-30 | on inputs where the unwraps do not panic, a packet verifies only when its sender is known |
| KairoDaemon.AgreesWithServer | src/kairo_daemon/src/main.rs:18-30 | where the unwraps do not panic, the daemon's verdict equals the mailbox server's |
| KairoDaemon.BadKeyHexPanics | src/kairo_daemon/src/main.rs:23 | a known sender whose key is not hex makes the daemon panic instead of returning false |
| KairoDaemon.HandleSend | src/kairo_daemon/src/main.rs:33-47 | the reply is OK iff the packet verifies, and then it is queued with "packet_queued"; otherwise it is UNAUTHORIZED, "invalid_signature" and nothing is queued |
| KairoDaemon.HandleReceive | src/kairo_daemon/src/main.rs:49-59 | the requested inbox is returned in order and cleared; other inboxes are unchanged; an unknown address gets an empty list |
| KairoDaemon.SendAgreesWithServer | src/kairo_daemon/src/main.rs:33-47 | where it does not panic, the daemon's send leaves the same queue as the server's, and its status is OK exactly when the server would have verified |
| NodeManager.IpOf | rust-core/src/coordination/node_manager.rs:35-37 | suffix s maps to `100.64.(s/256).(s%256)`, both octets below 256, so only 100.64.0.0/16 of the shared space of RFC 6598 is reached |
| NodeManager.IpOfInjective | rust-core/src/coordination/node_manager.rs:35-37 | distinct suffixes give distinct addresses |
| NodeManager.FirstFree | rust-core/src/coordination/node_manager.rs:33-53 | the search returns the lowest suffix from the start whose address is unused, or nothing iff every suffix up to 65535 is in use |
| NodeManager.RegisterNode | rust-core/src/coordination/node_manager.rs:27-56 | registration fails, changing nothing, iff suffixes 1 to 65535 are all in use; otherwise the node keeps the given key, is stored under its id, and gets the unused address of the lowest free suffix |
| NodeManager.RegisterKeepsIpsUnique | rust-core/src/coordination/node_manager.rs:38-44 | registration never gives two nodes the same address |
| NodeManager.FirstTwoRegistrations | rust-core/src/coordination/node_manager.rs:33-45 | the first two registrations get 100.64.0.1 and 100.64.0.2 |
| CoordinationNode.AddPeer | AI-TCP/core/kairo_coord_node/src/lib.rs:27-35 | the new peer gets 100.64.0.(count + 1) truncated to a byte, is stored under its uuid, adds one to the count and leaves other peers unchanged |
| CoordinationNode.RemovePeer | AI-TCP/core/kairo_coord_node/src/lib.rs:37-44 | the result is true iff the uuid was present; afterwards it is absent, the count drops by one when it was present, and nothing else changes |
| CoordinationNode.GetPeers | AI-TCP/core/kairo_coord_node/src/lib.rs:46-48 | the peer table itself; AddThenGet, AddKeepsDense and DuplicateAfterRemoval state what it holds |
| CoordinationNode.AddThenGet | AI-TCP/core/kairo_coord_node/src/lib.rs:27-48 | a peer just added is listed with its key |
| CoordinationNode.AddKeepsDense | AI-TCP/core/kairo_coord_node/src/lib.rs:29-32 | while no peer was removed and fewer than 255 are held, the peers keep distinct addresses |
| CoordinationNode.DuplicateAfterRemoval | AI-TCP/core/kairo_coord_node/src/lib.rs:29-30 | add A, add B, remove A, add C: C gets the address B still holds |
| CoordinationNode.Peer256GetsZero | AI-TCP/core/kairo_coord_node/src/lib.rs:29 | with 255 peers held the next one gets 100.64.0.0 |
| ConnectionManager.New | rust-core/src/connection_manager.rs:14-19 | a new manager has no connections |
| ConnectionManager.IsConnected | rust-core/src/connection_manager.rs:34-36 | an id is connected when it holds a session; Connect, Disconnect and DisconnectUndoesConnect state how that changes |
| ConnectionManager.Count | rust-core/src/connection_manager.rs:39-41 | the number of sessions; CountIsConnectedIds shows it is the number of distinct connected ids |
| ConnectionManager.Connect | rust-core/src/connection_manager.rs:22-26 | afterwards the id is connected; an existing connection is left exactly as it was; a new one adds one to the count; other ids are untouched |
| ConnectionManager.Disconnect | rust-core/src/connection_manager.rs:29-31 | the result is true iff the id was connected; afterwards it is not; the count drops by one exactly then; other ids are untouched |
| ConnectionManager.ConnectIdempotent | rust-core/src/connection_manager.rs:22-26 | connecting twice is connecting once, the first session kept |
| ConnectionManager.DisconnectUndoesConnect | rust-core/src/connection_manager.rs:22-31 | connecting a new id and disconnecting it restores the manager and reports true |
| ConnectionManager.CountIsConnectedIds | rust-core/src/connection_manager.rs:34-41 | the count is the number of distinct connected ids |
| Firewall.New | rust-core/src/fw_filter.rs:11-13 | a new firewall allows every id |
| Firewall.IsAllowed | rust-core/src/fw_filter.rs:26-28 | an id is allowed when no deny rule names it; Deny, Allow and AllowUndoesDeny state how that changes |
| Firewall.Deny | rust-core/src/fw_filter.rs:16-18 | afterwards the id is not allowed and every other id is as before |
| Firewall.Allow | rust-core/src/fw_filter.rs:21-23 | afterwards the id is allowed and every other id is as before |
| Firewall.DenyIdempotentAllowNoOp | rust-core/src/fw_filter.rs:16-23 | denying twice is denying once, and allowing an id that is not denied changes nothing |
| Firewall.AllowUndoesDeny | rust-core/src/fw_filter.rs:16-23 | denying an allowed id and allowing it again restores the firewall |
| RateControl.Clamp | rust-core/src/rate_control.rs:13 | the result lies in [lo, hi], is the input when it is already there, and is the nearer bound otherwise |
| RateControl.New | rust-core/src/rate_control.rs:12-14 | a new controller keeps its bounds and holds the initial rate clamped into them |
| RateControl.LossFactor | rust-core/src/rate_control.rs:19 | the loss factor lies in [0, 1]: 0 for loss 1 or more and 1 for no loss |
| RateControl.RttFactor | rust-core/src/rate_control.rs:20 | for a non-negative round-trip time the factor lies in (0, 1], and it is 1 exactly at time 0 |
| RateControl.Update | rust-core/src/rate_control.rs:18-23 | after an update the rate lies within the unchanged bounds |
| RateControl.UpdateNeverRaises | rust-core/src/rate_control.rs:16-22 | an update never raises a non-negative rate already in bounds, whatever the doc comment on it says |
| RateControl.IdleUpdateKeepsRate | rust-core/src/rate_control.rs:19-22 | no loss and no delay leave the controller unchanged |
| RateControl.TotalLossHitsFloor | rust-core/src/rate_control.rs:19-22 | with loss of 1 or more the rate drops to the minimum |
| RateControl.UpdateAll | rust-core/src/rate_control.rs:18-23 | after a non-empty run of updates the rate is within the unchanged bounds |
| RateControl.RunNeverRises | rust-core/src/rate_control.rs:18-23 | a run of updates never ends above the starting rate |
| Backoff.Connect | go-client/client.go:34-44 | a new client starts with no backoff |
| Backoff.Wait | go-client/client.go:49-50 | the client sleeps iff the backoff has not yet elapsed since the last send, and then exactly for the rest of it |
| Backoff.MarkSent | go-client/client.go:59 | the send time is recorded and the backoff is unchanged |
| Backoff.SendsSpacedByBackoff | go-client/client.go:49-59 | a send made after the computed wait is at least the backoff after the previous one |
| Backoff.OnResponse | go-client/client.go:91-104 | on 429 a zero backoff becomes 500ms, one under 2s doubles and a larger one stays; any other reply halves it, rounding down |
| Backoff.ResponseError | go-client/client.go:99 | the call fails with "rate limited" exactly on 429 |
| Backoff.BackoffBounded | go-client/client.go:91-104 | from a backoff under 4s, no sequence of replies reaches 4s |
| Backoff.BackoffSaturates | go-client/client.go:93-97 | four 429s from a fresh client give 500ms, 1s, 2s and then stay at 2s |
| Scopes.Next | src/mesh_trust_calculator.rs:11-17 | the next scope is exactly one level up; World has none |
| TrustCalculator.SumOfUnitBounded | src/mesh_trust_calculator.rs:37 | a sum of scores in [0, 1] lies between 0 and the number of scores |
| TrustCalculator.PeerAverage | src/mesh_trust_calculator.rs:34-38 | the average is 0 for no reviews and lies in [0, 1] when every review does |
| TrustCalculator.MinPeerReviews | src/mesh_trust_calculator.rs:45-49 | every scope asks for at least one review |
| TrustCalculator.Clamp01 | src/mesh_trust_calculator.rs:55 | the result lies in [0, 1] and is the input when it already does |
| TrustCalculator.CalculateTrustScore | src/mesh_trust_calculator.rs:24-56 | the score always lies in [0, 1] |
| TrustCalculator.ScoreOfUnitInputs | src/mesh_trust_calculator.rs:30-55 | with inputs in [0, 1], the score is 0.4 self + 0.4 average + 0.2 gossip, halved when there are fewer reviews than the scope asks for |
| TrustCalculator.NoPeersPenalized | src/mesh_trust_calculator.rs:34-53 | with no reviews the average is 0 and the score is halved in every scope |
| TrustCalculator.MonotoneInSelfTrust | src/mesh_trust_calculator.rs:40-55 | more self-trust never lowers the score |
| TrustCalculator.Threshold | src/mesh_trust_calculator.rs:59-65 | each scope's threshold lies strictly between 0 and 1 |
| TrustCalculator.VerifyWaU | src/mesh_trust_calculator.rs:58-67 | the check passes iff the score reaches the scope's threshold |
| TrustCalculator.PassesNarrowerScopes | src/mesh_trust_calculator.rs:59-66 | passing at a scope implies passing at every narrower scope |
| TrustCalculator.NormSq | src/mesh_trust_calculator.rs:82-83 | a squared norm is never negative |
| TrustCalculator.ZeroHasNoNorm | src/mesh_trust_calculator.rs:82-85 | a vector of zeros has norm 0 |
| TrustCalculator.Cosine | src/mesh_trust_calculator.rs:80-90 | a zero norm on either side gives similarity 0 rather than a division; SelfAndOpposite and DotIgnoresTail give its other values |
| TrustCalculator.DotIgnoresTail | src/mesh_trust_calculator.rs:81-83 | entries beyond the shorter vector do not enter the dot product, though they do enter the norm |
| TrustCalculator.ZeroVectorSimilarity | src/mesh_trust_calculator.rs:85-87 | a zero vector on either side has similarity 0 |
| TrustCalculator.SelfAndOpposite | src/mesh_trust_calculator.rs:80-90 | a non-zero vector has similarity 1 with itself and -1 with its negation |
| TrustCalculator.CheckBehaviorAnomaly | src/mesh_trust_calculator.rs:69-78 | a vector is anomalous when its similarity to the baseline is under the threshold; ZeroVectorAnomalous and OppositeAnomalousSameNot state the cases |
| TrustCalculator.ZeroVectorAnomalous | src/mesh_trust_calculator.rs:69-87 | against a zero vector the test flags exactly when the threshold is positive |
| TrustCalculator.OppositeAnomalousSameNot | src/mesh_trust_calculator.rs:69-78 | at threshold 0.95 the negated baseline is flagged and the baseline itself is not |
| BaselineProfiles.New | rust-core/src/baseline_profile_manager.rs:19-21 | a new manager has no profile for any agent |
| BaselineProfiles.GetProfile | rust-core/src/baseline_profile_manager.rs:27-29 | the stored profile of an agent, if any; UpdateProfile and UpdateReplaces state what it returns after updates |
| BaselineProfiles.UpdateProfile | rust-core/src/baseline_profile_manager.rs:23-29 | after an update the agent's profile is the one given, and every other agent's is unchanged |
| BaselineProfiles.UpdateReplaces | rust-core/src/baseline_profile_manager.rs:24 | a second update for the same agent replaces the first |
| MeshAuditor.New | rust-core/src/mesh_auditor.rs:14-19 | a new auditor holds no profiles |
| MeshAuditor.VerifyAgentBehavior | src/mesh_trust_calculator.rs:92-104 | an agent is flagged iff it has a profile and its similarity to the baseline is under the threshold |
| MeshAuditor.PerformAudit | rust-core/src/mesh_auditor.rs:22-32 | an agent is flagged iff it has a profile and its similarity to the baseline is under 0.95 |
| MeshAuditor.FreshAuditorPasses | rust-core/src/mesh_auditor.rs:14-32 | a new auditor flags no one |
| MeshAuditor.AuditWithProfile | rust-core/src/mesh_auditor.rs:22-32 | once a profile is stored, the negated baseline is flagged and the baseline itself passes |
| ScopeManager.New | src/kairo-lib/mesh_scope_manager.rs:22-27 | a new manager keeps its thresholds and starts at Personal |
| ScopeManager.CurrentScope | src/kairo-lib/mesh_scope_manager.rs:30-32 | the scope the manager is in; UpdateScope, AtMostOneStep and BandIsStable state how it moves |
| ScopeManager.UpdateScope | src/kairo-lib/mesh_scope_manager.rs:35-84 | a score that clears the next threshold plus the up margin moves one level up; otherwise a score under the current threshold minus the down margin moves one level down; otherwise the scope stays |
| ScopeManager.AtMostOneStep | src/kairo-lib/mesh_scope_manager.rs:41-83 | each update moves at most one level; World can only fall to Community, and Personal only rise to Family |
| ScopeManager.BandIsStable | src/kairo-lib/mesh_scope_manager.rs:49-75 | a score inside the band between the lowered current threshold and the raised next threshold leaves the manager unchanged |
| ScopeManager.NoImmediateReversal | src/kairo-lib/mesh_scope_manager.rs:41-83 | with margins whose sum is not negative, repeating the same score never undoes a move |
| ScopeManager.PersonalThresholdUnused | src/kairo-lib/mesh_scope_manager.rs:35-83 | the Personal threshold is never read |
| IpAddresses.FormatIp | src/kairo-daemon/handle_send.rs:88-94 | the printed address is IPv4 exactly when bytes 4..16 of the witness encoding are all zero, IPv6 otherwise |
| IpAddresses.EncodeIp | src/kairo-daemon/handle_send.rs:54-62 | an IPv4 address keeps its four octets in front of a zero tail, and an encoding prints as IPv4 exactly when the address is IPv4 or an IPv6 address whose last twelve bytes are zero |
| IpAddresses.V4RoundTrip | src/kairo-daemon/handle_send.rs:54-62 | an IPv4 address encoded for the witness record and printed back is the same address in dotted decimal |
| IpAddresses.V6RoundTrip | src/kairo-daemon/handle_send.rs:54-62 | an IPv6 address survives encoding and printing if and only if one of its last twelve bytes is non-zero |
| IpAddresses.DocumentationPrefixPrintsAsV4 | src/kairo-daemon/handle_send.rs:88-94 | the IPv6 address 2001:db8:: is printed as the IPv4 address 32.1.13.184 |
| IpAddresses.EncodeCollision | src/kairo-daemon/handle_send.rs:56-60 | an IPv4 address and the IPv6 address with the same first four bytes and a zero tail have the same 16-byte encoding |
| IpAddresses.ClassifyIp | src/kairo-daemon/ip_classifier.rs:14-28 | the classifier never answers KnownPeer or Suspicious; an IPv6 address is Local exactly when it is ::1 and Unknown otherwise |
| IpAddresses.TopBits | src/kairo-daemon/ip_classifier.rs:19 | the first octet, first octet plus high nibble of the second, and first two octets are the /8, /12 and /16 prefixes of the 32-bit address |
| IpAddresses.ClassifyMatchesBlocks | src/kairo-daemon/ip_classifier.rs:15-25 | an IPv4 address is Local if and only if it lies in 127/8, 10/8, 172.16/12 or 192.168/16, and KnownTest if and only if it is 93.184.216.34 |
| IpAddresses.ValueInjective | src/kairo-daemon/ip_classifier.rs:23 | two IPv4 addresses have the same 32-bit value if and only if their four octets agree, so the octet comparison is a /32 match |
| SendPath.DeriveAgentId | src/kairo-daemon/handle_send.rs:37-41 | the agent id derived from a nickname's hash is a non-negative 31-bit value |
| SendPath.AfterLastScheme | src/kairo-daemon/handle_send.rs:44 | the destination text kept for parsing is a suffix of the whole destination |
| SendPath.AfterLastSchemeSpec | src/kairo-daemon/handle_send.rs:44 | the kept text contains no "://" and is either the whole destination or what follows a "://" |
| SendPath.ParseDestinationEndpoint | src/kairo-daemon/handle_send.rs:43-52 | a socket address gives its encoded ip and port, a bare ip gives port 0, anything else sixteen zero bytes and port 0 |
| SendPath.RouteFlag | src/kairo-daemon/handle_send.rs:116-151 | the route flag is 1 if and only if the destination is "gpt://main", and 2 otherwise |
| SendPath.InitialState | src/kairo-daemon/handle_send.rs:12-13 | the daemon starts with an empty witness ring of the standard capacity and an empty ten-second burst window |
| SendPath.WitnessRequest | src/kairo-daemon/handle_send.rs:64-86 | recording a witness and a burst hit keeps the ring's capacity and the detector's window; on a bounded 4096-record ring the earlier records stay in order before the new one, less the oldest when the ring was full |
| SendPath.HandleSend | src/kairo-daemon/handle_send.rs:97-161 | a bad signature gets 403 and changes nothing; a failed GPT call gets 500 and changes nothing; a GPT reply gets 200 with its body; any other destination gets 501 |
| SendPath.AcceptedIsWitnessed | src/kairo-daemon/handle_send.rs:126-154 | every accepted request that is not a failed GPT call appends exactly one witness record with the sender's id, the endpoint and the route flag, keeping the earlier records (less the oldest at 4096) on a bounded ring, touches only its endpoint's burst queue, and warns if and only if that queue holds 50 hits or more |
| SendPath.EmptyDestinationRecord | src/kairo-daemon/handle_send.rs:67 | the destination record of every witness stores the empty nickname as sixty zero bytes |
| Zoning.LowerAll | src/kairo_lib/src/zoning.rs:12 | lower-casing keeps the length and lower-cases each ASCII capital in place |
| Zoning.FromLabel | src/kairo_lib/src/zoning.rs:11-19 | a recognised label names the zone whose label equals the lower-cased text; no zone is returned exactly when no label matches |
| Zoning.LabelRoundTrip | src/kairo_lib/src/zoning.rs:13-16 | every zone's label reads back as that zone |
| Zoning.CaseInsensitive | src/kairo_lib/src/zoning.rs:12 | two spellings that lower-case alike name the same zone |
| Zoning.UpperCaseRecognised | src/kairo_lib/src/zoning.rs:12-17 | "PUBLIC" and "Experimental" are recognised and "secret" is not |
| NexusRouter.ScanSpec | KAIRO-Nexus/src/main.rs:90-105 | the brace scan from a position returns the first candidate the JSON test accepts, or the whole input when none is accepted |
| NexusRouter.ExtractSpec | KAIRO-Nexus/src/main.rs:86-108 | with no '{' the input comes back unchanged; otherwise the result is the shortest accepted balanced candidate from the first '{', or the input when no candidate is accepted |
| NexusRouter.ExtractJsonOrFallback | KAIRO-Nexus/src/main.rs:86-108 | the extraction as a function; ScanSpec and ExtractSpec state that it returns the first accepted candidate or the whole input |
| NexusRouter.ExtractJson | KAIRO-Nexus/src/main.rs:86-108 | the loop with early return computes the same extraction and meets the same first-accepted-candidate specification |
| NexusRouter.BraceInStringDefeatsExtraction | KAIRO-Nexus/src/main.rs:91-101 | a '}' inside a JSON string closes the naive depth early, so `x{"a":"}"}` is returned whole although it contains valid JSON |
| NexusRouter.KindOf | KAIRO-Nexus/src/main.rs:67-72 | exactly the names "chrome", "winapp" and "terminal" are accepted as UI kinds |
| NexusRouter.KindNamesRoundTrip | KAIRO-Nexus/src/main.rs:67-70 | accepted kind names and UI kinds correspond one to one |
| NexusRouter.LoadFrom | KAIRO-Nexus/src/main.rs:62-78 | the binding loop from a position, over what is already bound; LoadFromErr, LoadFromDomain, LoadFromKeeps and LoadFromLast state its result |
| NexusRouter.Load | KAIRO-Nexus/src/main.rs:62-78 | the registry load from nothing bound; LoadSpec and LaterBindingWins state its result |
| NexusRouter.LoadFromErr | KAIRO-Nexus/src/main.rs:66-72 | the load fails exactly when some binding has an unknown kind, and the error names the first such kind, every earlier binding having a known one |
| NexusRouter.LoadFromDomain | KAIRO-Nexus/src/main.rs:66-74 | a successful load binds the accumulated keys and the p of every later binding, and nothing else |
| NexusRouter.LoadFromKeeps | KAIRO-Nexus/src/main.rs:73 | a p that no later binding mentions keeps the value already bound to it |
| NexusRouter.LoadFromLast | KAIRO-Nexus/src/main.rs:73 | in a successful load the last binding for a p decides its UI key |
| NexusRouter.LoadSpec | KAIRO-Nexus/src/main.rs:62-78 | the registry load fails if and only if some kind is unknown; on success it binds exactly the p addresses of the file, each to the kind and port of its last binding |
| NexusRouter.LaterBindingWins | KAIRO-Nexus/src/main.rs:73 | of two bindings for the same p the later one is kept |
| NexusRouter.Get | KAIRO-Nexus/src/main.rs:80-82 | a lookup finds a key exactly when the p is bound, and then the bound key |
| NexusRouter.MakeUiClient | KAIRO-Nexus/src/main.rs:173-178 | a terminal client on the key's port is made exactly for the Terminal kind; every other kind gets the placeholder holding the key |
| NexusRouter.Handle | KAIRO-Nexus/src/main.rs:150-171 | an unbound destination fails first, then an unbound sender, both before anything is sent; otherwise the body goes first to the destination's UI, and a reply is sent back exactly when that send succeeded |
| NexusRouter.ReplyIsExtracted | KAIRO-Nexus/src/main.rs:165-169 | the reply sent to the sender's UI is the JSON extracted from the destination's output |
| NexusCli.ReadMeshOrPk | src/KAIRO-Nexus/main.rs:196-211 | a non-blank mesh address is returned as it is; nothing is returned exactly when the mesh address is absent or blank and the public key is absent or shorter than 16 characters |
| NexusCli.ShortFormLayout | src/KAIRO-Nexus/main.rs:204-207 | the short form derived from a public key is 19 characters: the key's first sixteen in four groups of four separated by colons |
| NexusCli.Resolve | src/KAIRO-Nexus/main.rs:162-193 | the named config, the explicit path and then `$KAIRO_HOME` or the home directory are tried in that order; the first that is present and yields an address or a read error decides; the home directory is needed only when neither earlier source decides, and its absence is then the "home dir not found" error |
| NexusCli.NothingFound | src/KAIRO-Nexus/main.rs:187-192 | when every source is absent or yields nothing and a home directory exists, resolution fails with the "agent config not found" error |
| NexusCli.KairoHomeFirst | src/KAIRO-Nexus/main.rs:181-185 | `$KAIRO_HOME`, when set, is used instead of the home directory |
| NexusCli.BuildMessage | src/KAIRO-Nexus/main.rs:99-106 | the message sent is LSC-TCP version 0.1.0 with an empty signature, carrying the resolved sender, the destination, the fresh task id and the payload unchanged |
| NexusTasks.FirstBreak | Nexus/src/main.py:93 | the position found is the first line break: none before it, and one at it unless it is the end |
| NexusTasks.SplitLines | Nexus/src/main.py:93 | no line produced by splitting contains a line break |
| NexusTasks.SplitJoinRoundTrip | Nexus/src/main.py:93 | lines without breaks, joined by newlines, split back into the same lines when the last is not empty |
| NexusTasks.CrLfIsOneBreak | Nexus/src/main.py:93 | "\r\n" is a single break, while "\n\r" is two and leaves an empty line between |
| NexusTasks.CleanLines | Nexus/src/main.py:93 | cleaning keeps the number of lines and cleans each one in place |
| NexusTasks.NonBlank | Nexus/src/main.py:94 | the filter never adds lines and every line it keeps has a non-whitespace character |
| NexusTasks.NonBlankKeepsAll | Nexus/src/main.py:94 | when no line is blank the filter keeps all of them in order |
| NexusTasks.NonBlankDropsAll | Nexus/src/main.py:94 | when every line is blank the filter keeps none |
| NexusTasks.TaskLines | Nexus/src/main.py:93-94 | every line of a task left after cleaning and filtering has a non-whitespace character |
| NexusTasks.ParseTask | Nexus/src/main.py:92-104 | the task is empty exactly when no non-blank line remains; a "@stak" task exactly when the first remaining line starts with "@stak", with data the stripped rest of that line, then "\n" and the stripped remaining lines when there are any; otherwise a message of all remaining lines joined by "\n" |
| NexusTasks.StakDataNonEmpty | Nexus/src/main.py:98-103 | a stak task carries data exactly when some text follows "@stak", on its own line or on a later non-blank line |
| NexusTasks.TaskLinesOfJoin | Nexus/src/main.py:93-94 | clean, non-blank lines joined by newlines are exactly the lines the task reader recovers |
| NexusTasks.PlainMessage | Nexus/src/main.py:104 | a message of clean, non-blank lines not starting with "@stak" is returned whole as the message data |
| NexusTasks.BlankIsEmpty | Nexus/src/main.py:95-96 | text made only of whitespace lines is the empty task |
| NexusTasks.StakExample | Nexus/src/main.py:98-103 | "@stak hello\nworld" is a stak task with data "hello\nworld" |
| NexusTasks.LeadingSpaceIsMessage | Nexus/src/main.py:93-98 | a line " @stak x" keeps its leading space after cleaning, so it is a plain message |
| NexusTasks.ChooseDestination | Nexus/src/main.py:69-77 | an entry is chosen exactly when it is an object with a truthy "pid", and it is the entry stored under the key; a truthy non-object entry raises |
| NexusTasks.ZeroPidIsUnset | Nexus/src/main.py:74-76 | a pid of 0 counts as unset, and a missing key gives no destination |
| StakQueues.New | Nexus/src/queue.py:6-7 | a new queue is empty |
| StakQueues.Len | Nexus/src/queue.py:15-16 | the number of queued items; Push and Pop state how it changes |
| StakQueues.PeekAll | Nexus/src/queue.py:18-19 | the queued items, oldest first; Push, PushAllAppends and DrainIsPeekAll state what it shows |
| StakQueues.Push | Nexus/src/queue.py:9-10 | pushing adds one item at the back and keeps the others in order |
| StakQueues.Pop | Nexus/src/queue.py:12-13 | popping gives nothing and leaves the queue alone exactly when it is empty; otherwise it removes and returns the oldest item |
| StakQueues.Clear | Nexus/src/queue.py:21-22 | clearing leaves an empty queue |
| StakQueues.Drain | Nexus/src/queue.py:12-13 | popping until the queue is empty yields one item per queued item; DrainIsPeekAll and Fifo show it yields the items in the order pushed |
| StakQueues.PushAllAppends | Nexus/src/queue.py:9-10 | pushing a sequence appends it to the queued items in order |
| StakQueues.DrainIsPeekAll | Nexus/src/queue.py:12-19 | popping until empty yields exactly what `peek_all` shows |
| StakQueues.Fifo | Nexus/src/queue.py:9-19 | items come out in the order they went in, after those already queued |
| StakQueues.PushThenPop | Nexus/src/queue.py:9-13 | pushing onto a non-empty queue does not change which item pops next |
| JsonDaemon.FirstMissing | Nexus/src/json_daemon.py:126-128 | no key is reported exactly when all required keys from that position on are present; a reported key is missing and every required key before it is present |
| JsonDaemon.ValidateMessage | Nexus/src/json_daemon.py:122-135 | on whatever the file parsed to: an object gets the field checks; a number, boolean or null raises TypeError at the first `in`; a list or string is searched by membership or substring and is reported missing its first absent key, or raises AttributeError at `obj.get` when all five are in it; only an object can pass |
| JsonDaemon.ValidateFields | Nexus/src/json_daemon.py:126-135 | on an object, a message lacking a required key is rejected as "missing:" followed by the first such key in the order from, to, intent, payload, trace |
| JsonDaemon.NonObjectMessages | Nexus/src/json_daemon.py:126-128 | 42, true and null raise TypeError, which nothing around the call at line 308 catches; an empty list and the string "x" are reported as "missing:from" |
| JsonDaemon.ListOfNamesRaises | Nexus/src/json_daemon.py:126-129 | a list holding all five key names passes the key loop and raises AttributeError at `obj.get` |
| JsonDaemon.AllPresent | Nexus/src/json_daemon.py:126-128 | when every required key is present no key is reported missing |
| JsonDaemon.ValidateSpec | Nexus/src/json_daemon.py:122-135 | validation passes exactly for messages with all keys, intent "chat", a string payload.text and a string trace.id; a wrong intent is reported with its value, then a bad payload as "payload.text", then a bad trace as "trace.id" |
| JsonDaemon.EmptyMessageMissesFrom | Nexus/src/json_daemon.py:126-128 | an empty message is reported as "missing:from" |
| JsonDaemon.NullIntent | Nexus/src/json_daemon.py:129-130 | a null intent is reported as "intent:None", as Python prints it |
| JsonDaemon.BomDispatch | Nexus/src/json_daemon.py:65-83 | without a BOM the bytes are decoded whole, strictly as UTF-8 when they are valid UTF-8 and as cp932 only when they are not |
| JsonDaemon.BomDispatchSplits | Nexus/src/json_daemon.py:71-78 | the decoder is given the file minus exactly the BOM it recognised, and each BOM selects its decoding if and only if the file starts with it |
| JsonDaemon.Utf32LeReadAsUtf16 | Nexus/src/json_daemon.py:75-76 | a UTF-32-LE BOM is taken for a UTF-16-LE BOM followed by two zero bytes |
| JsonDaemon.ArchiveName | Nexus/src/json_daemon.py:145 | the archive name starts with the stem, a dash and the time stamp and ends with the suffix; it has no extra part exactly when the note is empty |
| JsonDaemon.ArchiveNameNote | Nexus/src/json_daemon.py:145 | a non-empty note can be read back from the name, after a dash between the time stamp and the suffix |
| JsonDaemon.ArchiveNameInjective | Nexus/src/json_daemon.py:145 | different notes give different archive names |
| JsonDaemon.SetField | Nexus/src/json_daemon.py:116 | setting a key binds it to the new value, leaves every other key's value alone and adds no other key |
| JsonDaemon.SetPid | Nexus/src/json_daemon.py:116 | setting a pid fails exactly when the key already holds something other than a dict |
| JsonDaemon.MergeLeavesOthers | Nexus/src/json_daemon.py:111-116 | an address that was not detected with a pid comes out of the merge unchanged |
| JsonDaemon.MergeSetsPid | Nexus/src/json_daemon.py:114-116 | every detected entry gets exactly the detected pid, its other fields untouched, and a new entry holds only the pid |
| JsonDaemon.MergePids | Nexus/src/json_daemon.py:111-118 | with auto-detection off the addresses are returned as loaded; MergeSetsPid, MergeLeavesOthers and MergeFails state the merge |
| JsonDaemon.MergeFails | Nexus/src/json_daemon.py:114-116 | the merge fails exactly when some detected key already holds something other than a dict |
| JsonDaemon.NoPidNoChange | Nexus/src/json_daemon.py:115 | a detection that is not a dict with a "pid" changes nothing |
| Ipv6Options.DocAddress | scripts/generate_kairo_pcap.py:28-29 | the source and destination are 16-byte addresses in the 2001:db8 documentation prefix ending in 1 and 2 |
| Ipv6Options.Ipv6Header | scripts/generate_kairo_pcap.py:22-30 | the packed IPv6 header is 40 bytes |
| Ipv6Options.VersionWordBytes | scripts/generate_kairo_pcap.py:24 | the first word `6 << 28` is the bytes 60 00 00 00: version 6, traffic class and flow label zero |
| Ipv6Options.DestOpts | scripts/generate_kairo_pcap.py:17-19 | the destination options header is four bytes of header and option header followed by the option data and any padding |
| Ipv6Options.ReadOption | scripts/generate_kairo_pcap.py:17-31 | a reader following RFC 8200 returns an option only from a packet whose payload length and Hdr Ext Len both agree with its size |
| Ipv6Options.Padding | scripts/pcap_sample_template.py:21 | Pad1 or PadN padding of the requested length is padding the reader accepts |
| Ipv6Options.PacketHeader | scripts/generate_kairo_pcap.py:21-31 | every generated packet's header reads back as version 6, next header 60, hop limit 64, the two documentation addresses and a payload length equal to the options' length |
| Ipv6Options.ReadOptionOf | scripts/generate_kairo_pcap.py:17-19 | a single-option header whose Hdr Ext Len counts its 8-octet units minus one reads back as the KAIRO option and its data |
| Ipv6Options.KairoOptionData | scripts/generate_kairo_pcap.py:17 | the option data is 84 bytes: a 16-byte uuid, the 4-byte sequence number and two 32-byte digests |
| Ipv6Options.KairoDataRoundTrip | scripts/generate_kairo_pcap.py:17 | the option data decodes back into the uuid, sequence number and digests it was built from |
| Ipv6Options.BuildPacket | scripts/generate_kairo_pcap.py:11-31 | a packet is built exactly when the sequence number fits in 32 bits, and it is 128 bytes |
| Ipv6Options.BuildPacketReadsBack | scripts/generate_kairo_pcap.py:17-31 | the built packet has 88 bytes of options, which is its payload length and (10 + 1) * 8, and a reader gets the KAIRO option and its fields back |
| Ipv6Options.SamplePacket | scripts/generate_kairo_pcap.py:11-31 | a sample packet exists exactly for 32-bit sequence numbers; it reads back as the given uuid, the number and the digests of "packet{n}" and "signature{n}" |
| Ipv6Options.TestPacket | scripts/generate_test_pcaps.py:15-35 | a test vector exists exactly for 32-bit sequence numbers and is 128 bytes; TestPacketLayout states its fields |
| Ipv6Options.TestPacketLayout | scripts/generate_test_pcaps.py:15-35 | a test vector is a 128-byte packet whose option reads back as the name-derived uuid of "test-{n}", the number and the digests of "payload{n}" and "sig{n}" |
| Ipv6Options.TemplatePacketAsWritten | scripts/pcap_sample_template.py:15-33 | as written, the template's Hdr Ext Len is the option data's length plus 2 in bytes, and the packet is 44 bytes plus the data with nothing padding it |
| Ipv6Options.TemplateLengthsDisagree | scripts/pcap_sample_template.py:21 | no template packet has the header length RFC 8200 asks for, so a conforming reader finds no option in it |
| Ipv6Options.TemplateExample | scripts/pcap_sample_template.py:18-21 | for sequence number 1 and a 16-byte uuid the data is 25 bytes and Hdr Ext Len is 27, announcing 224 bytes where 29 are sent |
| Ipv6Options.PadFor | scripts/pcap_sample_template.py:21 | the padding needed is under 8 bytes and brings the header to a multiple of 8 |
| Ipv6Options.TemplatePacket | scripts/pcap_sample_template.py:15-33 | the corrected template packet exists exactly when the data fits in an option, has the lengths RFC 8200 asks for and reads back as the KAIRO option with the template data |
| PcapFile.GlobalHeader | scripts/generate_kairo_pcap.py:41 | the pcap global header is 24 bytes |
| PcapFile.RecordHeader | scripts/generate_kairo_pcap.py:44 | each record header is 16 bytes |
| PcapFile.RecordWrites | scripts/generate_kairo_pcap.py:43-45 | the record loop writes one header and one packet per packet |
| PcapFile.Writes | scripts/generate_kairo_pcap.py:40-45 | the file is written exactly when every time stamp and length fits in 32 bits, as the global header followed by two writes per packet |
| PcapFile.Stamped | scripts/generate_kairo_pcap.py:43-44 | packet i of the file is stamped one second per position after the start time |
| PcapFile.RecordHeaderReadsBack | scripts/generate_kairo_pcap.py:44 | a record header reads back as its time stamp, zero microseconds and the packet length twice |
| PcapFile.ReadOneRecord | scripts/generate_kairo_pcap.py:44-45 | a record header with its packet in front of more records reads as that capture, then the rest |
| PcapFile.RecordsRoundTrip | scripts/generate_kairo_pcap.py:43-45 | reading back the records gives every packet with its time stamp, in order |
| PcapFile.FileRoundTrip | scripts/generate_kairo_pcap.py:40-45 | what the generators write reads back, after the global header, as the packets stamped one second apart from the start time |
| PcapFile.SampleMain | scripts/generate_kairo_pcap.py:34-45 | the sample file is written exactly when the three time stamps fit in 32 bits, as seven writes |
| PcapFile.TestMain | scripts/generate_test_pcaps.py:38-53 | with READ_ONLY=1 nothing is written; otherwise seven writes, exactly when the time stamps fit in 32 bits |
| PcapFile.TemplateMain | scripts/pcap_sample_template.py:36-50 | with READ_ONLY=1 nothing is written; otherwise the global header and one record, exactly when the time stamp fits in 32 bits, whose packet is the as-written template packet: Hdr Ext Len 27 over 29 bytes sent, so a reader following RFC 8200 finds no option in it |
| PcapFile.TemplateMainCorrected | scripts/pcap_sample_template.py:36-50 | the same main writing the corrected template packet: written exactly when the time stamp fits in 32 bits, with the lengths RFC 8200 asks for and the template data read back as the KAIRO option |
| LogValidation.UuidTextAccepted | scripts/validate_logs.py:9 | the canonical lower-case 8-4-4-4-12 text of any 16-byte UUID passes the UUID pattern |
| LogValidation.IsUuid | scripts/validate_logs.py:9 | the full-match UUID pattern: 36 characters, hex digits with dashes at positions 8, 13, 18 and 23; UuidTextAccepted shows canonical UUID text passes |
| LogValidation.IsHash | scripts/validate_logs.py:11 | the full-match hash pattern: 64 hex digits; HashIsHexOf32Bytes shows it accepts exactly hex of 32 bytes |
| LogValidation.IsTimestamp | scripts/validate_logs.py:10 | the full-match timestamp pattern; TimestampTextAccepted, OffsetRejected, OutOfRangeAccepted and SpaceSeparatorRejected state what it accepts |
| LogValidation.HashIsHexOf32Bytes | scripts/validate_logs.py:11 | the hash pattern accepts exactly the texts that hex-decode to 32 bytes |
| LogValidation.Padded | scripts/validate_logs.py:10 | a zero-padded number has exactly the requested width and only digits |
| LogValidation.DateText | scripts/validate_logs.py:10 | a written date is ten characters: digits with dashes at positions 4 and 7 |
| LogValidation.ClockText | scripts/validate_logs.py:10 | a written time of day is eight characters: digits with colons at positions 2 and 5 |
| LogValidation.TimestampTextAccepted | scripts/validate_logs.py:10 | every timestamp written as date "T" time, with or without microseconds and a "Z", passes the timestamp pattern |
| LogValidation.OffsetRejected | scripts/validate_logs.py:10 | a timestamp ending in a UTC offset such as "+00:00" fails the pattern |
| LogValidation.OutOfRangeAccepted | scripts/validate_logs.py:10 | the pattern checks shape only: "9999-99-99T99:99:99" passes |
| LogValidation.SpaceSeparatorRejected | scripts/validate_logs.py:10 | a space instead of "T" between date and time fails the pattern |
| Json.PyIn | scripts/validate_logs.py:45 | the membership test raises exactly for a number, boolean or null; on an object it asks whether the key is a member, on a list whether the key's string is an item, on a string whether it is a substring |
| Json.FirstAbsent | scripts/validate_logs.py:44-47 | the key loop finds nothing absent exactly when every remaining key is `in` the value, reports the first key that is not with all earlier ones present, and raises exactly when the first test raises |
| LogValidation.CheckKeys | scripts/validate_logs.py:43-47 | on an object the key loop never raises, finds nothing missing exactly when all remaining expected keys are present, and otherwise names the first absent expected key, all earlier ones being present; it raises exactly when the value does not support `in` |
| LogValidation.FirstThree | scripts/validate_logs.py:50 | the slice is the first three keys, or all of them when there are fewer |
| LogValidation.Flag | scripts/validate_logs.py:50-62 | each check adds no error exactly when it passes, and otherwise one error naming its problem at that line |
| LogValidation.CheckValues | scripts/validate_logs.py:49-62 | each of the four checks (key order, uuid, timestamp, hash) adds its own error exactly when it fails, independently of the others; no other error appears, at most one per check, in the order the checks run, all at the line being checked |
| LogValidation.OrderIsExpected | scripts/validate_logs.py:49-50 | the key order check passes exactly when the first three members are uuid, timestamp and hash in that order |
| LogValidation.CheckValuesPass | scripts/validate_logs.py:49-62 | with all three keys present, no error is added exactly when the order is right and the three shown values match their patterns |
| LogValidation.CheckValuesEmpty | scripts/validate_logs.py:49-62 | with all three keys present, no error is added exactly when the object is well formed |
| LogValidation.ValidateLine | scripts/validate_logs.py:36-62 | invalid JSON adds one "invalid JSON" error; the run dies only on a parsed value that is not an object; an object adds at most four errors and a non-object at least one, all at this line |
| LogValidation.LineAcceptedIff | scripts/validate_logs.py:36-62 | a line adds no error exactly when it parses to an object whose first three members are uuid, timestamp and hash with values of the right shape |
| LogValidation.NonObjectsCrash | scripts/validate_logs.py:45-49 | a number, boolean or null line, or a list holding all three names, ends the run with an exception |
| LogValidation.MissingUuidReportedAlone | scripts/validate_logs.py:44-47 | an object without "uuid" is reported as missing "uuid" and nothing else |
| LogValidation.ValidateLines | scripts/validate_logs.py:75-79 | every error from a file is at one of its lines, numbered from 1, and that line is not blank |
| LogValidation.FirstUnmatched | scripts/validate_logs.py:25-33 | the run stops for an unmatched pattern exactly when some pattern matched nothing, and the pattern reported is the first that matched nothing |
| LogValidation.LinesPassIff | scripts/validate_logs.py:75-79 | a file's lines add no error exactly when every non-blank line, stripped, is well formed |
| LogValidation.ValidateFiles | scripts/validate_logs.py:70-79 | each path is reported missing or has its lines checked, in order; FilesPassIff states when no error results |
| LogValidation.FilesPassIff | scripts/validate_logs.py:70-79 | a list of paths adds no error exactly when every path is a regular file whose lines all pass |
| LogValidation.GroupsPassIff | scripts/validate_logs.py:67-79 | the expanded patterns add no error exactly when every file they expanded to passes |
| LogValidation.Run | scripts/validate_logs.py:65-87 | a pattern that matches nothing ends the run, a crash is an exception, otherwise the errors are collected; PassIff states when the exit status is 0 |
| LogValidation.PassIff | scripts/validate_logs.py:65-87 | the validator exits with 0 exactly when every pattern matched something, every path is a regular file and every non-blank line of every file is well formed |
| MeshConfig.DefaultPerms | scripts/generate_mesh_config.py:7-14 | a role has default permissions exactly when it is coord, relay or observer |
| MeshConfig.QuoteAll | scripts/generate_mesh_config.py:17 | every permission is quoted, in order |
| MeshConfig.BuildConfig | scripts/generate_mesh_config.py:13-19 | the generated file starts with the role line for the given role and ends with a newline |
| MeshConfig.ReadRole | scripts/generate_mesh_config.py:15 | a role read back contains no quote and is what the file's role line holds |
| MeshConfig.RoleRoundTrip | scripts/generate_mesh_config.py:13-19 | any role without a quote in it reads back from its generated file |
| MeshConfig.QuoteIsNotEscaped | scripts/generate_mesh_config.py:15 | a quote in the role is written unescaped and cuts the role short when read back |
| MeshConfig.CoordConfig | scripts/generate_mesh_config.py:8-19 | the coord file lists the permissions register and issue_ip |
| MeshConfig.RelayConfig | scripts/generate_mesh_config.py:9-19 | the relay file lists the permission forward |
| MeshConfig.ObserverConfig | scripts/generate_mesh_config.py:10-19 | the observer file lists the permission read |
| MeshConfig.OtherRoleConfig | scripts/generate_mesh_config.py:14-16 | any other role gets the role line and no permissions line |
| MeshConfig.Emit | scripts/generate_mesh_config.py:28-37 | the text is the generated config; it is written exactly when READ_ONLY is not 1, and printed otherwise; the path is pathlib's join of out_dir and "<role>.toml", ending in "<role>.toml" for a role without '/', after a '/' when out_dir names a directory |
| MeshConfig.JoinPath | scripts/generate_mesh_config.py:31 | pathlib's `/`: a rooted right side replaces the left, otherwise the components are appended |
| MeshConfig.AbsoluteRoleIgnoresOutDir | scripts/generate_mesh_config.py:31 | a role starting with '/' is written to the role's own path whatever out_dir is |
| MeshConfig.EmptyOutDir | scripts/generate_mesh_config.py:28-31 | an empty out_dir writes "<role>.toml" in the working directory, with no leading '/' |
| MeshConfig.PlainOutDir | scripts/generate_mesh_config.py:28-31 | a one-component out_dir and a plain role give "<out_dir>/<role>.toml" |
| DuplicateDeps.Capture | scripts/check_duplicate_deps.py:13-14 | a captured name or version is non-empty, contains no quote and sits between the prefix and the next quote at the start of the line |
| DuplicateDeps.CaptureUnique | scripts/check_duplicate_deps.py:13-14 | a line that starts with the prefix, a quote-free value and a quote captures that value, whatever follows |
| DuplicateDeps.NameOf | scripts/check_duplicate_deps.py:19-22 | the package name a stripped line gives; Capture and NameAndVersionDisjoint state its shape |
| DuplicateDeps.VersionOf | scripts/check_duplicate_deps.py:24-25 | the version a stripped line gives; Capture and NameAndVersionDisjoint state its shape |
| DuplicateDeps.NameAndVersionDisjoint | scripts/check_duplicate_deps.py:20-24 | no line both names a package and gives a version |
| DuplicateDeps.PendingStep | scripts/check_duplicate_deps.py:20-27 | after a line, a name is pending exactly when that line names it, or when the line is unmarked and the name was already pending |
| DuplicateDeps.AttributedStep | scripts/check_duplicate_deps.py:24-26 | a version is attributed to a name up to a line exactly when it was before, or that line gives the version while the name is pending |
| DuplicateDeps.Add | scripts/check_duplicate_deps.py:26 | recording a version adds it to the package's set, creating the package if needed, and leaves every other package alone |
| DuplicateDeps.Step | scripts/check_duplicate_deps.py:19-27 | the loop body on one line; StepTracks, PendingStep and AttributedStep state its effect |
| DuplicateDeps.StepTracks | scripts/check_duplicate_deps.py:18-27 | one pass of the loop body keeps the pending name and the recorded versions in step with the line-by-line description |
| DuplicateDeps.CollectVersions | scripts/check_duplicate_deps.py:12-27 | the scan records version v for package n exactly when some version line gives v while n is the pending name, and no package is recorded with no version |
| DuplicateDeps.TwoElements | scripts/check_duplicate_deps.py:29 | a set has more than one element exactly when it holds two different ones |
| DuplicateDeps.DuplicateVersions | scripts/check_duplicate_deps.py:29 | a package is reported exactly when two different versions are attributed to it, and it is reported with all its attributed versions |

## Left out

- Network, HTTP and process plumbing: the warp, axum and reqwest wiring, the listeners, the GPT responder, and the Nexus stdin loop. Each handler is modelled after its request is decoded.
- File and JSON persistence: registries, agent configs and maps are taken as already read and parsed. Writing files is modelled only as the sequence of byte chunks written.
- Mutexes, `Lazy` statics and tokio tasks: each table is a value changed by one operation at a time.
- Cryptography and hashing (Ed25519, SHA-256, CRC-32, `DefaultHasher`, uuid v4 and v5) are parameters. The thin wrappers over them are not part of this model: clear-mini/src/ise/mod.rs, rust-core/src/signature.rs, src/kairo-daemon/p_signature_validator.rs.
- Hex parsing of keys is modelled; the key and signature byte checks of `ed25519_dalek` are parameters.
- Floating point: rates, scores, thresholds and similarities are `real`. `sqrt` is a parameter, constrained by `TrustCalculator.SqrtSound` where a lemma needs it.
- `NodeManager.get_peers` is `todo!()` in the source and is not modelled.
- The TTL session manager is not part of this model. Sessions are an opaque type parameter of `ConnectionManager`.
- IPv6 text (section 4 of RFC 5952) is a parameter of `IpAddresses.FormatIpText`. IP and socket-address parsing are parameters of `SendPath.ParseDestinationEndpoint`.
- Log messages, printed output and exact error wording are not modelled. Errors are datatypes naming what the message names.
- PacketParser.NextExpected: `last + 1` is modelled as wrapping modulo 2^64, as a release build does. A debug build panics at `u64::MAX` instead.
- AddressPool.RequestAddress: the `u8` counter is modelled as wrapping modulo 256, as a release build does. A debug build panics on the 256th request instead.
- KairoDaemon.VerifyPacketSignature: requires `NoPanic`, because the source `unwrap`s the hex decodes and panics rather than returning false.
- NexusCli.ReadMeshOrPk: counts characters where Rust's `len()` counts bytes. It therefore does not model the panic when a non-ASCII key is sliced inside a character.
- LogValidation.IsTimestamp: `\d` is modelled as an ASCII digit. Python's `\d` also matches other Unicode decimal digits.
- Json: objects are ordered member lists that are assumed to have unique names. Python keeps the last of duplicate names; lookups here find the first.
- LogValidation.Run: glob expansion and reading lines from a file are inputs, given as what each pattern expanded to.
- MeshConfig.Emit: the output directory is created even under READ_ONLY=1; directory creation is not modelled. Path normalisation follows POSIX pathlib except that a path starting with exactly two slashes, which pathlib keeps as "//", is read as rooted at "/".
- DuplicateDeps.DuplicateVersions: the report's printing, and the sorting of versions for printing, are left out.
- Random identifiers (uuid v4 task ids, random secrets) and the clock are parameters.
- src/mesh-node/main.rs is an incomplete fragment and is not part of this model.
- The `asnyc` typo at src/kairo_daemon/src/main.rs:33 and the `'''` lines around rust-core/src/packet_parser.rs are treated as the evidently intended Rust.
- Windows UI automation, OCR, clipboard and pid detection are not part of this model. Detected pids are an input to `JsonDaemon.MergePids`.
- Onboarding and test command-line tools, and stubs with no behaviour, are not part of this model.
- FlatBuffers accessors and compression are not part of this model. Packet fields are plain byte sequences.

## Findings

| source | as written | input that shows it | evidently intended | confidence | as-written member | corrected member |
|---|---|---|---|---|---|---|
| scripts/pcap_sample_template.py:21 | Hdr Ext Len is `len(option_data) + 2`, counted in bytes, and the header is not padded | sequence number 1 with a 16-byte uuid: 25 bytes of option data give Hdr Ext Len 27, which announces (27 + 1) * 8 = 224 bytes of header, but 29 bytes are sent | section 4.6 of RFC 8200: Hdr Ext Len is the header's length in 8-octet units minus one, with Pad1 or PadN padding to a multiple of 8 | not executed | Ipv6Options.TemplateLengthsDisagree | Ipv6Options.TemplatePacket |

=== FILE: address_pool.dfy ===
/**
 * The daemons' `AddressPool`: a `u8` counter starting at 1; each request answers
 * `10.0.0.<counter>` and then increments the counter, wrapping from 255 to 0 as a release
 * build does.
 */
module AddressPool {
  import opened Wrappers
  import opened Bytes
  import opened Text
  import opened Json

  const PREFIX: string := "10.0.0."

  datatype Pool = Pool(nextAddress: byte)

  /** `AddressPool { next_address: 1 }`. */
  const Fresh: Pool := Pool(1)

  /** The text of address `n`. */
  function AddressText(n: byte): string {
    PREFIX + Decimal(n)
  }

  /** One request: the current counter's address, and the counter incremented modulo 256. */
  function RequestAddress(p: Pool): (r: (Pool, string))
    ensures r.1 == AddressText(p.nextAddress)
    ensures r.0.nextAddress == (p.nextAddress + 1) % 256
  {
    (Pool(((p.nextAddress as int + 1) % 256) as byte), AddressText(p.nextAddress))
  }

  /** The addresses handed out by `k` successive requests, and the pool afterwards. */
  function Requests(p: Pool, k: nat): (r: (Pool, seq<string>))
    ensures |r.1| == k
    decreases k
  {
    if k == 0 then (p, [])
    else
      var (p1, a) := RequestAddress(p);
      var (p2, rest) := Requests(p1, k - 1);
      (p2, [a] + rest)
  }

  /** While the counter does not pass 255, request `i` answers counter + i and the counter advances by `k`. */
  lemma {:induction false} RequestsCount(p: Pool, k: nat)
    requires p.nextAddress + k <= 256
    ensures Requests(p, k).0.nextAddress == (p.nextAddress + k) % 256
    ensures forall i :: 0 <= i < k ==> Requests(p, k).1[i] == AddressText(p.nextAddress + i)
    decreases k
  {
    if k > 0 {
      var p1 := RequestAddress(p).0;
      var rest := Requests(p1, k - 1);
      assert Requests(p, k) == (rest.0, [AddressText(p.nextAddress)] + rest.1);
      if p.nextAddress < 255 {
        assert p1.nextAddress == p.nextAddress + 1;
        RequestsCount(p1, k - 1);
        forall i | 0 <= i < k
          ensures Requests(p, k).1[i] == AddressText(p.nextAddress + i)
        {
          if i > 0 {
            assert Requests(p, k).1[i] == rest.1[i - 1];
          }
        }
      } else {
        assert k == 1 && p1.nextAddress == 0;
      }
    }
  }

  /** From a fresh pool, the k-th request (1 <= k <= 255) answers `10.0.0.k`. */
  lemma KthRequest(k: nat)
    requires 1 <= k <= 255
    ensures Requests(Fresh, k).1[k - 1] == "10.0.0." + Decimal(k)
  {
    RequestsCount(Fresh, k);
  }

  /** The first 255 requests from a fresh pool answer pairwise distinct addresses. */
  lemma DistinctUpTo255(k: nat)
    requires k <= 255
    ensures forall i, j :: 0 <= i < j < k ==> Requests(Fresh, k).1[i] != Requests(Fresh, k).1[j]
  {
    RequestsCount(Fresh, k);
    forall i, j | 0 <= i < j < k
      ensures Requests(Fresh, k).1[i] != Requests(Fresh, k).1[j]
    {
      if Requests(Fresh, k).1[i] == Requests(Fresh, k).1[j] {
        PrefixedDecimalInjective(PREFIX, 1 + i, 1 + j);
      }
    }
  }

  /** The request after the 255th answers `10.0.0.0`, because the `u8` counter has wrapped. */
  lemma CounterWraps(k: nat)
    requires k == 255
    ensures Requests(Fresh, k).0.nextAddress == 0
    ensures RequestAddress(Requests(Fresh, k).0).1 == "10.0.0.0"
  {
    RequestsCount(Fresh, k);
    assert Decimal(0) == "0";
  }

  /** The reply of src/kairo-daemon/kairo_p_daemon.rs: `{"p_address": addr}`. */
  function ObjectReply(addr: string): (j: Json)
    ensures Get(j, "p_address") == Some(Str(addr))
    ensures j.Obj? && |j.fields| == 1
  {
    Obj([("p_address", Str(addr))])
  }

  /** The reply of bin/daemon/kairo_p_daemon.rs and the agent daemon: the bare JSON string. */
  function BareReply(addr: string): (j: Json)
    ensures j.Str? && j.s == addr
    ensures !Has(j, "p_address")
  {
    Str(addr)
  }

  /** The two reply shapes carry the same address but are never the same JSON value. */
  lemma RepliesDiffer(addr: string)
    ensures ObjectReply(addr) != BareReply(addr)
    ensures Get(ObjectReply(addr), "p_address") == Some(BareReply(addr))
  {
  }
}

=== FILE: agent_config.dfy ===
/** Agent configuration: `generate`, the `"p_address:public_key"` signature, and structural validation. */
module AgentConfig {
  import opened Wrappers
  import opened Bytes
  import opened Text
  import opened Crypto

  /** Keys and the signature are hex text; the signature covers `"p_address:public_key"`. */
  datatype AgentConfig = AgentConfig(pAddress: string, publicKey: string, secretKey: string, signature: string)

  /**
   * `AgentConfig::generate` given the 32 random bytes the OS RNG would supply: an empty
   * p_address and signature, and both keys hex-encoded.
   */
  function Generate(ed: Ed25519, secretKeyBytes: Bytes): (c: AgentConfig)
    ensures c.pAddress == "" && c.signature == ""
    ensures HexDecode(c.publicKey) == Some(ed.publicOf(secretKeyBytes))
    ensures HexDecode(c.secretKey) == Some(secretKeyBytes)
  {
    HexRoundTrip(ed.publicOf(secretKeyBytes));
    HexRoundTrip(secretKeyBytes);
    AgentConfig("", HexEncode(ed.publicOf(secretKeyBytes)), HexEncode(secretKeyBytes), "")
  }

  /** The signed message `format!("{}:{}", p_address, public_key)` as bytes. */
  function SignedMessage(pAddress: string, publicKey: string): Bytes {
    Utf8(pAddress + ":" + publicKey)
  }

  /** `create_signature`: signs the message and hex-encodes the 64 signature bytes. */
  function CreateSignature(ed: Ed25519, pAddress: string, publicKey: string, secretKey: Bytes): (s: string)
    ensures HexDecode(s) == Some(ed.sign(secretKey, SignedMessage(pAddress, publicKey)))
  {
    HexRoundTrip(ed.sign(secretKey, SignedMessage(pAddress, publicKey)));
    HexEncode(ed.sign(secretKey, SignedMessage(pAddress, publicKey)))
  }

  /** `verify_signature`: any hex, key or signature decode failure is false. */
  function VerifySignature(ed: Ed25519, c: AgentConfig): (ok: bool)
    ensures ok ==> HexDecode(c.publicKey).Some? && HexDecode(c.signature).Some?
    ensures ok ==> |HexDecode(c.signature).value| == 64 && ed.keyOk(HexDecode(c.publicKey).value)
    ensures ok <==> var pk := HexDecode(c.publicKey);
                    var sig := HexDecode(c.signature);
                    && pk.Some? && sig.Some? && ed.keyOk(pk.value) && SignatureParses(sig.value)
                    && ed.verify(pk.value, SignedMessage(c.pAddress, c.publicKey), sig.value)
  {
    match (HexDecode(c.publicKey), HexDecode(c.signature))
    case (Some(pk), Some(sig)) =>
      ed.keyOk(pk) && SignatureParses(sig) && ed.verify(pk, SignedMessage(c.pAddress, c.publicKey), sig)
    case _ => false
  }

  /** A config signed with the secret key matching its public key verifies. */
  lemma SignThenVerify(ed: Ed25519, secretKey: Bytes, pAddress: string, secretKeyText: string)
    requires Sound(ed)
    ensures var pk := HexEncode(ed.publicOf(secretKey));
      VerifySignature(ed, AgentConfig(pAddress, pk, secretKeyText, CreateSignature(ed, pAddress, pk, secretKey)))
  {
    HexRoundTrip(ed.publicOf(secretKey));
  }

  /**
   * With a parseable key and a 64-byte signature written as hex, the verdict is exactly
   * ed25519's check over `"p_address:public_key"`: a forged signature is rejected.
   */
  lemma VerdictIsSignatureCheck(ed: Ed25519, c: AgentConfig, pk: Bytes, sig: Bytes)
    requires HexDecode(c.publicKey) == Some(pk) && ed.keyOk(pk)
    requires c.signature == HexEncode(sig) && |sig| == 64
    ensures VerifySignature(ed, c) <==> ed.verify(pk, SignedMessage(c.pAddress, c.publicKey), sig)
  {
    HexRoundTrip(sig);
  }

  /** A signature that is not hex, or not 64 bytes, never verifies. */
  lemma MalformedSignatureRejected(ed: Ed25519, c: AgentConfig)
    requires HexDecode(c.signature).None? || |HexDecode(c.signature).value| != 64
    ensures !VerifySignature(ed, c)
  {
  }

  datatype ConfigError = MissingSubnet | BadPublicKey | BadSecretKey

  predicate IsAsciiHexDigit(c: char) {
    '0' <= c <= '9' || 'a' <= c <= 'f' || 'A' <= c <= 'F'
  }

  /** `s.len() == 64 && s.chars().all(|c| c.is_ascii_hexdigit())`; `len` counts UTF-8 bytes. */
  predicate IsHexKeyText(s: string) {
    |Utf8(s)| == 64 && forall i :: 0 <= i < |s| ==> IsAsciiHexDigit(s[i])
  }

  /** Because hex digits are ASCII, the byte-length test is a character-count test. */
  lemma HexKeyTextIsSixtyFourDigits(s: string)
    ensures IsHexKeyText(s) <==> |s| == 64 && forall i :: 0 <= i < |s| ==> IsAsciiHexDigit(s[i])
  {
    if forall i :: 0 <= i < |s| ==> IsAsciiHexDigit(s[i]) {
      AsciiUtf8(s);
    }
  }

  /** `validate_agent_config`: p_address must contain '/', then both keys must be 64 hex digits. */
  function ValidateAgentConfig(c: AgentConfig): (r: Outcome<ConfigError>)
    ensures r.Pass? <==> HasChar(c.pAddress, '/') && IsHexKeyText(c.publicKey) && IsHexKeyText(c.secretKey)
    ensures !HasChar(c.pAddress, '/') ==> r == Fail(MissingSubnet)
    ensures HasChar(c.pAddress, '/') && !IsHexKeyText(c.publicKey) ==> r == Fail(BadPublicKey)
  {
    if !HasChar(c.pAddress, '/') then Fail(MissingSubnet)
    else if !IsHexKeyText(c.publicKey) then Fail(BadPublicKey)
    else if !IsHexKeyText(c.secretKey) then Fail(BadSecretKey)
    else Pass
  }

  /** A freshly generated config has no p_address yet, so it fails validation at the first check. */
  lemma GeneratedFailsValidation(ed: Ed25519, secretKeyBytes: Bytes)
    ensures ValidateAgentConfig(Generate(ed, secretKeyBytes)) == Fail(MissingSubnet)
  {
  }

  /** The keys `generate` writes have the shape validation asks for, and filling in a p_address with a subnet passes. */
  lemma GeneratedKeysWellFormed(ed: Ed25519, secretKeyBytes: Bytes, pAddress: string)
    requires Sound(ed) && |secretKeyBytes| == 32
    requires HasChar(pAddress, '/')
    ensures ValidateAgentConfig(Generate(ed, secretKeyBytes).(pAddress := pAddress)) == Pass
  {
    var c := Generate(ed, secretKeyBytes);
    HexEncodeIsLowerHex(ed.publicOf(secretKeyBytes));
    HexEncodeIsLowerHex(secretKeyBytes);
    HexKeyTextIsSixtyFourDigits(c.publicKey);
    HexKeyTextIsSixtyFourDigits(c.secretKey);
  }

  lemma HexEncodeIsLowerHex(b: Bytes)
    ensures forall i :: 0 <= i < |HexEncode(b)| ==> IsAsciiHexDigit(HexEncode(b)[i])
  {
  }
}

=== FILE: bytes.dfy ===
/** Bytes, fixed-width integer encodings and the `hex` crate's encoding. */
module Bytes {
  import opened Wrappers

  type byte = b: int | 0 <= b < 0x100
  type Bytes = seq<byte>

  const U16_LIMIT: nat := 0x1_0000
  const U32_LIMIT: nat := 0x1_0000_0000
  const U64_LIMIT: nat := 0x1_0000_0000_0000_0000

  /** Unsigned machine integers of the source languages. */
  type u16 = n: nat | n < 0x1_0000
  type u32 = n: nat | n < 0x1_0000_0000
  type u64 = n: nat | n < 0x1_0000_0000_0000_0000
  type i32 = n: int | -0x8000_0000 <= n < 0x8000_0000

  /** `n` zero bytes, as `[0; n]`. */
  function Zeros(n: nat): (r: Bytes)
    ensures |r| == n && forall i :: 0 <= i < n ==> r[i] == 0
  {
    seq(n, _ => 0)
  }

  /** 256 to the power n: the number of values an n-byte field can hold. */
  function Pow256(n: nat): (r: nat)
    ensures r > 0
  {
    if n == 0 then 1 else 256 * Pow256(n - 1)
  }

  lemma Pow256Values()
    ensures Pow256(2) == U16_LIMIT && Pow256(4) == U32_LIMIT && Pow256(8) == U64_LIMIT
  {
    assert Pow256(1) == 256;
  }

  /** The value of a byte string read least significant byte first (`from_le_bytes`). */
  function FromLE(s: Bytes): nat
  {
    if |s| == 0 then 0 else s[0] + 256 * FromLE(s[1..])
  }

  /** The value of a byte string read most significant byte first (`from_be_bytes`). */
  function FromBE(s: Bytes): nat
  {
    if |s| == 0 then 0 else FromBE(s[..|s| - 1]) * 256 + s[|s| - 1]
  }

  /** The `width` low-order bytes of `n`, least significant first (`to_le_bytes`). */
  function ToLE(n: nat, width: nat): (r: Bytes)
    ensures |r| == width
  {
    if width == 0 then [] else [n % 256] + ToLE(n / 256, width - 1)
  }

  /** The `width` low-order bytes of `n`, most significant first (`to_be_bytes`, `struct.pack("!…")`). */
  function ToBE(n: nat, width: nat): (r: Bytes)
    ensures |r| == width
  {
    if width == 0 then [] else ToBE(n / 256, width - 1) + [n % 256]
  }

  lemma {:induction false} FromLEBound(s: Bytes)
    ensures FromLE(s) < Pow256(|s|)
  {
    if |s| > 0 {
      FromLEBound(s[1..]);
    }
  }

  lemma {:induction false} FromBEBound(s: Bytes)
    ensures FromBE(s) < Pow256(|s|)
  {
    if |s| > 0 {
      FromBEBound(s[..|s| - 1]);
    }
  }

  /** Encoding a value that fits and decoding it again gives the value back (little-endian). */
  lemma {:induction false} LERoundTrip(n: nat, width: nat)
    requires n < Pow256(width)
    ensures FromLE(ToLE(n, width)) == n
  {
    if width > 0 {
      LERoundTrip(n / 256, width - 1);
      assert ToLE(n, width)[1..] == ToLE(n / 256, width - 1);
    }
  }

  /** Encoding a value that fits and decoding it again gives the value back (big-endian). */
  lemma {:induction false} BERoundTrip(n: nat, width: nat)
    requires n < Pow256(width)
    ensures FromBE(ToBE(n, width)) == n
  {
    if width > 0 {
      BERoundTrip(n / 256, width - 1);
      var r := ToBE(n, width);
      assert r[..|r| - 1] == ToBE(n / 256, width - 1);
    }
  }

  /** Decoding loses nothing: a byte string is the encoding of its own value. */
  lemma {:induction false} LEOfValue(s: Bytes)
    ensures ToLE(FromLE(s), |s|) == s
  {
    if |s| > 0 {
      LEOfValue(s[1..]);
      assert FromLE(s) / 256 == FromLE(s[1..]);
    }
  }

  lemma {:induction false} BEOfValue(s: Bytes)
    ensures ToBE(FromBE(s), |s|) == s
  {
    if |s| > 0 {
      BEOfValue(s[..|s| - 1]);
      assert FromBE(s) / 256 == FromBE(s[..|s| - 1]);
    }
  }

  /** Two byte strings of one width with the same value are equal. */
  lemma LEInjective(a: Bytes, b: Bytes)
    requires |a| == |b| && FromLE(a) == FromLE(b)
    ensures a == b
  {
    LEOfValue(a);
    LEOfValue(b);
  }

  // ---------------------------------------------------------------------------
  // Hexadecimal text, as the `hex` crate reads and writes it.
  // ---------------------------------------------------------------------------

  predicate IsHexChar(c: char) {
    '0' <= c <= '9' || 'a' <= c <= 'f' || 'A' <= c <= 'F'
  }

  /** The value of one hexadecimal digit, either case. */
  function HexValue(c: char): (r: Option<nat>)
    ensures r.Some? <==> IsHexChar(c)
    ensures r.Some? ==> r.value < 16
  {
    if '0' <= c <= '9' then Some(c as nat - '0' as nat)
    else if 'a' <= c <= 'f' then Some(c as nat - 'a' as nat + 10)
    else if 'A' <= c <= 'F' then Some(c as nat - 'A' as nat + 10)
    else None
  }

  /** The lower-case digit for a value below 16 (`hex::encode` writes lower case). */
  function HexDigit(v: nat): (c: char)
    requires v < 16
    ensures IsHexChar(c) && HexValue(c) == Some(v)
  {
    if v < 10 then ('0' as nat + v) as char else ('a' as nat + v - 10) as char
  }

  /** `hex::encode`: two lower-case digits per byte, high nibble first. */
  function HexEncode(b: Bytes): (s: string)
    ensures |s| == 2 * |b|
    ensures forall i :: 0 <= i < |s| ==> IsHexChar(s[i])
  {
    if |b| == 0 then [] else [HexDigit(b[0] / 16), HexDigit(b[0] % 16)] + HexEncode(b[1..])
  }

  /** `hex::decode`: fails on odd length or on any character that is not a hex digit. */
  function HexDecode(s: string): (r: Option<Bytes>)
    ensures r.Some? ==> |s| == 2 * |r.value|
  {
    if |s| == 0 then Some([])
    else if |s| == 1 then None
    else
      match (HexValue(s[0]), HexValue(s[1]), HexDecode(s[2..]))
      case (Some(hi), Some(lo), Some(rest)) => Some([hi * 16 + lo] + rest)
      case _ => None
  }

  /** `hex::decode` accepts exactly the even-length strings of hex digits. */
  lemma {:induction false} HexDecodeAccepts(s: string)
    ensures HexDecode(s).Some? <==> |s| % 2 == 0 && forall i :: 0 <= i < |s| ==> IsHexChar(s[i])
  {
    if |s| >= 2 {
      HexDecodeAccepts(s[2..]);
      assert forall i :: 2 <= i < |s| ==> s[i] == s[2..][i - 2];
    }
  }

  /** Decoding what `hex::encode` wrote gives back the original bytes. */
  lemma {:induction false} HexRoundTrip(b: Bytes)
    ensures HexDecode(HexEncode(b)) == Some(b)
  {
    if |b| > 0 {
      HexRoundTrip(b[1..]);
      var s := HexEncode(b);
      assert s[2..] == HexEncode(b[1..]);
      assert b == [b[0]] + b[1..];
    }
  }

  lemma HexEncodeInjective(a: Bytes, b: Bytes)
    requires HexEncode(a) == HexEncode(b)
    ensures a == b
  {
    HexRoundTrip(a);
    HexRoundTrip(b);
  }
}

=== FILE: clear_mini.dfy ===
/**
 * The witness ring of clear-mini: a bounded FIFO of fixed-size records. The ring is generic
 * here; clear-mini stores `WitnessRecord`s in it.
 */
module Witness {
  import opened Bytes

  /** `WitnessRecord`; `mono` and `utc` are `u128` clock readings. */
  datatype WitnessRecord = WitnessRecord(
    mono: nat, utc: nat, src: i32, dst: i32, len: u32, hash32: u32, flags: u32, port: u16,
    ip: Bytes, pad: Bytes)

  /** `WitnessRecord::default`: every field zero, `ip` 16 zero bytes and `pad` 48. */
  function DefaultRecord(): (r: WitnessRecord)
    ensures r.mono == 0 && r.utc == 0 && r.src == 0 && r.dst == 0
    ensures r.len == 0 && r.hash32 == 0 && r.flags == 0 && r.port == 0
    ensures |r.ip| == 16 && forall i :: 0 <= i < 16 ==> r.ip[i] == 0
    ensures |r.pad| == 48 && forall i :: 0 <= i < 48 ==> r.pad[i] == 0
  {
    WitnessRecord(0, 0, 0, 0, 0, 0, 0, 0, Zeros(16), Zeros(48))
  }

  /** `Ring`: the capacity and the records, oldest first. */
  datatype Ring<T> = Ring(cap: nat, buf: seq<T>)

  function New<T>(capacity: nat): (r: Ring<T>)
    ensures r.cap == capacity && |Snapshot(r)| == 0
  {
    Ring(capacity, [])
  }

  /** `pop_front`, which leaves an empty deque alone. */
  function PopFront<T>(s: seq<T>): seq<T> {
    if |s| == 0 then s else s[1..]
  }

  /** `push`: drops the oldest record when the length equals the capacity, then appends. */
  function Push<T>(r: Ring<T>, x: T): (r': Ring<T>)
    ensures r'.cap == r.cap && |r'.buf| > 0 && r'.buf[|r'.buf| - 1] == x
  {
    Ring(r.cap, (if |r.buf| == r.cap then PopFront(r.buf) else r.buf) + [x])
  }

  /** `snapshot`: the records oldest to newest. */
  function Snapshot<T>(r: Ring<T>): seq<T> {
    r.buf
  }

  /** Pushes each element in turn. */
  function PushAll<T>(r: Ring<T>, xs: seq<T>): (r': Ring<T>)
    ensures r'.cap == r.cap
    decreases |xs|
  {
    if |xs| == 0 then r else PushAll(Push(r, xs[0]), xs[1..])
  }

  /** The last `n` elements of `s` (all of `s` when it is shorter). */
  function Last<T>(n: nat, s: seq<T>): (r: seq<T>)
    ensures |r| == if |s| <= n then |s| else n
    ensures forall i :: 0 <= i < |r| ==> r[i] == s[|s| - |r| + i]
  {
    if |s| <= n then s else s[|s| - n..]
  }

  /** A ring within its capacity. */
  predicate Bounded<T>(r: Ring<T>) {
    |r.buf| <= r.cap
  }

  /** With capacity at least 1, one push keeps the last `cap` of the records followed by the new one. */
  lemma PushKeepsNewest<T>(r: Ring<T>, x: T)
    requires r.cap >= 1 && Bounded(r)
    ensures Snapshot(Push(r, x)) == Last(r.cap, Snapshot(r) + [x])
    ensures Bounded(Push(r, x))
    ensures |Snapshot(r)| < r.cap ==> Snapshot(Push(r, x)) == Snapshot(r) + [x]
    ensures |Snapshot(r)| == r.cap ==> Snapshot(Push(r, x)) == Snapshot(r)[1..] + [x]
  {
    if |r.buf| == r.cap {
      assert r.buf[1..] + [x] == (r.buf + [x])[1..];
    }
  }

  /** Keeping the last `n` twice is keeping them once. */
  lemma LastOfLast<T>(n: nat, u: seq<T>, t: seq<T>)
    ensures Last(n, Last(n, u) + t) == Last(n, u + t)
  {
    if |u| > n {
      var v := u + t;
      assert Last(n, u) + t == v[|u| - n..];
      assert |v[|u| - n..]| >= n;
      assert Last(n, v[|u| - n..]) == v[|v| - n..];
    }
  }

  lemma SplitHead<T>(u: seq<T>, xs: seq<T>)
    requires |xs| > 0
    ensures u + [xs[0]] + xs[1..] == u + xs
  {
    assert [xs[0]] + xs[1..] == xs;
  }

  /** With capacity at least 1, any run of pushes leaves exactly the newest `cap` records, in order. */
  lemma {:induction false} PushAllKeepsNewest<T>(r: Ring<T>, xs: seq<T>)
    requires r.cap >= 1 && Bounded(r)
    ensures Snapshot(PushAll(r, xs)) == Last(r.cap, Snapshot(r) + xs)
    ensures Bounded(PushAll(r, xs))
    decreases |xs|
  {
    if |xs| == 0 {
      assert Snapshot(r) + xs == Snapshot(r);
    } else {
      var r1 := Push(r, xs[0]);
      PushKeepsNewest(r, xs[0]);
      PushAllKeepsNewest(r1, xs[1..]);
      LastOfLast(r.cap, r.buf + [xs[0]], xs[1..]);
      SplitHead(r.buf, xs);
    }
  }

  /** From a new ring of capacity at least 1, the snapshot is the newest `min(cap, n)` pushes and ends with the last. */
  lemma FromEmpty<T>(cap: nat, xs: seq<T>)
    requires cap >= 1 && |xs| > 0
    ensures Snapshot(PushAll(New(cap), xs)) == Last(cap, xs)
    ensures |Snapshot(PushAll(New(cap), xs))| <= cap
    ensures Snapshot(PushAll(New(cap), xs))[|Snapshot(PushAll(New(cap), xs))| - 1] == xs[|xs| - 1]
  {
    PushAllKeepsNewest(New<T>(cap), xs);
    assert Snapshot(New<T>(cap)) + xs == xs;
    var snap := Snapshot(PushAll(New<T>(cap), xs));
    assert snap == Last(cap, xs);
    assert |snap| > 0 && snap[|snap| - 1] == xs[|xs| - |snap| + (|snap| - 1)];
  }

  /** With capacity 0 the length never equals the capacity after the first push, so nothing is ever evicted. */
  lemma {:induction false} ZeroCapacityGrows<T>(r: Ring<T>, xs: seq<T>)
    requires r.cap == 0
    ensures Snapshot(PushAll(r, xs)) == Snapshot(r) + xs
    decreases |xs|
  {
    if |xs| == 0 {
      assert Snapshot(r) + xs == Snapshot(r);
    } else {
      ZeroCapacityGrows(Push(r, xs[0]), xs[1..]);
      SplitHead(r.buf, xs);
    }
  }
}

/** The `PAddressRecord` of clear-mini: an `i32` id and a 60-byte, zero-padded UTF-8 nickname. */
module KairoP {
  import opened Bytes
  import opened Text

  const NICKNAME_LEN: nat := 60

  datatype PAddressRecord = PAddressRecord(id: i32, nickname: Bytes)

  /** `PAddressRecord::default`: id 0 and 60 zero bytes. */
  function Default(): (r: PAddressRecord)
    ensures r.id == 0 && |r.nickname| == NICKNAME_LEN
    ensures forall i :: 0 <= i < NICKNAME_LEN ==> r.nickname[i] == 0
  {
    PAddressRecord(0, Zeros(NICKNAME_LEN))
  }

  /** How many leading characters of `s` are copied into `room` bytes: copying stops at the first that does not fit. */
  function FitCount(s: string, room: nat): (k: nat)
    ensures k <= |s|
    decreases |s|
  {
    if |s| == 0 || |Utf8Char(s[0])| > room then 0
    else 1 + FitCount(s[1..], room - |Utf8Char(s[0])|)
  }

  /** The copied characters fit, and one more would not: no character is ever split. */
  lemma {:induction false} FitCountIsLongestFit(s: string, room: nat)
    ensures |Utf8(s[..FitCount(s, room)])| <= room
    ensures FitCount(s, room) < |s| ==> |Utf8(s[..FitCount(s, room) + 1])| > room
    decreases |s|
  {
    var k := FitCount(s, room);
    if |s| == 0 {
    } else if |Utf8Char(s[0])| > room {
      assert s[..0] == [];
      assert s[..1][1..] == [];
    } else {
      var e := Utf8Char(s[0]);
      FitCountIsLongestFit(s[1..], room - |e|);
      assert s[..k][1..] == s[1..][..k - 1];
      if k < |s| {
        assert s[..k + 1][1..] == s[1..][..k];
      }
    }
  }

  /** The copied bytes are a prefix of the nickname's UTF-8 encoding. */
  lemma FitIsUtf8Prefix(s: string, k: nat)
    requires k <= |s|
    ensures Utf8(s[..k]) <= Utf8(s)
  {
    assert s[..k] + s[k..] == s;
    Utf8OfPart(s[..k], s[k..], s);
  }

  lemma Utf8OfPart(a: string, b: string, s: string)
    requires a + b == s
    ensures Utf8(a) <= Utf8(s)
  {
    Utf8Append(a, b);
    PrefixOfConcat(Utf8(a), Utf8(b));
  }

  lemma PrefixOfConcat<T>(x: seq<T>, y: seq<T>)
    ensures x <= x + y
  {
    assert (x + y)[..|x|] == x;
  }

  /** An ASCII nickname of at most `room` characters is copied whole. */
  lemma {:induction false} AsciiFits(s: string, room: nat)
    requires IsAscii(s) && |s| <= room
    ensures FitCount(s, room) == |s|
    decreases |s|
  {
    if |s| > 0 {
      assert IsAscii(s[1..]);
      AsciiFits(s[1..], room - 1);
    }
  }

  /** Copying from character `i` on: one more character when it fits, none when it does not. */
  lemma FitCountFrom(s: string, i: nat, room: nat)
    requires i <= |s|
    ensures i < |s| && |Utf8Char(s[i])| <= room ==>
      FitCount(s[i..], room) == 1 + FitCount(s[i + 1..], room - |Utf8Char(s[i])|)
    ensures i == |s| || |Utf8Char(s[i])| > room ==> FitCount(s[i..], room) == 0
  {
    if i < |s| {
      assert s[i..][0] == s[i];
      assert s[i..][1..] == s[i + 1..];
    } else {
      assert s[i..] == [];
    }
  }

  /** Writing `e` over the zeros right after `u` gives `u + e` followed by the remaining zeros. */
  lemma WriteOverZeros(u: Bytes, e: Bytes, n: nat)
    requires |u| + |e| <= n
    ensures var buf := u + Zeros(n - |u|);
      buf[..|u|] + e + buf[|u| + |e|..] == u + e + Zeros(n - |u| - |e|)
  {
    var buf := u + Zeros(n - |u|);
    assert buf[..|u|] == u;
    var rest := buf[|u| + |e|..];
    assert |rest| == n - |u| - |e|;
    assert forall j :: 0 <= j < |rest| ==> rest[j] == 0;
  }

  /** One pass of the copy loop: the next character's encoding is written over the zeros after the copied ones. */
  lemma CopyStep(done: string, c: char, buf: Bytes, used: nat, enc: Bytes)
    requires used == |Utf8(done)| && enc == Utf8Char(c) && used + |enc| <= NICKNAME_LEN
    requires buf == Utf8(done) + Zeros(NICKNAME_LEN - used)
    ensures used + |enc| == |Utf8(done + [c])|
    ensures buf[..used] + enc + buf[used + |enc|..] == Utf8(done + [c]) + Zeros(NICKNAME_LEN - (used + |enc|))
  {
    Utf8Append(done, [c]);
    assert Utf8([c]) == enc + Utf8([]);
    WriteOverZeros(Utf8(done), enc, NICKNAME_LEN);
  }

  lemma TakeOneMore<T>(s: seq<T>, i: nat)
    requires i < |s|
    ensures s[..i] + [s[i]] == s[..i + 1]
  {
  }

  /** The 60 stored bytes: the characters that fit, whole, then zeros. */
  function Stored(s: string): (b: Bytes)
    ensures |b| == NICKNAME_LEN
  {
    FitCountIsLongestFit(s, NICKNAME_LEN);
    var u := Utf8(s[..FitCount(s, NICKNAME_LEN)]);
    u + Zeros(NICKNAME_LEN - |u|)
  }

  /**
   * `PAddressRecord::new`. The loop copies whole characters while they fit; the source's
   * `break` is the second half of the loop condition.
   */
  method New(id: i32, nickname: string) returns (r: PAddressRecord)
    ensures r.id == id && |r.nickname| == NICKNAME_LEN
    ensures r.nickname == Stored(nickname)
  {
    var buf := Zeros(NICKNAME_LEN);
    var used := 0;
    var i := 0;
    ghost var done: string := [];
    while i < |nickname| && used + |Utf8Char(nickname[i])| <= NICKNAME_LEN
      invariant 0 <= i <= |nickname| && done == nickname[..i]
      invariant used == |Utf8(done)| <= NICKNAME_LEN
      invariant buf == Utf8(done) + Zeros(NICKNAME_LEN - used)
      invariant FitCount(nickname, NICKNAME_LEN) == i + FitCount(nickname[i..], NICKNAME_LEN - used)
      decreases |nickname| - i
    {
      var enc := Utf8Char(nickname[i]);
      FitCountFrom(nickname, i, NICKNAME_LEN - used);
      CopyStep(done, nickname[i], buf, used, enc);
      TakeOneMore(nickname, i);
      buf := buf[..used] + enc + buf[used + |enc|..];
      used := used + |enc|;
      done := done + [nickname[i]];
      i := i + 1;
    }
    FitCountFrom(nickname, i, NICKNAME_LEN - used);
    assert FitCount(nickname, NICKNAME_LEN) == i;
    r := PAddressRecord(id, buf);
  }

  /** The stored bytes begin with a prefix of the UTF-8 encoding, end in zeros, and hold a short ASCII nickname whole. */
  lemma StoredLayout(s: string)
    ensures var used := |Utf8(s[..FitCount(s, NICKNAME_LEN)])|;
      && used <= NICKNAME_LEN
      && Stored(s)[..used] <= Utf8(s)
      && forall i :: used <= i < NICKNAME_LEN ==> Stored(s)[i] == 0
    ensures IsAscii(s) && |s| <= NICKNAME_LEN ==> Stored(s)[..|s|] == Utf8(s)
  {
    var k := FitCount(s, NICKNAME_LEN);
    FitCountIsLongestFit(s, NICKNAME_LEN);
    FitIsUtf8Prefix(s, k);
    if IsAscii(s) && |s| <= NICKNAME_LEN {
      AsciiFits(s, NICKNAME_LEN);
      AsciiUtf8(s);
      assert s[..k] == s;
    }
  }
}

/** `ClearMini`: the ring of 4096 witness records and `record`. */
module ClearMiniApi {
  import opened Bytes
  import opened Witness
  import opened KairoP

  const CAPACITY: nat := 4096

  datatype ClearMini = ClearMini(ring: Ring<WitnessRecord>)

  /** `ClearMini::new`: an empty ring of capacity 4096 (the clock initialisation is left out). */
  function NewClearMini(): (c: ClearMini)
    ensures c.ring.cap == CAPACITY && Snapshot(c.ring) == []
  {
    ClearMini(Witness.New(CAPACITY))
  }

  /**
   * `record`: pushes one record built from the two endpoints' ids, the fields given and the CRC-32
   * of the 16 ip bytes; the clocks are the readings `mono` and `utc`.
   */
  function Record(c: ClearMini, crc32: Bytes -> u32, mono: nat, utc: nat, src: PAddressRecord,
                  dst: PAddressRecord, len: u32, flags: u32, ip: Bytes, port: u16): (r: ClearMini)
    requires |ip| == 16
    ensures r.ring.cap == c.ring.cap
    ensures var s := Snapshot(r.ring);
      && |s| > 0
      && s[|s| - 1] == DefaultRecord().(mono := mono, utc := utc, src := src.id, dst := dst.id, len := len,
                                        hash32 := crc32(ip), flags := flags, port := port, ip := ip)
  {
    var rec := DefaultRecord().(mono := mono, utc := utc, src := src.id, dst := dst.id, len := len,
                                hash32 := crc32(ip), flags := flags, port := port, ip := ip);
    ClearMini(Push(c.ring, rec))
  }

  /** Each `record` pushes exactly one record: the earlier ones are kept, less the oldest when the ring is full. */
  lemma RecordPushesOne(c: ClearMini, crc32: Bytes -> u32, mono: nat, utc: nat, src: PAddressRecord,
                        dst: PAddressRecord, len: u32, flags: u32, ip: Bytes, port: u16)
    requires |ip| == 16 && c.ring.cap == CAPACITY && Bounded(c.ring)
    ensures var s := Snapshot(Record(c, crc32, mono, utc, src, dst, len, flags, ip, port).ring);
      && |s| <= CAPACITY
      && (|Snapshot(c.ring)| < CAPACITY ==> s[..|s| - 1] == Snapshot(c.ring))
      && (|Snapshot(c.ring)| == CAPACITY ==> s[..|s| - 1] == Snapshot(c.ring)[1..])
  {
    var r := Record(c, crc32, mono, utc, src, dst, len, flags, ip, port);
    PushKeepsNewest(c.ring, Snapshot(r.ring)[|Snapshot(r.ring)| - 1]);
  }

  /** The record's padding is all zero and its hash depends on the ip bytes alone. */
  lemma RecordHashesIpOnly(c: ClearMini, crc32: Bytes -> u32, mono: nat, utc: nat, src: PAddressRecord,
                           dst: PAddressRecord, len: u32, flags: u32, ip: Bytes, port: u16,
                           c': ClearMini, mono': nat, utc': nat, src': PAddressRecord,
                           dst': PAddressRecord, len': u32, flags': u32, port': u16)
    requires |ip| == 16
    ensures var s := Snapshot(Record(c, crc32, mono, utc, src, dst, len, flags, ip, port).ring);
            var s' := Snapshot(Record(c', crc32, mono', utc', src', dst', len', flags', ip, port').ring);
      && s[|s| - 1].hash32 == s'[|s'| - 1].hash32
      && s[|s| - 1].pad == Zeros(48)
  {
  }
}

/** The burst detector's sliding window. Instants are integers (nanoseconds); `now` is a parameter. */
module Detector {
  import opened Bytes

  const SECOND: nat := 1_000_000_000

  /** `Window`: the window length and, per key, the retained hit instants, oldest first. */
  datatype Window = Window(win: nat, hits: map<u64, seq<int>>)

  function New(seconds: u64): (w: Window)
    ensures w.win == seconds * SECOND && w.hits == map[]
  {
    Window(seconds * SECOND, map[])
  }

  /** `Instant::duration_since`, which saturates at zero for a later instant. */
  function Since(now: int, t: int): (d: nat)
    ensures t <= now ==> d == now - t
  {
    if t <= now then now - t else 0
  }

  /** The queue of `key`, empty when the key has never been hit. */
  function Queue(w: Window, key: u64): seq<int> {
    if key in w.hits then w.hits[key] else []
  }

  /** The `while let` loop: pops from the front while the front is older than the window. */
  function Prune(q: seq<int>, now: int, win: nat): (r: seq<int>)
    ensures |r| <= |q| && r == q[|q| - |r|..]
    ensures |r| > 0 ==> Since(now, r[0]) <= win
    ensures |q| > 0 && Since(now, q[|q| - 1]) <= win ==> |r| > 0
    decreases |q|
  {
    if |q| > 0 && Since(now, q[0]) > win then Prune(q[1..], now, win) else q
  }

  /** `hit`: records `now` for `key`, prunes that key's queue and returns its length. */
  function Hit(w: Window, key: u64, now: int): (r: (Window, nat))
    ensures r.1 >= 1
    ensures r.0.win == w.win && key in r.0.hits && |r.0.hits[key]| == r.1
    ensures r.0.hits[key][r.1 - 1] == now
    ensures forall k :: k != key ==> (k in r.0.hits <==> k in w.hits) && Queue(r.0, k) == Queue(w, k)
  {
    var q := Prune(Queue(w, key) + [now], now, w.win);
    (w.(hits := w.hits[key := q]), |q|)
  }

  predicate Sorted(q: seq<int>) {
    forall i, j :: 0 <= i < j < |q| ==> q[i] <= q[j]
  }

  predicate AllAtMost(q: seq<int>, now: int) {
    forall i :: 0 <= i < |q| ==> q[i] <= now
  }

  /** The instants of `q` at most `win` before `now`, the boundary included: what the window should count. */
  function Within(q: seq<int>, now: int, win: nat): (r: seq<int>)
    ensures |r| <= |q|
    decreases |q|
  {
    if |q| == 0 then []
    else (if Since(now, q[0]) <= win then [q[0]] else []) + Within(q[1..], now, win)
  }

  lemma {:induction false} WithinAppend(a: seq<int>, b: seq<int>, now: int, win: nat)
    ensures Within(a + b, now, win) == Within(a, now, win) + Within(b, now, win)
    decreases |a|
  {
    if |a| == 0 {
      assert a + b == b;
    } else {
      assert (a + b)[1..] == a[1..] + b;
      WithinAppend(a[1..], b, now, win);
    }
  }

  /** Every element kept is an element of the input, and within the window. */
  lemma {:induction false} WithinElements(q: seq<int>, now: int, win: nat)
    ensures forall t :: t in Within(q, now, win) ==> t in q && Since(now, t) <= win
    decreases |q|
  {
    if |q| > 0 {
      WithinElements(q[1..], now, win);
    }
  }

  /** A sorted queue stays sorted, and its front bounds everything after it. */
  lemma {:induction false} WithinSorted(q: seq<int>, now: int, win: nat)
    requires Sorted(q)
    ensures Sorted(Within(q, now, win))
    decreases |q|
  {
    if |q| > 0 {
      WithinSorted(q[1..], now, win);
      WithinElements(q[1..], now, win);
      var rest := Within(q[1..], now, win);
      forall j | 0 <= j < |rest|
        ensures q[0] <= rest[j]
      {
        assert rest[j] in rest;
        var m :| 0 <= m < |q[1..]| && q[1..][m] == rest[j];
        assert q[0] <= q[m + 1];
      }
    }
  }

  /** A sorted queue whose front is in the window lies wholly in the window. */
  lemma {:induction false} FrontInWindow(q: seq<int>, now: int, win: nat)
    requires Sorted(q) && AllAtMost(q, now) && |q| > 0 && Since(now, q[0]) <= win
    ensures Within(q, now, win) == q
    decreases |q|
  {
    var t := q[1..];
    assert Within(q, now, win) == [q[0]] + Within(t, now, win);
    if |q| > 1 {
      assert Sorted(t) && AllAtMost(t, now) by {
        assert forall i :: 0 <= i < |t| ==> t[i] == q[i + 1];
      }
      assert q[0] <= t[0] <= now;
      FrontInWindow(t, now, win);
      assert [q[0]] + t == q;
    } else {
      assert t == [];
    }
  }

  /** Front pruning equals the window filter on a queue of past instants in order. */
  lemma {:induction false} PruneIsWithin(q: seq<int>, now: int, win: nat)
    requires Sorted(q) && AllAtMost(q, now)
    ensures Prune(q, now, win) == Within(q, now, win)
    decreases |q|
  {
    if |q| > 0 {
      if Since(now, q[0]) > win {
        PruneIsWithin(q[1..], now, win);
      } else {
        FrontInWindow(q, now, win);
      }
    }
  }

  /** A later `now` keeps a subset of what an earlier one kept. */
  lemma {:induction false} WithinWithin(q: seq<int>, a: int, b: int, win: nat)
    requires a <= b
    ensures Within(Within(q, a, win), b, win) == Within(q, b, win)
    decreases |q|
  {
    if |q| > 0 {
      var head := if Since(a, q[0]) <= win then [q[0]] else [];
      WithinAppend(head, Within(q[1..], a, win), b, win);
      WithinWithin(q[1..], a, b, win);
      if Since(a, q[0]) <= win {
        assert head[1..] == [];
      }
    }
  }

  /**
   * The queue of `key` holds exactly the instants of `history` in the window ending at `now`.
   * `history` is every instant at which `key` was hit, oldest first.
   */
  predicate Tracks(w: Window, key: u64, history: seq<int>, now: int) {
    Queue(w, key) == Within(history, now, w.win)
  }

  /**
   * With non-decreasing time, a hit counts exactly the hits on its key within the window, the
   * boundary included, and every retained instant is within the window.
   */
  lemma HitCountsWindow(w: Window, key: u64, history: seq<int>, prev: int, now: int)
    requires Sorted(history) && AllAtMost(history, prev) && prev <= now
    requires Tracks(w, key, history, prev)
    ensures Tracks(Hit(w, key, now).0, key, history + [now], now)
    ensures Hit(w, key, now).1 == |Within(history + [now], now, w.win)|
    ensures forall t :: t in Queue(Hit(w, key, now).0, key) ==> now - t <= w.win
  {
    WindowStep(history, prev, now, w.win);
    WithinElements(history + [now], now, w.win);
  }

  /** One step of the window: pruning the tracked queue plus `now` tracks the history plus `now`. */
  lemma WindowStep(history: seq<int>, prev: int, now: int, win: nat)
    requires Sorted(history) && AllAtMost(history, prev) && prev <= now
    ensures Prune(Within(history, prev, win) + [now], now, win) == Within(history + [now], now, win)
  {
    var q := Within(history, prev, win);
    QueueStaysOrdered(history, prev, now, win);
    PruneIsWithin(q + [now], now, win);
    WithinAppend(q, [now], now, win);
    WithinWithin(history, prev, now, win);
    WithinAppend(history, [now], now, win);
  }

  /** The tracked queue with `now` appended is in order and in the past of `now`. */
  lemma QueueStaysOrdered(history: seq<int>, prev: int, now: int, win: nat)
    requires Sorted(history) && AllAtMost(history, prev) && prev <= now
    ensures Sorted(Within(history, prev, win) + [now]) && AllAtMost(Within(history, prev, win) + [now], now)
  {
    var q := Within(history, prev, win);
    WithinSorted(history, prev, win);
    WithinElements(history, prev, win);
    forall i | 0 <= i < |q|
      ensures q[i] <= now
    {
      assert q[i] in q;
    }
  }

  /** A new window tracks the empty history of every key. */
  lemma NewTracksNothing(seconds: u64, key: u64, now: int)
    ensures Tracks(New(seconds), key, [], now)
  {
  }

  /** Out-of-order instants defeat front pruning: a stale instant behind a fresh one is still counted. */
  lemma OutOfOrderOvercounts()
    ensures Prune([5, 0], 5, 1) == [5, 0]
    ensures Within([5, 0], 5, 1) == [5]
  {
  }
}

=== FILE: coordination.dfy ===
/**
 * The coordination server's node table: each registration gets the lowest free suffix s >= 1,
 * printed as `100.64.(s / 256).(s % 256)`.
 */
module NodeManager {
  import opened Wrappers
  import opened Bytes
  import opened Text

  const MAX_SUFFIX: nat := 0xFFFF

  /** `id` is the simple-form UUID the manager draws; here it is supplied by the caller. */
  datatype Node = Node(id: string, publicKey: Bytes, virtualIp: string)

  type Nodes = map<string, Node>

  /** The dotted text of two decimals. */
  function DottedPair(a: nat, b: nat): string {
    Decimal(a) + "." + Decimal(b)
  }

  /** The address of suffix `s`: its high byte is the third octet and its low byte the fourth. */
  function IpOf(s: u16): (ip: string)
    ensures ip == "100.64." + DottedPair(s / 256, s % 256)
    ensures s / 256 < 256 && s % 256 < 256
  {
    "100.64." + DottedPair(s / 256, s % 256)
  }

  /** Distinct suffixes print as distinct addresses. */
  lemma IpOfInjective(s: u16, t: u16)
    requires IpOf(s) == IpOf(t)
    ensures s == t
  {
    var p := "100.64.";
    assert DottedPair(s / 256, s % 256) == IpOf(s)[|p|..] == IpOf(t)[|p|..] == DottedPair(t / 256, t % 256);
    DottedPairInjective(s / 256, s % 256, t / 256, t % 256);
  }

  /** `nodes.values().any(|n| n.virtual_ip == ip)`. */
  predicate IpInUse(nodes: Nodes, ip: string) {
    exists id :: id in nodes && nodes[id].virtualIp == ip
  }

  /** The allocation loop from suffix `s` on: the first suffix whose address is free, none after 65535. */
  function FirstFree(nodes: Nodes, s: u16): (r: Option<u16>)
    requires 1 <= s
    ensures r.Some? ==> s <= r.value && !IpInUse(nodes, IpOf(r.value))
    ensures r.Some? ==> forall t: u16 :: s <= t < r.value ==> IpInUse(nodes, IpOf(t))
    ensures r.None? <==> forall t: u16 :: s <= t ==> IpInUse(nodes, IpOf(t))
    decreases MAX_SUFFIX - s
  {
    if !IpInUse(nodes, IpOf(s)) then Some(s)
    else if s == MAX_SUFFIX then None
    else FirstFree(nodes, s + 1)
  }

  /**
   * `register_node`: stores a node with the given key under `id` at the lowest free suffix
   * counted from 1, or returns None and changes nothing when suffixes 1..65535 are all taken.
   */
  function RegisterNode(nodes: Nodes, id: string, publicKey: Bytes): (r: (Nodes, Option<Node>))
    ensures r.1.None? <==> forall t: u16 :: 1 <= t ==> IpInUse(nodes, IpOf(t))
    ensures r.1.None? ==> r.0 == nodes
    ensures r.1.Some? ==> r.1.value.id == id && r.1.value.publicKey == publicKey
    ensures r.1.Some? ==> r.0 == nodes[id := r.1.value] && !IpInUse(nodes, r.1.value.virtualIp)
    ensures r.1.Some? ==> exists s: u16 :: (1 <= s && r.1.value.virtualIp == IpOf(s)
                                            && forall t: u16 :: 1 <= t < s ==> IpInUse(nodes, IpOf(t)))
  {
    match FirstFree(nodes, 1)
    case None => (nodes, None)
    case Some(s) =>
      var node := Node(id, publicKey, IpOf(s));
      assert 1 <= s && node.virtualIp == IpOf(s) && forall t: u16 :: 1 <= t < s ==> IpInUse(nodes, IpOf(t));
      (nodes[id := node], Some(node))
  }

  /** No two stored nodes share a virtual IP. */
  predicate UniqueIps(nodes: Nodes) {
    forall a, b :: a in nodes && b in nodes && a != b ==> nodes[a].virtualIp != nodes[b].virtualIp
  }

  /** Registration keeps virtual IPs unique. */
  lemma RegisterKeepsIpsUnique(nodes: Nodes, id: string, publicKey: Bytes)
    requires UniqueIps(nodes)
    ensures UniqueIps(RegisterNode(nodes, id, publicKey).0)
  {
    var r := RegisterNode(nodes, id, publicKey);
    if r.1.Some? {
      var n := r.0;
      forall a, b | a in n && b in n && a != b
        ensures n[a].virtualIp != n[b].virtualIp
      {
        if a == id {
          assert b in nodes && n[b] == nodes[b];
        } else if b == id {
          assert a in nodes && n[a] == nodes[a];
        }
      }
    }
  }

  lemma FirstTwoIps()
    ensures IpOf(1) == "100.64.0.1" && IpOf(2) == "100.64.0.2"
  {
    assert Decimal(0) == "0" && Decimal(1) == "1" && Decimal(2) == "2";
  }

  /** From an empty table, the first two registrations get 100.64.0.1 and 100.64.0.2. */
  lemma FirstTwoRegistrations(id1: string, id2: string, pk1: Bytes, pk2: Bytes)
    requires id1 != id2
    ensures RegisterNode(map[], id1, pk1).1 == Some(Node(id1, pk1, "100.64.0.1"))
    ensures RegisterNode(RegisterNode(map[], id1, pk1).0, id2, pk2).1 == Some(Node(id2, pk2, "100.64.0.2"))
  {
    FirstTwoIps();
    var nodes: Nodes := map[];
    assert FirstFree(nodes, 1) == Some(1);
    var n1 := map[id1 := Node(id1, pk1, IpOf(1))];
    assert RegisterNode(nodes, id1, pk1).0 == n1;
    assert id1 in n1 && n1[id1].virtualIp == IpOf(1);
    assert !IpInUse(n1, IpOf(2));
    assert FirstFree(n1, 2) == Some(2);
  }
}

/**
 * The AI-TCP coordination node's peer table: a new peer gets `100.64.0.(len + 1)`, the count
 * truncated to `u8`, whatever addresses are still held.
 */
module CoordinationNode {
  import opened Bytes

  datatype Ipv4 = Ipv4(a: byte, b: byte, c: byte, d: byte)

  /** `uuid` is the v4 UUID the node draws; here it is supplied by the caller. */
  datatype Peer = Peer(uuid: string, meshIp: Ipv4, publicKey: string)

  datatype CoordinationNode = CoordinationNode(nodeId: string, peers: map<string, Peer>)

  /** `add_peer`: the new peer's address is 100.64.0.((count + 1) mod 256), and it is stored under its uuid. */
  function AddPeer(n: CoordinationNode, uuid: string, publicKey: string): (r: (CoordinationNode, Peer))
    ensures r.1 == Peer(uuid, Ipv4(100, 64, 0, (|n.peers| + 1) % 256), publicKey)
    ensures r.0.nodeId == n.nodeId && uuid in r.0.peers && r.0.peers[uuid] == r.1
    ensures forall u :: u != uuid ==> (u in r.0.peers <==> u in n.peers)
    ensures forall u :: u != uuid && u in n.peers ==> r.0.peers[u] == n.peers[u]
    ensures uuid !in n.peers ==> |r.0.peers| == |n.peers| + 1
  {
    var peer := Peer(uuid, Ipv4(100, 64, 0, ((|n.peers| + 1) % 256) as byte), publicKey);
    (n.(peers := n.peers[uuid := peer]), peer)
  }

  /** `remove_peer`: true iff the uuid was present, and then it is gone; otherwise nothing changes. */
  function RemovePeer(n: CoordinationNode, uuid: string): (r: (CoordinationNode, bool))
    ensures r.1 <==> uuid in n.peers
    ensures uuid !in r.0.peers && r.0.nodeId == n.nodeId
    ensures forall u :: u != uuid ==> (u in r.0.peers <==> u in n.peers)
    ensures forall u :: u != uuid && u in n.peers ==> r.0.peers[u] == n.peers[u]
    ensures !r.1 ==> r.0 == n
    ensures r.1 ==> |r.0.peers| == |n.peers| - 1
  {
    if uuid in n.peers then
      assert n.peers.Keys == (n.peers - {uuid}).Keys + {uuid};
      (n.(peers := n.peers - {uuid}), true)
    else (n, false)
  }

  /** `get_peers`. */
  function GetPeers(n: CoordinationNode): map<string, Peer> {
    n.peers
  }

  /** An added peer is listed under its uuid with its key. */
  lemma AddThenGet(n: CoordinationNode, uuid: string, publicKey: string)
    ensures uuid in GetPeers(AddPeer(n, uuid, publicKey).0)
    ensures GetPeers(AddPeer(n, uuid, publicKey).0)[uuid].publicKey == publicKey
  {
  }

  /** Without removals, the peers hold distinct fourth octets, all between 1 and the peer count. */
  predicate Dense(peers: map<string, Peer>) {
    && (forall u :: u in peers ==> 1 <= peers[u].meshIp.d <= |peers|)
    && (forall u, v :: u in peers && v in peers && u != v ==> peers[u].meshIp != peers[v].meshIp)
  }

  /** Adding a fresh peer to fewer than 255 keeps the table dense, so addresses stay distinct. */
  lemma AddKeepsDense(n: CoordinationNode, uuid: string, publicKey: string)
    requires Dense(n.peers) && uuid !in n.peers && |n.peers| < 255
    ensures Dense(AddPeer(n, uuid, publicKey).0.peers)
  {
    var p := AddPeer(n, uuid, publicKey).0.peers;
    forall u, v | u in p && v in p && u != v
      ensures p[u].meshIp != p[v].meshIp
    {
      if u == uuid {
        assert p[v] == n.peers[v];
      } else if v == uuid {
        assert p[u] == n.peers[u];
      }
    }
  }

  /**
   * A removal breaks the scheme: add A and B, remove A, add C, and C is given the address
   * B still holds.
   */
  lemma DuplicateAfterRemoval(nodeId: string, a: string, b: string, c: string, ka: string, kb: string, kc: string)
    requires a != b && b != c && a != c
    ensures var n0 := CoordinationNode(nodeId, map[]);
      var (n1, _) := AddPeer(n0, a, ka);
      var (n2, pb) := AddPeer(n1, b, kb);
      var (n3, _) := RemovePeer(n2, a);
      var (n4, pc) := AddPeer(n3, c, kc);
      b in n4.peers && pc.meshIp == pb.meshIp == n4.peers[b].meshIp
  {
    var n0 := CoordinationNode(nodeId, map[]);
    var n1 := AddPeer(n0, a, ka).0;
    var n2 := AddPeer(n1, b, kb).0;
    var n3 := RemovePeer(n2, a).0;
    assert n3.peers.Keys == {b};
  }

  /** The 256th peer gets fourth octet 0, because the count is truncated to `u8`. */
  lemma Peer256GetsZero(n: CoordinationNode, uuid: string, publicKey: string)
    requires |n.peers| == 255
    ensures AddPeer(n, uuid, publicKey).1.meshIp == Ipv4(100, 64, 0, 0)
  {
  }
}

/** The connection table: one opaque session value per connected `u32` id. */
module ConnectionManager {
  import opened Bytes

  /** `ttlNanos` is the session TTL, carried but not read by these operations. */
  datatype ConnectionManager<Session> = ConnectionManager(ttlNanos: nat, sessions: map<u32, Session>)

  function New<Session>(ttlNanos: nat): (m: ConnectionManager<Session>)
    ensures Count(m) == 0 && m.ttlNanos == ttlNanos
  {
    ConnectionManager(ttlNanos, map[])
  }

  function IsConnected<Session>(m: ConnectionManager<Session>, id: u32): bool {
    id in m.sessions
  }

  function Count<Session>(m: ConnectionManager<Session>): nat {
    |m.sessions|
  }

  /** `connect`: a new session (`session`) only if the id has none; an existing session is kept. */
  function Connect<Session>(m: ConnectionManager<Session>, id: u32, session: Session): (r: ConnectionManager<Session>)
    ensures IsConnected(r, id)
    ensures IsConnected(m, id) ==> r == m
    ensures !IsConnected(m, id) ==> Count(r) == Count(m) + 1
    ensures forall x :: x != id ==> IsConnected(r, x) == IsConnected(m, x)
    ensures forall x :: x != id && x in m.sessions ==> x in r.sessions && r.sessions[x] == m.sessions[x]
  {
    if id in m.sessions then m else m.(sessions := m.sessions[id := session])
  }

  /** `disconnect`: true iff the id was connected; afterwards it is not, and others are untouched. */
  function Disconnect<Session>(m: ConnectionManager<Session>, id: u32): (r: (ConnectionManager<Session>, bool))
    ensures r.1 == IsConnected(m, id)
    ensures !IsConnected(r.0, id)
    ensures Count(r.0) == if r.1 then Count(m) - 1 else Count(m)
    ensures forall x :: x != id ==> IsConnected(r.0, x) == IsConnected(m, x)
    ensures forall x :: x != id && x in m.sessions ==> x in r.0.sessions && r.0.sessions[x] == m.sessions[x]
  {
    if id in m.sessions then
      assert m.sessions.Keys == (m.sessions - {id}).Keys + {id};
      (m.(sessions := m.sessions - {id}), true)
    else (m, false)
  }

  /** Connecting twice is connecting once. */
  lemma ConnectIdempotent<Session>(m: ConnectionManager<Session>, id: u32, s1: Session, s2: Session)
    ensures Connect(Connect(m, id, s1), id, s2) == Connect(m, id, s1)
  {
  }

  /** Disconnect undoes a connect of a new id. */
  lemma DisconnectUndoesConnect<Session>(m: ConnectionManager<Session>, id: u32, s: Session)
    requires !IsConnected(m, id)
    ensures Disconnect(Connect(m, id, s), id) == (m, true)
  {
    assert m.sessions[id := s] - {id} == m.sessions;
  }

  /** Count is the number of distinct connected ids. */
  lemma CountIsConnectedIds<Session>(m: ConnectionManager<Session>)
    ensures Count(m) == |set x | x in m.sessions && IsConnected(m, x)|
  {
    assert (set x | x in m.sessions && IsConnected(m, x)) == m.sessions.Keys;
  }
}

/** The deny-list firewall over `u32` ids. */
module Firewall {
  import opened Bytes

  datatype Firewall = Firewall(denyRules: set<u32>)

  function New(): (f: Firewall)
    ensures forall id: u32 :: IsAllowed(f, id)
  {
    Firewall({})
  }

  function IsAllowed(f: Firewall, id: u32): bool {
    id !in f.denyRules
  }

  /** `deny`: the id is refused afterwards and every other id keeps its status. */
  function Deny(f: Firewall, id: u32): (r: Firewall)
    ensures !IsAllowed(r, id)
    ensures forall x: u32 :: x != id ==> IsAllowed(r, x) == IsAllowed(f, x)
  {
    Firewall(f.denyRules + {id})
  }

  /** `allow`: the id is allowed afterwards and every other id keeps its status. */
  function Allow(f: Firewall, id: u32): (r: Firewall)
    ensures IsAllowed(r, id)
    ensures forall x: u32 :: x != id ==> IsAllowed(r, x) == IsAllowed(f, x)
  {
    Firewall(f.denyRules - {id})
  }

  /** Denying twice is denying once; allowing an id that is not denied changes nothing. */
  lemma DenyIdempotentAllowNoOp(f: Firewall, id: u32)
    ensures Deny(Deny(f, id), id) == Deny(f, id)
    ensures IsAllowed(f, id) ==> Allow(f, id) == f
  {
    if IsAllowed(f, id) {
      assert f.denyRules - {id} == f.denyRules;
    }
  }

  /** Allowing an id just denied restores a firewall that had not denied it. */
  lemma AllowUndoesDeny(f: Firewall, id: u32)
    requires IsAllowed(f, id)
    ensures Allow(Deny(f, id), id) == f
  {
    assert f.denyRules + {id} - {id} == f.denyRules;
  }
}

=== FILE: crypto.dfy ===
/**
 * Cryptographic primitives the model treats as opaque: ed25519, digests and checksums.
 * A value of these types is one concrete implementation; lemmas that need a primitive to
 * behave like ed25519 require the corresponding soundness predicate.
 */
module Crypto {
  import opened Bytes

  /**
   * The ed25519-dalek operations the code uses, on raw byte strings:
   * `publicOf` derives the 32-byte verifying key of a secret key, `sign` signs a message,
   * `keyOk` says whether bytes parse as a `VerifyingKey`, and `verify` checks a signature.
   */
  datatype Ed25519 = Ed25519(
    publicOf: Bytes -> Bytes,
    sign: (Bytes, Bytes) -> Bytes,
    keyOk: Bytes -> bool,
    verify: (Bytes, Bytes, Bytes) -> bool)

  /**
   * What the model assumes of ed25519: signatures are 64 bytes, verifying keys are 32 bytes
   * and parse, and a signature made with a secret key verifies under its verifying key.
   */
  ghost predicate Sound(ed: Ed25519) {
    && (forall sk, m :: |ed.sign(sk, m)| == 64 && ed.verify(ed.publicOf(sk), m, ed.sign(sk, m)))
    && (forall sk :: |ed.publicOf(sk)| == 32 && ed.keyOk(ed.publicOf(sk)))
    && (forall k :: ed.keyOk(k) ==> |k| == 32)
  }

  /** `Signature::try_from(&[u8])`: exactly 64 bytes parse as a signature. */
  predicate SignatureParses(sig: Bytes) {
    |sig| == 64
  }

  /** A digest function whose outputs all have `width` bytes (SHA-256 has 32). */
  ghost predicate IsDigest(h: Bytes -> Bytes, width: nat) {
    forall m :: |h(m)| == width
  }
}

=== FILE: duplicate_deps.dfy ===
/** The duplicate-dependency report over the lines of a `Cargo.lock`. */
module DuplicateDeps {
  import opened Wrappers
  import opened Text

  const NAME_PREFIX := "name = \""
  const VERSION_PREFIX := "version = \""

  /** `^<prefix>([^"]+)"` matched at the start of `line`: the non-empty run before the next quote. */
  function Capture(line: string, prefix: string): (r: Option<string>)
    ensures r.Some? ==> |r.value| > 0 && !HasChar(r.value, '"') && StartsWith(line, prefix + r.value + "\"")
  {
    if !StartsWith(line, prefix) then None
    else
      var rest := line[|prefix|..];
      match FindChar(rest, '"')
      case None => None
      case Some(i) =>
        if i == 0 then None
        else
          assert rest[..i + 1] == rest[..i] + "\"";
          assert line[..|prefix| + i + 1] == prefix + rest[..i + 1];
          Some(rest[..i])
  }

  /** The capture is the only one the pattern allows: whatever the line goes on with. */
  lemma CaptureUnique(prefix: string, c: string, tail: string)
    requires |c| > 0 && !HasChar(c, '"')
    ensures Capture(prefix + c + "\"" + tail, prefix) == Some(c)
  {
    var line := prefix + c + "\"" + tail;
    assert line[..|prefix|] == prefix;
    var rest := line[|prefix|..];
    assert rest == c + "\"" + tail;
    assert rest[|c|] == '"';
    assert FindChar(rest, '"') == Some(|c|);
    assert rest[..|c|] == c;
  }

  function NameOf(line: string): Option<string> { Capture(PyStrip(line), NAME_PREFIX) }

  function VersionOf(line: string): Option<string> { Capture(PyStrip(line), VERSION_PREFIX) }

  /** A line names a package or gives a version, never both. */
  lemma NameAndVersionDisjoint(line: string)
    ensures !(NameOf(line).Some? && VersionOf(line).Some?)
  {
    assert NAME_PREFIX[0] != VERSION_PREFIX[0];
  }

  predicate Marked(line: string) { NameOf(line).Some? || VersionOf(line).Some? }

  /** Name `n` is waiting for its version before line `k`: the last marked line before `k` names `n`. */
  ghost predicate PendingAt(lines: seq<string>, k: nat, n: string)
    requires k <= |lines|
  {
    exists i :: 0 <= i < k && NameOf(lines[i]) == Some(n) && forall j :: i < j < k ==> !Marked(lines[j])
  }

  /** Version `v` is recorded for `n` by some line before `k`. */
  ghost predicate AttributedBefore(lines: seq<string>, k: nat, n: string, v: string)
    requires k <= |lines|
  {
    exists j :: 0 <= j < k && VersionOf(lines[j]) == Some(v) && PendingAt(lines, j, n)
  }

  ghost predicate Attributed(lines: seq<string>, n: string, v: string) {
    AttributedBefore(lines, |lines|, n, v)
  }

  /** A name pending after line `k` was either named by line `k` or pending before it, across an unmarked line. */
  lemma PendingAfter(lines: seq<string>, k: nat, n: string)
    requires k < |lines| && PendingAt(lines, k + 1, n)
    ensures NameOf(lines[k]) == Some(n) || (!Marked(lines[k]) && PendingAt(lines, k, n))
  {
    var i :| 0 <= i < k + 1 && NameOf(lines[i]) == Some(n) && forall j :: i < j < k + 1 ==> !Marked(lines[j]);
    if i < k {
      assert !Marked(lines[k]);
      assert forall j :: i < j < k ==> !Marked(lines[j]);
    }
  }

  /** Line `k` naming `n`, or an unmarked line `k` while `n` is pending, leaves `n` pending. */
  lemma PendingCarried(lines: seq<string>, k: nat, n: string)
    requires k < |lines|
    requires NameOf(lines[k]) == Some(n) || (!Marked(lines[k]) && PendingAt(lines, k, n))
    ensures PendingAt(lines, k + 1, n)
  {
    if NameOf(lines[k]) == Some(n) {
      assert 0 <= k < k + 1 && NameOf(lines[k]) == Some(n);
    } else {
      var i :| 0 <= i < k && NameOf(lines[i]) == Some(n) && forall j :: i < j < k ==> !Marked(lines[j]);
      forall j | i < j < k + 1
        ensures !Marked(lines[j])
      {
        if j == k {
          assert !Marked(lines[k]);
        }
      }
    }
  }

  /** How the pending name changes across line `k`. */
  lemma PendingStep(lines: seq<string>, k: nat, n: string)
    requires k < |lines|
    ensures PendingAt(lines, k + 1, n) <==>
      if NameOf(lines[k]).Some? then NameOf(lines[k]) == Some(n)
      else !Marked(lines[k]) && PendingAt(lines, k, n)
  {
    if PendingAt(lines, k + 1, n) {
      PendingAfter(lines, k, n);
    }
    if NameOf(lines[k]) == Some(n) || (!Marked(lines[k]) && PendingAt(lines, k, n)) {
      PendingCarried(lines, k, n);
    }
  }

  lemma AttributedStep(lines: seq<string>, k: nat, n: string, v: string)
    requires k < |lines|
    ensures AttributedBefore(lines, k + 1, n, v) <==>
      AttributedBefore(lines, k, n, v) || (VersionOf(lines[k]) == Some(v) && PendingAt(lines, k, n))
  {
  }

  /** `packages[name].add(ver)`. */
  function Add(packages: map<string, set<string>>, n: string, v: string): (r: map<string, set<string>>)
    ensures r.Keys == packages.Keys + {n}
    ensures r[n] == (if n in packages then packages[n] else {}) + {v}
    ensures forall m :: m in packages && m != n ==> r[m] == packages[m]
  {
    packages[n := (if n in packages then packages[n] else {}) + {v}]
  }

  /** Whether version `v` has been recorded for package `n`. */
  predicate Recorded(packages: map<string, set<string>>, n: string, v: string) {
    n in packages && v in packages[n]
  }

  /** What the scan carries from line to line: the name awaiting a version, and the versions so far. */
  datatype ScanState = ScanState(current: Option<string>, packages: map<string, set<string>>)

  /** The body of the scan loop for one line. */
  function Step(st: ScanState, line: string): ScanState {
    match NameOf(line)
    case Some(n) => st.(current := Some(n))
    case None =>
      match VersionOf(line)
      case Some(v) => if st.current.Some? then ScanState(None, Add(st.packages, st.current.value, v)) else st
      case None => st
  }

  /** The state after `k` lines agrees with the line-level description. */
  ghost predicate Tracks(lines: seq<string>, k: nat, st: ScanState)
    requires k <= |lines|
  {
    && (forall n :: PendingAt(lines, k, n) <==> st.current == Some(n))
    && (forall n, v :: Recorded(st.packages, n, v) <==> AttributedBefore(lines, k, n, v))
    && (forall n :: n in st.packages ==> st.packages[n] != {})
  }

  lemma StepTracksCurrent(lines: seq<string>, k: nat, st: ScanState)
    requires k < |lines| && Tracks(lines, k, st)
    ensures forall n :: PendingAt(lines, k + 1, n) <==> Step(st, lines[k]).current == Some(n)
  {
    NameAndVersionDisjoint(lines[k]);
    forall n ensures PendingAt(lines, k + 1, n) <==> Step(st, lines[k]).current == Some(n) {
      PendingStep(lines, k, n);
    }
  }

  /** A version line with a pending name adds exactly that pair. */
  lemma StepRecords(lines: seq<string>, k: nat, st: ScanState, n: string, v: string)
    requires k < |lines| && Tracks(lines, k, st)
    requires VersionOf(lines[k]).Some? && st.current.Some?
    ensures Recorded(Step(st, lines[k]).packages, n, v) <==> AttributedBefore(lines, k + 1, n, v)
  {
    NameAndVersionDisjoint(lines[k]);
    AttributedStep(lines, k, n, v);
    var r := Step(st, lines[k]);
    assert r.packages == Add(st.packages, st.current.value, VersionOf(lines[k]).value);
    assert PendingAt(lines, k, n) <==> st.current == Some(n);
  }

  /** Any other line adds nothing. */
  lemma StepRecordsNothing(lines: seq<string>, k: nat, st: ScanState, n: string, v: string)
    requires k < |lines| && Tracks(lines, k, st)
    requires !(VersionOf(lines[k]).Some? && st.current.Some?)
    ensures Recorded(Step(st, lines[k]).packages, n, v) <==> AttributedBefore(lines, k + 1, n, v)
  {
    AttributedStep(lines, k, n, v);
    assert Step(st, lines[k]).packages == st.packages;
    assert !(VersionOf(lines[k]) == Some(v) && PendingAt(lines, k, n));
  }

  lemma StepTracksPackages(lines: seq<string>, k: nat, st: ScanState)
    requires k < |lines| && Tracks(lines, k, st)
    ensures forall n, v :: Recorded(Step(st, lines[k]).packages, n, v) <==> AttributedBefore(lines, k + 1, n, v)
  {
    forall n, v ensures Recorded(Step(st, lines[k]).packages, n, v) <==> AttributedBefore(lines, k + 1, n, v) {
      if VersionOf(lines[k]).Some? && st.current.Some? {
        StepRecords(lines, k, st, n, v);
      } else {
        StepRecordsNothing(lines, k, st, n, v);
      }
    }
  }

  /** One pass of the loop, over line `k - 1`, keeps the correspondence. */
  lemma StepTracks(lines: seq<string>, k: nat, st: ScanState, next: ScanState)
    requires 0 < k <= |lines| && Tracks(lines, k - 1, st) && next == Step(st, lines[k - 1])
    ensures Tracks(lines, k, next)
  {
    StepTracksCurrent(lines, k - 1, st);
    StepTracksPackages(lines, k - 1, st);
  }

  lemma TracksStart(lines: seq<string>, st: ScanState)
    requires st == ScanState(None, map[])
    ensures Tracks(lines, 0, st)
  {
  }

  /** The state after the first `k` lines. */
  function Scan(lines: seq<string>, k: nat): ScanState
    requires k <= |lines|
  {
    if k == 0 then ScanState(None, map[]) else Step(Scan(lines, k - 1), lines[k - 1])
  }

  lemma {:induction false} ScanTracks(lines: seq<string>, k: nat)
    requires k <= |lines|
    ensures Tracks(lines, k, Scan(lines, k))
    decreases k
  {
    if k == 0 {
      TracksStart(lines, Scan(lines, 0));
    } else {
      ScanTracks(lines, k - 1);
      assert Tracks(lines, k - 1, Scan(lines, k - 1));
      StepTracks(lines, k, Scan(lines, k - 1), Scan(lines, k));
    }
  }

  lemma TracksEnd(lines: seq<string>, st: ScanState)
    requires Tracks(lines, |lines|, st)
    ensures forall n, v :: Recorded(st.packages, n, v) <==> Attributed(lines, n, v)
    ensures forall n :: n in st.packages ==> st.packages[n] != {}
  {
  }

  /** The scan of the lock file: every version line with a pending name records that version. */
  method CollectVersions(lines: seq<string>) returns (packages: map<string, set<string>>)
    ensures forall n, v :: Recorded(packages, n, v) <==> Attributed(lines, n, v)
    ensures forall n :: n in packages ==> packages[n] != {}
  {
    var st := ScanState(None, map[]);
    var k := 0;
    while k < |lines|
      invariant k <= |lines| && st == Scan(lines, k)
    {
      st := Step(st, lines[k]);
      k := k + 1;
    }
    ScanTracks(lines, |lines|);
    TracksEnd(lines, st);
    packages := st.packages;
  }

  lemma TwoElements(s: set<string>)
    ensures |s| > 1 <==> exists a, b :: a in s && b in s && a != b
  {
    if |s| > 1 {
      var a :| a in s;
      var t := s - {a};
      assert |t| == |s| - 1;
      var b :| b in t;
    }
    if exists a, b :: a in s && b in s && a != b {
      var a, b :| a in s && b in s && a != b;
      assert {a, b} <= s;
      assert |{a, b}| == 2;
      assert |s| >= |{a, b}| by {
        var _ := |s - {a, b}|;
      }
    }
  }

  /** `main`'s report: the packages recorded with more than one version, and which versions. */
  method DuplicateVersions(lines: seq<string>) returns (dups: map<string, set<string>>)
    ensures forall n :: n in dups <==> exists v, w :: v != w && Attributed(lines, n, v) && Attributed(lines, n, w)
    ensures forall n, v :: n in dups ==> (v in dups[n] <==> Attributed(lines, n, v))
  {
    var packages := CollectVersions(lines);
    dups := map n | n in packages && |packages[n]| > 1 :: packages[n];
    forall n ensures n in packages && |packages[n]| > 1 <==> exists v, w :: v != w && Attributed(lines, n, v) && Attributed(lines, n, w) {
      if n in packages {
        TwoElements(packages[n]);
        assert forall v :: v in packages[n] <==> Recorded(packages, n, v);
        if exists v, w :: v != w && Attributed(lines, n, v) && Attributed(lines, n, w) {
          var v, w :| v != w && Attributed(lines, n, v) && Attributed(lines, n, w);
          assert Recorded(packages, n, v) && Recorded(packages, n, w);
        }
      } else {
        assert forall v :: !Recorded(packages, n, v);
      }
    }
    assert forall n, v :: n in dups ==> (v in dups[n] <==> Recorded(packages, n, v));
  }
}

=== FILE: json.dfy ===
/** JSON values as the Python `json` module and `serde_json` hand them to the code. */
module Json {
  import opened Wrappers
  import opened Text

  /**
   * A parsed JSON value. An object keeps its members in document order, as a Python dict
   * does; a parsed object holds each key once.
   */
  datatype Json =
    | Null
    | Bool(b: bool)
    | Num(n: real)
    | Str(s: string)
    | Arr(items: seq<Json>)
    | Obj(fields: seq<(string, Json)>)

  /** Python truthiness: `None`, `False`, zero and empty containers are false. */
  predicate Truthy(j: Json) {
    match j
    case Null => false
    case Bool(b) => b
    case Num(n) => n != 0.0
    case Str(s) => |s| > 0
    case Arr(items) => |items| > 0
    case Obj(fields) => |fields| > 0
  }

  /** The member names of an object, in order (Python's `list(d.keys())`). */
  function Keys(fields: seq<(string, Json)>): (ks: seq<string>)
    ensures |ks| == |fields|
    ensures forall i :: 0 <= i < |fields| ==> ks[i] == fields[i].0
  {
    if |fields| == 0 then [] else [fields[0].0] + Keys(fields[1..])
  }

  /** `d.get(key)`: the value of the first member named `key`. */
  function Lookup(fields: seq<(string, Json)>, key: string): (r: Option<Json>)
    ensures r.None? <==> key !in Keys(fields)
    ensures r.Some? ==> exists i :: 0 <= i < |fields| && fields[i] == (key, r.value)
  {
    if |fields| == 0 then None
    else if fields[0].0 == key then Some(fields[0].1)
    else Lookup(fields[1..], key)
  }

  /** `j.get(key)` on a value that may not be an object: non-objects have no members. */
  function Get(j: Json, key: string): Option<Json> {
    if j.Obj? then Lookup(j.fields, key) else None
  }

  predicate Has(j: Json, key: string) {
    j.Obj? && key in Keys(j.fields)
  }

  /** Python's `str()` of a value, as an f-string shows it; `other` renders numbers and containers. */
  function PyStr(j: Json, other: Json -> string): (s: string)
    ensures j.Str? ==> s == j.s
    ensures j.Null? ==> s == "None"
  {
    match j
    case Str(s) => s
    case Null => "None"
    case Bool(b) => if b then "True" else "False"
    case _ => other(j)
  }

  /** Python's `key in data` for a parsed value; `None` when it raises `TypeError`. */
  function PyIn(key: string, data: Json): (r: Option<bool>)
    ensures r.None? <==> data.Num? || data.Bool? || data.Null?
    ensures data.Obj? ==> r == Some(Has(data, key))
    ensures data.Arr? ==> r == Some(Str(key) in data.items)
    ensures data.Str? ==> r == Some(Contains(data.s, key))
  {
    match data
    case Obj(fields) => Some(key in Keys(fields))
    case Arr(items) => Some(Str(key) in items)
    case Str(s) => Some(Contains(s, key))
    case _ => None
  }

  datatype KeyCheck = AllPresent | Absent(key: string) | Raised

  /**
   * `for k in keys: if k not in data: ...` from position `i`: the first key not `in` the value,
   * or `Raised` where the test itself raises.
   */
  function FirstAbsent(keys: seq<string>, data: Json, i: nat): (r: KeyCheck)
    requires i <= |keys|
    ensures r.AllPresent? <==> forall k :: i <= k < |keys| ==> PyIn(keys[k], data) == Some(true)
    ensures r.Absent? ==> exists k :: (&& i <= k < |keys| && r.key == keys[k] && PyIn(keys[k], data) == Some(false)
                                       && forall j :: i <= j < k ==> PyIn(keys[j], data) == Some(true))
    ensures r.Raised? <==> i < |keys| && PyIn(keys[i], data).None?
    decreases |keys| - i
  {
    if i == |keys| then AllPresent
    else
      match PyIn(keys[i], data)
      case None => Raised
      case Some(false) => Absent(keys[i])
      case Some(true) => FirstAbsent(keys, data, i + 1)
  }
}

=== FILE: json_daemon.dfy ===
/** The Python JSON daemon: message validation, BOM handling, archive names and the pid merge. */
module JsonDaemon {
  import opened Wrappers
  import opened Bytes
  import opened Text
  import opened Json

  // ---------------------------------------------------------------------------
  // `validate_message`.
  // ---------------------------------------------------------------------------

  const REQUIRED: seq<string> := ["from", "to", "intent", "payload", "trace"]

  /** The first required key missing from `obj`, looking from position `i` of `REQUIRED`. */
  function FirstMissing(obj: seq<(string, Json)>, i: nat): (r: Option<string>)
    requires i <= |REQUIRED|
    ensures r.None? <==> forall j :: i <= j < |REQUIRED| ==> REQUIRED[j] in Keys(obj)
    ensures r.Some? ==> exists j :: (&& i <= j < |REQUIRED| && r.value == REQUIRED[j] && r.value !in Keys(obj)
                                     && forall j' :: i <= j' < j ==> REQUIRED[j'] in Keys(obj))
    decreases |REQUIRED| - i
  {
    if i == |REQUIRED| then None
    else if REQUIRED[i] !in Keys(obj) then Some(REQUIRED[i])
    else FirstMissing(obj, i + 1)
  }

  /** Whether `j` is an object whose `key` member is a string. */
  predicate HasStringField(j: Json, key: string) {
    j.Obj? && Lookup(j.fields, key).Some? && Lookup(j.fields, key).value.Str?
  }

  /** What `validate_message` does with a parsed file: passes, returns an error note, or raises. */
  datatype Verdict = Valid | Invalid(note: string) | Raises(exception: string)

  /** The checks after the key loop on an object: None for a well-formed chat message, else the first problem. */
  function ValidateFields(obj: seq<(string, Json)>, other: Json -> string): (r: Option<string>)
    ensures FirstMissing(obj, 0).Some? ==> r == Some("missing:" + FirstMissing(obj, 0).value)
  {
    match FirstMissing(obj, 0)
    case Some(k) => Some("missing:" + k)
    case None =>
      var intent := Lookup(obj, "intent").value;
      if intent != Str("chat") then Some("intent:" + PyStr(intent, other))
      else if !HasStringField(Lookup(obj, "payload").value, "text") then Some("payload.text")
      else if !HasStringField(Lookup(obj, "trace").value, "id") then Some("trace.id")
      else None
  }

  /**
   * `validate_message` on whatever `json.loads` returned. On an object, the checks of `ValidateFields`.
   * On a list or a string the key loop tests membership or substrings and reports the first key that
   * is absent; if all five are there, `obj.get` raises AttributeError. On a number, a boolean or null the
   * first `in` raises TypeError. Nothing catches either exception, so the daemon stops.
   */
  function ValidateMessage(data: Json, other: Json -> string): (r: Verdict)
    ensures data.Obj? ==> !r.Raises?
    ensures data.Obj? ==> (r.Valid? <==> ValidateFields(data.fields, other).None?)
    ensures data.Obj? && r.Invalid? ==> ValidateFields(data.fields, other) == Some(r.note)
    ensures !data.Obj? ==> !r.Valid?
    ensures data.Num? || data.Bool? || data.Null? ==> r == Raises("TypeError")
    ensures data.Arr? || data.Str? ==>
      (r.Raises? <==> forall k :: 0 <= k < |REQUIRED| ==> PyIn(REQUIRED[k], data) == Some(true))
    ensures (data.Arr? || data.Str?) && r.Raises? ==> r.exception == "AttributeError"
    ensures !data.Obj? && r.Invalid? ==>
      exists k :: (&& 0 <= k < |REQUIRED| && r.note == "missing:" + REQUIRED[k] && PyIn(REQUIRED[k], data) == Some(false)
                   && forall j :: 0 <= j < k ==> PyIn(REQUIRED[j], data) == Some(true))
  {
    if data.Obj? then
      match ValidateFields(data.fields, other)
      case None => Valid
      case Some(note) => Invalid(note)
    else
      match FirstAbsent(REQUIRED, data, 0)
      case Raised => Raises("TypeError")
      case Absent(k) => Invalid("missing:" + k)
      case AllPresent => Raises("AttributeError")
  }

  /** A scalar stops the daemon; an empty list or a string without the key names is missing "from". */
  lemma NonObjectMessages(other: Json -> string, n: real, b: bool)
    ensures ValidateMessage(Num(n), other) == Raises("TypeError")
    ensures ValidateMessage(Bool(b), other) == Raises("TypeError")
    ensures ValidateMessage(Null, other) == Raises("TypeError")
    ensures ValidateMessage(Arr([]), other) == Invalid("missing:from")
    ensures ValidateMessage(Str("x"), other) == Invalid("missing:from")
  {
    assert !OccursAt("x", "from", 0) && !OccursAt("x", "from", 1);
    assert FirstAbsent(REQUIRED, Str("x"), 0) == Absent("from");
    assert FirstAbsent(REQUIRED, Arr([]), 0) == Absent("from");
  }

  /** A list holding all five key names gets past the key loop and raises AttributeError at `obj.get`. */
  lemma ListOfNamesRaises(items: seq<Json>, other: Json -> string)
    requires forall k :: k in REQUIRED ==> Str(k) in items
    ensures ValidateMessage(Arr(items), other) == Raises("AttributeError")
  {
    assert forall k :: 0 <= k < |REQUIRED| ==> REQUIRED[k] in REQUIRED;
  }

  /** With every required key present, nothing is reported missing. */
  lemma AllPresent(obj: seq<(string, Json)>)
    requires forall k :: k in REQUIRED ==> k in Keys(obj)
    ensures FirstMissing(obj, 0).None?
  {
    assert forall j :: 0 <= j < |REQUIRED| ==> REQUIRED[j] in REQUIRED;
  }

  /** The message shape the daemon accepts, stated directly. */
  predicate WellFormed(obj: seq<(string, Json)>) {
    && (forall k :: k in REQUIRED ==> k in Keys(obj))
    && Lookup(obj, "intent") == Some(Str("chat"))
    && HasStringField(Lookup(obj, "payload").value, "text")
    && HasStringField(Lookup(obj, "trace").value, "id")
  }

  /** Validation passes exactly for well-formed messages, and its errors come in the checking order. */
  lemma ValidateSpec(obj: seq<(string, Json)>, other: Json -> string)
    ensures ValidateMessage(Obj(obj), other).Valid? <==> WellFormed(obj)
    ensures (forall k :: k in REQUIRED ==> k in Keys(obj)) && Lookup(obj, "intent").value != Str("chat") ==>
              ValidateMessage(Obj(obj), other) == Invalid("intent:" + PyStr(Lookup(obj, "intent").value, other))
    ensures ((forall k :: k in REQUIRED ==> k in Keys(obj)) && Lookup(obj, "intent").value == Str("chat")
             && !HasStringField(Lookup(obj, "payload").value, "text")) ==> ValidateMessage(Obj(obj), other) == Invalid("payload.text")
    ensures ((forall k :: k in REQUIRED ==> k in Keys(obj)) && Lookup(obj, "intent").value == Str("chat")
             && HasStringField(Lookup(obj, "payload").value, "text") && !HasStringField(Lookup(obj, "trace").value, "id"))
            ==> ValidateMessage(Obj(obj), other) == Invalid("trace.id")
  {
    if forall k :: k in REQUIRED ==> k in Keys(obj) {
      assert forall j :: 0 <= j < |REQUIRED| ==> REQUIRED[j] in Keys(obj);
    } else {
      var k :| k in REQUIRED && k !in Keys(obj);
      assert FirstMissing(obj, 0).Some?;
    }
  }

  /** "from" is checked first, so a message missing everything reports it. */
  lemma EmptyMessageMissesFrom(other: Json -> string)
    ensures ValidateMessage(Obj([]), other) == Invalid("missing:from")
  {
    assert Keys([]) == [];
    assert FirstMissing([], 0) == Some("from");
    assert "missing:" + "from" == "missing:from";
  }

  /** The intent's value is shown as Python prints it: a null intent reads "intent:None". */
  lemma NullIntent(obj: seq<(string, Json)>, other: Json -> string)
    requires forall k :: k in REQUIRED ==> k in Keys(obj)
    requires Lookup(obj, "intent") == Some(Null)
    ensures ValidateMessage(Obj(obj), other) == Invalid("intent:None")
  {
    assert PyStr(Null, other) == "None";
    IntentNoneText();
    AllPresent(obj);
  }

  lemma IntentNoneText()
    ensures "intent:" + "None" == "intent:None"
  {
  }

  // ---------------------------------------------------------------------------
  // The BOM dispatch of `read_text_smart`.
  // ---------------------------------------------------------------------------

  /** How the bytes after any BOM are decoded. */
  datatype Decoding = Utf8Replace | Utf16LE | Utf16BE | Utf8Strict | Cp932Replace

  const UTF8_BOM: Bytes := [0xEF, 0xBB, 0xBF]
  const UTF16LE_BOM: Bytes := [0xFF, 0xFE]
  const UTF16BE_BOM: Bytes := [0xFE, 0xFF]

  predicate BytesStartWith(b: Bytes, prefix: Bytes) {
    |prefix| <= |b| && b[..|prefix|] == prefix
  }

  /**
   * `read_text_smart` up to decoding: the decoder for the file and the bytes it is given.
   * Without a BOM, UTF-8 is tried strictly (`validUtf8`) and cp932 is the fallback.
   */
  function BomDispatch(b: Bytes, validUtf8: Bytes -> bool): (r: (Decoding, Bytes))
    ensures r.0 in {Utf8Strict, Cp932Replace} ==> r.1 == b
    ensures r.0 == Utf8Strict ==> validUtf8(b)
    ensures r.0 == Cp932Replace ==> !validUtf8(b)
  {
    if BytesStartWith(b, UTF8_BOM) then (Utf8Replace, b[3..])
    else if BytesStartWith(b, UTF16LE_BOM) then (Utf16LE, b[2..])
    else if BytesStartWith(b, UTF16BE_BOM) then (Utf16BE, b[2..])
    else if validUtf8(b) then (Utf8Strict, b)
    else (Cp932Replace, b)
  }

  /** The BOM each decoding strips. */
  function BomOf(d: Decoding): Bytes {
    match d
    case Utf8Replace => UTF8_BOM
    case Utf16LE => UTF16LE_BOM
    case Utf16BE => UTF16BE_BOM
    case _ => []
  }

  /** The dispatch strips exactly the BOM of its decoding, and a BOM selects its decoding. */
  lemma BomDispatchSplits(b: Bytes, validUtf8: Bytes -> bool)
    ensures BomOf(BomDispatch(b, validUtf8).0) + BomDispatch(b, validUtf8).1 == b
    ensures BytesStartWith(b, UTF8_BOM) <==> BomDispatch(b, validUtf8).0 == Utf8Replace
    ensures BytesStartWith(b, UTF16LE_BOM) <==> BomDispatch(b, validUtf8).0 == Utf16LE
    ensures BytesStartWith(b, UTF16BE_BOM) <==> BomDispatch(b, validUtf8).0 == Utf16BE
  {
    if BytesStartWith(b, UTF8_BOM) {
      assert b[0] == 0xEF;
      assert b == b[..3] + b[3..];
    } else if BytesStartWith(b, UTF16LE_BOM) {
      assert b[0] == 0xFF;
      assert b == b[..2] + b[2..];
    } else if BytesStartWith(b, UTF16BE_BOM) {
      assert b == b[..2] + b[2..];
    }
  }

  /** A UTF-32-LE BOM (FF FE 00 00) is taken for the UTF-16-LE one. */
  lemma Utf32LeReadAsUtf16(rest: Bytes, validUtf8: Bytes -> bool)
    ensures BomDispatch([0xFF, 0xFE, 0x00, 0x00] + rest, validUtf8) == (Utf16LE, [0x00, 0x00] + rest)
  {
    var b: Bytes := [0xFF, 0xFE, 0x00, 0x00] + rest;
    assert b[..2] == UTF16LE_BOM;
    assert !BytesStartWith(b, UTF8_BOM) by { assert b[0] != 0xEF; }
    assert b[2..] == [0x00, 0x00] + rest;
  }

  // ---------------------------------------------------------------------------
  // The archive name of `archive_and_save`.
  // ---------------------------------------------------------------------------

  /** `f"{stem}-{ts}{('-'+note if note else '')}{suffix}"`; `ts` is the clock as "%Y%m%d-%H%M%S". */
  function ArchiveName(stem: string, ts: string, note: string, suffix: string): (name: string)
    ensures StartsWith(name, stem + "-" + ts) && EndsWith(name, suffix)
    ensures note == "" <==> |name| == |stem| + 1 + |ts| + |suffix|
  {
    stem + "-" + ts + (if note != "" then "-" + note else "") + suffix
  }

  /** The note can be read back from the name: between the time stamp and the suffix, after a "-". */
  lemma ArchiveNameNote(stem: string, ts: string, note: string, suffix: string)
    requires note != ""
    ensures var name := ArchiveName(stem, ts, note, suffix);
      var start := |stem| + 1 + |ts|;
      name[start] == '-' && name[start + 1..|name| - |suffix|] == note
  {
  }

  /** Different notes give different names. */
  lemma ArchiveNameInjective(stem: string, ts: string, n1: string, n2: string, suffix: string)
    requires ArchiveName(stem, ts, n1, suffix) == ArchiveName(stem, ts, n2, suffix)
    ensures n1 == n2
  {
    if n1 != "" && n2 != "" {
      ArchiveNameNote(stem, ts, n1, suffix);
      ArchiveNameNote(stem, ts, n2, suffix);
    }
  }

  // ---------------------------------------------------------------------------
  // The pid merge of `resolve_addresses`.
  // ---------------------------------------------------------------------------

  /** `d[key] = v` on a dict kept in insertion order: replaced in place, or appended. */
  function SetField(fields: seq<(string, Json)>, key: string, v: Json): (r: seq<(string, Json)>)
    ensures Lookup(r, key) == Some(v)
    ensures forall k :: k != key ==> Lookup(r, k) == Lookup(fields, k)
    ensures forall k :: k in Keys(r) <==> k in Keys(fields) || k == key
    decreases |fields|
  {
    if |fields| == 0 then [(key, v)]
    else if fields[0].0 == key then [(key, v)] + fields[1..]
    else [fields[0]] + SetField(fields[1..], key, v)
  }

  /** A detected entry the merge uses: a dict with a "pid". */
  predicate HasPid(v: Json) {
    v.Obj? && "pid" in Keys(v.fields)
  }

  function PidOf(v: Json): Json
    requires HasPid(v)
  {
    Lookup(v.fields, "pid").value
  }

  /**
   * `addresses.setdefault(k, {})["pid"] = pid`: a new entry holding only the pid, or the pid set
   * in an existing dict; an existing non-dict raises.
   */
  function SetPid(addresses: seq<(string, Json)>, k: string, pid: Json): (r: Result<seq<(string, Json)>, string>)
    ensures r.Err? <==> Lookup(addresses, k).Some? && !Lookup(addresses, k).value.Obj?
  {
    match Lookup(addresses, k)
    case None => Ok(SetField(addresses, k, Obj([("pid", pid)])))
    case Some(entry) =>
      if entry.Obj? then Ok(SetField(addresses, k, Obj(SetField(entry.fields, "pid", pid))))
      else Err("TypeError")
  }

  /** The loop over `found.items()` from entry `i`. */
  function MergeFrom(addresses: seq<(string, Json)>, found: seq<(string, Json)>, i: nat): Result<seq<(string, Json)>, string>
    requires i <= |found|
    decreases |found| - i
  {
    if i == |found| then Ok(addresses)
    else if HasPid(found[i].1) then
      match SetPid(addresses, found[i].0, PidOf(found[i].1))
      case Err(e) => Err(e)
      case Ok(a) => MergeFrom(a, found, i + 1)
    else MergeFrom(addresses, found, i + 1)
  }

  /** The pid merge of `resolve_addresses`, after loading and detection; off when auto-detection is. */
  function MergePids(addresses: seq<(string, Json)>, found: seq<(string, Json)>, autoDetect: bool): (r: Result<seq<(string, Json)>, string>)
    ensures !autoDetect ==> r == Ok(addresses)
  {
    if autoDetect then MergeFrom(addresses, found, 0) else Ok(addresses)
  }

  /** Whether key `k` is detected with a pid at or after position `i`. */
  predicate DetectedFrom(found: seq<(string, Json)>, i: nat, k: string) {
    exists j :: i <= j < |found| && found[j].0 == k && HasPid(found[j].1)
  }

  /** Keys appear once in `found`, as in the dict it stands for. */
  predicate DistinctKeys(found: seq<(string, Json)>) {
    forall a, b :: 0 <= a < b < |found| ==> found[a].0 != found[b].0
  }

  /** Entries that were not detected with a pid come out of the merge unchanged. */
  lemma {:induction false} MergeLeavesOthers(addresses: seq<(string, Json)>, found: seq<(string, Json)>, i: nat, k: string)
    requires i <= |found| && MergeFrom(addresses, found, i).Ok? && !DetectedFrom(found, i, k)
    ensures Lookup(MergeFrom(addresses, found, i).value, k) == Lookup(addresses, k)
    decreases |found| - i
  {
    if i < |found| {
      if HasPid(found[i].1) {
        var a := SetPid(addresses, found[i].0, PidOf(found[i].1)).value;
        MergeLeavesOthers(a, found, i + 1, k);
      } else {
        MergeLeavesOthers(addresses, found, i + 1, k);
      }
    }
  }

  /**
   * What the merge does to a detected entry: its pid is the detected one, and every other
   * field is as it was (none, for an entry that did not exist).
   */
  ghost predicate PidMerged(before: Option<Json>, after: Option<Json>, pid: Json) {
    && after.Some? && after.value.Obj?
    && Lookup(after.value.fields, "pid") == Some(pid)
    && forall f :: f != "pid" ==>
         Lookup(after.value.fields, f) == (if before.Some? && before.value.Obj? then Lookup(before.value.fields, f) else None)
  }

  /** With distinct keys, every detected entry gets exactly the detected pid, its other fields untouched. */
  lemma {:induction false} MergeSetsPid(addresses: seq<(string, Json)>, found: seq<(string, Json)>, i: nat, j: nat)
    requires i <= j < |found| && DistinctKeys(found) && HasPid(found[j].1)
    requires MergeFrom(addresses, found, i).Ok?
    ensures Lookup(addresses, found[j].0).None? || Lookup(addresses, found[j].0).value.Obj?
    ensures PidMerged(Lookup(addresses, found[j].0), Lookup(MergeFrom(addresses, found, i).value, found[j].0), PidOf(found[j].1))
    decreases |found| - i
  {
    var k := found[j].0;
    if HasPid(found[i].1) {
      var a := SetPid(addresses, found[i].0, PidOf(found[i].1)).value;
      if i == j {
        assert !DetectedFrom(found, i + 1, k);
        MergeLeavesOthers(a, found, i + 1, k);
      } else {
        assert Lookup(a, k) == Lookup(addresses, k);
        MergeSetsPid(a, found, i + 1, j);
      }
    } else {
      MergeSetsPid(addresses, found, i + 1, j);
    }
  }

  /** Detected entry `j` lands on something that is not a dict. */
  predicate Clash(addresses: seq<(string, Json)>, found: seq<(string, Json)>, j: nat) {
    j < |found| && HasPid(found[j].1) && Lookup(addresses, found[j].0).Some? && !Lookup(addresses, found[j].0).value.Obj?
  }

  /** The merge fails exactly when some detected key already holds something other than a dict. */
  lemma {:induction false} MergeFails(addresses: seq<(string, Json)>, found: seq<(string, Json)>, i: nat)
    requires i <= |found| && DistinctKeys(found)
    ensures MergeFrom(addresses, found, i).Err? <==> exists j :: i <= j < |found| && Clash(addresses, found, j)
    decreases |found| - i
  {
    if i < |found| {
      if HasPid(found[i].1) {
        var s := SetPid(addresses, found[i].0, PidOf(found[i].1));
        if s.Ok? {
          MergeFails(s.value, found, i + 1);
          assert !Clash(addresses, found, i);
          forall j | i + 1 <= j < |found| ensures Clash(s.value, found, j) == Clash(addresses, found, j) {
            assert found[j].0 != found[i].0;
          }
        } else {
          assert Clash(addresses, found, i);
        }
      } else {
        MergeFails(addresses, found, i + 1);
        assert !Clash(addresses, found, i);
      }
    }
  }

  /** A detection without a pid, or one that is not a dict, changes nothing. */
  lemma NoPidNoChange(addresses: seq<(string, Json)>, k: string, v: Json)
    requires !HasPid(v)
    ensures MergePids(addresses, [(k, v)], true) == Ok(addresses)
  {
    assert MergeFrom(addresses, [(k, v)], 1) == Ok(addresses);
  }
}

=== FILE: log_validation.dfy ===
/**
 * The log validator of the tooling scripts: each non-blank line of a log must be a JSON object
 * whose first three members are `uuid`, `timestamp` and `hash`, in that order, with values of
 * the right shape. JSON parsing and Python's `str()` of numbers and containers are parameters.
 */
module LogValidation {
  import opened Wrappers
  import opened Bytes
  import opened Text
  import opened Json

  const UUID := "uuid"
  const TIMESTAMP := "timestamp"
  const HASH := "hash"

  /** The member names every log line must start with, in this order. */
  const EXPECTED: seq<string> := [UUID, TIMESTAMP, HASH]

  // ---------------------------------------------------------------------------
  // The three patterns, matched against the whole text (`fullmatch`).
  // ---------------------------------------------------------------------------

  predicate UuidDash(i: int) { i == 8 || i == 13 || i == 18 || i == 23 }

  /** `[0-9a-fA-F]{8}-[0-9a-fA-F]{4}-[0-9a-fA-F]{4}-[0-9a-fA-F]{4}-[0-9a-fA-F]{12}`. */
  predicate IsUuid(s: string) {
    |s| == 36 && forall i :: 0 <= i < 36 ==> if UuidDash(i) then s[i] == '-' else IsHexChar(s[i])
  }

  /** `[0-9a-fA-F]{64}`. */
  predicate IsHash(s: string) {
    |s| == 64 && forall i :: 0 <= i < 64 ==> IsHexChar(s[i])
  }

  /** The separator the timestamp pattern fixes at position `i` of `dddd-dd-ddTdd:dd:dd`. */
  function TsSep(i: int): Option<char> {
    if i == 4 || i == 7 then Some('-')
    else if i == 10 then Some('T')
    else if i == 13 || i == 16 then Some(':')
    else None
  }

  /** The fixed part `\d{4}-\d{2}-\d{2}T\d{2}:\d{2}:\d{2}` at the start of `s`. */
  predicate TsHead(s: string) {
    |s| >= 19 && forall i :: 0 <= i < 19 ==> if TsSep(i).Some? then s[i] == TsSep(i).value else IsDigit(s[i])
  }

  /** The optional tail `(?:\.\d+)?(?:Z)?`. */
  predicate TsTail(t: string) {
    || t == ""
    || t == "Z"
    || (|t| >= 2 && t[0] == '.' &&
        if t[|t| - 1] == 'Z' then |t| >= 3 && AllDigits(t[1..|t| - 1]) else AllDigits(t[1..]))
  }

  /** `TIMESTAMP_RE.fullmatch`. */
  predicate IsTimestamp(s: string) {
    TsHead(s) && TsTail(s[19..])
  }

  // ---------------------------------------------------------------------------
  // Texts that producers write, and what the patterns make of them.
  // ---------------------------------------------------------------------------

  /** The canonical text of a 16-byte UUID: lower-case hex in groups of 8-4-4-4-12. */
  function UuidText(b: Bytes): (s: string)
    requires |b| == 16
  {
    HexEncode(b[..4]) + "-" + HexEncode(b[4..6]) + "-" + HexEncode(b[6..8]) + "-"
      + HexEncode(b[8..10]) + "-" + HexEncode(b[10..])
  }

  /** Every canonical UUID text passes the UUID check. */
  lemma UuidTextAccepted(b: Bytes)
    requires |b| == 16
    ensures IsUuid(UuidText(b))
  {
    var s := UuidText(b);
    var g0, g1, g2, g3, g4 := HexEncode(b[..4]), HexEncode(b[4..6]), HexEncode(b[6..8]), HexEncode(b[8..10]), HexEncode(b[10..]);
    assert s == g0 + "-" + g1 + "-" + g2 + "-" + g3 + "-" + g4;
    forall i | 0 <= i < 36
      ensures if UuidDash(i) then s[i] == '-' else IsHexChar(s[i])
    {
      if i < 8 { assert s[i] == g0[i]; }
      else if i == 8 { }
      else if i < 13 { assert s[i] == g1[i - 9]; }
      else if i == 13 { }
      else if i < 18 { assert s[i] == g2[i - 14]; }
      else if i == 18 { }
      else if i < 23 { assert s[i] == g3[i - 19]; }
      else if i == 23 { }
      else { assert s[i] == g4[i - 24]; }
    }
  }

  /** The hash check accepts exactly the hex texts of 32-byte digests. */
  lemma HashIsHexOf32Bytes(s: string)
    ensures IsHash(s) <==> HexDecode(s).Some? && |HexDecode(s).value| == 32
  {
    HexDecodeAccepts(s);
  }

  /** The low `width` decimal digits of `n`, zero-padded (`f"{n:0{width}d}"` for small `n`). */
  function Padded(n: nat, width: nat): (s: string)
    ensures |s| == width && AllDigits(s)
  {
    if width == 0 then "" else Padded(n / 10, width - 1) + [DigitChar(n % 10)]
  }

  /** `YYYY-MM-DD`. */
  function DateText(y: nat, mo: nat, d: nat): (s: string)
    ensures |s| == 10
    ensures forall i :: 0 <= i < 10 ==> if i == 4 || i == 7 then s[i] == '-' else IsDigit(s[i])
  {
    var a, b, c := Padded(y, 4), Padded(mo, 2), Padded(d, 2);
    var s := a + "-" + b + "-" + c;
    assert forall i :: 0 <= i < 4 ==> s[i] == a[i];
    assert forall i :: 5 <= i < 7 ==> s[i] == b[i - 5];
    assert forall i :: 8 <= i < 10 ==> s[i] == c[i - 8];
    s
  }

  /** `hh:mm:ss`. */
  function ClockText(h: nat, mi: nat, sec: nat): (s: string)
    ensures |s| == 8
    ensures forall i :: 0 <= i < 8 ==> if i == 2 || i == 5 then s[i] == ':' else IsDigit(s[i])
  {
    var a, b, c := Padded(h, 2), Padded(mi, 2), Padded(sec, 2);
    var s := a + ":" + b + ":" + c;
    assert forall i :: 0 <= i < 2 ==> s[i] == a[i];
    assert forall i :: 3 <= i < 5 ==> s[i] == b[i - 3];
    assert forall i :: 6 <= i < 8 ==> s[i] == c[i - 6];
    s
  }

  /** An ISO 8601 timestamp without offset, with optional microseconds and `Z` suffix. */
  function TimestampText(y: nat, mo: nat, d: nat, h: nat, mi: nat, sec: nat, micros: Option<nat>, zulu: bool): string {
    DateText(y, mo, d) + "T" + ClockText(h, mi, sec)
      + ((if micros.Some? then "." + Padded(micros.value, 6) else "") + (if zulu then "Z" else ""))
  }

  lemma TimestampHead(date: string, clock: string)
    requires |date| == 10 && forall i :: 0 <= i < 10 ==> if i == 4 || i == 7 then date[i] == '-' else IsDigit(date[i])
    requires |clock| == 8 && forall i :: 0 <= i < 8 ==> if i == 2 || i == 5 then clock[i] == ':' else IsDigit(clock[i])
    ensures |date + "T" + clock| == 19 && TsHead(date + "T" + clock)
  {
    var head := date + "T" + clock;
    forall i | 0 <= i < 19
      ensures if TsSep(i).Some? then head[i] == TsSep(i).value else IsDigit(head[i])
    {
      if i < 10 { assert head[i] == date[i]; }
      else if i > 10 { assert head[i] == clock[i - 11]; }
    }
  }

  /** Every timestamp written in that form passes the timestamp check. */
  lemma TimestampTextAccepted(y: nat, mo: nat, d: nat, h: nat, mi: nat, sec: nat, micros: Option<nat>, zulu: bool)
    ensures IsTimestamp(TimestampText(y, mo, d, h, mi, sec, micros, zulu))
  {
    var head := DateText(y, mo, d) + "T" + ClockText(h, mi, sec);
    TimestampHead(DateText(y, mo, d), ClockText(h, mi, sec));
    var t := (if micros.Some? then "." + Padded(micros.value, 6) else "") + (if zulu then "Z" else "");
    var s := TimestampText(y, mo, d, h, mi, sec, micros, zulu);
    assert s == head + t;
    assert s[..19] == head;
    assert s[19..] == t;
    if micros.Some? {
      if zulu {
        assert t[1..|t| - 1] == Padded(micros.value, 6);
      } else {
        assert t[1..] == Padded(micros.value, 6);
      }
    }
  }

  /** A UTC offset such as `+00:00` (what `datetime.isoformat()` appends) fails the check. */
  lemma OffsetRejected(s: string)
    ensures !IsTimestamp(s + "+00:00")
  {
    var x := s + "+00:00";
    assert x[|s|] == '+';
  }

  /** The check is a shape check only: a date and time out of range pass. */
  lemma OutOfRangeAccepted()
    ensures IsTimestamp("9999-99-99T99:99:99")
  {
    var s := "9999-99-99T99:99:99";
    assert s[19..] == "";
  }

  /** A space between date and time fails the check. */
  lemma SpaceSeparatorRejected(s: string)
    requires |s| > 10 && s[10] == ' '
    ensures !IsTimestamp(s)
  {
    assert TsSep(10) == Some('T');
  }

  // ---------------------------------------------------------------------------
  // One line.
  // ---------------------------------------------------------------------------

  datatype Problem =
    | InvalidJson
    | MissingKey(key: string)
    | KeyOrder(actual: seq<string>)
    | InvalidUuid(shown: string)
    | InvalidTimestamp(shown: string)
    | InvalidHash(shown: string)

  /** One reported error; the printed wording is not modelled, only what it names. */
  datatype LogError =
    | FileNotFound(path: string)
    | AtLine(path: string, lineNo: nat, problem: Problem)

  /** The loop over the expected names from position `i`: the first one not `in` the value. */
  function CheckKeys(data: Json, i: nat): (r: KeyCheck)
    requires i <= |EXPECTED|
    ensures data.Obj? ==> !r.Raised?
    ensures data.Obj? ==> (r.AllPresent? <==> forall k :: i <= k < |EXPECTED| ==> Has(data, EXPECTED[k]))
    ensures r.Absent? ==> exists k :: (&& i <= k < |EXPECTED| && r.key == EXPECTED[k] && PyIn(EXPECTED[k], data) == Some(false)
                                       && forall j :: i <= j < k ==> PyIn(EXPECTED[j], data) == Some(true))
    ensures r.Raised? <==> i < |EXPECTED| && PyIn(EXPECTED[i], data).None?
  {
    FirstAbsent(EXPECTED, data, i)
  }

  /** `actual_order[:3]`. */
  function FirstThree(ks: seq<string>): (r: seq<string>)
    ensures |r| == if |ks| < 3 then |ks| else 3
    ensures r == ks[..|r|]
  {
    if |ks| <= 3 then ks else ks[..3]
  }

  /** All three expected names are among the members. */
  predicate AllNamed(fields: seq<(string, Json)>) {
    UUID in Keys(fields) && TIMESTAMP in Keys(fields) && HASH in Keys(fields)
  }

  /** Every error of `r` points at line `lineNo` of `path`. */
  predicate AllAt(r: seq<LogError>, path: string, lineNo: nat) {
    forall e :: e in r ==> e.AtLine? && e.path == path && e.lineNo == lineNo
  }

  lemma AllAtConcat(a: seq<LogError>, b: seq<LogError>, path: string, lineNo: nat)
    requires AllAt(a, path, lineNo) && AllAt(b, path, lineNo)
    ensures AllAt(a + b, path, lineNo)
  {
  }

  /** One check's contribution: nothing when it passes, one error naming the problem otherwise. */
  function Flag(ok: bool, path: string, lineNo: nat, problem: Problem): (r: seq<LogError>)
    ensures |r| <= 1 && (r == [] <==> ok)
    ensures forall e :: e in r ==> e == AtLine(path, lineNo, problem)
  {
    if ok then [] else [AtLine(path, lineNo, problem)]
  }

  /** The value of a member known to be present, as `str()` shows it. */
  function Shown(fields: seq<(string, Json)>, key: string, other: Json -> string): string
    requires key in Keys(fields)
  {
    PyStr(Lookup(fields, key).value, other)
  }

  /** The position of each value check among the four, in the order they run. */
  function Rank(e: LogError): nat {
    match e
    case AtLine(_, _, KeyOrder(_)) => 1
    case AtLine(_, _, InvalidUuid(_)) => 2
    case AtLine(_, _, InvalidTimestamp(_)) => 3
    case AtLine(_, _, InvalidHash(_)) => 4
    case _ => 0
  }

  /** Errors listed in the order of the checks that raised them, one per check at most. */
  predicate Ranked(r: seq<LogError>) {
    forall i, j :: 0 <= i < j < |r| ==> Rank(r[i]) < Rank(r[j])
  }

  lemma RankedConcat(a: seq<LogError>, b: seq<LogError>)
    requires Ranked(a) && Ranked(b)
    requires forall x, y :: x in a && y in b ==> Rank(x) < Rank(y)
    ensures Ranked(a + b)
  {
    var s := a + b;
    forall i, j | 0 <= i < j < |s|
      ensures Rank(s[i]) < Rank(s[j])
    {
      if j < |a| {
        assert s[i] == a[i] && s[j] == a[j];
      } else if i >= |a| {
        assert s[i] == b[i - |a|] && s[j] == b[j - |a|];
      } else {
        assert s[i] == a[i] && s[j] == b[j - |a|];
      }
    }
  }

  /** The four value checks' errors in the order the checks run, each present exactly when its check fails. */
  function FourChecks(path: string, lineNo: nat, ok1: bool, p1: Problem, ok2: bool, p2: Problem,
                      ok3: bool, p3: Problem, ok4: bool, p4: Problem): (r: seq<LogError>)
    requires p1.KeyOrder? && p2.InvalidUuid? && p3.InvalidTimestamp? && p4.InvalidHash?
    ensures |r| <= 4
    ensures AllAt(r, path, lineNo)
    ensures AtLine(path, lineNo, p1) in r <==> !ok1
    ensures AtLine(path, lineNo, p2) in r <==> !ok2
    ensures AtLine(path, lineNo, p3) in r <==> !ok3
    ensures AtLine(path, lineNo, p4) in r <==> !ok4
    ensures forall e :: e in r ==> e.problem in {p1, p2, p3, p4}
    ensures Ranked(r)
  {
    var a := Flag(ok1, path, lineNo, p1);
    var b := Flag(ok2, path, lineNo, p2);
    var c := Flag(ok3, path, lineNo, p3);
    var d := Flag(ok4, path, lineNo, p4);
    FlagsMembership(a, b, c, d, path, lineNo, ok1, p1, ok2, p2, ok3, p3, ok4, p4);
    FlagsRanked(a, b, c, d, path, lineNo, ok1, p1, ok2, p2, ok3, p3, ok4, p4);
    a + b + c + d
  }

  lemma FlagsMembership(a: seq<LogError>, b: seq<LogError>, c: seq<LogError>, d: seq<LogError>, path: string, lineNo: nat,
                        ok1: bool, p1: Problem, ok2: bool, p2: Problem, ok3: bool, p3: Problem, ok4: bool, p4: Problem)
    requires p1.KeyOrder? && p2.InvalidUuid? && p3.InvalidTimestamp? && p4.InvalidHash?
    requires a == Flag(ok1, path, lineNo, p1) && b == Flag(ok2, path, lineNo, p2)
    requires c == Flag(ok3, path, lineNo, p3) && d == Flag(ok4, path, lineNo, p4)
    ensures AtLine(path, lineNo, p1) in a + b + c + d <==> !ok1
    ensures AtLine(path, lineNo, p2) in a + b + c + d <==> !ok2
    ensures AtLine(path, lineNo, p3) in a + b + c + d <==> !ok3
    ensures AtLine(path, lineNo, p4) in a + b + c + d <==> !ok4
    ensures forall e :: e in a + b + c + d ==> e.AtLine? && e.problem in {p1, p2, p3, p4}
  {
    assert forall x :: x in a + b + c + d <==> x in a || x in b || x in c || x in d;
  }

  lemma FlagsRanked(a: seq<LogError>, b: seq<LogError>, c: seq<LogError>, d: seq<LogError>, path: string, lineNo: nat,
                    ok1: bool, p1: Problem, ok2: bool, p2: Problem, ok3: bool, p3: Problem, ok4: bool, p4: Problem)
    requires p1.KeyOrder? && p2.InvalidUuid? && p3.InvalidTimestamp? && p4.InvalidHash?
    requires a == Flag(ok1, path, lineNo, p1) && b == Flag(ok2, path, lineNo, p2)
    requires c == Flag(ok3, path, lineNo, p3) && d == Flag(ok4, path, lineNo, p4)
    ensures |a + b + c + d| <= 4
    ensures AllAt(a + b + c + d, path, lineNo)
    ensures Ranked(a + b + c + d)
  {
    AllAtConcat(a, b, path, lineNo);
    AllAtConcat(a + b, c, path, lineNo);
    AllAtConcat(a + b + c, d, path, lineNo);
    RankedConcat(a, b);
    RankedConcat(a + b, c);
    RankedConcat(a + b + c, d);
  }

  /**
   * The order and shape checks on an object that has all three members: each check adds its
   * own error exactly when it fails, independently of the others, in the order the checks run.
   */
  function CheckValues(path: string, lineNo: nat, fields: seq<(string, Json)>, other: Json -> string): (r: seq<LogError>)
    requires AllNamed(fields)
    ensures |r| <= 4
    ensures AllAt(r, path, lineNo)
    ensures var order := FirstThree(Keys(fields));
      AtLine(path, lineNo, KeyOrder(order)) in r <==> order != EXPECTED
    ensures var u := Shown(fields, UUID, other);
      AtLine(path, lineNo, InvalidUuid(u)) in r <==> !IsUuid(u)
    ensures var t := Shown(fields, TIMESTAMP, other);
      AtLine(path, lineNo, InvalidTimestamp(t)) in r <==> !IsTimestamp(t)
    ensures var h := Shown(fields, HASH, other);
      AtLine(path, lineNo, InvalidHash(h)) in r <==> !IsHash(h)
    ensures forall e :: e in r ==> e.problem in {KeyOrder(FirstThree(Keys(fields))), InvalidUuid(Shown(fields, UUID, other)),
                                                 InvalidTimestamp(Shown(fields, TIMESTAMP, other)), InvalidHash(Shown(fields, HASH, other))}
    ensures Ranked(r)
  {
    var order := FirstThree(Keys(fields));
    var u := Shown(fields, UUID, other);
    var t := Shown(fields, TIMESTAMP, other);
    var h := Shown(fields, HASH, other);
    FourChecks(path, lineNo, order == EXPECTED, KeyOrder(order), IsUuid(u), InvalidUuid(u),
               IsTimestamp(t), InvalidTimestamp(t), IsHash(h), InvalidHash(h))
  }

  lemma FirstThreeOf(ks: seq<string>)
    ensures |ks| >= 3 <==> |FirstThree(ks)| == 3
    ensures |ks| >= 3 ==> FirstThree(ks) == [ks[0], ks[1], ks[2]]
  {
  }

  /** The first three names are the expected ones exactly when the first three members carry them. */
  lemma OrderIsExpected(fields: seq<(string, Json)>)
    ensures FirstThree(Keys(fields)) == EXPECTED <==>
      |fields| >= 3 && fields[0].0 == UUID && fields[1].0 == TIMESTAMP && fields[2].0 == HASH
  {
    var ks := Keys(fields);
    FirstThreeOf(ks);
    if |fields| >= 3 {
      assert ks[0] == fields[0].0 && ks[1] == fields[1].0 && ks[2] == fields[2].0;
    }
  }

  /** The three values have the shapes the patterns demand. */
  predicate Shapes(uuid: string, timestamp: string, hash: string) {
    IsUuid(uuid) && IsTimestamp(timestamp) && IsHash(hash)
  }

  /** The checks on the values find nothing exactly when each of the four passes. */
  lemma CheckValuesPass(path: string, lineNo: nat, fields: seq<(string, Json)>, other: Json -> string)
    requires AllNamed(fields)
    ensures CheckValues(path, lineNo, fields, other) == [] <==>
      && FirstThree(Keys(fields)) == EXPECTED
      && Shapes(Shown(fields, UUID, other), Shown(fields, TIMESTAMP, other), Shown(fields, HASH, other))
  {
  }

  /** A name carried by the `i`-th member and by none before it shows the `i`-th value. */
  lemma ShownAt(fields: seq<(string, Json)>, i: nat, other: Json -> string)
    requires i < |fields| && forall j :: 0 <= j < i ==> fields[j].0 != fields[i].0
    ensures fields[i].0 in Keys(fields) && Shown(fields, fields[i].0, other) == PyStr(fields[i].1, other)
  {
    LookupFirst(fields, i);
  }

  /** With all three members present, no check fires exactly when the object is well formed. */
  lemma CheckValuesEmpty(path: string, lineNo: nat, fields: seq<(string, Json)>, other: Json -> string)
    requires AllNamed(fields)
    ensures CheckValues(path, lineNo, fields, other) == [] <==> WellFormed(Obj(fields), other)
  {
    CheckValuesPass(path, lineNo, fields, other);
    PassingIsWellFormed(fields, other);
  }

  /** The order and shape tests pass together exactly when the object is well formed. */
  lemma PassingIsWellFormed(fields: seq<(string, Json)>, other: Json -> string)
    requires AllNamed(fields)
    ensures (&& FirstThree(Keys(fields)) == EXPECTED
             && Shapes(Shown(fields, UUID, other), Shown(fields, TIMESTAMP, other), Shown(fields, HASH, other)))
            <==> WellFormed(Obj(fields), other)
  {
    OrderIsExpected(fields);
    if |fields| >= 3 && fields[0].0 == UUID && fields[1].0 == TIMESTAMP && fields[2].0 == HASH {
      ShownAt(fields, 0, other);
      ShownAt(fields, 1, other);
      ShownAt(fields, 2, other);
    }
  }

  /**
   * `validate_line`: the errors one line adds, or `None` when the script dies with an uncaught
   * exception (`in` on a number, boolean or null; `.keys()` on a list or string).
   */
  function ValidateLine(path: string, line: string, lineNo: nat, parse: string -> Option<Json>, other: Json -> string): (r: Option<seq<LogError>>)
    ensures parse(line).None? ==> r == Some([AtLine(path, lineNo, InvalidJson)])
    ensures r.None? ==> parse(line).Some? && !parse(line).value.Obj?
    ensures r.Some? ==> 1 <= |r.value| + (if parse(line).Some? && parse(line).value.Obj? then 1 else 0) && |r.value| <= 4
    ensures r.Some? ==> forall e :: e in r.value ==> e.AtLine? && e.path == path && e.lineNo == lineNo
  {
    match parse(line)
    case None => Some([AtLine(path, lineNo, InvalidJson)])
    case Some(data) =>
      match CheckKeys(data, 0)
      case Raised => None
      case Absent(k) => Some([AtLine(path, lineNo, MissingKey(k))])
      case AllPresent =>
        if data.Obj? then
          PresentAreNamed(data);
          Some(CheckValues(path, lineNo, data.fields, other))
        else None
  }

  /** An object that has every expected key names all three. */
  lemma PresentAreNamed(data: Json)
    requires data.Obj? && CheckKeys(data, 0).AllPresent?
    ensures AllNamed(data.fields)
  {
    assert Has(data, EXPECTED[0]) && Has(data, EXPECTED[1]) && Has(data, EXPECTED[2]);
  }

  /** The reference: an object whose first three members are the expected ones, each of the right shape. */
  predicate WellFormed(data: Json, other: Json -> string) {
    && data.Obj?
    && |data.fields| >= 3
    && data.fields[0].0 == UUID && data.fields[1].0 == TIMESTAMP && data.fields[2].0 == HASH
    && Shapes(PyStr(data.fields[0].1, other), PyStr(data.fields[1].1, other), PyStr(data.fields[2].1, other))
  }

  predicate LineGood(line: string, parse: string -> Option<Json>, other: Json -> string) {
    parse(line).Some? && WellFormed(parse(line).value, other)
  }

  lemma LookupFirst(fields: seq<(string, Json)>, i: nat)
    requires i < |fields| && forall j :: 0 <= j < i ==> fields[j].0 != fields[i].0
    ensures Lookup(fields, fields[i].0) == Some(fields[i].1)
  {
    if i > 0 {
      LookupFirst(fields[1..], i - 1);
    }
  }

  /** A line draws no error exactly when it is well formed. */
  lemma LineAcceptedIff(path: string, line: string, lineNo: nat, parse: string -> Option<Json>, other: Json -> string)
    ensures ValidateLine(path, line, lineNo, parse, other) == Some([]) <==> LineGood(line, parse, other)
  {
    if parse(line).Some? && parse(line).value.Obj? {
      var data := parse(line).value;
      if CheckKeys(data, 0).AllPresent? {
        PresentAreNamed(data);
        CheckValuesEmpty(path, lineNo, data.fields, other);
      } else {
        assert !(Has(data, EXPECTED[0]) && Has(data, EXPECTED[1]) && Has(data, EXPECTED[2]));
      }
    }
  }

  /** A number, boolean or null on a line kills the run; so does a list that holds all three names. */
  lemma NonObjectsCrash(path: string, line: string, lineNo: nat, parse: string -> Option<Json>, other: Json -> string)
    requires parse(line).Some?
    requires var data := parse(line).value;
      data.Num? || data.Bool? || data.Null? || (data.Arr? && forall k :: 0 <= k < 3 ==> Str(EXPECTED[k]) in data.items)
    ensures ValidateLine(path, line, lineNo, parse, other).None?
  {
  }

  /** An object without `uuid` is reported as missing `uuid` and nothing else. */
  lemma MissingUuidReportedAlone(path: string, line: string, lineNo: nat, parse: string -> Option<Json>, other: Json -> string)
    requires parse(line).Some? && parse(line).value.Obj? && !Has(parse(line).value, UUID)
    ensures ValidateLine(path, line, lineNo, parse, other) == Some([AtLine(path, lineNo, MissingKey(UUID))])
  {
  }

  // ---------------------------------------------------------------------------
  // The whole run.
  // ---------------------------------------------------------------------------

  /** A path a pattern expanded to: not a regular file, or one with its lines as read. */
  datatype LogFile = Missing(path: string) | Present(path: string, lines: seq<string>)

  datatype Outcome = NoMatch(pattern: nat) | Crashed | Finished(errors: seq<LogError>)

  /** The process exit status: 0 only when every line passed. */
  function ExitCode(o: Outcome): int {
    if o.Finished? && o.errors == [] then 0 else 1
  }

  /** The lines of one file, the first numbered `lineNo`; blank lines are skipped after stripping. */
  function ValidateLines(path: string, lines: seq<string>, lineNo: nat, parse: string -> Option<Json>, other: Json -> string): (r: Option<seq<LogError>>)
    ensures r.Some? ==> forall e :: e in r.value ==>
      && e.AtLine? && e.path == path
      && lineNo <= e.lineNo < lineNo + |lines|
      && PyStrip(lines[e.lineNo - lineNo]) != ""
    decreases |lines|
  {
    if |lines| == 0 then Some([])
    else
      var ln := PyStrip(lines[0]);
      var here := if ln == "" then Some([]) else ValidateLine(path, ln, lineNo, parse, other);
      match here
      case None => None
      case Some(e) =>
        match ValidateLines(path, lines[1..], lineNo + 1, parse, other)
        case None => None
        case Some(rest) => Some(e + rest)
  }

  function ValidateFiles(files: seq<LogFile>, parse: string -> Option<Json>, other: Json -> string): Option<seq<LogError>>
    decreases |files|
  {
    if |files| == 0 then Some([])
    else
      var here := match files[0]
        case Missing(p) => Some([FileNotFound(p)])
        case Present(p, lines) => ValidateLines(p, lines, 1, parse, other);
      match here
      case None => None
      case Some(e) =>
        match ValidateFiles(files[1..], parse, other)
        case None => None
        case Some(rest) => Some(e + rest)
  }

  /** The index of the first pattern that matched nothing. */
  function FirstUnmatched(matches: seq<seq<LogFile>>): (r: Option<nat>)
    ensures r.None? <==> forall i :: 0 <= i < |matches| ==> |matches[i]| > 0
    ensures r.Some? ==> r.value < |matches| && |matches[r.value]| == 0
    ensures r.Some? ==> forall j :: 0 <= j < r.value ==> |matches[j]| > 0
  {
    if |matches| == 0 then None
    else if |matches[0]| == 0 then Some(0)
    else match FirstUnmatched(matches[1..])
      case None => None
      case Some(i) => Some(i + 1)
  }

  function ValidateGroups(matches: seq<seq<LogFile>>, parse: string -> Option<Json>, other: Json -> string): Option<seq<LogError>>
    decreases |matches|
  {
    if |matches| == 0 then Some([])
    else
      match ValidateFiles(matches[0], parse, other)
      case None => None
      case Some(e) =>
        match ValidateGroups(matches[1..], parse, other)
        case None => None
        case Some(rest) => Some(e + rest)
  }

  /** `main`: `matches[i]` is what the `i`-th pattern expanded to. */
  function Run(matches: seq<seq<LogFile>>, parse: string -> Option<Json>, other: Json -> string): Outcome {
    match FirstUnmatched(matches)
    case Some(i) => NoMatch(i)
    case None =>
      match ValidateGroups(matches, parse, other)
      case None => Crashed
      case Some(errors) => Finished(errors)
  }

  predicate LinesGood(lines: seq<string>, parse: string -> Option<Json>, other: Json -> string) {
    forall k :: 0 <= k < |lines| && PyStrip(lines[k]) != "" ==> LineGood(PyStrip(lines[k]), parse, other)
  }

  predicate FileGood(f: LogFile, parse: string -> Option<Json>, other: Json -> string) {
    f.Present? && LinesGood(f.lines, parse, other)
  }

  lemma LinesCons(path: string, lines: seq<string>, lineNo: nat, parse: string -> Option<Json>, other: Json -> string)
    requires |lines| > 0
    ensures ValidateLines(path, lines, lineNo, parse, other) == Some([]) <==>
      && (PyStrip(lines[0]) == "" || ValidateLine(path, PyStrip(lines[0]), lineNo, parse, other) == Some([]))
      && ValidateLines(path, lines[1..], lineNo + 1, parse, other) == Some([])
  {
    var ln := PyStrip(lines[0]);
    var here := if ln == "" then Some([]) else ValidateLine(path, ln, lineNo, parse, other);
    var rest := ValidateLines(path, lines[1..], lineNo + 1, parse, other);
    if here.Some? && rest.Some? {
      assert ValidateLines(path, lines, lineNo, parse, other) == Some(here.value + rest.value);
      assert here.value + rest.value == [] <==> here.value == [] && rest.value == [];
    }
  }

  lemma LinesGoodCons(lines: seq<string>, parse: string -> Option<Json>, other: Json -> string)
    requires |lines| > 0
    ensures LinesGood(lines, parse, other) <==>
      && (PyStrip(lines[0]) != "" ==> LineGood(PyStrip(lines[0]), parse, other))
      && LinesGood(lines[1..], parse, other)
  {
    assert forall k :: 1 <= k < |lines| ==> lines[k] == lines[1..][k - 1];
  }

  lemma {:induction false} LinesPassIff(path: string, lines: seq<string>, lineNo: nat, parse: string -> Option<Json>, other: Json -> string)
    ensures ValidateLines(path, lines, lineNo, parse, other) == Some([]) <==> LinesGood(lines, parse, other)
    decreases |lines|
  {
    if |lines| > 0 {
      LinesPassIff(path, lines[1..], lineNo + 1, parse, other);
      LinesCons(path, lines, lineNo, parse, other);
      LinesGoodCons(lines, parse, other);
      LineAcceptedIff(path, PyStrip(lines[0]), lineNo, parse, other);
    }
  }

  lemma FilesCons(files: seq<LogFile>, parse: string -> Option<Json>, other: Json -> string)
    requires |files| > 0
    ensures ValidateFiles(files, parse, other) == Some([]) <==>
      && files[0].Present?
      && ValidateLines(files[0].path, files[0].lines, 1, parse, other) == Some([])
      && ValidateFiles(files[1..], parse, other) == Some([])
  {
    var here := match files[0]
      case Missing(p) => Some([FileNotFound(p)])
      case Present(p, lines) => ValidateLines(p, lines, 1, parse, other);
    var rest := ValidateFiles(files[1..], parse, other);
    if here.Some? && rest.Some? {
      assert ValidateFiles(files, parse, other) == Some(here.value + rest.value);
      assert here.value + rest.value == [] <==> here.value == [] && rest.value == [];
    }
  }

  lemma {:induction false} FilesPassIff(files: seq<LogFile>, parse: string -> Option<Json>, other: Json -> string)
    ensures ValidateFiles(files, parse, other) == Some([]) <==> forall j :: 0 <= j < |files| ==> FileGood(files[j], parse, other)
    decreases |files|
  {
    if |files| > 0 {
      FilesPassIff(files[1..], parse, other);
      FilesCons(files, parse, other);
      if files[0].Present? {
        LinesPassIff(files[0].path, files[0].lines, 1, parse, other);
      }
      assert forall j :: 1 <= j < |files| ==> files[j] == files[1..][j - 1];
    }
  }

  lemma GroupsCons(matches: seq<seq<LogFile>>, parse: string -> Option<Json>, other: Json -> string)
    requires |matches| > 0
    ensures ValidateGroups(matches, parse, other) == Some([]) <==>
      ValidateFiles(matches[0], parse, other) == Some([]) && ValidateGroups(matches[1..], parse, other) == Some([])
  {
    var here := ValidateFiles(matches[0], parse, other);
    var rest := ValidateGroups(matches[1..], parse, other);
    if here.Some? && rest.Some? {
      assert ValidateGroups(matches, parse, other) == Some(here.value + rest.value);
      assert here.value + rest.value == [] <==> here.value == [] && rest.value == [];
    }
  }

  lemma {:induction false} GroupsPassIff(matches: seq<seq<LogFile>>, parse: string -> Option<Json>, other: Json -> string)
    ensures ValidateGroups(matches, parse, other) == Some([]) <==>
      forall i, j :: 0 <= i < |matches| && 0 <= j < |matches[i]| ==> FileGood(matches[i][j], parse, other)
    decreases |matches|
  {
    if |matches| > 0 {
      GroupsPassIff(matches[1..], parse, other);
      GroupsCons(matches, parse, other);
      FilesPassIff(matches[0], parse, other);
      assert forall i :: 1 <= i < |matches| ==> matches[i] == matches[1..][i - 1];
    }
  }

  /**
   * The run exits with 0 exactly when every pattern matched something, every path is a
   * regular file, and every non-blank line of every file is well formed.
   */
  lemma PassIff(matches: seq<seq<LogFile>>, parse: string -> Option<Json>, other: Json -> string)
    ensures ExitCode(Run(matches, parse, other)) == 0 <==>
      && (forall i :: 0 <= i < |matches| ==> |matches[i]| > 0)
      && (forall i, j :: 0 <= i < |matches| && 0 <= j < |matches[i]| ==> FileGood(matches[i][j], parse, other))
  {
    GroupsPassIff(matches, parse, other);
  }
}

=== FILE: mailbox.dfy ===
/** Per-destination inboxes shared by the seed node, the mailbox server and the daemon. */
module Mailbox {
  import opened Bytes

  /** The JSON packet the HTTP endpoints exchange (`kairo_lib::packet::AiTcpPacket`). */
  datatype AiTcpPacket = AiTcpPacket(
    source: string,
    destination: string,
    version: byte,
    sourcePAddress: string,
    destinationPAddress: string,
    sourcePublicKey: string,
    sequence: u64,
    timestampUtc: u64,
    payloadType: string,
    payload: string,
    signature: string)

  /** The message queue: destination p_address to its inbox, oldest first. */
  type Queue = map<string, seq<AiTcpPacket>>

  /** The packets waiting for `addr`; an address never written to has none. */
  function Inbox(q: Queue, addr: string): seq<AiTcpPacket> {
    if addr in q then q[addr] else []
  }

  /** `queue.entry(dest).or_insert_with(Vec::new).push(packet)`: appends to the destination's inbox only. */
  function Enqueue(q: Queue, packet: AiTcpPacket): (q': Queue)
    ensures packet.destinationPAddress in q'
    ensures Inbox(q', packet.destinationPAddress) == Inbox(q, packet.destinationPAddress) + [packet]
    ensures forall a :: a != packet.destinationPAddress ==> (a in q' <==> a in q) && Inbox(q', a) == Inbox(q, a)
  {
    q[packet.destinationPAddress := Inbox(q, packet.destinationPAddress) + [packet]]
  }

  /**
   * `handle_receive`: returns the address's inbox and leaves it empty (the key stays); an
   * unknown address gets an empty list and nothing changes. Other inboxes are untouched.
   */
  function Drain(q: Queue, addr: string): (r: (Queue, seq<AiTcpPacket>))
    ensures r.1 == Inbox(q, addr)
    ensures Inbox(r.0, addr) == []
    ensures forall a :: a != addr ==> (a in r.0 <==> a in q) && Inbox(r.0, a) == Inbox(q, a)
    ensures addr !in q ==> r.0 == q
  {
    if addr in q then (q[addr := []], q[addr]) else (q, [])
  }

  /** Every queued packet satisfies `ok`. */
  ghost predicate AllSatisfy(q: Queue, ok: AiTcpPacket -> bool) {
    forall a, i :: a in q && 0 <= i < |q[a]| ==> ok(q[a][i])
  }

  /** The packets of `ps` addressed to `addr`, in order. */
  function AddressedTo(ps: seq<AiTcpPacket>, addr: string): seq<AiTcpPacket> {
    if |ps| == 0 then []
    else (if ps[0].destinationPAddress == addr then [ps[0]] else []) + AddressedTo(ps[1..], addr)
  }

  /** Enqueues packets in order. */
  function EnqueueAll(q: Queue, ps: seq<AiTcpPacket>): Queue
    decreases |ps|
  {
    if |ps| == 0 then q else EnqueueAll(Enqueue(q, ps[0]), ps[1..])
  }

  /** FIFO: after any run of sends, an inbox holds what it held plus the packets sent to it, in sending order. */
  lemma {:induction false} InboxIsFifo(q: Queue, ps: seq<AiTcpPacket>, addr: string)
    ensures Inbox(EnqueueAll(q, ps), addr) == Inbox(q, addr) + AddressedTo(ps, addr)
    decreases |ps|
  {
    if |ps| > 0 {
      InboxIsFifo(Enqueue(q, ps[0]), ps[1..], addr);
    }
  }

  /** Enqueuing a packet that satisfies `ok` keeps every queued packet satisfying `ok`. */
  lemma EnqueuePreserves(q: Queue, packet: AiTcpPacket, ok: AiTcpPacket -> bool)
    requires AllSatisfy(q, ok) && ok(packet)
    ensures AllSatisfy(Enqueue(q, packet), ok)
  {
    var q' := Enqueue(q, packet);
    forall a, i | a in q' && 0 <= i < |q'[a]|
      ensures ok(q'[a][i])
    {
      if a != packet.destinationPAddress {
        assert q'[a] == Inbox(q, a) == q[a];
      } else if i < |Inbox(q, a)| {
        assert q'[a][i] == q[a][i];
      }
    }
  }

  /** Draining keeps every remaining packet satisfying `ok`. */
  lemma DrainPreserves(q: Queue, addr: string, ok: AiTcpPacket -> bool)
    requires AllSatisfy(q, ok)
    ensures AllSatisfy(Drain(q, addr).0, ok)
  {
    var q' := Drain(q, addr).0;
    forall a, i | a in q' && 0 <= i < |q'[a]|
      ensures ok(q'[a][i])
    {
      assert a != addr;
      assert q'[a] == q[a];
    }
  }
}

=== FILE: mailbox_servers.dfy ===
/**
 * The stand-alone mailbox server: the sender is found by p_address in the agent configs, and
 * every decode failure is a plain rejection.
 */
module MailboxServer {
  import opened Wrappers
  import opened Bytes
  import opened Text
  import opened Crypto
  import opened Mailbox
  import opened AgentConfig

  /** The first config whose p_address is the packet's source (`registry.iter().find`). */
  function FindSender(registry: seq<AgentConfig>, sourcePAddress: string): (r: Option<AgentConfig>)
    ensures r.None? <==> forall i :: 0 <= i < |registry| ==> registry[i].pAddress != sourcePAddress
    ensures r.Some? ==> exists i :: (0 <= i < |registry| && registry[i] == r.value
                                     && forall j :: 0 <= j < i ==> registry[j].pAddress != sourcePAddress)
    ensures r.Some? ==> r.value.pAddress == sourcePAddress
  {
    if |registry| == 0 then None
    else if registry[0].pAddress == sourcePAddress then Some(registry[0])
    else
      var r := FindSender(registry[1..], sourcePAddress);
      if r.Some? then
        var i :| 0 <= i < |registry[1..]| && registry[1..][i] == r.value
                 && forall j :: 0 <= j < i ==> registry[1..][j].pAddress != sourcePAddress;
        assert registry[i + 1] == r.value;
        r
      else r
  }

  /**
   * `verify_packet_signature`: true only for a known sender whose hex public key decodes and
   * parses, with a hex signature of 64 bytes that checks over the payload's UTF-8 bytes.
   */
  function VerifyPacketSignature(ed: Ed25519, packet: AiTcpPacket, registry: seq<AgentConfig>): (ok: bool)
    ensures ok <==> exists pk, sig ::
      (&& FindSender(registry, packet.sourcePAddress).Some?
       && HexDecode(FindSender(registry, packet.sourcePAddress).value.publicKey) == Some(pk)
       && HexDecode(packet.signature) == Some(sig)
       && ed.keyOk(pk) && |sig| == 64 && ed.verify(pk, Utf8(packet.payload), sig))
  {
    match FindSender(registry, packet.sourcePAddress)
    case None => false
    case Some(agent) =>
      match HexDecode(agent.publicKey)
      case None => false
      case Some(pk) =>
        ed.keyOk(pk)
        && match HexDecode(packet.signature)
           case None => false
           case Some(sig) => SignatureParses(sig) && ed.verify(pk, Utf8(packet.payload), sig)
  }

  /** A sender with no config is always rejected. */
  lemma UnknownSenderRejected(ed: Ed25519, packet: AiTcpPacket, registry: seq<AgentConfig>)
    requires forall i :: 0 <= i < |registry| ==> registry[i].pAddress != packet.sourcePAddress
    ensures !VerifyPacketSignature(ed, packet, registry)
  {
  }

  /**
   * A packet whose payload is signed with the secret key of the first config carrying its
   * source address, when that config's public key is the hex of the matching verifying key, verifies.
   */
  lemma GenuinePacketVerifies(ed: Ed25519, packet: AiTcpPacket, registry: seq<AgentConfig>, secretKey: Bytes)
    requires Sound(ed)
    requires FindSender(registry, packet.sourcePAddress).Some?
    requires FindSender(registry, packet.sourcePAddress).value.publicKey == HexEncode(ed.publicOf(secretKey))
    requires packet.signature == HexEncode(ed.sign(secretKey, Utf8(packet.payload)))
    ensures VerifyPacketSignature(ed, packet, registry)
  {
    HexRoundTrip(ed.publicOf(secretKey));
    HexRoundTrip(ed.sign(secretKey, Utf8(packet.payload)));
  }

  /** `handle_send`: a verified packet joins its destination's inbox; the reply is "packet_queued" regardless. */
  function HandleSend(ed: Ed25519, q: Queue, registry: seq<AgentConfig>, packet: AiTcpPacket): (r: (Queue, string))
    ensures r.1 == "packet_queued"
    ensures VerifyPacketSignature(ed, packet, registry) ==> r.0 == Enqueue(q, packet)
    ensures !VerifyPacketSignature(ed, packet, registry) ==> r.0 == q
  {
    (if VerifyPacketSignature(ed, packet, registry) then Enqueue(q, packet) else q, "packet_queued")
  }

  /** `handle_receive`: returns and clears only the requested inbox; unknown addresses get `[]`. */
  function HandleReceive(q: Queue, pAddress: string): (r: (Queue, seq<AiTcpPacket>))
    ensures r.1 == Inbox(q, pAddress) && Inbox(r.0, pAddress) == []
    ensures forall a :: a != pAddress ==> Inbox(r.0, a) == Inbox(q, a)
    ensures pAddress !in q ==> r == (q, [])
  {
    Drain(q, pAddress)
  }

  /** Only verified packets are ever delivered. */
  lemma QueueHoldsOnlyVerified(ed: Ed25519, q: Queue, registry: seq<AgentConfig>, packet: AiTcpPacket, addr: string)
    requires AllSatisfy(q, p => VerifyPacketSignature(ed, p, registry))
    ensures AllSatisfy(HandleSend(ed, q, registry, packet).0, p => VerifyPacketSignature(ed, p, registry))
    ensures AllSatisfy(HandleReceive(q, addr).0, p => VerifyPacketSignature(ed, p, registry))
  {
    if VerifyPacketSignature(ed, packet, registry) {
      EnqueuePreserves(q, packet, p => VerifyPacketSignature(ed, p, registry));
    }
    DrainPreserves(q, addr, p => VerifyPacketSignature(ed, p, registry));
  }

  /** A verified send followed by a receive at its destination delivers the earlier backlog and then the packet. */
  lemma SendThenReceive(ed: Ed25519, q: Queue, registry: seq<AgentConfig>, packet: AiTcpPacket)
    requires VerifyPacketSignature(ed, packet, registry)
    ensures HandleReceive(HandleSend(ed, q, registry, packet).0, packet.destinationPAddress).1
         == Inbox(q, packet.destinationPAddress) + [packet]
  {
  }
}

/**
 * The agent daemon's mailbox: like the stand-alone server, except that hex decoding is
 * unwrapped (a panic, so a precondition here) and a rejected packet gets 401.
 */
module KairoDaemon {
  import opened Wrappers
  import opened Bytes
  import opened Text
  import opened Crypto
  import opened Mailbox
  import opened AgentConfig
  import MailboxServer

  /**
   * The inputs on which `verify_packet_signature` does not panic: when the sender is known its
   * key is hex, and when that key also parses the signature is hex.
   */
  predicate NoPanic(ed: Ed25519, packet: AiTcpPacket, registry: seq<AgentConfig>) {
    var sender := MailboxServer.FindSender(registry, packet.sourcePAddress);
    sender.Some? ==>
      (HexDecode(sender.value.publicKey).Some?
       && (ed.keyOk(HexDecode(sender.value.publicKey).value) ==> HexDecode(packet.signature).Some?))
  }

  /** `verify_packet_signature` with its `unwrap`s, on inputs that do not panic. */
  function VerifyPacketSignature(ed: Ed25519, packet: AiTcpPacket, registry: seq<AgentConfig>): (ok: bool)
    requires NoPanic(ed, packet, registry)
    ensures ok ==> MailboxServer.FindSender(registry, packet.sourcePAddress).Some?
  {
    match MailboxServer.FindSender(registry, packet.sourcePAddress)
    case None => false
    case Some(agent) =>
      var pk := HexDecode(agent.publicKey).value;
      ed.keyOk(pk)
      && var sig := HexDecode(packet.signature).value;
         SignatureParses(sig) && ed.verify(pk, Utf8(packet.payload), sig)
  }

  /** Where it does not panic, the daemon's check decides exactly as the stand-alone server's. */
  lemma AgreesWithServer(ed: Ed25519, packet: AiTcpPacket, registry: seq<AgentConfig>)
    requires NoPanic(ed, packet, registry)
    ensures VerifyPacketSignature(ed, packet, registry) == MailboxServer.VerifyPacketSignature(ed, packet, registry)
  {
  }

  /** A known sender whose stored key is not hex makes the daemon panic. */
  lemma BadKeyHexPanics(ed: Ed25519, packet: AiTcpPacket, registry: seq<AgentConfig>)
    requires MailboxServer.FindSender(registry, packet.sourcePAddress).Some?
    requires HexDecode(MailboxServer.FindSender(registry, packet.sourcePAddress).value.publicKey).None?
    ensures !NoPanic(ed, packet, registry)
  {
  }

  /** The HTTP status of the send reply. */
  datatype Status = OK | UNAUTHORIZED {
    function Code(): nat {
      match this
      case OK => 200
      case UNAUTHORIZED => 401
    }
  }

  /** `handle_send`: 200 "packet_queued" after queueing a verified packet, 401 "invalid_signature" and no change otherwise. */
  function HandleSend(ed: Ed25519, q: Queue, registry: seq<AgentConfig>, packet: AiTcpPacket): (r: (Queue, Status, string))
    requires NoPanic(ed, packet, registry)
    ensures r.1 == OK <==> VerifyPacketSignature(ed, packet, registry)
    ensures r.1 == OK ==> r.0 == Enqueue(q, packet) && r.2 == "packet_queued"
    ensures r.1 == UNAUTHORIZED ==> r.0 == q && r.2 == "invalid_signature"
  {
    if VerifyPacketSignature(ed, packet, registry) then (Enqueue(q, packet), OK, "packet_queued")
    else (q, UNAUTHORIZED, "invalid_signature")
  }

  /** `handle_receive`: the same handler as the stand-alone server's. */
  function HandleReceive(q: Queue, pAddress: string): (r: (Queue, seq<AiTcpPacket>))
    ensures r.1 == Inbox(q, pAddress) && Inbox(r.0, pAddress) == []
    ensures forall a :: a != pAddress ==> Inbox(r.0, a) == Inbox(q, a)
    ensures pAddress !in q ==> r == (q, [])
  {
    MailboxServer.HandleReceive(q, pAddress)
  }

  /** Where the stand-alone server silently drops a packet, the daemon answers 401, and the queues agree. */
  lemma SendAgreesWithServer(ed: Ed25519, q: Queue, registry: seq<AgentConfig>, packet: AiTcpPacket)
    requires NoPanic(ed, packet, registry)
    ensures HandleSend(ed, q, registry, packet).0 == MailboxServer.HandleSend(ed, q, registry, packet).0
    ensures HandleSend(ed, q, registry, packet).1 == OK <==> MailboxServer.VerifyPacketSignature(ed, packet, registry)
  {
    AgreesWithServer(ed, packet, registry);
  }
}

=== FILE: mesh_config.dfy ===
/** The role configuration generator: a small TOML file per mesh role. */
module MeshConfig {
  import opened Wrappers
  import opened Text

  const ROLE_PREFIX := "role = \""

  /** `DEFAULT_PERMS.get(role, [])`. */
  function DefaultPerms(role: string): (perms: seq<string>)
    ensures |perms| > 0 <==> role == "coord" || role == "relay" || role == "observer"
  {
    if role == "coord" then ["register", "issue_ip"]
    else if role == "relay" then ["forward"]
    else if role == "observer" then ["read"]
    else []
  }

  /** A TOML basic string; the script writes the text as it is, without escaping. */
  function Quoted(s: string): string { "\"" + s + "\"" }

  function QuoteAll(items: seq<string>): (r: seq<string>)
    ensures |r| == |items| && forall i :: 0 <= i < |items| ==> r[i] == Quoted(items[i])
  {
    if |items| == 0 then [] else [Quoted(items[0])] + QuoteAll(items[1..])
  }

  /** The permissions line: the quoted defaults, comma-separated, in brackets. */
  function PermissionsLine(perms: seq<string>): string {
    "permissions = [" + Join(QuoteAll(perms), ", ") + "]"
  }

  /**
   * `build_config`: the role line, a permissions line when the role has defaults, each ended by a
   * newline (`"\n".join(parts) + "\n"` over one or two parts).
   */
  function BuildConfig(role: string): (toml: string)
    ensures StartsWith(toml, ROLE_PREFIX + role + "\"\n")
    ensures EndsWith(toml, "\n")
  {
    var perms := DefaultPerms(role);
    var first := ROLE_PREFIX + role + "\"";
    if |perms| > 0 then
      assert (first + "\n" + PermissionsLine(perms) + "\n")[..|first + "\n"|] == first + "\n";
      first + "\n" + PermissionsLine(perms) + "\n"
    else first + "\n"
  }

  /** A reader for the role line: the text between `role = "` and the next quote. */
  function ReadRole(toml: string): (r: Option<string>)
    ensures r.Some? ==> !HasChar(r.value, '"') && StartsWith(toml, ROLE_PREFIX + r.value + "\"")
  {
    if !StartsWith(toml, ROLE_PREFIX) then None
    else
      var rest := toml[|ROLE_PREFIX|..];
      match FindChar(rest, '"')
      case None => None
      case Some(i) =>
        assert rest[..i + 1] == rest[..i] + "\"";
        assert toml[..|ROLE_PREFIX| + i + 1] == ROLE_PREFIX + rest[..i + 1];
        Some(rest[..i])
  }

  /** Text that starts with a role line reads back as that role, whatever follows the quote. */
  lemma ReadRoleLine(role: string, tail: string)
    requires !HasChar(role, '"')
    ensures ReadRole(ROLE_PREFIX + role + "\"" + tail) == Some(role)
  {
    var toml := ROLE_PREFIX + role + "\"" + tail;
    assert toml[..|ROLE_PREFIX|] == ROLE_PREFIX;
    var rest := toml[|ROLE_PREFIX|..];
    assert rest == role + "\"" + tail;
    FindCharAfter(role, '"', tail);
    assert rest[..|role|] == role;
  }

  /** A role without a quote in it reads back from the generated file. */
  lemma RoleRoundTrip(role: string)
    requires !HasChar(role, '"')
    ensures ReadRole(BuildConfig(role)) == Some(role)
  {
    var toml := BuildConfig(role);
    var line := ROLE_PREFIX + role + "\"";
    assert toml == line + toml[|line|..] by {
      assert toml[..|line| + 1] == line + "\n";
      assert toml[..|line|] == line;
    }
    ReadRoleLine(role, toml[|line|..]);
  }

  /** A quote in the role is written unescaped and cuts the role short when read back. */
  lemma QuoteIsNotEscaped()
    ensures ReadRole(BuildConfig("a\"b")) == Some("a")
  {
    var role := "a\"b";
    assert DefaultPerms(role) == [];
    var toml := BuildConfig(role);
    assert toml == ROLE_PREFIX + role + "\"\n";
    var rest := toml[|ROLE_PREFIX|..];
    assert rest == role + "\"\n";
    assert rest[1] == '"' && rest[0] != '"';
    assert rest[..1] == "a";
  }

  lemma PermissionsOfCoord()
    ensures PermissionsLine(["register", "issue_ip"]) == "permissions = [\"register\", \"issue_ip\"]"
  {
    var q := QuoteAll(["register", "issue_ip"]);
    assert q == [Quoted("register"), Quoted("issue_ip")];
    assert Join(q, ", ") == Quoted("register") + ", " + Quoted("issue_ip");
  }

  lemma PermissionsOfOne(p: string)
    ensures PermissionsLine([p]) == "permissions = [\"" + p + "\"]"
  {
    assert QuoteAll([p]) == [Quoted(p)];
  }

  /** A role with defaults gets the role line and then the permissions line. */
  lemma ConfigWithPermissions(role: string, perms: seq<string>, line: string)
    requires DefaultPerms(role) == perms && |perms| > 0 && PermissionsLine(perms) == line
    ensures BuildConfig(role) == ROLE_PREFIX + role + "\"\n" + line + "\n"
  {
  }

  /** The three known roles get their default permissions. */
  lemma CoordConfig()
    ensures BuildConfig("coord") == "role = \"coord\"\n" + "permissions = [\"register\", \"issue_ip\"]\n"
  {
    PermissionsOfCoord();
    assert ROLE_PREFIX + "coord" + "\"\n" == "role = \"coord\"\n";
    ConfigWithPermissions("coord", ["register", "issue_ip"], "permissions = [\"register\", \"issue_ip\"]");
  }

  lemma RelayConfig()
    ensures BuildConfig("relay") == "role = \"relay\"\n" + "permissions = [\"forward\"]\n"
  {
    PermissionsOfOne("forward");
    assert ROLE_PREFIX + "relay" + "\"\n" == "role = \"relay\"\n";
    ConfigWithPermissions("relay", ["forward"], "permissions = [\"forward\"]");
  }

  lemma ObserverConfig()
    ensures BuildConfig("observer") == "role = \"observer\"\n" + "permissions = [\"read\"]\n"
  {
    PermissionsOfOne("read");
    assert ROLE_PREFIX + "observer" + "\"\n" == "role = \"observer\"\n";
    ConfigWithPermissions("observer", ["read"], "permissions = [\"read\"]");
  }

  /** Any other role gets the role line only. */
  lemma OtherRoleConfig(role: string)
    requires role != "coord" && role != "relay" && role != "observer"
    ensures BuildConfig(role) == "role = \"" + role + "\"\n"
  {
  }

  // ---------------------------------------------------------------------------
  // The output path: `Path(out_dir) / f"{role}.toml"` on POSIX.
  // ---------------------------------------------------------------------------

  /** A path as pathlib holds it: whether it is rooted, and its components. */
  datatype PurePath = PurePath(absolute: bool, parts: seq<string>)

  /** A text component as pathlib keeps it: empty and "." components vanish. */
  function Keep(c: string): (cs: seq<string>)
    ensures |cs| <= 1 && (cs == [] <==> c == "" || c == ".")
    ensures cs != [] ==> cs == [c]
  {
    if c == "" || c == "." then [] else [c]
  }

  /** The components of a path text, split at every '/'. */
  function Components(s: string): (cs: seq<string>)
    ensures forall i :: 0 <= i < |cs| ==> cs[i] != "" && cs[i] != "." && !HasChar(cs[i], '/')
    ensures !HasChar(s, '/') ==> cs == Keep(s)
    decreases |s|
  {
    match FindChar(s, '/')
    case None => Keep(s)
    case Some(i) =>
      assert !HasChar(s[..i], '/');
      Keep(s[..i]) + Components(s[i + 1..])
  }

  /** `Path(s)`. */
  function ParsePath(s: string): PurePath {
    PurePath(|s| > 0 && s[0] == '/', Components(s))
  }

  /** `a / b`: an absolute right-hand side replaces the left one, otherwise the components are appended. */
  function JoinPath(a: PurePath, b: PurePath): (r: PurePath)
    ensures b.absolute ==> r == b
    ensures !b.absolute ==> r.absolute == a.absolute && r.parts == a.parts + b.parts
  {
    if b.absolute then b else PurePath(a.absolute, a.parts + b.parts)
  }

  /** `str(path)`: the root, then the components joined by '/'; an empty relative path is ".". */
  function PathText(p: PurePath): string {
    if p.absolute then "/" + Join(p.parts, "/")
    else if p.parts == [] then "."
    else Join(p.parts, "/")
  }

  /** Joining one more component puts it last, after a '/' when something precedes it. */
  lemma {:induction false} JoinLast(parts: seq<string>, x: string)
    ensures EndsWith(Join(parts + [x], "/"), x)
    ensures parts != [] ==> EndsWith(Join(parts + [x], "/"), "/" + x)
    decreases |parts|
  {
    if |parts| == 1 {
      assert parts + [x] == [parts[0], x];
      assert Join([x], "/") == x;
    } else if |parts| > 1 {
      JoinLast(parts[1..], x);
      assert (parts + [x])[1..] == parts[1..] + [x];
    }
  }

  /** A role without '/' is a single file-name component. */
  lemma FileNameComponent(role: string)
    requires !HasChar(role, '/')
    ensures Components(role + ".toml") == [role + ".toml"]
  {
    var f := role + ".toml";
    assert f[|f| - 5..] == ".toml";
    assert f != "" && f != ".";
  }

  /** Where `main` sends the text: printed under `READ_ONLY=1`, otherwise written to the joined path. */
  datatype Output = Printed(text: string) | Written(path: string, text: string)

  function Emit(role: string, outDir: string, readOnly: bool): (o: Output)
    ensures o.text == BuildConfig(role)
    ensures o.Written? <==> !readOnly
    ensures o.Written? && !HasChar(role, '/') ==> EndsWith(o.path, role + ".toml")
    ensures o.Written? && !HasChar(role, '/') && (Components(outDir) != [] || ParsePath(outDir).absolute) ==>
      EndsWith(o.path, "/" + role + ".toml")
  {
    var content := BuildConfig(role);
    if readOnly then Printed(content)
    else
      WrittenPathEnds(role, outDir);
      Written(PathText(JoinPath(ParsePath(outDir), ParsePath(role + ".toml"))), content)
  }

  lemma WrittenPathEnds(role: string, outDir: string)
    ensures var path := PathText(JoinPath(ParsePath(outDir), ParsePath(role + ".toml")));
      && (!HasChar(role, '/') ==> EndsWith(path, role + ".toml"))
      && (!HasChar(role, '/') && (Components(outDir) != [] || ParsePath(outDir).absolute) ==> EndsWith(path, "/" + role + ".toml"))
  {
    if !HasChar(role, '/') {
      var f := role + ".toml";
      FileNameComponent(role);
      JoinLast(Components(outDir), f);
      if Components(outDir) == [] {
        assert [] + [f] == [f];
        assert Join([f], "/") == f;
      }
    }
  }

  /** A rooted role replaces the output directory: "/tmp/x" is written to "/tmp/x.toml" whatever `--out-dir` says. */
  lemma AbsoluteRoleIgnoresOutDir(role: string, outDir: string, otherDir: string)
    requires |role| > 0 && role[0] == '/'
    ensures Emit(role, outDir, false) == Emit(role, otherDir, false)
    ensures Emit(role, outDir, false).path == PathText(ParsePath(role + ".toml"))
  {
  }

  /** An empty `--out-dir` adds no separator: the file lands in the working directory. */
  lemma EmptyOutDir(role: string)
    requires !HasChar(role, '/')
    ensures Emit(role, "", false).path == role + ".toml"
  {
    FileNameComponent(role);
    assert Components("") == [];
    assert Join([role + ".toml"], "/") == role + ".toml";
  }

  /** A single-component directory and a plain role give "<out_dir>/<role>.toml". */
  lemma PlainOutDir(role: string, outDir: string)
    requires !HasChar(role, '/') && !HasChar(outDir, '/') && outDir != "" && outDir != "."
    ensures Emit(role, outDir, false).path == outDir + "/" + role + ".toml"
  {
    FileNameComponent(role);
    assert [outDir] + [role + ".toml"] == [outDir, role + ".toml"];
    assert Join([role + ".toml"], "/") == role + ".toml";
  }
}

=== FILE: name_registry.dfy ===
/** The soft-delete agent registry: list logic of `register_agent`, `soft_delete_agent` and `add_entry`. */
module NameRegistry {
  import opened Wrappers

  /** `lastContact` is an opaque timestamp the operations only carry along. */
  datatype RegistryEntry = RegistryEntry(name: string, pAddress: string, deleted: bool, lastContact: Option<int>)

  type Registry = seq<RegistryEntry>

  datatype RegistryError = NameAlreadyRegistered(name: string) | AddressAlreadyRegistered(pAddress: string) | NotFound(name: string)

  /** Some non-deleted entry carries `name`. */
  predicate NameActive(reg: Registry, name: string) {
    exists i :: 0 <= i < |reg| && !reg[i].deleted && reg[i].name == name
  }

  /** Some non-deleted entry carries `addr`. */
  predicate AddressActive(reg: Registry, addr: string) {
    exists i :: 0 <= i < |reg| && !reg[i].deleted && reg[i].pAddress == addr
  }

  /** `registry.iter().any(|e| !e.deleted && e.name == name)`, scanning from the front. */
  function AnyActiveName(reg: Registry, name: string): (b: bool)
    ensures b <==> NameActive(reg, name)
  {
    if |reg| == 0 then false
    else (!reg[0].deleted && reg[0].name == name) || AnyActiveName(reg[1..], name)
  }

  /** `registry.iter().any(|e| !e.deleted && e.p_address == addr)`. */
  function AnyActiveAddress(reg: Registry, addr: string): (b: bool)
    ensures b <==> AddressActive(reg, addr)
  {
    if |reg| == 0 then false
    else (!reg[0].deleted && reg[0].pAddress == addr) || AnyActiveAddress(reg[1..], addr)
  }

  /**
   * Registers an entry: refused if an active entry has the same name (checked first) or the same
   * p_address; otherwise appended at the end with every earlier entry unchanged.
   */
  function RegisterAgent(reg: Registry, entry: RegistryEntry): (r: Result<Registry, RegistryError>)
    ensures r.Ok? <==> !NameActive(reg, entry.name) && !AddressActive(reg, entry.pAddress)
    ensures NameActive(reg, entry.name) ==> r == Err(NameAlreadyRegistered(entry.name))
    ensures !NameActive(reg, entry.name) && AddressActive(reg, entry.pAddress) ==> r == Err(AddressAlreadyRegistered(entry.pAddress))
    ensures r.Ok? ==> |r.value| == |reg| + 1 && r.value[..|reg|] == reg && r.value[|reg|] == entry
  {
    if AnyActiveName(reg, entry.name) then Err(NameAlreadyRegistered(entry.name))
    else if AnyActiveAddress(reg, entry.pAddress) then Err(AddressAlreadyRegistered(entry.pAddress))
    else Ok(reg + [entry])
  }

  /** `add_entry` is `register_agent` under another name. */
  function AddEntry(reg: Registry, entry: RegistryEntry): (r: Result<Registry, RegistryError>)
    ensures r.Ok? <==> !NameActive(reg, entry.name) && !AddressActive(reg, entry.pAddress)
    ensures r.Ok? ==> r.value == reg + [entry]
  {
    RegisterAgent(reg, entry)
  }

  /** The index of the first active entry named `name` (`iter_mut().find`). */
  function FirstActive(reg: Registry, name: string): (r: Option<nat>)
    ensures r.None? <==> !NameActive(reg, name)
    ensures r.Some? ==> r.value < |reg| && !reg[r.value].deleted && reg[r.value].name == name
    ensures r.Some? ==> forall j :: 0 <= j < r.value ==> reg[j].deleted || reg[j].name != name
  {
    if |reg| == 0 then None
    else if !reg[0].deleted && reg[0].name == name then Some(0)
    else match FirstActive(reg[1..], name)
      case None => None
      case Some(k) => Some(k + 1)
  }

  /**
   * Marks the first active entry named `name` as deleted, keeping the record in place;
   * "not found" with nothing changed when no active entry has that name.
   */
  function SoftDeleteAgent(reg: Registry, name: string): (r: Result<Registry, RegistryError>)
    ensures r.Err? <==> !NameActive(reg, name)
    ensures r.Err? ==> r.error == NotFound(name)
    ensures r.Ok? ==> |r.value| == |reg|
    ensures r.Ok? ==> forall i :: 0 <= i < |reg| ==>
      r.value[i].name == reg[i].name && r.value[i].pAddress == reg[i].pAddress
      && r.value[i].lastContact == reg[i].lastContact
    ensures r.Ok? ==> exists k :: (0 <= k < |reg| && !reg[k].deleted && reg[k].name == name
                                   && (forall j :: 0 <= j < k ==> reg[j].deleted || reg[j].name != name)
                                   && r.value == reg[k := reg[k].(deleted := true)])
  {
    match FirstActive(reg, name)
    case None => Err(NotFound(name))
    case Some(k) => Ok(reg[k := reg[k].(deleted := true)])
  }

  /** No two non-deleted entries share a name or a p_address. */
  predicate ActiveUnique(reg: Registry) {
    forall i, j :: 0 <= i < j < |reg| && !reg[i].deleted && !reg[j].deleted ==>
      reg[i].name != reg[j].name && reg[i].pAddress != reg[j].pAddress
  }

  /** Registration preserves the uniqueness of active names and addresses. */
  lemma RegisterPreservesUnique(reg: Registry, entry: RegistryEntry)
    requires ActiveUnique(reg)
    ensures RegisterAgent(reg, entry).Ok? ==> ActiveUnique(RegisterAgent(reg, entry).value)
  {
    var r := RegisterAgent(reg, entry);
    if r.Ok? {
      var s := r.value;
      forall i, j | 0 <= i < j < |s| && !s[i].deleted && !s[j].deleted
        ensures s[i].name != s[j].name && s[i].pAddress != s[j].pAddress
      {
        if j == |reg| {
          assert s[i] == reg[i];
        }
      }
    }
  }

  /** Soft deletion preserves the uniqueness of active names and addresses. */
  lemma SoftDeletePreservesUnique(reg: Registry, name: string)
    requires ActiveUnique(reg)
    ensures SoftDeleteAgent(reg, name).Ok? ==> ActiveUnique(SoftDeleteAgent(reg, name).value)
  {
  }

  /** Under the invariant, a successful soft delete leaves no active entry with that name. */
  lemma SoftDeleteDeactivates(reg: Registry, name: string)
    requires ActiveUnique(reg)
    requires NameActive(reg, name)
    ensures SoftDeleteAgent(reg, name).Ok?
    ensures !NameActive(SoftDeleteAgent(reg, name).value, name)
  {
    var k := FirstActive(reg, name).value;
    var s := SoftDeleteAgent(reg, name).value;
    assert s == reg[k := reg[k].(deleted := true)];
    forall i | 0 <= i < |s| && s[i].name == name
      ensures s[i].deleted
    {
      if i != k {
        assert s[i] == reg[i];
      }
    }
  }

  /** Deleted entries never block: a name and address held only by deleted entries can be registered again. */
  lemma DeletedDoNotBlock(reg: Registry, entry: RegistryEntry)
    requires forall i :: 0 <= i < |reg| && (reg[i].name == entry.name || reg[i].pAddress == entry.pAddress) ==> reg[i].deleted
    ensures RegisterAgent(reg, entry).Ok?
  {
  }

  /** Register, soft delete, register again: both registrations succeed and the list keeps both records. */
  lemma ReRegisterAfterDelete(entry: RegistryEntry)
    requires !entry.deleted
    ensures var r1 := RegisterAgent([], entry);
      && r1 == Ok([entry])
      && SoftDeleteAgent(r1.value, entry.name) == Ok([entry.(deleted := true)])
      && RegisterAgent([entry.(deleted := true)], entry) == Ok([entry.(deleted := true), entry])
  {
    var d := [entry.(deleted := true)];
    assert FirstActive([entry], entry.name) == Some(0);
    assert [entry][0 := entry.(deleted := true)] == d;
    assert !AnyActiveName(d, entry.name) && !AnyActiveAddress(d, entry.pAddress);
    assert d + [entry] == [entry.(deleted := true), entry];
  }
}

=== FILE: nexus_router.dfy ===
/**
 * The KAIRO-Nexus router: P addresses bound to UI endpoints, and the minimal JSON extraction
 * applied to what a UI prints. Braces are ASCII, so scanning characters finds the same
 * candidates as the source's scan over UTF-8 bytes.
 */
module NexusRouter {
  import opened Wrappers
  import opened Bytes
  import opened Text

  // ---------------------------------------------------------------------------
  // `extract_json_or_fallback`.
  // ---------------------------------------------------------------------------

  /** The effect of one character on the naive depth. */
  function Delta(c: char): int {
    if c == '{' then 1 else if c == '}' then -1 else 0
  }

  /** Opening minus closing braces in `t`, counted with no regard to JSON strings. */
  function Balance(t: string): int
    decreases |t|
  {
    if |t| == 0 then 0 else Balance(t[..|t| - 1]) + Delta(t[|t| - 1])
  }

  /** `s[idx..e+1]` is a candidate: it ends in '}' where the naive depth comes back to 0. */
  predicate Candidate(s: string, idx: nat, e: nat) {
    idx <= e < |s| && s[e] == '}' && Balance(s[idx..e + 1]) == 0
  }

  /** A candidate the JSON-validity test accepts. */
  predicate Accepted(s: string, isJson: string -> bool, idx: nat, e: nat) {
    Candidate(s, idx, e) && isJson(s[idx..e + 1])
  }

  /** `e` ends the shortest accepted candidate. */
  predicate FirstAccepted(s: string, isJson: string -> bool, idx: nat, e: nat) {
    Accepted(s, isJson, idx, e) && forall e' :: idx <= e' < e ==> !Accepted(s, isJson, idx, e')
  }

  /** The scan from position `i` with depth `depth`, as a function. */
  function Scan(s: string, isJson: string -> bool, idx: nat, i: nat, depth: int): string
    requires idx <= i <= |s|
    decreases |s| - i
  {
    if i == |s| then s
    else if s[i] == '}' && depth - 1 == 0 && isJson(s[idx..i + 1]) then s[idx..i + 1]
    else Scan(s, isJson, idx, i + 1, depth + Delta(s[i]))
  }

  /**
   * `extract_json_or_fallback`, with `serde_json::from_str::<Value>(..).is_ok()` as `isJson`:
   * the shortest accepted candidate starting at the first '{', or the input unchanged.
   */
  function ExtractJsonOrFallback(s: string, isJson: string -> bool): string {
    match FindChar(s, '{')
    case None => s
    case Some(idx) => Scan(s, isJson, idx, idx, 0)
  }

  lemma BalanceSnoc(s: string, idx: nat, i: nat)
    requires idx <= i < |s|
    ensures Balance(s[idx..i + 1]) == Balance(s[idx..i]) + Delta(s[i])
  {
    assert s[idx..i + 1][..i - idx] == s[idx..i];
  }

  /** What the scan promises: the first accepted candidate from `idx`, or the input when there is none. */
  ghost predicate ScanResult(s: string, isJson: string -> bool, idx: nat, r: string) {
    || (exists e :: FirstAccepted(s, isJson, idx, e) && r == s[idx..e + 1])
    || ((forall e :: idx <= e < |s| ==> !Accepted(s, isJson, idx, e)) && r == s)
  }

  /** The scan returns the first accepted candidate at or after `i`, or the input when there is none. */
  lemma {:induction false} ScanSpec(s: string, isJson: string -> bool, idx: nat, i: nat, depth: int)
    requires idx <= i <= |s| && depth == Balance(s[idx..i])
    requires forall e :: idx <= e < i ==> !Accepted(s, isJson, idx, e)
    ensures ScanResult(s, isJson, idx, Scan(s, isJson, idx, i, depth))
    decreases |s| - i
  {
    if i < |s| {
      BalanceSnoc(s, idx, i);
      if s[i] == '}' && depth - 1 == 0 && isJson(s[idx..i + 1]) {
        assert FirstAccepted(s, isJson, idx, i);
      } else {
        ScanSpec(s, isJson, idx, i + 1, depth + Delta(s[i]));
      }
    }
  }

  /**
   * With no '{' the input is returned unchanged; otherwise the result is the shortest accepted
   * candidate from the first '{', or the input when no candidate is accepted.
   */
  lemma ExtractSpec(s: string, isJson: string -> bool)
    ensures !HasChar(s, '{') ==> ExtractJsonOrFallback(s, isJson) == s
    ensures HasChar(s, '{') ==> ScanResult(s, isJson, FindChar(s, '{').value, ExtractJsonOrFallback(s, isJson))
  {
    var found := FindChar(s, '{');
    if found.Some? {
      var idx := found.value;
      assert s[idx..idx] == [];
      assert Balance(s[idx..idx]) == 0;
      ScanSpec(s, isJson, idx, idx, 0);
    }
  }

  /** The loop of `extract_json_or_fallback`, returning early on the first accepted candidate. */
  method ExtractJson(s: string, isJson: string -> bool) returns (r: string)
    ensures r == ExtractJsonOrFallback(s, isJson)
    ensures !HasChar(s, '{') ==> r == s
    ensures HasChar(s, '{') ==> ScanResult(s, isJson, FindChar(s, '{').value, r)
  {
    ExtractSpec(s, isJson);
    var found := FindChar(s, '{');
    if found.None? {
      return s;
    }
    var idx := found.value;
    var depth := 0;
    var i := idx;
    while i < |s|
      invariant idx <= i <= |s|
      invariant Scan(s, isJson, idx, idx, 0) == Scan(s, isJson, idx, i, depth)
      decreases |s| - i
    {
      if s[i] == '{' {
        depth := depth + 1;
      } else if s[i] == '}' {
        depth := depth - 1;
        if depth == 0 {
          var candidate := s[idx..i + 1];
          if isJson(candidate) {
            return candidate;
          }
        }
      }
      i := i + 1;
    }
    return s;
  }

  /**
   * Braces inside JSON strings are counted too: in `x{"a":"}"}` the only zero-depth point ends
   * `{"a":"}`, so when that is rejected the whole input comes back, although `{"a":"}"}` is valid.
   */
  lemma BraceInStringDefeatsExtraction(isJson: string -> bool)
    requires !isJson("{\"a\":\"}")
    ensures ExtractJsonOrFallback("x{\"a\":\"}\"}", isJson) == "x{\"a\":\"}\"}"
  {
    var s := "x{\"a\":\"}\"}";
    assert FindChar(s, '{') == Some(1);
    assert s[1..8] == "{\"a\":\"}";
  }

  // ---------------------------------------------------------------------------
  // The registry of UI bindings.
  // ---------------------------------------------------------------------------

  datatype UiKind = Chrome | WinApp | Terminal

  datatype UiKey = UiKey(kind: UiKind, port: u16)

  /** One entry of `maps.json`: `{"p": .., "ui": {"kind": .., "port": ..}}`. */
  datatype Binding = Binding(p: string, kind: string, port: u16)

  /** The kind names `load_from_file` accepts. */
  function KindOf(name: string): (r: Option<UiKind>)
    ensures r.Some? <==> name in {"chrome", "winapp", "terminal"}
  {
    if name == "chrome" then Some(Chrome)
    else if name == "winapp" then Some(WinApp)
    else if name == "terminal" then Some(Terminal)
    else None
  }

  function KindName(k: UiKind): string {
    match k
    case Chrome => "chrome"
    case WinApp => "winapp"
    case Terminal => "terminal"
  }

  /** The accepted names and the kinds are in one-to-one correspondence. */
  lemma KindNamesRoundTrip(k: UiKind, name: string)
    ensures KindOf(KindName(k)) == Some(k)
    ensures KindOf(name) == Some(k) ==> name == KindName(k)
  {
  }

  /** The loop of `load_from_file` from binding `i` on, over the map built so far. */
  function LoadFrom(bs: seq<Binding>, i: nat, acc: map<string, UiKey>): (r: Result<map<string, UiKey>, string>)
    requires i <= |bs|
    decreases |bs| - i
  {
    if i == |bs| then Ok(acc)
    else match KindOf(bs[i].kind)
      case None => Err("unknown ui.kind: " + bs[i].kind)
      case Some(kind) => LoadFrom(bs, i + 1, acc[bs[i].p := UiKey(kind, bs[i].port)])
  }

  /** `Registry::load_from_file` after the file is read and parsed. */
  function Load(bs: seq<Binding>): Result<map<string, UiKey>, string> {
    LoadFrom(bs, 0, map[])
  }

  /** Whether binding `i` is the last one for its p. */
  predicate LastFor(bs: seq<Binding>, i: nat) {
    i < |bs| && forall j :: i < j < |bs| ==> bs[j].p != bs[i].p
  }

  /** Loading from `i` fails exactly when a later kind is unknown, and the error names the first such kind. */
  lemma {:induction false} LoadFromErr(bs: seq<Binding>, i: nat, acc: map<string, UiKey>)
    requires i <= |bs|
    ensures LoadFrom(bs, i, acc).Err? <==> exists j :: i <= j < |bs| && KindOf(bs[j].kind).None?
    ensures LoadFrom(bs, i, acc).Err? ==> exists j :: (&& i <= j < |bs| && KindOf(bs[j].kind).None?
                                                    && (forall m :: i <= m < j ==> KindOf(bs[m].kind).Some?)
                                                    && LoadFrom(bs, i, acc).error == "unknown ui.kind: " + bs[j].kind)
    decreases |bs| - i
  {
    if i < |bs| && KindOf(bs[i].kind).Some? {
      LoadFromErr(bs, i + 1, acc[bs[i].p := UiKey(KindOf(bs[i].kind).value, bs[i].port)]);
    }
  }

  /** A successful load from `i` binds exactly the accumulated keys and the p of every later binding. */
  lemma {:induction false} LoadFromDomain(bs: seq<Binding>, i: nat, acc: map<string, UiKey>)
    requires i <= |bs| && LoadFrom(bs, i, acc).Ok?
    ensures forall p :: p in LoadFrom(bs, i, acc).value <==> (p in acc || exists j :: i <= j < |bs| && bs[j].p == p)
    decreases |bs| - i
  {
    if i < |bs| {
      var acc' := acc[bs[i].p := UiKey(KindOf(bs[i].kind).value, bs[i].port)];
      LoadFromDomain(bs, i + 1, acc');
    }
  }

  /** A key no later binding mentions keeps its accumulated value. */
  lemma {:induction false} LoadFromKeeps(bs: seq<Binding>, i: nat, acc: map<string, UiKey>, p: string)
    requires i <= |bs| && LoadFrom(bs, i, acc).Ok?
    requires p in acc && forall j :: i <= j < |bs| ==> bs[j].p != p
    ensures p in LoadFrom(bs, i, acc).value && LoadFrom(bs, i, acc).value[p] == acc[p]
    decreases |bs| - i
  {
    if i < |bs| {
      var acc' := acc[bs[i].p := UiKey(KindOf(bs[i].kind).value, bs[i].port)];
      LoadFromKeeps(bs, i + 1, acc', p);
    }
  }

  /** In a successful load from `i`, the last binding for a p decides its key. */
  lemma {:induction false} LoadFromLast(bs: seq<Binding>, i: nat, acc: map<string, UiKey>, j: nat)
    requires i <= j && LastFor(bs, j) && LoadFrom(bs, i, acc).Ok?
    ensures bs[j].p in LoadFrom(bs, i, acc).value && KindOf(bs[j].kind).Some?
    ensures LoadFrom(bs, i, acc).value[bs[j].p] == UiKey(KindOf(bs[j].kind).value, bs[j].port)
    decreases |bs| - i
  {
    LoadFromErr(bs, i, acc);
    var acc' := acc[bs[i].p := UiKey(KindOf(bs[i].kind).value, bs[i].port)];
    if j == i {
      LoadFromKeeps(bs, i + 1, acc', bs[i].p);
    } else {
      LoadFromLast(bs, i + 1, acc', j);
    }
  }

  /** The map `load_from_file` builds, specified: the last binding for each p wins; an unknown kind fails. */
  lemma LoadSpec(bs: seq<Binding>)
    ensures Load(bs).Err? <==> exists j :: 0 <= j < |bs| && KindOf(bs[j].kind).None?
    ensures Load(bs).Ok? ==>
      && (forall p :: p in Load(bs).value <==> exists j :: 0 <= j < |bs| && bs[j].p == p)
      && (forall j :: 0 <= j < |bs| && LastFor(bs, j) ==> Load(bs).value[bs[j].p] == UiKey(KindOf(bs[j].kind).value, bs[j].port))
  {
    LoadFromErr(bs, 0, map[]);
    if Load(bs).Ok? {
      LoadFromDomain(bs, 0, map[]);
      forall j | 0 <= j < |bs| && LastFor(bs, j)
        ensures Load(bs).value[bs[j].p] == UiKey(KindOf(bs[j].kind).value, bs[j].port)
      {
        LoadFromLast(bs, 0, map[], j);
      }
    }
  }

  /** Two bindings for the same p: the later one wins. */
  lemma LaterBindingWins(p: string, k1: string, port1: u16, k2: string, port2: u16)
    requires KindOf(k1).Some? && KindOf(k2).Some?
    ensures Load([Binding(p, k1, port1), Binding(p, k2, port2)]) == Ok(map[p := UiKey(KindOf(k2).value, port2)])
  {
    var u1 := UiKey(KindOf(k1).value, port1);
    var u2 := UiKey(KindOf(k2).value, port2);
    var bs := [Binding(p, k1, port1), Binding(p, k2, port2)];
    assert LoadFrom(bs, 2, map[][p := u1][p := u2]) == Ok(map[][p := u1][p := u2]);
    assert LoadFrom(bs, 1, map[][p := u1]) == Ok(map[][p := u1][p := u2]);
    assert map[][p := u1][p := u2] == map[p := u2];
  }

  /** `Registry::get`. */
  function Get(registry: map<string, UiKey>, p: string): (r: Option<UiKey>)
    ensures r.Some? <==> p in registry
    ensures r.Some? ==> r.value == registry[p]
  {
    if p in registry then Some(registry[p]) else None
  }

  // ---------------------------------------------------------------------------
  // `make_ui_client` and `handle`.
  // ---------------------------------------------------------------------------

  /** The UI clients: a terminal on a port, or the placeholder that keeps its key. */
  datatype UiClient = TerminalUi(port: u16) | DummyUi(key: UiKey)

  /** `make_ui_client`: a terminal client only for the Terminal kind. */
  function MakeUiClient(key: UiKey): (c: UiClient)
    ensures c.TerminalUi? <==> key.kind == Terminal
    ensures c.TerminalUi? ==> c.port == key.port
    ensures c.DummyUi? ==> c.key == key
  {
    match key.kind
    case Terminal => TerminalUi(key.port)
    case _ => DummyUi(key)
  }

  datatype Envelope = Envelope(toP: string, fromP: string, body: string)

  /** What `handle` did: the commands sent, in order, and how it ended. */
  datatype Handled = Handled(sent: seq<(UiClient, string)>, outcome: Result<(), string>)

  /**
   * `handle`: both addresses must be bound, the destination first; the body goes to the
   * destination's UI, and the extracted reply goes back to the sender's. `send` is the UI
   * automation, `isJson` the JSON test.
   */
  function Handle(env: Envelope, registry: map<string, UiKey>, send: (UiClient, string) -> Result<string, string>,
                  isJson: string -> bool): (h: Handled)
    ensures env.toP !in registry ==> h == Handled([], Err("no UI bound for " + env.toP))
    ensures env.toP in registry && env.fromP !in registry ==> h == Handled([], Err("no UI bound for " + env.fromP))
    ensures env.toP in registry && env.fromP in registry ==>
      && |h.sent| >= 1 && h.sent[0] == (MakeUiClient(registry[env.toP]), env.body)
      && (|h.sent| == 2 <==> send(MakeUiClient(registry[env.toP]), env.body).Ok?)
  {
    match Get(registry, env.toP)
    case None => Handled([], Err("no UI bound for " + env.toP))
    case Some(toKey) =>
      match Get(registry, env.fromP)
      case None => Handled([], Err("no UI bound for " + env.fromP))
      case Some(fromKey) =>
        var toClient := MakeUiClient(toKey);
        var fromClient := MakeUiClient(fromKey);
        match send(toClient, env.body)
        case Err(e) => Handled([(toClient, env.body)], Err(e))
        case Ok(out) =>
          var reply := ExtractJsonOrFallback(out, isJson);
          match send(fromClient, reply)
          case Err(e) => Handled([(toClient, env.body), (fromClient, reply)], Err(e))
          case Ok(_) => Handled([(toClient, env.body), (fromClient, reply)], Ok(()))
  }

  /** A handled envelope that reached the sender's UI carried the extraction of the destination's output. */
  lemma ReplyIsExtracted(env: Envelope, registry: map<string, UiKey>, send: (UiClient, string) -> Result<string, string>,
                         isJson: string -> bool)
    requires |Handle(env, registry, send, isJson).sent| == 2
    ensures var out := send(MakeUiClient(registry[env.toP]), env.body);
      && out.Ok?
      && Handle(env, registry, send, isJson).sent[1] == (MakeUiClient(registry[env.fromP]), ExtractJsonOrFallback(out.value, isJson))
  {
  }
}

/** The KAIRO-Nexus CLI's choice of the sender's P address and the message it sends. */
module NexusCli {
  import opened Wrappers
  import opened Text

  /** The fields of an agent file that are read. */
  datatype AgentFile = AgentFile(publicKey: Option<string>, meshAddress: Option<string>)

  /**
   * `read_mesh_or_pk` after parsing: a non-blank mesh address as it is, else the first sixteen
   * characters of a long enough public key as four colon-separated groups of four, else nothing.
   */
  function ReadMeshOrPk(f: AgentFile): (r: Option<string>)
    ensures f.meshAddress.Some? && HasOther(f.meshAddress.value, IsRustWhitespace) ==> r == f.meshAddress
    ensures r.None? <==>
      (&& (f.meshAddress.None? || !HasOther(f.meshAddress.value, IsRustWhitespace))
       && (f.publicKey.None? || |f.publicKey.value| < 16))
  {
    TrimNonEmpty(if f.meshAddress.Some? then f.meshAddress.value else "", IsRustWhitespace);
    if f.meshAddress.Some? && RustTrim(f.meshAddress.value) != "" then f.meshAddress
    else if f.publicKey.Some? && |f.publicKey.value| >= 16 then
      var pk := f.publicKey.value;
      Some(pk[0..4] + ":" + pk[4..8] + ":" + pk[8..12] + ":" + pk[12..16])
    else None
  }

  /** The short form derived from a key is 19 characters, its groups the key's first 16 characters. */
  lemma ShortFormLayout(pk: string, mesh: Option<string>)
    requires |pk| >= 16
    requires mesh.None? || !HasOther(mesh.value, IsRustWhitespace)
    ensures var r := ReadMeshOrPk(AgentFile(Some(pk), mesh));
      && r.Some? && |r.value| == 19
      && r.value[4] == ':' && r.value[9] == ':' && r.value[14] == ':'
      && r.value[..4] == pk[..4] && r.value[5..9] == pk[4..8]
      && r.value[10..14] == pk[8..12] && r.value[15..] == pk[12..16]
  {
    TrimNonEmpty(if mesh.Some? then mesh.value else "", IsRustWhitespace);
  }

  /** The places an agent file is looked for, in priority order. */
  datatype Source = NamedConfig(name: string) | ExplicitPath(path: string) | HomeConfig(dir: string)

  /**
   * One step of `resolve_from_p_address`: a present file that fails to read or parse ends the
   * search with its error; a present file with an address ends it with that address.
   */
  function TrySource(src: Source, exists_: Source -> bool, load: Source -> Result<AgentFile, string>): Result<Option<string>, string> {
    if !exists_(src) then Ok(None)
    else match load(src)
      case Err(e) => Err(e)
      case Ok(f) => Ok(ReadMeshOrPk(f))
  }

  /** What a source that did not come up empty ends the search with: its error or its address. */
  function Decided(t: Result<Option<string>, string>): Result<string, string>
    requires t != Ok(None)
  {
    if t.Err? then Err(t.error) else Ok(t.value.value)
  }

  const NOT_FOUND: string := "agent config not found (name/path/home). Run `setup_agent` first."
  const NO_HOME: string := "home dir not found"

  /**
   * `resolve_from_p_address`: the named config, then the explicit path, then `$KAIRO_HOME` or
   * the home directory; the first address found wins.
   */
  function Resolve(name: Option<string>, agentPath: Option<string>, kairoHome: Option<string>, homeDir: Option<string>,
                   exists_: Source -> bool, load: Source -> Result<AgentFile, string>): (r: Result<string, string>)
    ensures name.Some? && TrySource(NamedConfig(name.value), exists_, load).Ok?
            && TrySource(NamedConfig(name.value), exists_, load).value.Some? ==>
              r == Ok(TrySource(NamedConfig(name.value), exists_, load).value.value)
    ensures name.Some? && TrySource(NamedConfig(name.value), exists_, load).Err? ==>
              r == Err(TrySource(NamedConfig(name.value), exists_, load).error)
    ensures kairoHome.None? && homeDir.None? && r.Ok? ==>
              (name.Some? && TrySource(NamedConfig(name.value), exists_, load) == Ok(Some(r.value)))
              || (agentPath.Some? && TrySource(ExplicitPath(agentPath.value), exists_, load) == Ok(Some(r.value)))
    // The full priority order: the first source that is present and yields an address or an
    // error decides; the home directory is needed only when neither earlier source decides.
    ensures var named := if name.Some? then TrySource(NamedConfig(name.value), exists_, load) else Ok(None);
            var explicit := if agentPath.Some? then TrySource(ExplicitPath(agentPath.value), exists_, load) else Ok(None);
            var home := if kairoHome.Some? then kairoHome else homeDir;
            && (named != Ok(None) ==> r == Decided(named))
            && (named == Ok(None) && explicit != Ok(None) ==> r == Decided(explicit))
            && (named == Ok(None) && explicit == Ok(None) && home.None? ==> r == Err(NO_HOME))
            && (named == Ok(None) && explicit == Ok(None) && home.Some? ==>
                  var fromHome := TrySource(HomeConfig(home.value), exists_, load);
                  r == if fromHome == Ok(None) then Err(NOT_FOUND) else Decided(fromHome))
  {
    var named := if name.Some? then TrySource(NamedConfig(name.value), exists_, load) else Ok(None);
    if named.Err? then Err(named.error)
    else if named.value.Some? then Ok(named.value.value)
    else
      var explicit := if agentPath.Some? then TrySource(ExplicitPath(agentPath.value), exists_, load) else Ok(None);
      if explicit.Err? then Err(explicit.error)
      else if explicit.value.Some? then Ok(explicit.value.value)
      else
        var home := if kairoHome.Some? then kairoHome else homeDir;
        if home.None? then Err(NO_HOME)
        else
          var fromHome := TrySource(HomeConfig(home.value), exists_, load);
          if fromHome.Err? then Err(fromHome.error)
          else if fromHome.value.Some? then Ok(fromHome.value.value)
          else Err(NOT_FOUND)
  }

  /** When no source yields anything and none fails, resolution is the "not found" error. */
  lemma NothingFound(name: Option<string>, agentPath: Option<string>, kairoHome: Option<string>, homeDir: Option<string>,
                     exists_: Source -> bool, load: Source -> Result<AgentFile, string>)
    requires forall s :: TrySource(s, exists_, load) == Ok(None)
    requires kairoHome.Some? || homeDir.Some?
    ensures Resolve(name, agentPath, kairoHome, homeDir, exists_, load) == Err(NOT_FOUND)
  {
  }

  /** `$KAIRO_HOME` takes precedence over the home directory. */
  lemma KairoHomeFirst(name: Option<string>, agentPath: Option<string>, h: string, homeDir: Option<string>,
                       exists_: Source -> bool, load: Source -> Result<AgentFile, string>)
    requires name.None? && agentPath.None?
    ensures Resolve(name, agentPath, Some(h), homeDir, exists_, load)
         == (var t := TrySource(HomeConfig(h), exists_, load);
             if t.Err? then Err(t.error) else if t.value.Some? then Ok(t.value.value) else Err(NOT_FOUND))
  {
  }

  datatype Payload = Payload(kind: string, content: string)

  /** The LSC-TCP v0.1 message the send command posts. */
  datatype LscTcpMessage = LscTcpMessage(version: string, fromPAddress: string, toPAddress: string,
                                         taskId: string, payload: Payload, signature: string)

  /** The message for `send`; `taskId` is the fresh UUID. */
  function BuildMessage(fromP: string, to: string, message: string, payloadType: string, taskId: string): (m: LscTcpMessage)
    ensures m.version == "0.1.0" && m.signature == ""
    ensures m.fromPAddress == fromP && m.toPAddress == to && m.taskId == taskId
    ensures m.payload == Payload(payloadType, message)
  {
    LscTcpMessage("0.1.0", fromP, to, taskId, Payload(payloadType, message), "")
  }
}

=== FILE: nexus_tasks.dfy ===
/** The Python Nexus: reading a task file, and choosing where it goes. */
module NexusTasks {
  import opened Wrappers
  import opened Text
  import opened Json

  // ---------------------------------------------------------------------------
  // `str.splitlines`.
  // ---------------------------------------------------------------------------

  /** The characters `str.splitlines` breaks at; "\r\n" counts as one break. */
  predicate IsLineBreak(c: char) {
    var v := c as int;
    (0x0A <= v <= 0x0D) || (0x1C <= v <= 0x1E) || v == 0x85 || v == 0x2028 || v == 0x2029
  }

  predicate NoBreaks(s: string) {
    forall i :: 0 <= i < |s| ==> !IsLineBreak(s[i])
  }

  /** The index of the first line break, or `|s|` when there is none. */
  function FirstBreak(s: string): (i: nat)
    ensures i <= |s| && NoBreaks(s[..i])
    ensures i < |s| ==> IsLineBreak(s[i])
    decreases |s|
  {
    if |s| == 0 then 0
    else if IsLineBreak(s[0]) then 0
    else
      var j := FirstBreak(s[1..]);
      assert forall k :: 0 <= k < j ==> s[1..][k] == s[k + 1];
      j + 1
  }

  /** `s.splitlines()`: the text between breaks, with no empty line after a final break. */
  function SplitLines(s: string): (lines: seq<string>)
    ensures forall i :: 0 <= i < |lines| ==> NoBreaks(lines[i])
    decreases |s|
  {
    if |s| == 0 then []
    else
      var i := FirstBreak(s);
      if i == |s| then [s]
      else
        var k := if s[i] == '\r' && i + 1 < |s| && s[i + 1] == '\n' then 2 else 1;
        [s[..i]] + SplitLines(s[i + k..])
  }

  /** A break after a stretch with none is the first break. */
  lemma FirstBreakAt(s: string, i: nat)
    requires i < |s| && NoBreaks(s[..i]) && IsLineBreak(s[i])
    ensures FirstBreak(s) == i
  {
  }

  /** Lines with no breaks in them, joined by "\n", split back into the same lines when the last is not empty. */
  lemma {:induction false} SplitJoinRoundTrip(lines: seq<string>)
    requires |lines| > 0 && |lines[|lines| - 1]| > 0
    requires forall i :: 0 <= i < |lines| ==> NoBreaks(lines[i])
    ensures SplitLines(Join(lines, "\n")) == lines
    decreases |lines|
  {
    var s := Join(lines, "\n");
    if |lines| == 1 {
      assert s == lines[0];
      assert !(FirstBreak(s) < |s|);
    } else {
      var l0 := lines[0];
      var rest := Join(lines[1..], "\n");
      assert s == l0 + "\n" + rest;
      assert s[..|l0|] == l0;
      assert s[|l0|] == '\n';
      assert s[|l0| + 1..] == rest;
      FirstBreakAt(s, |l0|);
      SplitJoinRoundTrip(lines[1..]);
      assert SplitLines(s) == [l0] + lines[1..];
    }
  }

  /** "\r\n" is one break, but "\n\r" is two. */
  lemma CrLfIsOneBreak()
    ensures SplitLines("a\r\nb") == ["a", "b"]
    ensures SplitLines("a\n\rb") == ["a", "", "b"]
  {
    var s := "a\r\nb";
    assert s[1..] == "\r\nb";
    assert FirstBreak(s) == 1;
    assert s[3..] == "b" && s[..1] == "a";
    assert "b"[1..] == "";
    assert SplitLines("b") == ["b"];
    var t := "a\n\rb";
    assert t[1..] == "\n\rb";
    assert FirstBreak(t) == 1;
    assert t[2..] == "\rb" && t[..1] == "a";
    assert FirstBreak("\rb") == 0;
    assert "\rb"[1..] == "b" && "\rb"[..0] == "";
  }

  // ---------------------------------------------------------------------------
  // `parse_task`.
  // ---------------------------------------------------------------------------

  predicate IsBom(c: char) { c == '\U{FEFF}' }

  /** `ln.strip("\U{FEFF}").rstrip()`. */
  function CleanLine(ln: string): string {
    PyRStrip(Trim(ln, IsBom))
  }

  function CleanLines(lines: seq<string>): (r: seq<string>)
    ensures |r| == |lines| && forall i :: 0 <= i < |lines| ==> r[i] == CleanLine(lines[i])
  {
    seq(|lines|, i requires 0 <= i < |lines| => CleanLine(lines[i]))
  }

  /** `[ln for ln in lines if ln.strip()]`. */
  function NonBlank(lines: seq<string>): (r: seq<string>)
    ensures |r| <= |lines|
    ensures forall i :: 0 <= i < |r| ==> HasOther(r[i], IsPySpace)
    decreases |lines|
  {
    if |lines| == 0 then []
    else if HasOther(lines[0], IsPySpace) then [lines[0]] + NonBlank(lines[1..])
    else NonBlank(lines[1..])
  }

  /** The filter keeps every non-blank line, in order: with none blank it keeps them all. */
  lemma {:induction false} NonBlankKeepsAll(lines: seq<string>)
    requires forall i :: 0 <= i < |lines| ==> HasOther(lines[i], IsPySpace)
    ensures NonBlank(lines) == lines
    decreases |lines|
  {
    if |lines| > 0 {
      NonBlankKeepsAll(lines[1..]);
    }
  }

  /** The filter drops every blank line: with all blank, nothing is left. */
  lemma {:induction false} NonBlankDropsAll(lines: seq<string>)
    requires forall i :: 0 <= i < |lines| ==> !HasOther(lines[i], IsPySpace)
    ensures NonBlank(lines) == []
    decreases |lines|
  {
    if |lines| > 0 {
      NonBlankDropsAll(lines[1..]);
    }
  }

  datatype Task = Empty | Stak(data: string) | Message(data: string)

  const STAK: string := "@stak"

  /** The cleaned, non-blank lines of a task file. */
  function TaskLines(content: string): (ne: seq<string>)
    ensures forall i :: 0 <= i < |ne| ==> HasOther(ne[i], IsPySpace)
  {
    NonBlank(CleanLines(SplitLines(content)))
  }

  /** The "@stak" payload: the rest of the first line, then the other lines, each part stripped. */
  function StakPayload(first: string, others: seq<string>): string
    requires StartsWith(first, STAK)
  {
    var payload := PyStrip(first[|STAK|..]);
    var rest := PyStrip(Join(others, "\n"));
    if rest != "" then (if payload != "" then payload + "\n" + rest else rest) else payload
  }

  /** `parse_task`. */
  function ParseTask(content: string): (t: Task)
    ensures t.Empty? <==> |TaskLines(content)| == 0
    ensures t.Stak? <==> |TaskLines(content)| > 0 && StartsWith(TaskLines(content)[0], STAK)
    ensures t.Stak? ==> t.data == StakPayload(TaskLines(content)[0], TaskLines(content)[1..])
    ensures t.Message? ==> t.data == Join(TaskLines(content), "\n")
  {
    var ne := TaskLines(content);
    if |ne| == 0 then Empty
    else if StartsWith(ne[0], STAK) then Stak(StakPayload(ne[0], ne[1..]))
    else Message(Join(ne, "\n"))
  }

  /**
   * A stak task carries data exactly when some text follows "@stak": on its own line after the
   * marker, or on any later non-blank line.
   */
  lemma StakDataNonEmpty(content: string)
    requires ParseTask(content).Stak?
    ensures var ne := TaskLines(content);
      ParseTask(content).data != "" <==> HasOther(ne[0][|STAK|..], IsPySpace) || |ne| > 1
  {
    var ne := TaskLines(content);
    StakPayloadNonEmpty(ne[0], ne[1..]);
  }

  lemma StakPayloadNonEmpty(first: string, others: seq<string>)
    requires StartsWith(first, STAK)
    requires forall i :: 0 <= i < |others| ==> HasOther(others[i], IsPySpace)
    ensures StakPayload(first, others) != "" <==> HasOther(first[|STAK|..], IsPySpace) || |others| > 0
  {
    TrimNonEmpty(first[|STAK|..], IsPySpace);
    var joined := Join(others, "\n");
    TrimNonEmpty(joined, IsPySpace);
    if |others| > 0 {
      var j :| 0 <= j < |others[0]| && !IsPySpace(others[0][j]);
      if |others| > 1 {
        assert joined == others[0] + "\n" + Join(others[1..], "\n");
      }
      assert joined[j] == others[0][j];
    }
  }

  /** A line as cleaning leaves it: no BOM at either end and no trailing whitespace. */
  predicate Clean(ln: string) {
    && (|ln| > 0 ==> !IsBom(ln[0]) && !IsBom(ln[|ln| - 1]) && !IsPySpace(ln[|ln| - 1]))
  }

  lemma CleanLineFixed(ln: string)
    requires Clean(ln)
    ensures CleanLine(ln) == ln
  {
  }

  /** Clean, non-blank lines with no breaks, joined by "\n", are exactly the task's lines. */
  lemma TaskLinesOfJoin(lines: seq<string>)
    requires |lines| > 0
    requires forall i :: 0 <= i < |lines| ==> NoBreaks(lines[i]) && Clean(lines[i]) && HasOther(lines[i], IsPySpace)
    ensures TaskLines(Join(lines, "\n")) == lines
  {
    TrimNonEmpty(lines[|lines| - 1], IsPySpace);
    SplitJoinRoundTrip(lines);
    CleanLinesFixed(lines);
    NonBlankKeepsAll(lines);
  }

  lemma CleanLinesFixed(lines: seq<string>)
    requires forall i :: 0 <= i < |lines| ==> Clean(lines[i])
    ensures CleanLines(lines) == lines
  {
    forall i | 0 <= i < |lines| ensures CleanLines(lines)[i] == lines[i] {
      CleanLineFixed(lines[i]);
    }
  }

  /**
   * A message written as clean, non-blank lines separated by "\n" comes back whole: splitting,
   * cleaning and filtering undo the join.
   */
  lemma PlainMessage(lines: seq<string>)
    requires |lines| > 0 && !StartsWith(lines[0], STAK)
    requires forall i :: 0 <= i < |lines| ==> NoBreaks(lines[i]) && Clean(lines[i]) && HasOther(lines[i], IsPySpace)
    ensures ParseTask(Join(lines, "\n")) == Message(Join(lines, "\n"))
  {
    TaskLinesOfJoin(lines);
  }

  /** Blank and whitespace-only text is the empty task. */
  lemma BlankIsEmpty(lines: seq<string>)
    requires forall i :: 0 <= i < |lines| ==> !HasOther(lines[i], IsPySpace)
    ensures ParseTask(Join(lines, "\n")).Empty?
  {
    var cl := CleanLines(SplitLines(Join(lines, "\n")));
    forall i | 0 <= i < |cl| ensures !HasOther(cl[i], IsPySpace) {
      BlankClean(Join(lines, "\n"), lines, i);
    }
    NonBlankDropsAll(cl);
  }

  /** Every line split out of blank text, once cleaned, is blank. */
  lemma BlankClean(s: string, lines: seq<string>, i: nat)
    requires s == Join(lines, "\n")
    requires forall j :: 0 <= j < |lines| ==> !HasOther(lines[j], IsPySpace)
    requires i < |SplitLines(s)|
    ensures !HasOther(CleanLine(SplitLines(s)[i]), IsPySpace)
  {
    JoinBlank(lines);
    var ln := SplitLines(s)[i];
    SplitLinesInside(s, i);
    TrimInside(ln, IsBom);
    TrimEndInside(Trim(ln, IsBom), IsPySpace);
  }

  /** Joining blank lines with "\n" gives text whose every character is whitespace. */
  lemma {:induction false} JoinBlank(lines: seq<string>)
    requires forall j :: 0 <= j < |lines| ==> !HasOther(lines[j], IsPySpace)
    ensures !HasOther(Join(lines, "\n"), IsPySpace)
    decreases |lines|
  {
    if |lines| > 1 {
      JoinBlank(lines[1..]);
      var r := Join(lines[1..], "\n");
      var s := Join(lines, "\n");
      assert s == lines[0] + "\n" + r;
      forall k | 0 <= k < |s| ensures IsPySpace(s[k]) {
        if k < |lines[0]| {
          assert s[k] == lines[0][k];
        } else if k > |lines[0]| {
          assert s[k] == r[k - |lines[0]| - 1];
        }
      }
    } else if |lines| == 1 {
      assert Join(lines, "\n") == lines[0];
    }
  }

  /** A split line is a slice of the text. */
  lemma {:induction false} SplitLinesInside(s: string, i: nat)
    requires i < |SplitLines(s)|
    requires !HasOther(s, IsPySpace)
    ensures !HasOther(SplitLines(s)[i], IsPySpace)
    decreases |s|
  {
    var j := FirstBreak(s);
    if j < |s| {
      var k := if s[j] == '\r' && j + 1 < |s| && s[j + 1] == '\n' then 2 else 1;
      var t := s[j + k..];
      var all, rest := SplitLines(s), SplitLines(t);
      assert all == [s[..j]] + rest;
      if i > 0 {
        assert all[i] == rest[i - 1];
        NoOtherSlice(s, j + k, |s|, IsPySpace);
        assert t == s[j + k..|s|];
        SplitLinesInside(t, i - 1);
      } else {
        NoOtherSlice(s, 0, j, IsPySpace);
        assert s[..j] == s[0..j];
      }
    } else {
      assert SplitLines(s) == [s];
    }
  }

  /** Trimming keeps a slice, so it keeps "every character is whitespace". */
  lemma TrimInside(s: string, p: char -> bool)
    requires !HasOther(s, IsPySpace)
    ensures !HasOther(Trim(s, p), IsPySpace)
  {
    TrimStartSpec(s, p);
    var t := TrimStart(s, p);
    assert forall m :: 0 <= m < |t| ==> t[m] == s[|s| - |t| + m];
    TrimEndInside(t, p);
  }

  lemma TrimEndInside(s: string, p: char -> bool)
    requires !HasOther(s, IsPySpace)
    ensures !HasOther(TrimEnd(s, p), IsPySpace)
  {
    TrimEndSpec(s, p);
  }

  lemma StripExamples()
    ensures PyStrip(" hello") == "hello" && PyStrip("world") == "world"
  {
    assert " hello"[1..] == "hello";
    assert TrimStart(" hello", IsPySpace) == "hello";
    assert TrimEnd("hello", IsPySpace) == "hello";
    assert TrimStart("world", IsPySpace) == "world";
    assert TrimEnd("world", IsPySpace) == "world";
  }

  lemma StakExampleLines()
    ensures TaskLines("@stak hello\nworld") == ["@stak hello", "world"]
  {
    var l1, l2 := "@stak hello", "world";
    assert Join([l1, l2], "\n") == "@stak hello\nworld";
    assert NoBreaks(l1) && Clean(l1);
    assert NoBreaks(l2) && Clean(l2);
    assert HasOther(l1, IsPySpace) by { assert !IsPySpace(l1[0]); }
    assert HasOther(l2, IsPySpace) by { assert !IsPySpace(l2[0]); }
    TaskLinesOfJoin([l1, l2]);
  }

  lemma StakExamplePayload()
    ensures StartsWith("@stak hello", STAK) && StakPayload("@stak hello", ["world"]) == "hello\nworld"
  {
    assert "@stak hello"[5..] == " hello";
    assert Join(["world"], "\n") == "world";
    StripExamples();
  }

  /** "@stak" on the first line: the rest of that line, then the other lines. */
  lemma StakExample()
    ensures ParseTask("@stak hello\nworld") == Stak("hello\nworld")
  {
    var l1, l2 := "@stak hello", "world";
    StakExampleLines();
    assert StartsWith(l1, STAK);
    StakExamplePayload();
    assert [l1, l2][1..] == [l2];
  }

  /** A space before "@stak" survives cleaning, so the line is a plain message. */
  lemma LeadingSpaceIsMessage()
    ensures ParseTask(" @stak x") == Message(" @stak x")
  {
    var l := " @stak x";
    assert !IsPySpace(l[1]);
    assert !StartsWith(l, STAK) by { assert l[0] != STAK[0]; }
    PlainMessage([l]);
  }

  // ---------------------------------------------------------------------------
  // `choose_destination`.
  // ---------------------------------------------------------------------------

  /** What `choose_destination` does: an entry, None, or an exception from `.get` on a non-dict. */
  datatype Choice = Chosen(dest: Json) | NoDestination | Raises

  /** `choose_destination(addresses, key)`. */
  function ChooseDestination(addresses: seq<(string, Json)>, key: string): (c: Choice)
    ensures c.Chosen? <==> (&& Lookup(addresses, key).Some? && Lookup(addresses, key).value.Obj?
                            && Get(Lookup(addresses, key).value, "pid").Some?
                            && Truthy(Get(Lookup(addresses, key).value, "pid").value))
    ensures c.Chosen? ==> Lookup(addresses, key) == Some(c.dest)
    ensures c.Raises? <==> Lookup(addresses, key).Some? && Truthy(Lookup(addresses, key).value)
                           && !Lookup(addresses, key).value.Obj?
  {
    match Lookup(addresses, key)
    case None => NoDestination
    case Some(dest) =>
      if !Truthy(dest) then NoDestination
      else if !dest.Obj? then Raises
      else match Get(dest, "pid")
        case None => NoDestination
        case Some(pid) => if Truthy(pid) then Chosen(dest) else NoDestination
  }

  /** A pid of 0 counts as unset. */
  lemma ZeroPidIsUnset(key: string)
    ensures ChooseDestination([(key, Obj([("pid", Num(0.0))]))], "pid" + key) == NoDestination
    ensures ChooseDestination([(key, Obj([("pid", Num(0.0))]))], key) == NoDestination
  {
    assert key != "pid" + key by { assert |key| != |"pid" + key|; }
  }
}

/** The Python Nexus's FIFO of pending "@stak" items. */
module StakQueues {
  import opened Wrappers

  datatype StakQueue = StakQueue(items: seq<string>)

  function New(): (q: StakQueue)
    ensures Len(q) == 0
  {
    StakQueue([])
  }

  function Len(q: StakQueue): nat { |q.items| }

  /** `peek_all`: the items, oldest first. */
  function PeekAll(q: StakQueue): seq<string> { q.items }

  /** `push`: the item goes to the back. */
  function Push(q: StakQueue, item: string): (r: StakQueue)
    ensures Len(r) == Len(q) + 1
    ensures PeekAll(r)[..Len(q)] == PeekAll(q) && PeekAll(r)[Len(q)] == item
  {
    StakQueue(q.items + [item])
  }

  /** `pop`: the oldest item and the queue without it, or None and the queue unchanged. */
  function Pop(q: StakQueue): (r: (Option<string>, StakQueue))
    ensures Len(q) == 0 <==> r.0.None?
    ensures r.0.None? ==> r.1 == q
    ensures r.0.Some? ==> Len(r.1) == Len(q) - 1 && [r.0.value] + PeekAll(r.1) == PeekAll(q)
  {
    if |q.items| == 0 then (None, q) else (Some(q.items[0]), StakQueue(q.items[1..]))
  }

  /** `clear`. */
  function Clear(q: StakQueue): (r: StakQueue)
    ensures Len(r) == 0 && r == New()
  {
    StakQueue([])
  }

  function PushAll(q: StakQueue, xs: seq<string>): StakQueue
    decreases |xs|
  {
    if |xs| == 0 then q else PushAll(Push(q, xs[0]), xs[1..])
  }

  /** Pops until the queue is empty, collecting what comes out. */
  function Drain(q: StakQueue): (r: seq<string>)
    ensures |r| == Len(q)
    decreases Len(q)
  {
    match Pop(q)
    case (None, _) => []
    case (Some(x), rest) => [x] + Drain(rest)
  }

  lemma {:induction false} PushAllAppends(q: StakQueue, xs: seq<string>)
    ensures PeekAll(PushAll(q, xs)) == PeekAll(q) + xs
    decreases |xs|
  {
    if |xs| > 0 {
      PushAllAppends(Push(q, xs[0]), xs[1..]);
      assert PeekAll(Push(q, xs[0])) == PeekAll(q) + [xs[0]];
      assert [xs[0]] + xs[1..] == xs;
    }
  }

  lemma {:induction false} DrainIsPeekAll(q: StakQueue)
    ensures Drain(q) == PeekAll(q)
    decreases Len(q)
  {
    if Len(q) > 0 {
      DrainIsPeekAll(Pop(q).1);
    }
  }

  /** FIFO: items come out in the order they went in, after those already queued. */
  lemma Fifo(q: StakQueue, xs: seq<string>)
    ensures Drain(PushAll(q, xs)) == PeekAll(q) + xs
    ensures Drain(PushAll(New(), xs)) == xs
  {
    PushAllAppends(q, xs);
    DrainIsPeekAll(PushAll(q, xs));
    PushAllAppends(New(), xs);
    DrainIsPeekAll(PushAll(New(), xs));
  }

  /** Pushing onto a non-empty queue does not change what pops next. */
  lemma PushThenPop(q: StakQueue, item: string)
    requires Len(q) > 0
    ensures Pop(Push(q, item)).0 == Pop(q).0
    ensures Pop(Push(q, item)).1 == Push(Pop(q).1, item)
  {
    assert (q.items + [item])[1..] == q.items[1..] + [item];
  }
}

=== FILE: override.dfy ===
/** `verify_override_package`: counts quorum signatures over a payload and compares with a threshold. */
module Override {
  import opened Wrappers
  import opened Bytes
  import opened Text
  import opened Crypto

  /** `signatures` maps a signatory's p_address to its hex signature; `newValue` is carried but not signed here. */
  datatype OverridePackage = OverridePackage(newValue: string, signatures: map<string, string>)

  /**
   * Whether the signature of `addr` counts: the signatory has a quorum key, both hex strings
   * decode, the key parses, the signature is 64 bytes, and it verifies over the payload's bytes.
   * Any failure skips the signature without error.
   */
  predicate Counts(ed: Ed25519, quorumKeys: map<string, string>, payload: string, addr: string, sigHex: string) {
    && addr in quorumKeys
    && match (HexDecode(quorumKeys[addr]), HexDecode(sigHex))
       case (Some(pk), Some(sig)) => ed.keyOk(pk) && SignatureParses(sig) && ed.verify(pk, Utf8(payload), sig)
       case _ => false
  }

  /** The signatories whose signatures count. */
  ghost function ValidSigners(ed: Ed25519, pkg: OverridePackage, quorumKeys: map<string, string>, payload: string): set<string> {
    set a | a in pkg.signatures && Counts(ed, quorumKeys, payload, a, pkg.signatures[a])
  }

  /** The members of `keys` satisfying `c`. */
  ghost function Where(keys: set<string>, c: string -> bool): set<string> {
    set a | a in keys && c(a)
  }

  /** Counts the members of `keys` satisfying `c`, visiting them in an unspecified order. */
  method CountWhere(keys: set<string>, c: string -> bool) returns (n: nat)
    ensures n == |Where(keys, c)|
  {
    n := 0;
    var done: set<string> := {};
    var remaining := keys;
    while remaining != {}
      invariant remaining == keys - done
      invariant done <= keys
      invariant n == |Where(done, c)|
      decreases |remaining|
    {
      var a :| a in remaining;
      if c(a) {
        assert Where(done + {a}, c) == Where(done, c) + {a};
        n := n + 1;
      } else {
        assert Where(done + {a}, c) == Where(done, c);
      }
      done := done + {a};
      remaining := remaining - {a};
    }
    assert done == keys;
  }

  /**
   * Visits the signatures in an unspecified (hash map) order and counts those that verify.
   * The result is true iff the number of distinct counted signatories reaches the threshold.
   */
  method VerifyOverridePackage(ed: Ed25519, pkg: OverridePackage, quorumKeys: map<string, string>, payload: string, quorumThreshold: nat)
    returns (ok: bool, valid: nat)
    ensures valid == |ValidSigners(ed, pkg, quorumKeys, payload)|
    ensures ok <==> valid >= quorumThreshold
  {
    var sigs := pkg.signatures;
    valid := CountWhere(sigs.Keys, a => a in sigs && Counts(ed, quorumKeys, payload, a, sigs[a]));
    assert Where(sigs.Keys, a => a in sigs && Counts(ed, quorumKeys, payload, a, sigs[a]))
        == ValidSigners(ed, pkg, quorumKeys, payload);
    ok := valid >= quorumThreshold;
  }

  /** The decision as a function of the number of counted signatories. */
  ghost predicate Accepted(ed: Ed25519, pkg: OverridePackage, quorumKeys: map<string, string>, payload: string, threshold: nat) {
    |ValidSigners(ed, pkg, quorumKeys, payload)| >= threshold
  }

  lemma {:induction false} SubsetCard<T>(a: set<T>, b: set<T>)
    requires a <= b
    ensures |a| <= |b|
    decreases |b|
  {
    if b != {} {
      var x :| x in b;
      SubsetCard(a - {x}, b - {x});
    }
  }

  /** Each signatory counts at most once, so the count never exceeds the number of signatures. */
  lemma CountBounded(ed: Ed25519, pkg: OverridePackage, quorumKeys: map<string, string>, payload: string)
    ensures |ValidSigners(ed, pkg, quorumKeys, payload)| <= |pkg.signatures|
  {
    SubsetCard(ValidSigners(ed, pkg, quorumKeys, payload), pkg.signatures.Keys);
  }

  /** Raising the threshold never turns a rejection into an acceptance; threshold 0 always accepts. */
  lemma ThresholdMonotone(ed: Ed25519, pkg: OverridePackage, quorumKeys: map<string, string>, payload: string, t1: nat, t2: nat)
    requires t1 <= t2
    ensures Accepted(ed, pkg, quorumKeys, payload, t2) ==> Accepted(ed, pkg, quorumKeys, payload, t1)
    ensures Accepted(ed, pkg, quorumKeys, payload, 0)
  {
  }

  /** A signatory without a quorum key, or with malformed hex, is never counted. */
  lemma SkippedSignatures(ed: Ed25519, pkg: OverridePackage, quorumKeys: map<string, string>, payload: string, addr: string)
    requires addr in pkg.signatures
    requires addr !in quorumKeys || HexDecode(quorumKeys[addr]).None? || HexDecode(pkg.signatures[addr]).None?
    ensures addr !in ValidSigners(ed, pkg, quorumKeys, payload)
  {
  }

  /** A signatory whose key is on record and who genuinely signed the payload is counted. */
  lemma GenuineSignatureCounts(ed: Ed25519, pkg: OverridePackage, quorumKeys: map<string, string>, payload: string, addr: string, secretKey: Bytes)
    requires Sound(ed)
    requires addr in quorumKeys && quorumKeys[addr] == HexEncode(ed.publicOf(secretKey))
    requires addr in pkg.signatures && pkg.signatures[addr] == HexEncode(ed.sign(secretKey, Utf8(payload)))
    ensures addr in ValidSigners(ed, pkg, quorumKeys, payload)
  {
    HexRoundTrip(ed.publicOf(secretKey));
    HexRoundTrip(ed.sign(secretKey, Utf8(payload)));
  }
}

=== FILE: packet_parser.dfy ===
/** `PacketParser`: the receive side's strict `last + 1` anti-replay counter. */
module PacketParser {
  import opened Wrappers
  import opened Bytes

  /** The parser's state; `lastReceivedSeqId` is the last sequence number accepted. */
  datatype Parser = Parser(sessionKey: Bytes, lastReceivedSeqId: u64)

  /** The two optional FlatBuffers fields `parse` reads. */
  datatype FbPacket = FbPacket(encryptedSequenceId: Option<Bytes>, encryptedPayload: Option<Bytes>)

  datatype ParseError = MissingSequenceId | PacketSequenceMismatch | MissingPayload

  /** A fresh parser has accepted nothing, so the first acceptable sequence number is 1. */
  function NewParser(sessionKey: Bytes): (p: Parser)
    ensures p.sessionKey == sessionKey
    ensures NextExpected(p) == 1
  {
    Parser(sessionKey, 0)
  }

  /** `last + 1` on a `u64`, wrapping as a release build does. */
  function NextExpected(p: Parser): (n: u64)
    ensures n == 0 <==> p.lastReceivedSeqId == U64_LIMIT - 1
    ensures n != 0 ==> n == p.lastReceivedSeqId + 1
  {
    (p.lastReceivedSeqId + 1) % U64_LIMIT
  }

  function Min(a: nat, b: nat): nat { if a < b then a else b }

  /**
   * `decrypt_sequence_id`: the first min(len, 8) bytes, right-padded with zeros to 8 bytes,
   * read big-endian. Its result is the unique u64 whose big-endian bytes are that padded field.
   */
  function DecryptSequenceId(encrypted: Bytes): (r: u64)
    ensures var n := Min(|encrypted|, 8);
      && ToBE(r, 8)[..n] == encrypted[..n]
      && forall i :: n <= i < 8 ==> ToBE(r, 8)[i] == 0
  {
    var n := Min(|encrypted|, 8);
    var arr := encrypted[..n] + seq(8 - n, _ => 0);
    FromBEBound(arr);
    Pow256Values();
    BEOfValue(arr);
    FromBE(arr)
  }

  /**
   * `parse`: a missing sequence field or a sequence other than `last + 1` is rejected with the
   * state unchanged. An acceptable sequence advances the counter BEFORE the payload is looked
   * at, so a packet without payload is an error that still consumes its sequence number.
   */
  function Parse(p: Parser, packet: FbPacket): (res: (Parser, Result<(Bytes, u64), ParseError>))
    ensures res.0.sessionKey == p.sessionKey
    ensures res.0 != p ==> res.0.lastReceivedSeqId == NextExpected(p)
    ensures res.1.Ok? ==> res.0.lastReceivedSeqId == res.1.value.1 == NextExpected(p)
                          && Some(res.1.value.0) == packet.encryptedPayload
    ensures res.1 == Err(MissingSequenceId) <==> packet.encryptedSequenceId.None?
    ensures res.1 == Err(MissingSequenceId) ==> res.0 == p
    ensures packet.encryptedSequenceId.Some? ==>
      (res.1 == Err(PacketSequenceMismatch) <==> DecryptSequenceId(packet.encryptedSequenceId.value) != NextExpected(p))
    ensures res.1 == Err(PacketSequenceMismatch) ==> res.0 == p
    ensures res.1 == Err(MissingPayload) ==> packet.encryptedPayload.None? && res.0.lastReceivedSeqId == NextExpected(p)
  {
    match packet.encryptedSequenceId
    case None => (p, Err(MissingSequenceId))
    case Some(encrypted) =>
      var seqId := DecryptSequenceId(encrypted);
      if seqId != NextExpected(p) then (p, Err(PacketSequenceMismatch))
      else
        var p' := p.(lastReceivedSeqId := seqId);
        match packet.encryptedPayload
        case None => (p', Err(MissingPayload))
        case Some(payload) => (p', Ok((payload, seqId)))
  }

  /** Whether `parse` moved the counter forward. */
  predicate Advanced(p: Parser, packet: FbPacket) {
    Parse(p, packet).0 != p
  }

  /** A packet carrying sequence number `n` big-endian. */
  function PacketWithSeq(n: u64, payload: Option<Bytes>): FbPacket {
    FbPacket(Some(ToBE(n, 8)), payload)
  }

  lemma DecryptOfBigEndian(n: u64)
    ensures DecryptSequenceId(ToBE(n, 8)) == n
  {
    var r := DecryptSequenceId(ToBE(n, 8));
    assert ToBE(r, 8) == ToBE(n, 8);
    Pow256Values();
    BERoundTrip(r, 8);
    BERoundTrip(n, 8);
  }

  /** The packet numbered `last + 1` is accepted, and the very same packet is then rejected. */
  lemma ReplayRejected(p: Parser, payload: Bytes)
    ensures var packet := PacketWithSeq(NextExpected(p), Some(payload));
      var (p1, r1) := Parse(p, packet);
      && r1 == Ok((payload, NextExpected(p)))
      && Parse(p1, packet) == (p1, Err(PacketSequenceMismatch))
  {
    DecryptOfBigEndian(NextExpected(p));
  }

  /**
   * Strictness: a packet numbered `last + 1` is taken (and is Ok exactly when it carries a
   * payload); any other number is a mismatch that leaves the parser as it was.
   */
  lemma OnlyNextAccepted(p: Parser, n: u64, payload: Option<Bytes>)
    ensures var (p1, r) := Parse(p, PacketWithSeq(n, payload));
      && (n == NextExpected(p) ==> p1.lastReceivedSeqId == n && (r.Ok? <==> payload.Some?))
      && (n != NextExpected(p) ==> p1 == p && r == Err(PacketSequenceMismatch))
  {
    DecryptOfBigEndian(n);
  }

  /** A packet without payload still consumes its sequence number. */
  lemma MissingPayloadConsumesSequence(p: Parser)
    ensures var (p1, r1) := Parse(p, PacketWithSeq(NextExpected(p), None));
      r1 == Err(MissingPayload) && p1.lastReceivedSeqId == NextExpected(p)
      && NextExpected(p1) != NextExpected(p)
  {
    DecryptOfBigEndian(NextExpected(p));
  }

  lemma LittleEndianOne()
    ensures ToLE(1, 8) == [1, 0, 0, 0, 0, 0, 0, 0]
  {
  }

  lemma BigEndianOfTwoTo56()
    ensures ToBE(0x100_0000_0000_0000, 8) == [1, 0, 0, 0, 0, 0, 0, 0]
  {
  }

  /** A sequence written little-endian elsewhere is misread here: `1u64.to_le_bytes()` reads as 2^56. */
  lemma LittleEndianOneMisread()
    ensures DecryptSequenceId(ToLE(1, 8)) == 0x100_0000_0000_0000
  {
    var le := ToLE(1, 8);
    LittleEndianOne();
    var r := DecryptSequenceId(le);
    assert ToBE(r, 8) == ToBE(r, 8)[..8];
    assert ToBE(r, 8) == le;
    BigEndianOfTwoTo56();
    Pow256Values();
    BERoundTrip(r, 8);
    BERoundTrip(0x100_0000_0000_0000, 8);
  }

  /** Feeds packets to the parser in order; returns the final state and the sequence numbers taken. */
  function ParseAll(p: Parser, packets: seq<FbPacket>): (r: (Parser, seq<u64>))
    ensures |r.1| <= |packets| && r.0.sessionKey == p.sessionKey
    decreases |packets|
  {
    if |packets| == 0 then (p, [])
    else
      var (p1, _) := Parse(p, packets[0]);
      var (pn, taken) := ParseAll(p1, packets[1..]);
      if p1 != p then (pn, [p1.lastReceivedSeqId] + taken) else (pn, taken)
  }

  /** `n` steps of `last + 1` with u64 wrap-around. */
  function Step(start: u64, n: nat): u64 {
    (start + n) % U64_LIMIT
  }

  /**
   * Over any stream of packets the numbers the parser takes are consecutive: the i-th one is
   * `start + i + 1`, and the final counter is the last one taken.
   */
  lemma {:induction false} TakenAreConsecutive(p: Parser, packets: seq<FbPacket>)
    ensures var (pn, taken) := ParseAll(p, packets);
      && (forall i :: 0 <= i < |taken| ==> taken[i] == Step(p.lastReceivedSeqId, i + 1))
      && pn.lastReceivedSeqId == Step(p.lastReceivedSeqId, |taken|)
      && pn.sessionKey == p.sessionKey
    decreases |packets|
  {
    if |packets| > 0 {
      var (p1, _) := Parse(p, packets[0]);
      TakenAreConsecutive(p1, packets[1..]);
      var (pn, rest) := ParseAll(p1, packets[1..]);
      if p1 != p {
        assert p1.lastReceivedSeqId == Step(p.lastReceivedSeqId, 1);
        forall i | 0 <= i < |rest|
          ensures rest[i] == Step(p.lastReceivedSeqId, i + 2)
        {
          StepShift(p.lastReceivedSeqId, i + 1);
        }
        StepShift(p.lastReceivedSeqId, |rest|);
      } else {
        assert p1 == p;
      }
    }
  }

  lemma StepShift(start: u64, n: nat)
    ensures Step(Step(start, 1), n) == Step(start, n + 1)
  {
  }
}

=== FILE: packet_validator.dfy ===
/** `validate_packet`: ordered, short-circuiting checks on a signed, sequenced AI-TCP packet. */
module PacketValidator {
  import opened Wrappers
  import opened Bytes
  import opened Crypto

  /** The fields of an `AITcpPacket` the validator reads. */
  datatype AITcpPacket = AITcpPacket(encryptedSequenceId: Bytes, encryptedPayload: Bytes, signature: Bytes)

  datatype ValidationError =
    | InvalidSequenceIdLength
    | SequenceMismatch(expected: u64, got: u64)
    | InvalidSignatureLength
    | SignatureVerificationFailed

  /**
   * Checks, in order: the sequence field is 8 bytes; its little-endian value is `expected`;
   * the signature is 64 bytes; the signature verifies over the payload under `verifyingKey`.
   * The first failing check decides the error. No state is kept between calls.
   */
  function ValidatePacket(ed: Ed25519, packet: AITcpPacket, verifyingKey: Bytes, expected: u64): (r: Outcome<ValidationError>)
    ensures r.Pass? <==>
      && |packet.encryptedSequenceId| == 8
      && FromLE(packet.encryptedSequenceId) == expected
      && |packet.signature| == 64
      && ed.verify(verifyingKey, packet.encryptedPayload, packet.signature)
    ensures |packet.encryptedSequenceId| != 8 ==> r == Fail(InvalidSequenceIdLength)
    ensures r == Fail(InvalidSignatureLength) <==>
      && |packet.encryptedSequenceId| == 8 && FromLE(packet.encryptedSequenceId) == expected
      && |packet.signature| != 64
    ensures r.Fail? && r.error.SequenceMismatch? ==>
      r.error.expected == expected && r.error.got != expected
      && ToLE(r.error.got, 8) == packet.encryptedSequenceId
  {
    var seqField := packet.encryptedSequenceId;
    if |seqField| != 8 then Fail(InvalidSequenceIdLength)
    else
      var got := SequenceOf(seqField);
      if got != expected then Fail(SequenceMismatch(expected, got))
      else if |packet.signature| != 64 then Fail(InvalidSignatureLength)
      else if !ed.verify(verifyingKey, packet.encryptedPayload, packet.signature) then Fail(SignatureVerificationFailed)
      else Pass
  }

  /** `u64::from_le_bytes` of an 8-byte field. */
  function SequenceOf(field: Bytes): (n: u64)
    requires |field| == 8
    ensures n == FromLE(field)
    ensures ToLE(n, 8) == field
  {
    FromLEBound(field);
    Pow256Values();
    LEOfValue(field);
    FromLE(field)
  }

  /** A packet a sender built honestly: its sequence written little-endian and its payload signed. */
  function SignedPacket(ed: Ed25519, secretKey: Bytes, sn: u64, payload: Bytes): AITcpPacket {
    AITcpPacket(ToLE(sn, 8), payload, ed.sign(secretKey, payload))
  }

  /** An honestly built packet validates under the sender's key at its own sequence number. */
  lemma GenuinePacketAccepted(ed: Ed25519, secretKey: Bytes, sn: u64, payload: Bytes)
    requires Sound(ed)
    ensures ValidatePacket(ed, SignedPacket(ed, secretKey, sn, payload), ed.publicOf(secretKey), sn) == Pass
  {
    Pow256Values();
    LERoundTrip(sn, 8);
  }

  /**
   * The validator keeps no record of what it accepted: the same genuine packet checked against
   * any other expected sequence is reported as a mismatch naming both values.
   */
  lemma OtherSequenceRejected(ed: Ed25519, secretKey: Bytes, sn: u64, payload: Bytes, expected: u64)
    requires expected != sn
    ensures ValidatePacket(ed, SignedPacket(ed, secretKey, sn, payload), ed.publicOf(secretKey), expected)
         == Fail(SequenceMismatch(expected, sn))
  {
    Pow256Values();
    LERoundTrip(sn, 8);
  }

  /** The sequence check comes first: a wrong sequence is a mismatch whatever the signature is. */
  lemma SequenceCheckedBeforeSignature(ed: Ed25519, packet: AITcpPacket, key: Bytes, expected: u64, sig: Bytes)
    requires |packet.encryptedSequenceId| == 8 && FromLE(packet.encryptedSequenceId) != expected
    ensures ValidatePacket(ed, packet.(signature := sig), key, expected).Fail?
    ensures ValidatePacket(ed, packet.(signature := sig), key, expected).error.SequenceMismatch?
  {
  }

  /** An empty signature is rejected by length once the sequence matches. */
  lemma EmptySignatureRejected(ed: Ed25519, sn: u64, payload: Bytes, key: Bytes)
    ensures ValidatePacket(ed, AITcpPacket(ToLE(sn, 8), payload, []), key, sn) == Fail(InvalidSignatureLength)
  {
    Pow256Values();
    LERoundTrip(sn, 8);
  }

  /**
   * There is no separate empty-payload check: an empty payload with a genuine signature over
   * the empty message is accepted.
   */
  lemma EmptyPayloadGoesToVerification(ed: Ed25519, secretKey: Bytes, sn: u64)
    requires Sound(ed)
    ensures ValidatePacket(ed, SignedPacket(ed, secretKey, sn, []), ed.publicOf(secretKey), sn) == Pass
  {
    GenuinePacketAccepted(ed, secretKey, sn, []);
  }
}

=== FILE: pcap.dfy ===
/**
 * The sample-capture generators: IPv6 packets (section 3 of RFC 8200) whose only extension
 * header is a Destination Options header (section 4.6 of RFC 8200) carrying one KAIRO option,
 * framed as a classic pcap file. Random UUIDs, the clock and SHA-256 are parameters.
 */
module Ipv6Options {
  import opened Wrappers
  import opened Bytes
  import opened Text

  const NEXT_DEST_OPTS: byte := 60
  const NO_NEXT_HEADER: byte := 59
  const HOP_LIMIT: byte := 64
  const KAIRO_OPTION: byte := 0x63
  /** `6 << 28`: version 6, traffic class and flow label zero. */
  const VERSION_WORD: nat := 0x6000_0000

  /** 2001:db8::1 and 2001:db8::2, the documentation addresses the generators use. */
  function DocAddress(last: byte): (a: Bytes)
    ensures |a| == 16 && a[..4] == [0x20, 0x01, 0x0d, 0xb8] && a[15] == last
  {
    [0x20, 0x01, 0x0d, 0xb8] + Zeros(11) + [last]
  }

  /** `struct.pack("!IHBB16s16s", 6 << 28, payload_len, 60, 64, src, dst)`. */
  function Ipv6Header(payloadLen: u16): (h: Bytes)
    ensures |h| == 40
  {
    ToBE(VERSION_WORD, 4) + ToBE(payloadLen, 2) + [NEXT_DEST_OPTS, HOP_LIMIT] + DocAddress(1) + DocAddress(2)
  }

  lemma VersionWordBytes()
    ensures ToBE(VERSION_WORD, 4) == [0x60, 0, 0, 0]
  {
    assert ToBE(VERSION_WORD / 256, 3) == [0x60, 0, 0] by {
      assert ToBE(VERSION_WORD / 65536, 2) == [0x60, 0] by {
        assert ToBE(VERSION_WORD / 16777216, 1) == [0x60];
      }
    }
  }

  /** A Destination Options header holding one option: next header, Hdr Ext Len, type, length, data. */
  function DestOpts(hdrExtLen: byte, optData: Bytes, padding: Bytes): (d: Bytes)
    requires |optData| < 256
    ensures |d| == 4 + |optData| + |padding|
  {
    [NO_NEXT_HEADER, hdrExtLen, KAIRO_OPTION, |optData|] + optData + padding
  }

  /** Trailing Pad1 or PadN padding (section 4.2 of RFC 8200), as this reader accepts it. */
  predicate IsPadding(rest: Bytes) {
    || |rest| == 0
    || (|rest| == 1 && rest[0] == 0)
    || (|rest| >= 2 && rest[0] == 1 && rest[1] as int == |rest| - 2 && forall i :: 2 <= i < |rest| ==> rest[i] == 0)
  }

  /** The lengths section 3 and section 4.6 of RFC 8200 tie together, for this packet shape. */
  predicate LengthsAgree(p: Bytes) {
    && |p| >= 42 && p[0] / 16 == 6 && p[6] == NEXT_DEST_OPTS
    && FromBE(p[4..6]) == |p| - 40
    && p[40] == NO_NEXT_HEADER
    && (p[41] as int + 1) * 8 == |p| - 40
  }

  /**
   * A reader that follows RFC 8200: the option type and data of a packet whose lengths agree,
   * with one option followed by padding.
   */
  function ReadOption(p: Bytes): (r: Option<(byte, Bytes)>)
    ensures r.Some? ==> LengthsAgree(p)
  {
    if !LengthsAgree(p) || |p| < 44 then None
    else
      var opts := p[40..];
      var len := opts[3] as int;
      if opts[2] == 0 || opts[2] == 1 || 4 + len > |opts| || !IsPadding(opts[4 + len..]) then None
      else Some((opts[2], opts[4..4 + len]))
  }

  /** Pad1 or PadN filling `n` bytes. */
  function Padding(n: nat): (pad: Bytes)
    requires n < 8
    ensures |pad| == n && IsPadding(pad)
  {
    if n == 0 then [] else if n == 1 then [0] else [1, n - 2] + Zeros(n - 2)
  }

  /** A packet: the IPv6 header, then the options; the payload length is the options' length. */
  function Packet(opts: Bytes): (p: Bytes)
    requires |opts| < U16_LIMIT
    ensures |p| == 40 + |opts| && p[40..] == opts
  {
    Ipv6Header(|opts|) + opts
  }

  /** Whatever options are wrapped, the IPv6 header reads back with the payload length set to them. */
  lemma PacketHeader(opts: Bytes)
    requires |opts| < U16_LIMIT
    ensures var p := Packet(opts);
      p[0] == 0x60 && p[6] == NEXT_DEST_OPTS && p[7] == HOP_LIMIT && FromBE(p[4..6]) == |opts|
      && p[8..24] == DocAddress(1) && p[24..40] == DocAddress(2)
  {
    var p := Packet(opts);
    VersionWordBytes();
    assert p[4..6] == ToBE(|opts|, 2);
    BERoundTrip(|opts|, 2);
  }

  /** A well-formed single-option header reads back as its option. */
  lemma ReadOptionOf(data: Bytes, padding: Bytes, hdrExtLen: byte)
    requires |data| < 256 && IsPadding(padding)
    requires (hdrExtLen as int + 1) * 8 == 4 + |data| + |padding|
    ensures ReadOption(Packet(DestOpts(hdrExtLen, data, padding))) == Some((KAIRO_OPTION, data))
  {
    var opts := DestOpts(hdrExtLen, data, padding);
    var p := Packet(opts);
    PacketHeader(opts);
    assert p[40] == opts[0] && p[41] == opts[1];
    assert LengthsAgree(p);
    assert opts[4..4 + |data|] == data;
    assert opts[4 + |data|..] == padding;
  }

  // ---------------------------------------------------------------------------
  // `_build_packet` of generate_kairo_pcap.py and generate_test_pcaps.py.
  // ---------------------------------------------------------------------------

  /** `uuid ‖ struct.pack("!I", seq) ‖ sha ‖ sig`. */
  function KairoOptionData(uid: Bytes, seqId: u32, sha: Bytes, sig: Bytes): (d: Bytes)
    requires |uid| == 16 && |sha| == 32 && |sig| == 32
    ensures |d| == 84
  {
    uid + ToBE(seqId, 4) + sha + sig
  }

  /** The four fields of a KAIRO option. */
  datatype KairoFields = KairoFields(uid: Bytes, seqId: nat, sha: Bytes, sig: Bytes)

  function DecodeKairo(d: Bytes): (r: Option<KairoFields>)
    ensures r.Some? ==> |r.value.uid| == 16 && |r.value.sha| == 32 && |r.value.sig| == 32
  {
    if |d| != 84 then None
    else Some(KairoFields(d[..16], FromBE(d[16..20]), d[20..52], d[52..]))
  }

  /** The option data decodes back into the fields it was built from. */
  lemma KairoDataRoundTrip(uid: Bytes, seqId: u32, sha: Bytes, sig: Bytes)
    requires |uid| == 16 && |sha| == 32 && |sig| == 32
    ensures DecodeKairo(KairoOptionData(uid, seqId, sha, sig)) == Some(KairoFields(uid, seqId, sha, sig))
  {
    var d := KairoOptionData(uid, seqId, sha, sig);
    assert d[..16] == uid && d[20..52] == sha && d[52..] == sig;
    assert d[16..20] == ToBE(seqId, 4);
    Pow256Values();
    BERoundTrip(seqId, 4);
  }

  /**
   * `_build_packet` given the option's inputs; `struct.pack("!I", seq_id)` fails outside the
   * 32-bit range.
   */
  function BuildPacket(seqId: int, uid: Bytes, sha: Bytes, sig: Bytes): (r: Option<Bytes>)
    requires |uid| == 16 && |sha| == 32 && |sig| == 32
    ensures r.Some? <==> 0 <= seqId < U32_LIMIT
    ensures r.Some? ==> |r.value| == 128
  {
    if !(0 <= seqId < U32_LIMIT) then None
    else Some(Packet(DestOpts(10, KairoOptionData(uid, seqId, sha, sig), [])))
  }

  /**
   * The built packet is what RFC 8200 asks: 88 bytes of options, which is the payload length
   * and (10 + 1) * 8; a reader gets the KAIRO option and its fields back.
   */
  lemma BuildPacketReadsBack(seqId: int, uid: Bytes, sha: Bytes, sig: Bytes)
    requires |uid| == 16 && |sha| == 32 && |sig| == 32 && 0 <= seqId < U32_LIMIT
    ensures var p := BuildPacket(seqId, uid, sha, sig).value;
      && LengthsAgree(p) && FromBE(p[4..6]) == 88 && p[41] == 10
      && ReadOption(p) == Some((KAIRO_OPTION, KairoOptionData(uid, seqId, sha, sig)))
      && DecodeKairo(ReadOption(p).value.1) == Some(KairoFields(uid, seqId, sha, sig))
  {
    var d := KairoOptionData(uid, seqId, sha, sig);
    ReadOptionOf(d, [], 10);
    PacketHeader(DestOpts(10, d, []));
    KairoDataRoundTrip(uid, seqId, sha, sig);
  }

  /** `str(n)` for any integer. */
  function IntText(n: int): string {
    if n < 0 then "-" + Decimal(-n) else Decimal(n)
  }

  /** generate_kairo_pcap.py: a random UUID, and hashes of "packet{seq}" and "signature{seq}". */
  function SamplePacket(seqId: int, uid: Bytes, sha256: Bytes -> Bytes): (r: Option<Bytes>)
    requires |uid| == 16 && forall m :: |sha256(m)| == 32
    ensures r.Some? <==> 0 <= seqId < U32_LIMIT
    ensures r.Some? ==> && |r.value| == 128 && LengthsAgree(r.value) && ReadOption(r.value).Some?
                        && DecodeKairo(ReadOption(r.value).value.1)
                           == Some(KairoFields(uid, seqId, sha256(Utf8("packet" + IntText(seqId))),
                                               sha256(Utf8("signature" + IntText(seqId)))))
  {
    var sha := sha256(Utf8("packet" + IntText(seqId)));
    var sig := sha256(Utf8("signature" + IntText(seqId)));
    if 0 <= seqId < U32_LIMIT then
      BuildPacketReadsBack(seqId, uid, sha, sig);
      BuildPacket(seqId, uid, sha, sig)
    else BuildPacket(seqId, uid, sha, sig)
  }

  /**
   * generate_test_pcaps.py: the UUID is `uuid5(NAMESPACE_DNS, "test-{seq}")` and the hashes are
   * of "payload{seq}" and "sig{seq}"; nothing random is involved, so the bytes depend on the
   * sequence number alone.
   */
  function TestPacket(seqId: int, uuid5: string -> Bytes, sha256: Bytes -> Bytes): (r: Option<Bytes>)
    requires (forall n :: |uuid5(n)| == 16) && forall m :: |sha256(m)| == 32
    ensures r.Some? <==> 0 <= seqId < U32_LIMIT
    ensures r.Some? ==> |r.value| == 128
  {
    var name := "test-" + IntText(seqId);
    BuildPacket(seqId, uuid5(name), sha256(Utf8("payload" + IntText(seqId))), sha256(Utf8("sig" + IntText(seqId))))
  }

  /** The test vectors have the sample's 40 + 88 byte layout and read back with their own fields. */
  lemma TestPacketLayout(seqId: int, uuid5: string -> Bytes, sha256: Bytes -> Bytes)
    requires (forall n :: |uuid5(n)| == 16) && forall m :: |sha256(m)| == 32
    requires 0 <= seqId < U32_LIMIT
    ensures var p := TestPacket(seqId, uuid5, sha256);
      && p.Some? && |p.value| == 128 && LengthsAgree(p.value)
      && ReadOption(p.value).Some?
      && DecodeKairo(ReadOption(p.value).value.1) == Some(KairoFields(uuid5("test-" + IntText(seqId)), seqId,
                                                           sha256(Utf8("payload" + IntText(seqId))),
                                                           sha256(Utf8("sig" + IntText(seqId)))))
  {
    BuildPacketReadsBack(seqId, uuid5("test-" + IntText(seqId)), sha256(Utf8("payload" + IntText(seqId))),
                         sha256(Utf8("sig" + IntText(seqId))));
  }

  // ---------------------------------------------------------------------------
  // `_build_packet` of pcap_sample_template.py.
  // ---------------------------------------------------------------------------

  /** `uuid ‖ "payload-{seq}"`. */
  function TemplateData(seqId: int, uid: Bytes): Bytes {
    uid + Utf8("payload-" + IntText(seqId))
  }

  /**
   * As written: Hdr Ext Len is the option data's length plus 2, counted in bytes, and nothing
   * pads the header; `struct.pack("!BB", ..)` fails once that exceeds 255.
   */
  function TemplatePacketAsWritten(seqId: int, uid: Bytes): (r: Option<Bytes>)
    ensures r.Some? ==> var len := |TemplateData(seqId, uid)|;
      |r.value| == 44 + len && r.value[41] as int == len + 2 && FromBE(r.value[4..6]) == 4 + len
  {
    var data := TemplateData(seqId, uid);
    if |data| + 2 >= 256 then None
    else
      var p := Packet(DestOpts(|data| + 2, data, []));
      PacketHeader(DestOpts(|data| + 2, data, []));
      Some(p)
  }

  /** No template packet, whatever its inputs, has the header length RFC 8200 asks for. */
  lemma TemplateLengthsDisagree(seqId: int, uid: Bytes)
    requires TemplatePacketAsWritten(seqId, uid).Some?
    ensures !LengthsAgree(TemplatePacketAsWritten(seqId, uid).value)
    ensures ReadOption(TemplatePacketAsWritten(seqId, uid).value).None?
  {
  }

  /** Sequence number 1 with a 16-byte UUID: 25 bytes of data, Hdr Ext Len 27 (224 bytes), 29 bytes sent. */
  lemma TemplateExample(uid: Bytes)
    requires |uid| == 16
    ensures |TemplateData(1, uid)| == 25
    ensures TemplatePacketAsWritten(1, uid).Some? && TemplatePacketAsWritten(1, uid).value[41] == 27
    ensures |TemplatePacketAsWritten(1, uid).value| - 40 == 29 != (27 + 1) * 8
  {
    assert IntText(1) == "1" by { assert Decimal(1) == [DigitChar(1)]; }
    assert "payload-" + "1" == "payload-1";
    assert IsAscii("payload-1");
    AsciiUtf8("payload-1");
  }

  /** How much padding brings a header of `n` bytes to a multiple of 8. */
  function PadFor(n: nat): (k: nat)
    ensures k < 8 && (n + k) % 8 == 0
  {
    (8 - n % 8) % 8
  }

  /** The template packet with RFC 8200 lengths: padded to 8 bytes, Hdr Ext Len in 8-octet units. */
  function TemplatePacket(seqId: int, uid: Bytes): (r: Option<Bytes>)
    ensures r.Some? <==> |TemplateData(seqId, uid)| < 256
    ensures r.Some? ==> LengthsAgree(r.value)
    ensures r.Some? ==> ReadOption(r.value) == Some((KAIRO_OPTION, TemplateData(seqId, uid)))
  {
    var data := TemplateData(seqId, uid);
    if |data| >= 256 then None
    else
      var pad := Padding(PadFor(4 + |data|));
      var total := 4 + |data| + |pad|;
      var hdrExtLen := total / 8 - 1;
      ReadOptionOf(data, pad, hdrExtLen);
      Some(Packet(DestOpts(hdrExtLen, data, pad)))
  }
}

/** The classic pcap framing the generators write. */
module PcapFile {
  import opened Wrappers
  import opened Bytes
  import opened Ipv6Options

  const MAGIC: nat := 0xA1B2C3D4
  const SNAPLEN: nat := 65535
  /** LINKTYPE_RAW: packets start at the IP header. */
  const LINKTYPE_RAW: nat := 101

  /** `struct.pack("<IHHIIII", 0xA1B2C3D4, 2, 4, 0, 0, 65535, 101)`. */
  function GlobalHeader(): (h: Bytes)
    ensures |h| == 24
  {
    ToLE(MAGIC, 4) + ToLE(2, 2) + ToLE(4, 2) + ToLE(0, 4) + ToLE(0, 4) + ToLE(SNAPLEN, 4) + ToLE(LINKTYPE_RAW, 4)
  }

  /** `struct.pack("<IIII", ts, 0, len, len)`. */
  function RecordHeader(ts: u32, len: u32): (h: Bytes)
    ensures |h| == 16
  {
    ToLE(ts, 4) + ToLE(0, 4) + ToLE(len, 4) + ToLE(len, 4)
  }

  /** Whether every record header fits: time stamps from `ts` and the lengths in 32 bits. */
  predicate Packable(ts: nat, packets: seq<Bytes>) {
    ts + |packets| <= U32_LIMIT && forall i :: 0 <= i < |packets| ==> |packets[i]| < U32_LIMIT
  }

  /** The `fh.write` calls of the record loop, one header and one packet per record. */
  function RecordWrites(ts: nat, packets: seq<Bytes>): (w: seq<Bytes>)
    requires Packable(ts, packets)
    ensures |w| == 2 * |packets|
    decreases |packets|
  {
    if |packets| == 0 then []
    else [RecordHeader(ts, |packets[0]|), packets[0]] + RecordWrites(ts + 1, packets[1..])
  }

  /** `main`'s writes: the global header, then the records; `struct.pack` fails once a field overflows. */
  function Writes(ts: nat, packets: seq<Bytes>): (w: Option<seq<Bytes>>)
    ensures w.Some? <==> Packable(ts, packets)
    ensures w.Some? ==> |w.value| == 1 + 2 * |packets| && w.value[0] == GlobalHeader()
  {
    if Packable(ts, packets) then Some([GlobalHeader()] + RecordWrites(ts, packets)) else None
  }

  function Concat(chunks: seq<Bytes>): Bytes
    decreases |chunks|
  {
    if |chunks| == 0 then [] else chunks[0] + Concat(chunks[1..])
  }

  /** One captured packet as a reader sees it. */
  datatype Captured = Captured(ts: nat, data: Bytes)

  /** A pcap reader for this framing: records with equal captured and original lengths. */
  function ReadRecords(b: Bytes): Option<seq<Captured>>
    decreases |b|
  {
    if |b| == 0 then Some([])
    else if |b| < 16 then None
    else
      var len := FromLE(b[8..12]);
      if FromLE(b[4..8]) != 0 || FromLE(b[12..16]) != len || 16 + len > |b| then None
      else match ReadRecords(b[16 + len..])
        case None => None
        case Some(rest) => Some([Captured(FromLE(b[..4]), b[16..16 + len])] + rest)
  }

  function ReadPcap(b: Bytes): Option<seq<Captured>> {
    if |b| < 24 || b[..24] != GlobalHeader() then None else ReadRecords(b[24..])
  }

  /** The captures a reader should find: packet i stamped `ts + i`. */
  function Stamped(ts: nat, packets: seq<Bytes>): (c: seq<Captured>)
    ensures |c| == |packets| && forall i :: 0 <= i < |packets| ==> c[i] == Captured(ts + i, packets[i])
  {
    seq(|packets|, i requires 0 <= i < |packets| => Captured(ts + i, packets[i]))
  }

  /** A 32-bit field encoded little-endian decodes to its value. */
  lemma U32Field(n: u32)
    ensures FromLE(ToLE(n, 4)) == n
  {
    Pow256Values();
    LERoundTrip(n, 4);
  }

  lemma RecordHeaderReadsBack(ts: u32, len: u32, rest: Bytes)
    ensures var b := RecordHeader(ts, len) + rest;
      FromLE(b[..4]) == ts && FromLE(b[4..8]) == 0 && FromLE(b[8..12]) == len && FromLE(b[12..16]) == len
  {
    RecordHeaderSlices(ts, len, rest);
    U32Field(ts);
    U32Field(0);
    U32Field(len);
  }

  lemma RecordHeaderSlices(ts: u32, len: u32, rest: Bytes)
    ensures var b := RecordHeader(ts, len) + rest;
      b[..4] == ToLE(ts, 4) && b[4..8] == ToLE(0, 4) && b[8..12] == ToLE(len, 4) && b[12..16] == ToLE(len, 4)
  {
    var b := RecordHeader(ts, len) + rest;
    assert b[..4] == ToLE(ts, 4) && b[4..8] == ToLE(0, 4);
    assert b[8..12] == ToLE(len, 4) && b[12..16] == ToLE(len, 4);
  }

  /** A record header with its packet in front of more records reads as that capture, then the rest. */
  lemma ReadOneRecord(ts: u32, p: Bytes, rest: Bytes)
    requires |p| < U32_LIMIT
    ensures ReadRecords(RecordHeader(ts, |p|) + (p + rest)) ==
      (match ReadRecords(rest) case None => None case Some(cs) => Some([Captured(ts, p)] + cs))
  {
    var b := RecordHeader(ts, |p|) + (p + rest);
    RecordHeaderReadsBack(ts, |p|, p + rest);
    assert b[16..16 + |p|] == p;
    assert b[16 + |p|..] == rest;
  }

  lemma StampedCons(ts: nat, packets: seq<Bytes>)
    requires |packets| > 0
    ensures Stamped(ts, packets) == [Captured(ts, packets[0])] + Stamped(ts + 1, packets[1..])
  {
  }

  lemma ConcatPair(h: Bytes, p: Bytes, tail: seq<Bytes>)
    ensures Concat([h, p] + tail) == h + (p + Concat(tail))
  {
    assert ([h, p] + tail)[1..] == [p] + tail;
    assert ([p] + tail)[1..] == tail;
  }

  /** Reading the records back gives every packet with its time stamp, in order. */
  lemma {:induction false} RecordsRoundTrip(ts: nat, packets: seq<Bytes>)
    requires Packable(ts, packets)
    ensures ReadRecords(Concat(RecordWrites(ts, packets))) == Some(Stamped(ts, packets))
    decreases |packets|
  {
    if |packets| > 0 {
      var p := packets[0];
      assert Packable(ts + 1, packets[1..]) by {
        assert forall i :: 0 <= i < |packets[1..]| ==> packets[1..][i] == packets[i + 1];
      }
      var h, tail := RecordHeader(ts, |p|), RecordWrites(ts + 1, packets[1..]);
      var rest := Concat(tail);
      assert RecordWrites(ts, packets) == [h, p] + tail;
      ConcatPair(h, p, tail);
      RecordsRoundTrip(ts + 1, packets[1..]);
      ReadOneRecord(ts, p, rest);
      StampedCons(ts, packets);
    }
  }

  /** What `main` writes reads back as its packets, stamped one second apart from `ts`. */
  lemma FileRoundTrip(ts: nat, packets: seq<Bytes>)
    requires Packable(ts, packets)
    ensures ReadPcap(Concat(Writes(ts, packets).value)) == Some(Stamped(ts, packets))
  {
    var w := Writes(ts, packets).value;
    assert w[1..] == RecordWrites(ts, packets);
    var b := Concat(w);
    assert b == GlobalHeader() + Concat(RecordWrites(ts, packets));
    assert b[..24] == GlobalHeader();
    assert b[24..] == Concat(RecordWrites(ts, packets));
    RecordsRoundTrip(ts, packets);
  }

  /** generate_kairo_pcap.py's `main`: packets 1 to 3, with the given UUIDs and clock. */
  function SampleMain(ts: nat, uids: seq<Bytes>, sha256: Bytes -> Bytes): (w: Option<seq<Bytes>>)
    requires |uids| == 3 && (forall i :: 0 <= i < 3 ==> |uids[i]| == 16) && forall m :: |sha256(m)| == 32
    ensures w.Some? <==> ts + 3 <= U32_LIMIT
    ensures w.Some? ==> |w.value| == 7
  {
    Writes(ts, SamplePackets(uids, sha256))
  }

  /** The three sample packets, each 128 bytes long. */
  function SamplePackets(uids: seq<Bytes>, sha256: Bytes -> Bytes): (ps: seq<Bytes>)
    requires |uids| == 3 && (forall i :: 0 <= i < 3 ==> |uids[i]| == 16) && forall m :: |sha256(m)| == 32
    ensures |ps| == 3 && forall i :: 0 <= i < 3 ==> |ps[i]| == 128
  {
    var p1 := SamplePacket(1, uids[0], sha256).value;
    var p2 := SamplePacket(2, uids[1], sha256).value;
    var p3 := SamplePacket(3, uids[2], sha256).value;
    [p1, p2, p3]
  }

  /** generate_test_pcaps.py's `main`: nothing under READ_ONLY=1, else 1 + 3 * 2 writes. */
  function TestMain(readOnly: bool, ts: nat, uuid5: string -> Bytes, sha256: Bytes -> Bytes): (w: Option<seq<Bytes>>)
    requires (forall n :: |uuid5(n)| == 16) && forall m :: |sha256(m)| == 32
    ensures readOnly ==> w == Some([])
    ensures !readOnly ==> (w.Some? <==> ts + 3 <= U32_LIMIT)
    ensures !readOnly && w.Some? ==> |w.value| == 7
  {
    if readOnly then Some([])
    else
      var packets := [TestPacket(1, uuid5, sha256).value, TestPacket(2, uuid5, sha256).value,
                      TestPacket(3, uuid5, sha256).value];
      Writes(ts, packets)
  }

  /**
   * pcap_sample_template.py's `main` as written: nothing under READ_ONLY=1, else the header and
   * one record holding the template packet with its byte-counted Hdr Ext Len, which a reader
   * following RFC 8200 cannot parse.
   */
  function TemplateMain(readOnly: bool, ts: nat, uid: Bytes): (w: Option<seq<Bytes>>)
    requires |uid| == 16
    ensures readOnly ==> w == Some([])
    ensures !readOnly ==> (w.Some? <==> ts + 1 <= U32_LIMIT)
    ensures !readOnly && w.Some? ==>
      && |w.value| == 3 && |w.value[2]| == 40 + 29 && w.value[2][41] == 27
      && !LengthsAgree(w.value[2]) && ReadOption(w.value[2]).None?
  {
    if readOnly then Some([])
    else
      TemplateExample(uid);
      var p := TemplatePacketAsWritten(1, uid).value;
      TemplateLengthsDisagree(1, uid);
      Writes(ts, [p])
  }

  /** The same `main` writing the corrected template packet, whose option a reader recovers. */
  function TemplateMainCorrected(readOnly: bool, ts: nat, uid: Bytes): (w: Option<seq<Bytes>>)
    requires |uid| == 16
    ensures readOnly ==> w == Some([])
    ensures !readOnly ==> (w.Some? <==> ts + 1 <= U32_LIMIT)
    ensures !readOnly && w.Some? ==>
      && |w.value| == 3 && LengthsAgree(w.value[2])
      && ReadOption(w.value[2]) == Some((KAIRO_OPTION, TemplateData(1, uid)))
  {
    if readOnly then Some([])
    else
      TemplateExample(uid);
      match TemplatePacket(1, uid)
      case None => None
      case Some(p) => Writes(ts, [p])
  }
}

=== FILE: rate.dfy ===
/** The adaptive rate controller, over reals in place of `f64`. */
module RateControl {
  /** `f64::clamp`, which panics unless `lo <= hi`. */
  function Clamp(x: real, lo: real, hi: real): (r: real)
    requires lo <= hi
    ensures lo <= r <= hi
    ensures lo <= x <= hi ==> r == x
    ensures x < lo ==> r == lo
    ensures hi < x ==> r == hi
  {
    if x < lo then lo else if hi < x then hi else x
  }

  datatype RateController = RateController(minRate: real, maxRate: real, currentRate: real)

  /** The rate stays within the bounds the controller was built with. */
  predicate Valid(c: RateController) {
    c.minRate <= c.currentRate <= c.maxRate
  }

  /** `new`: the initial rate clamped into [min, max]. */
  function New(initial: real, minRate: real, maxRate: real): (c: RateController)
    requires minRate <= maxRate
    ensures Valid(c) && c.minRate == minRate && c.maxRate == maxRate
    ensures minRate <= initial <= maxRate ==> Rate(c) == initial
  {
    RateController(minRate, maxRate, Clamp(initial, minRate, maxRate))
  }

  function Rate(c: RateController): real {
    c.currentRate
  }

  /** `(1 - loss).clamp(0, 1)`. */
  function LossFactor(loss: real): (f: real)
    ensures 0.0 <= f <= 1.0
    ensures loss >= 1.0 ==> f == 0.0
    ensures loss <= 0.0 ==> f == 1.0
  {
    Clamp(1.0 - loss, 0.0, 1.0)
  }

  /** `1 / (1 + rtt)`, the round-trip time in seconds (a `Duration`, so never negative). */
  function RttFactor(rttSecs: real): (f: real)
    requires rttSecs >= 0.0
    ensures 0.0 < f <= 1.0
    ensures f == 1.0 <==> rttSecs == 0.0
  {
    1.0 / (1.0 + rttSecs)
  }

  /** `update`: scales the rate by both factors, then clamps it back into [min, max]. */
  function Update(c: RateController, loss: real, rttSecs: real): (r: RateController)
    requires c.minRate <= c.maxRate && rttSecs >= 0.0
    ensures Valid(r) && r.minRate == c.minRate && r.maxRate == c.maxRate
  {
    c.(currentRate := Clamp(c.currentRate * (LossFactor(loss) * RttFactor(rttSecs)), c.minRate, c.maxRate))
  }

  /**
   * A non-negative rate in bounds never rises: both factors are at most 1. The comment on
   * `update` promising increases on low loss describes something the code cannot do.
   */
  lemma UpdateNeverRaises(c: RateController, loss: real, rttSecs: real)
    requires Valid(c) && c.currentRate >= 0.0 && rttSecs >= 0.0
    ensures Rate(Update(c, loss, rttSecs)) <= Rate(c)
  {
    var f := LossFactor(loss) * RttFactor(rttSecs);
    assert 0.0 <= f <= 1.0;
    assert c.currentRate * (1.0 - f) >= 0.0;
    var x := c.currentRate * f;
    assert x <= c.currentRate;
    assert Rate(Update(c, loss, rttSecs)) == Clamp(x, c.minRate, c.maxRate);
  }

  /** No loss and no delay leave a rate in bounds where it is. */
  lemma IdleUpdateKeepsRate(c: RateController)
    requires Valid(c)
    ensures Update(c, 0.0, 0.0) == c
  {
  }

  /** Total loss drives the rate to the floor, for a non-negative floor. */
  lemma TotalLossHitsFloor(c: RateController, loss: real, rttSecs: real)
    requires c.minRate <= c.maxRate && 0.0 <= c.minRate && rttSecs >= 0.0 && loss >= 1.0
    ensures Rate(Update(c, loss, rttSecs)) == c.minRate
  {
  }

  /** Applies one `(loss, rtt)` observation after another. */
  function UpdateAll(c: RateController, obs: seq<(real, real)>): (r: RateController)
    requires c.minRate <= c.maxRate
    requires forall i :: 0 <= i < |obs| ==> obs[i].1 >= 0.0
    ensures r.minRate == c.minRate && r.maxRate == c.maxRate
    ensures |obs| > 0 ==> Valid(r)
    decreases |obs|
  {
    if |obs| == 0 then c else UpdateAll(Update(c, obs[0].0, obs[0].1), obs[1..])
  }

  /** Over any run of observations the rate stays in bounds and never rises, for a non-negative floor. */
  lemma {:induction false} RunNeverRises(c: RateController, obs: seq<(real, real)>)
    requires Valid(c) && c.minRate >= 0.0
    requires forall i :: 0 <= i < |obs| ==> obs[i].1 >= 0.0
    ensures Valid(UpdateAll(c, obs)) && Rate(UpdateAll(c, obs)) <= Rate(c)
    decreases |obs|
  {
    if |obs| > 0 {
      var c1 := Update(c, obs[0].0, obs[0].1);
      UpdateNeverRaises(c, obs[0].0, obs[0].1);
      RunNeverRises(c1, obs[1..]);
    }
  }
}

/** The Go client's 429 backoff, in nanoseconds as `time.Duration` counts. */
module Backoff {
  const MILLISECOND: nat := 1_000_000
  const SECOND: nat := 1_000_000_000

  /** `backoff` and `lastSend` of `KairoClient`; `lastSend` is a monotonic clock reading. */
  datatype Client = Client(backoff: nat, lastSend: int)

  /** `Connect` starts with no backoff. */
  function Connect(): (c: Client)
    ensures c.backoff == 0
  {
    Client(0, 0)
  }

  /** How long `Send` sleeps when called `now`: the unexpired part of the backoff, or nothing. */
  function Wait(c: Client, now: int): (w: nat)
    ensures w > 0 <==> c.backoff > now - c.lastSend
    ensures w > 0 ==> now + w - c.lastSend == c.backoff
    ensures now >= c.lastSend ==> w <= c.backoff
  {
    if c.backoff - (now - c.lastSend) > 0 then c.backoff - (now - c.lastSend) else 0
  }

  /** `lastSend` is set to the clock read after any wait. */
  function MarkSent(c: Client, sentAt: int): (r: Client)
    ensures r.backoff == c.backoff && r.lastSend == sentAt
  {
    c.(lastSend := sentAt)
  }

  /** Sends are spaced by at least the backoff: a send after the computed wait is that far from the previous one. */
  lemma SendsSpacedByBackoff(c: Client, now: int, sentAt: int)
    requires sentAt >= now + Wait(c, now)
    ensures sentAt - c.lastSend >= c.backoff
  {
  }

  /** The reply's effect: on 429, 0 becomes 500ms and anything under 2s doubles; otherwise it halves. */
  function OnResponse(c: Client, tooManyRequests: bool): (r: Client)
    ensures r.lastSend == c.lastSend
    ensures tooManyRequests && c.backoff == 0 ==> r.backoff == 500 * MILLISECOND
    ensures tooManyRequests && 0 < c.backoff < 2 * SECOND ==> r.backoff == 2 * c.backoff
    ensures tooManyRequests && c.backoff >= 2 * SECOND ==> r.backoff == c.backoff
    ensures !tooManyRequests ==> 2 * r.backoff <= c.backoff < 2 * r.backoff + 2
  {
    if tooManyRequests then
      if c.backoff == 0 then c.(backoff := 500 * MILLISECOND)
      else if c.backoff < 2 * SECOND then c.(backoff := c.backoff * 2)
      else c
    else c.(backoff := c.backoff / 2)
  }

  /** The error `Send` returns on 429. */
  function ResponseError(tooManyRequests: bool): (e: string)
    ensures tooManyRequests <==> e == "rate limited"
  {
    if tooManyRequests then "rate limited" else ""
  }

  /** The backoff stays below four seconds. */
  predicate Bounded(c: Client) {
    c.backoff < 4 * SECOND
  }

  /** Applies one response after another. */
  function OnResponses(c: Client, replies: seq<bool>): Client
    decreases |replies|
  {
    if |replies| == 0 then c else OnResponses(OnResponse(c, replies[0]), replies[1..])
  }

  /** From any bounded state (a fresh client included), no sequence of replies takes the backoff to four seconds. */
  lemma {:induction false} BackoffBounded(c: Client, replies: seq<bool>)
    requires Bounded(c)
    ensures Bounded(OnResponses(c, replies))
    decreases |replies|
  {
    if |replies| > 0 {
      BackoffBounded(OnResponse(c, replies[0]), replies[1..]);
    }
  }

  /** Four 429s in a row from a fresh client give 500ms, 1s, 2s, then stay at 2s. */
  lemma BackoffSaturates()
    ensures OnResponses(Connect(), [true]).backoff == 500 * MILLISECOND
    ensures OnResponses(Connect(), [true, true]).backoff == SECOND
    ensures OnResponses(Connect(), [true, true, true]).backoff == 2 * SECOND
    ensures OnResponses(Connect(), [true, true, true, true]).backoff == 2 * SECOND
  {
    assert [true, true][1..] == [true];
    assert [true, true, true][1..] == [true, true];
    assert [true, true, true, true][1..] == [true, true, true];
  }
}

=== FILE: registry_check.dfy ===
/** The registry duplicate checker: every entry, deleted or not, must have a fresh name and a fresh p_address. */
module RegistryCheck {
  import opened Wrappers
  import NameRegistry

  type Entry = NameRegistry.RegistryEntry

  datatype CheckError = DuplicateName(name: string) | AddressCollision(pAddress: string)

  /** Entry `i` repeats the name of an earlier entry. */
  predicate NameRepeatedAt(entries: seq<Entry>, i: nat)
    requires i < |entries|
  {
    exists j :: 0 <= j < i && entries[j].name == entries[i].name
  }

  /** Entry `i` repeats the p_address of an earlier entry. */
  predicate AddressRepeatedAt(entries: seq<Entry>, i: nat)
    requires i < |entries|
  {
    exists j :: 0 <= j < i && entries[j].pAddress == entries[i].pAddress
  }

  /** All names are pairwise distinct and all p_addresses are pairwise distinct. */
  predicate AllDistinct(entries: seq<Entry>) {
    forall i, j :: 0 <= i < j < |entries| ==>
      entries[i].name != entries[j].name && entries[i].pAddress != entries[j].pAddress
  }

  function Names(entries: seq<Entry>): set<string> {
    set i | 0 <= i < |entries| :: entries[i].name
  }

  function Addresses(entries: seq<Entry>): set<string> {
    set i | 0 <= i < |entries| :: entries[i].pAddress
  }

  /** Entry `i` is the first entry repeating an earlier name or address, and `err` reports it. */
  predicate FirstOffender(entries: seq<Entry>, i: nat, err: CheckError) {
    && i < |entries|
    && (forall k :: 0 <= k < i ==> !NameRepeatedAt(entries, k) && !AddressRepeatedAt(entries, k))
    && (if NameRepeatedAt(entries, i) then err == DuplicateName(entries[i].name)
        else AddressRepeatedAt(entries, i) && err == AddressCollision(entries[i].pAddress))
  }

  /**
   * The checker's loop: insert each entry's name, then its address, into two sets and stop at
   * the first insertion that finds the value already present. Passes iff all names and all
   * addresses are distinct; a failure names the first offending entry, the name check first.
   */
  method CheckRegistry(entries: seq<Entry>) returns (r: Outcome<CheckError>)
    ensures r.Pass? <==> AllDistinct(entries)
    ensures r.Fail? ==> exists i :: FirstOffender(entries, i, r.error)
  {
    var names: set<string> := {};
    var addrs: set<string> := {};
    var i := 0;
    while i < |entries|
      invariant 0 <= i <= |entries|
      invariant names == Names(entries[..i]) && addrs == Addresses(entries[..i])
      invariant AllDistinct(entries[..i])
      invariant forall k :: 0 <= k < i ==> !NameRepeatedAt(entries, k) && !AddressRepeatedAt(entries, k)
    {
      var e := entries[i];
      if e.name in names {
        var j :| 0 <= j < i && entries[..i][j].name == e.name;
        assert entries[j].name == e.name;
        assert !AllDistinct(entries);
        assert FirstOffender(entries, i, DuplicateName(e.name));
        return Fail(DuplicateName(e.name));
      }
      assert !NameRepeatedAt(entries, i);
      if e.pAddress in addrs {
        var j :| 0 <= j < i && entries[..i][j].pAddress == e.pAddress;
        assert entries[j].pAddress == e.pAddress;
        assert !AllDistinct(entries);
        assert FirstOffender(entries, i, AddressCollision(e.pAddress));
        return Fail(AddressCollision(e.pAddress));
      }
      assert !AddressRepeatedAt(entries, i);
      names := names + {e.name};
      addrs := addrs + {e.pAddress};
      assert entries[..i + 1] == entries[..i] + [e];
      i := i + 1;
    }
    assert entries[..i] == entries;
    return Pass;
  }

  /** An empty registry passes. */
  lemma EmptyPasses()
    ensures AllDistinct([])
  {
  }

  /**
   * A name soft-deleted and registered again is allowed by the registry but fails this check,
   * because the deleted record is still in the list.
   */
  lemma ReRegistrationFailsCheck(entry: Entry)
    requires !entry.deleted
    ensures NameRegistry.RegisterAgent([entry.(deleted := true)], entry).Ok?
    ensures !AllDistinct(NameRegistry.RegisterAgent([entry.(deleted := true)], entry).value)
  {
    NameRegistry.ReRegisterAfterDelete(entry);
    var s := NameRegistry.RegisterAgent([entry.(deleted := true)], entry).value;
    assert s[0].name == s[1].name;
  }
}

/** `AgentRegistry::validate`: a p_address and public key are valid together only on one entry. */
module AgentRegistry {
  import opened Wrappers

  /** `registeredAt` and `status` are carried but never read by `validate`. */
  datatype AgentEntry = AgentEntry(publicKey: string, pAddress: string, registeredAt: Option<string>, status: Option<string>)

  /** Whether a single entry holds both the address and the key. */
  function Validate(entries: seq<AgentEntry>, pAddress: string, publicKey: string): (ok: bool)
    ensures ok <==> exists i :: 0 <= i < |entries| && entries[i].pAddress == pAddress && entries[i].publicKey == publicKey
  {
    if |entries| == 0 then false
    else (entries[0].pAddress == pAddress && entries[0].publicKey == publicKey)
         || Validate(entries[1..], pAddress, publicKey)
  }

  /** An address on one entry and a key on another do not validate; an empty registry validates nothing. */
  lemma SplitMatchRejected(a: AgentEntry, b: AgentEntry)
    requires a.pAddress != b.pAddress && a.publicKey != b.publicKey
    ensures !Validate([a, b], a.pAddress, b.publicKey)
    ensures !Validate([], a.pAddress, a.publicKey)
  {
  }

  /** The status is ignored: rewriting any entry's status (for example to "revoked") changes nothing. */
  lemma {:induction false} StatusIgnored(entries: seq<AgentEntry>, k: nat, status: Option<string>, pAddress: string, publicKey: string)
    requires k < |entries|
    ensures Validate(entries[k := entries[k].(status := status)], pAddress, publicKey)
        == Validate(entries, pAddress, publicKey)
  {
    var e := entries[k := entries[k].(status := status)];
    assert forall i :: 0 <= i < |e| ==> e[i].pAddress == entries[i].pAddress && e[i].publicKey == entries[i].publicKey;
  }
}

=== FILE: seed_node.dfy ===
/** The unified seed node: agent registry state machine plus signature-gated mailbox. */
module SeedNode {
  import opened Wrappers
  import opened Bytes
  import opened Text
  import opened Crypto
  import opened Mailbox

  const ACTIVE: string := "active"
  const REVOKED: string := "revoked"

  /** A registry record; `registeredAt` is the RFC 3339 time the handler was given. */
  datatype AgentInfo = AgentInfo(agentId: string, registeredAt: string, status: string, replacesId: Option<string>)

  type Registry = seq<AgentInfo>

  /** The reply's `status` field. */
  datatype Reply = Exists | Success | NotFound

  /** The reissue handler's HTTP status. */
  datatype ReissueReply = Reissued | OldNotFound | OldNotRevoked | NewIdActive {
    function Code(): nat {
      match this
      case Reissued => 200
      case OldNotFound => 404
      case OldNotRevoked => 400
      case NewIdActive => 409
    }
  }

  predicate IsActive(reg: Registry, id: string) {
    exists i :: 0 <= i < |reg| && reg[i].agentId == id && reg[i].status == ACTIVE
  }

  /** `registry.iter().any(|a| a.agent_id == id && a.status == "active")`. */
  function AnyActive(reg: Registry, id: string): (b: bool)
    ensures b <==> IsActive(reg, id)
  {
    if |reg| == 0 then false
    else (reg[0].agentId == id && reg[0].status == ACTIVE) || AnyActive(reg[1..], id)
  }

  /** The index of the first record with `id`, active only if `activeOnly`. */
  function FirstWithId(reg: Registry, id: string, activeOnly: bool): (r: Option<nat>)
    ensures r.Some? ==> r.value < |reg| && reg[r.value].agentId == id && (activeOnly ==> reg[r.value].status == ACTIVE)
    ensures r.Some? ==> forall j :: 0 <= j < r.value ==> !(reg[j].agentId == id && (activeOnly ==> reg[j].status == ACTIVE))
    ensures r.None? <==> forall j :: 0 <= j < |reg| ==> !(reg[j].agentId == id && (activeOnly ==> reg[j].status == ACTIVE))
  {
    if |reg| == 0 then None
    else if reg[0].agentId == id && (activeOnly ==> reg[0].status == ACTIVE) then Some(0)
    else match FirstWithId(reg[1..], id, activeOnly)
      case None => None
      case Some(k) => Some(k + 1)
  }

  /** `handle_registration`: "exists" with no change if the id is active; otherwise appends an active record. */
  function HandleRegistration(reg: Registry, agentId: string, now: string): (r: (Registry, Reply))
    ensures IsActive(reg, agentId) ==> r == (reg, Exists)
    ensures !IsActive(reg, agentId) ==> r.1 == Success && r.0 == reg + [AgentInfo(agentId, now, ACTIVE, None)]
  {
    if AnyActive(reg, agentId) then (reg, Exists)
    else (reg + [AgentInfo(agentId, now, ACTIVE, None)], Success)
  }

  /** `handle_revocation`: the first active record with the id becomes revoked; otherwise not_found, no change. */
  function HandleRevocation(reg: Registry, agentId: string): (r: (Registry, Reply))
    ensures r.1 != Exists
    ensures r.1 == NotFound <==> !IsActive(reg, agentId)
    ensures r.1 == NotFound ==> r.0 == reg
    ensures r.1 == Success ==> exists k :: (0 <= k < |reg| && reg[k].agentId == agentId && reg[k].status == ACTIVE
                                            && (forall j :: 0 <= j < k ==> !(reg[j].agentId == agentId && reg[j].status == ACTIVE))
                                            && r.0 == reg[k := reg[k].(status := REVOKED)])
  {
    match FirstWithId(reg, agentId, true)
    case None => (reg, NotFound)
    case Some(k) => (reg[k := reg[k].(status := REVOKED)], Success)
  }

  /**
   * `handle_reissue`: 404 if no record has the old id; 400 if the first such record is not
   * revoked; 409 if the new id is active; otherwise appends an active record that replaces the old id.
   */
  function HandleReissue(reg: Registry, oldId: string, newId: string, now: string): (r: (Registry, ReissueReply))
    ensures r.1 == OldNotFound <==> forall j :: 0 <= j < |reg| ==> reg[j].agentId != oldId
    ensures r.1 == Reissued ==> IsActive(r.0, newId) && !IsActive(reg, newId)
    ensures r.1 == Reissued <==>
      (exists k :: FirstWithId(reg, oldId, false) == Some(k) && reg[k].status == REVOKED) && !IsActive(reg, newId)
    ensures r.1 == OldNotRevoked <==> exists k :: FirstWithId(reg, oldId, false) == Some(k) && reg[k].status != REVOKED
    ensures r.1 == NewIdActive <==>
      (exists k :: FirstWithId(reg, oldId, false) == Some(k) && reg[k].status == REVOKED) && IsActive(reg, newId)
    ensures r.1 == Reissued ==> r.0 == reg + [AgentInfo(newId, now, ACTIVE, Some(oldId))]
    ensures r.1 != Reissued ==> r.0 == reg
  {
    match FirstWithId(reg, oldId, false)
    case None => (reg, OldNotFound)
    case Some(k) =>
      if reg[k].status != REVOKED then (reg, OldNotRevoked)
      else if AnyActive(reg, newId) then (reg, NewIdActive)
      else
        var r := reg + [AgentInfo(newId, now, ACTIVE, Some(oldId))];
        assert r[|reg|].agentId == newId && r[|reg|].status == ACTIVE;
        (r, Reissued)
  }

  /** `handle_emergency_reissue`: acknowledges and changes nothing. */
  function HandleEmergencyReissue(reg: Registry, q: Queue): (r: (Registry, Queue, string))
    ensures r.0 == reg && r.1 == q
    ensures r.2 == "received"
  {
    (reg, q, "received")
  }

  /** At most one active record per agent id. */
  predicate AtMostOneActive(reg: Registry) {
    forall i, j :: 0 <= i < j < |reg| && reg[i].status == ACTIVE && reg[j].status == ACTIVE ==> reg[i].agentId != reg[j].agentId
  }

  lemma AppendActivePreserves(reg: Registry, info: AgentInfo)
    requires AtMostOneActive(reg)
    requires info.status == ACTIVE && !IsActive(reg, info.agentId)
    ensures AtMostOneActive(reg + [info])
  {
    var s := reg + [info];
    forall i, j | 0 <= i < j < |s| && s[i].status == ACTIVE && s[j].status == ACTIVE
      ensures s[i].agentId != s[j].agentId
    {
      if j == |reg| {
        assert s[i] == reg[i];
      }
    }
  }

  /** Registration, revocation and reissue all keep at most one active record per id. */
  lemma OperationsPreserveAtMostOneActive(reg: Registry, id: string, oldId: string, now: string)
    requires AtMostOneActive(reg)
    ensures AtMostOneActive(HandleRegistration(reg, id, now).0)
    ensures AtMostOneActive(HandleRevocation(reg, id).0)
    ensures AtMostOneActive(HandleReissue(reg, oldId, id, now).0)
  {
    if !IsActive(reg, id) {
      AppendActivePreserves(reg, AgentInfo(id, now, ACTIVE, None));
      AppendActivePreserves(reg, AgentInfo(id, now, ACTIVE, Some(oldId)));
    }
  }

  /** Register, revoke, then reissue to a fresh id: each step succeeds and the new record points back. */
  lemma RevokeThenReissue(id: string, newId: string, t1: string, t2: string)
    requires id != newId
    ensures var (r1, a1) := HandleRegistration([], id, t1);
      var (r2, a2) := HandleRevocation(r1, id);
      var (r3, a3) := HandleReissue(r2, id, newId, t2);
      && a1 == Success && a2 == Success && a3 == Reissued && a3.Code() == 200
      && r3 == [AgentInfo(id, t1, REVOKED, None), AgentInfo(newId, t2, ACTIVE, Some(id))]
  {
    var r1 := [AgentInfo(id, t1, ACTIVE, None)];
    assert !AnyActive([], id);
    assert [] + r1 == r1;
    assert FirstWithId(r1, id, true) == Some(0);
    var r2 := [AgentInfo(id, t1, REVOKED, None)];
    assert r1[0 := r1[0].(status := REVOKED)] == r2;
    assert FirstWithId(r2, id, false) == Some(0);
    assert !AnyActive(r2, newId);
  }

  /** Reissuing from an id that is still active is refused with 400. */
  lemma ReissueOfActiveRefused(id: string, newId: string, t1: string, t2: string)
    ensures var (r1, _) := HandleRegistration([], id, t1);
      HandleReissue(r1, id, newId, t2) == (r1, OldNotRevoked)
  {
    var r1 := [AgentInfo(id, t1, ACTIVE, None)];
    assert !AnyActive([], id);
    assert [] + r1 == r1;
    assert FirstWithId(r1, id, false) == Some(0);
  }

  // ---------------------------------------------------------------------------
  // Signature-gated mailbox.
  // ---------------------------------------------------------------------------

  /** The index of the first config whose hex-encoded verifying key is the packet's source address. */
  function SenderKey(configs: seq<Bytes>, sourcePAddress: string): (r: Option<Bytes>)
    ensures r.Some? ==> r.value in configs && HexEncode(r.value) == sourcePAddress
    ensures r.None? <==> forall i :: 0 <= i < |configs| ==> HexEncode(configs[i]) != sourcePAddress
  {
    if |configs| == 0 then None
    else if HexEncode(configs[0]) == sourcePAddress then Some(configs[0])
    else SenderKey(configs[1..], sourcePAddress)
  }

  /**
   * `verify_packet_signature`: finds the sender by hex-encoded verifying key; an unknown
   * sender, a key that does not parse, a signature that is not hex or not 64 bytes, or a failed
   * check over the payload's bytes gives false.
   */
  function VerifyPacketSignature(ed: Ed25519, packet: AiTcpPacket, configs: seq<Bytes>): (ok: bool)
    ensures ok ==> exists i :: 0 <= i < |configs| && HexEncode(configs[i]) == packet.sourcePAddress
    ensures ok ==> HexDecode(packet.signature).Some? && |HexDecode(packet.signature).value| == 64
    ensures ok <==> var vk := SenderKey(configs, packet.sourcePAddress);
                    var sig := HexDecode(packet.signature);
                    && vk.Some? && ed.keyOk(vk.value) && sig.Some? && SignatureParses(sig.value)
                    && ed.verify(vk.value, Utf8(packet.payload), sig.value)
  {
    match SenderKey(configs, packet.sourcePAddress)
    case None => false
    case Some(vk) =>
      ed.keyOk(vk)
      && match HexDecode(packet.signature)
         case None => false
         case Some(sig) => SignatureParses(sig) && ed.verify(vk, Utf8(packet.payload), sig)
  }

  /** A packet signed over its payload by a registered sender, addressed by its hex key, verifies. */
  lemma GenuinePacketVerifies(ed: Ed25519, packet: AiTcpPacket, configs: seq<Bytes>, secretKey: Bytes)
    requires Sound(ed)
    requires ed.publicOf(secretKey) in configs
    requires packet.sourcePAddress == HexEncode(ed.publicOf(secretKey))
    requires packet.signature == HexEncode(ed.sign(secretKey, Utf8(packet.payload)))
    ensures VerifyPacketSignature(ed, packet, configs)
  {
    var vk := SenderKey(configs, packet.sourcePAddress);
    assert vk.Some?;
    HexEncodeInjective(vk.value, ed.publicOf(secretKey));
    HexRoundTrip(ed.sign(secretKey, Utf8(packet.payload)));
  }

  /**
   * For a packet from a configured, parseable key and a well-formed 64-byte signature text,
   * the verdict is exactly ed25519's check of that signature over the payload bytes.
   */
  lemma VerdictIsSignatureCheck(ed: Ed25519, packet: AiTcpPacket, configs: seq<Bytes>, vk: Bytes, sig: Bytes)
    requires vk in configs && ed.keyOk(vk) && |sig| == 64
    requires packet.sourcePAddress == HexEncode(vk) && packet.signature == HexEncode(sig)
    ensures VerifyPacketSignature(ed, packet, configs) <==> ed.verify(vk, Utf8(packet.payload), sig)
  {
    var found := SenderKey(configs, packet.sourcePAddress);
    assert found.Some?;
    HexEncodeInjective(found.value, vk);
    HexRoundTrip(sig);
  }

  /** `handle_send`: queues the packet only if it verifies, but replies "packet_queued" either way. */
  function HandleSend(ed: Ed25519, q: Queue, configs: seq<Bytes>, packet: AiTcpPacket): (r: (Queue, string))
    ensures r.1 == "packet_queued"
    ensures VerifyPacketSignature(ed, packet, configs) ==> r.0 == Enqueue(q, packet)
    ensures !VerifyPacketSignature(ed, packet, configs) ==> r.0 == q
  {
    if VerifyPacketSignature(ed, packet, configs) then (Enqueue(q, packet), "packet_queued")
    else (q, "packet_queued")
  }

  /** `handle_receive`: the address's packets in arrival order; its inbox is emptied. */
  function HandleReceive(q: Queue, pAddress: string): (r: (Queue, seq<AiTcpPacket>))
    ensures r.1 == Inbox(q, pAddress) && Inbox(r.0, pAddress) == []
    ensures pAddress !in q ==> r == (q, [])
  {
    Drain(q, pAddress)
  }

  /** Only verified packets ever sit in an inbox. */
  lemma SendKeepsQueueVerified(ed: Ed25519, q: Queue, configs: seq<Bytes>, packet: AiTcpPacket)
    requires AllSatisfy(q, p => VerifyPacketSignature(ed, p, configs))
    ensures AllSatisfy(HandleSend(ed, q, configs, packet).0, p => VerifyPacketSignature(ed, p, configs))
  {
    if VerifyPacketSignature(ed, packet, configs) {
      EnqueuePreserves(q, packet, p => VerifyPacketSignature(ed, p, configs));
    }
  }
}

/** The development seed node: the same registry logic without the `replaces` link. */
module DevSeedNode {
  import opened Wrappers
  import SeedNode

  datatype AgentInfo = AgentInfo(agentId: string, registeredAt: string, status: string)

  type Registry = seq<AgentInfo>

  predicate IsActive(reg: Registry, id: string) {
    exists i :: 0 <= i < |reg| && reg[i].agentId == id && reg[i].status == SeedNode.ACTIVE
  }

  function AnyActive(reg: Registry, id: string): (b: bool)
    ensures b <==> IsActive(reg, id)
  {
    if |reg| == 0 then false
    else (reg[0].agentId == id && reg[0].status == SeedNode.ACTIVE) || AnyActive(reg[1..], id)
  }

  function FirstActive(reg: Registry, id: string): (r: Option<nat>)
    ensures r.Some? ==> r.value < |reg| && reg[r.value].agentId == id && reg[r.value].status == SeedNode.ACTIVE
    ensures r.Some? ==> forall j :: 0 <= j < r.value ==> !(reg[j].agentId == id && reg[j].status == SeedNode.ACTIVE)
    ensures r.None? <==> !IsActive(reg, id)
  {
    if |reg| == 0 then None
    else if reg[0].agentId == id && reg[0].status == SeedNode.ACTIVE then Some(0)
    else match FirstActive(reg[1..], id)
      case None => None
      case Some(k) => Some(k + 1)
  }

  /** Registration: "exists" with no change for an active id, otherwise exactly one active record appended. */
  function HandleRegistration(reg: Registry, agentId: string, now: string): (r: (Registry, SeedNode.Reply))
    ensures IsActive(reg, agentId) ==> r == (reg, SeedNode.Exists)
    ensures !IsActive(reg, agentId) ==>
      (r.1 == SeedNode.Success && |r.0| == |reg| + 1 && r.0[..|reg|] == reg
       && r.0[|reg|] == AgentInfo(agentId, now, SeedNode.ACTIVE))
  {
    if AnyActive(reg, agentId) then (reg, SeedNode.Exists)
    else (reg + [AgentInfo(agentId, now, SeedNode.ACTIVE)], SeedNode.Success)
  }

  /** Revocation flips the first active record with the id; otherwise not_found with no change. */
  function HandleRevocation(reg: Registry, agentId: string): (r: (Registry, SeedNode.Reply))
    ensures r.1 == SeedNode.NotFound <==> !IsActive(reg, agentId)
    ensures r.1 == SeedNode.NotFound ==> r.0 == reg
    ensures r.1 == SeedNode.Success ==> |r.0| == |reg|
    ensures r.1 == SeedNode.Success ==> exists k :: (0 <= k < |reg| && reg[k].agentId == agentId && reg[k].status == SeedNode.ACTIVE
                                                     && (forall j :: 0 <= j < k ==> !(reg[j].agentId == agentId && reg[j].status == SeedNode.ACTIVE))
                                                     && r.0 == reg[k := reg[k].(status := SeedNode.REVOKED)])
  {
    match FirstActive(reg, agentId)
    case None => (reg, SeedNode.NotFound)
    case Some(k) => (reg[k := reg[k].(status := SeedNode.REVOKED)], SeedNode.Success)
  }

  /** Forgets the `replaces` link of a unified seed-node record. */
  function Project(reg: SeedNode.Registry): (r: Registry)
    ensures |r| == |reg|
    ensures forall i :: 0 <= i < |reg| ==> r[i] == AgentInfo(reg[i].agentId, reg[i].registeredAt, reg[i].status)
  {
    if |reg| == 0 then [] else [AgentInfo(reg[0].agentId, reg[0].registeredAt, reg[0].status)] + Project(reg[1..])
  }

  /** The development node behaves as the unified node with `replaces` forgotten. */
  lemma AgreesWithSeedNode(reg: SeedNode.Registry, id: string, now: string)
    ensures HandleRegistration(Project(reg), id, now).1 == SeedNode.HandleRegistration(reg, id, now).1
    ensures HandleRegistration(Project(reg), id, now).0 == Project(SeedNode.HandleRegistration(reg, id, now).0)
    ensures HandleRevocation(Project(reg), id).1 == SeedNode.HandleRevocation(reg, id).1
    ensures HandleRevocation(Project(reg), id).0 == Project(SeedNode.HandleRevocation(reg, id).0)
  {
    var p := Project(reg);
    assert IsActive(p, id) <==> SeedNode.IsActive(reg, id) by {
      if IsActive(p, id) {
        var i :| 0 <= i < |p| && p[i].agentId == id && p[i].status == SeedNode.ACTIVE;
        assert reg[i].agentId == id && reg[i].status == SeedNode.ACTIVE;
      }
    }
    FirstActiveAgrees(reg, id);
  }

  lemma {:induction false} FirstActiveAgrees(reg: SeedNode.Registry, id: string)
    ensures FirstActive(Project(reg), id) == SeedNode.FirstWithId(reg, id, true)
  {
    if |reg| > 0 {
      FirstActiveAgrees(reg[1..], id);
      assert Project(reg)[1..] == Project(reg[1..]);
    }
  }

  /** At most one active record per id, kept by both operations. */
  predicate AtMostOneActive(reg: Registry) {
    forall i, j :: 0 <= i < j < |reg| && reg[i].status == SeedNode.ACTIVE && reg[j].status == SeedNode.ACTIVE ==> reg[i].agentId != reg[j].agentId
  }

  lemma OperationsPreserveAtMostOneActive(reg: Registry, id: string, now: string)
    requires AtMostOneActive(reg)
    ensures AtMostOneActive(HandleRegistration(reg, id, now).0)
    ensures AtMostOneActive(HandleRevocation(reg, id).0)
  {
    var (s, _) := HandleRegistration(reg, id, now);
    if !IsActive(reg, id) {
      forall i, j | 0 <= i < j < |s| && s[i].status == SeedNode.ACTIVE && s[j].status == SeedNode.ACTIVE
        ensures s[i].agentId != s[j].agentId
      {
        if j == |reg| {
          assert s[i] == reg[i];
        }
      }
    }
  }
}

/** The minimal seed node: a list of registered ids with duplicate refusal. */
module IdListSeedNode {
  import SeedNode

  predicate NoDuplicates(ids: seq<string>) {
    forall i, j :: 0 <= i < j < |ids| ==> ids[i] != ids[j]
  }

  /** "exists" with the list unchanged for a known id; otherwise the id is appended. */
  function HandleRegistration(ids: seq<string>, agentId: string): (r: (seq<string>, SeedNode.Reply))
    ensures agentId in ids ==> r == (ids, SeedNode.Exists)
    ensures agentId !in ids ==> r == (ids + [agentId], SeedNode.Success)
    ensures agentId in r.0
  {
    if agentId in ids then (ids, SeedNode.Exists) else (ids + [agentId], SeedNode.Success)
  }

  /** The list never holds a duplicate, and registering twice is the same as registering once. */
  lemma RegistrationKeepsListDistinct(ids: seq<string>, agentId: string)
    requires NoDuplicates(ids)
    ensures NoDuplicates(HandleRegistration(ids, agentId).0)
    ensures HandleRegistration(HandleRegistration(ids, agentId).0, agentId).0 == HandleRegistration(ids, agentId).0
  {
  }
}

=== FILE: send_path.dfy ===
/** IP addresses as the agent daemon handles them: the 16-byte witness encoding and its printing. */
module IpAddresses {
  import opened Bytes
  import opened Text

  type Octets16 = s: Bytes | |s| == 16 witness [0, 0, 0, 0, 0, 0, 0, 0, 0, 0, 0, 0, 0, 0, 0, 0]

  /** `std::net::IpAddr`. */
  datatype IpAddr = V4(a: byte, b: byte, c: byte, d: byte) | V6(octets: Octets16)

  /** `encode_ip`: an IPv4 address's four octets then twelve zeros, or an IPv6 address's sixteen octets. */
  function EncodeIp(ip: IpAddr): (r: Octets16)
    ensures ip.V4? ==> r[..4] == [ip.a, ip.b, ip.c, ip.d] && !TailNonZero(r)
    ensures FormatIp(r).V4? <==> ip.V4? || !TailNonZero(ip.octets)
  {
    match ip
    case V4(a, b, c, d) => [a, b, c, d] + Zeros(12)
    case V6(o) => o
  }

  /** Whether any of bytes 4..16 is non-zero: `ip[4..].iter().any(|b| *b != 0)`. */
  predicate TailNonZero(b: Octets16) {
    exists i :: 4 <= i < 16 && b[i] != 0
  }

  /** `format_ip`, as the address whose text is printed: IPv6 when bytes 4..16 are not all zero, else IPv4 of the first four. */
  function FormatIp(b: Octets16): (ip: IpAddr)
    ensures ip.V4? <==> forall i :: 4 <= i < 16 ==> b[i] == 0
  {
    if TailNonZero(b) then V6(b) else V4(b[0], b[1], b[2], b[3])
  }

  /** The dotted-decimal text of an IPv4 address. */
  function Ipv4Text(a: byte, b: byte, c: byte, d: byte): string {
    Decimal(a) + "." + Decimal(b) + "." + Decimal(c) + "." + Decimal(d)
  }

  /** The printed text; IPv6 text (section 4 of RFC 5952) is the parameter `showV6`. */
  function FormatIpText(b: Octets16, showV6: Octets16 -> string): string {
    match FormatIp(b)
    case V4(a0, a1, a2, a3) => Ipv4Text(a0, a1, a2, a3)
    case V6(o) => showV6(o)
  }

  /** Printing an encoded IPv4 address gives it back, dotted. */
  lemma V4RoundTrip(a: byte, b: byte, c: byte, d: byte, showV6: Octets16 -> string)
    ensures FormatIp(EncodeIp(V4(a, b, c, d))) == V4(a, b, c, d)
    ensures FormatIpText(EncodeIp(V4(a, b, c, d)), showV6) == Ipv4Text(a, b, c, d)
  {
  }

  /** An IPv6 address survives encoding and printing exactly when one of its last twelve bytes is non-zero. */
  lemma V6RoundTrip(o: Octets16)
    ensures FormatIp(EncodeIp(V6(o))) == V6(o) <==> TailNonZero(o)
  {
  }

  /** 2001:db8:: has a zero tail, so it is printed as the IPv4 address 32.1.13.184. */
  lemma DocumentationPrefixPrintsAsV4(showV6: Octets16 -> string)
    ensures var o: Octets16 := [0x20, 0x01, 0x0d, 0xb8, 0, 0, 0, 0, 0, 0, 0, 0, 0, 0, 0, 0];
      && FormatIp(EncodeIp(V6(o))) == V4(32, 1, 13, 184)
      && FormatIp(EncodeIp(V6(o))) != V6(o)
  {
  }

  /** The encoding is injective on IPv4 and on IPv6 separately, but an IPv4 address and its zero-tailed IPv6 twin collide. */
  lemma EncodeCollision(a: byte, b: byte, c: byte, d: byte)
    ensures EncodeIp(V4(a, b, c, d)) == EncodeIp(V6([a, b, c, d] + Zeros(12)))
  {
  }

  // ---------------------------------------------------------------------------
  // `classify_ip`.
  // ---------------------------------------------------------------------------

  datatype EndpointClass = Local | KnownTest | KnownPeer | Suspicious | Unknown

  /** `IpAddr::is_loopback`: 127.0.0.0/8, or exactly ::1. */
  predicate IsLoopback(ip: IpAddr) {
    match ip
    case V4(a, _, _, _) => a == 127
    case V6(o) => o == [0, 0, 0, 0, 0, 0, 0, 0, 0, 0, 0, 0, 0, 0, 0, 1]
  }

  /** `Ipv4Addr::is_private`: the standard library tests `16 <= b <= 31` for 172.x, which `b / 16 == 1` restates. */
  predicate IsPrivateV4(a: byte, b: byte) {
    a == 10 || (a == 172 && b / 16 == 1) || (a == 192 && b == 168)
  }

  /** `classify_ip`: loopback and private IPv4 are Local, 93.184.216.34 is KnownTest, all else Unknown. */
  function ClassifyIp(ip: IpAddr): (c: EndpointClass)
    ensures c != KnownPeer && c != Suspicious
    ensures ip.V6? ==> (c == Local <==> IsLoopback(ip)) && (c != Local ==> c == Unknown)
  {
    if IsLoopback(ip) then Local
    else if ip.V4? && IsPrivateV4(ip.a, ip.b) then Local
    else if ip == V4(93, 184, 216, 34) then KnownTest
    else Unknown
  }

  /** The 32-bit value of an IPv4 address. */
  function Value(a: byte, b: byte, c: byte, d: byte): nat {
    a * 0x100_0000 + b * 0x1_0000 + c * 0x100 + d
  }

  /** Membership in `net/len`, comparing the top `len` bits (`len` one of 8, 12, 16, 32). */
  predicate InCidr(v: nat, net: nat, len: nat)
    requires len == 8 || len == 12 || len == 16 || len == 32
  {
    var unit := if len == 8 then 0x100_0000 else if len == 12 then 0x10_0000 else if len == 16 then 0x1_0000 else 1;
    v / unit == net / unit
  }

  /** The top bits of an address: its first octet, its first octet and high nibble, its first two octets. */
  lemma TopBits(a: byte, b: byte, c: byte, d: byte)
    ensures Value(a, b, c, d) / 0x100_0000 == a
    ensures Value(a, b, c, d) / 0x10_0000 == a * 16 + b / 16
    ensures Value(a, b, c, d) / 0x1_0000 == a * 0x100 + b
  {
    var v := Value(a, b, c, d);
    var low := c * 0x100 + d;
    assert 0 <= low < 0x1_0000;
    assert v == (a * 0x100 + b) * 0x1_0000 + low;
    assert v == (a * 16 + b / 16) * 0x10_0000 + ((b % 16) * 0x1_0000 + low);
    assert v == a * 0x100_0000 + (b * 0x1_0000 + low);
  }

  /**
   * IPv4 classification agrees with the address blocks: Local is exactly 127.0.0.0/8 or one of
   * the private blocks of section 3 of RFC 1918 (10/8, 172.16/12, 192.168/16); KnownTest is
   * exactly 93.184.216.34/32.
   */
  lemma ClassifyMatchesBlocks(a: byte, b: byte, c: byte, d: byte)
    ensures var v := Value(a, b, c, d);
      && (ClassifyIp(V4(a, b, c, d)) == Local <==>
           (|| InCidr(v, Value(127, 0, 0, 0), 8)
            || InCidr(v, Value(10, 0, 0, 0), 8)
            || InCidr(v, Value(172, 16, 0, 0), 12)
            || InCidr(v, Value(192, 168, 0, 0), 16)))
      && (ClassifyIp(V4(a, b, c, d)) == KnownTest <==> InCidr(v, Value(93, 184, 216, 34), 32))
  {
    TopBits(a, b, c, d);
    TopBits(127, 0, 0, 0);
    TopBits(10, 0, 0, 0);
    TopBits(172, 16, 0, 0);
    TopBits(192, 168, 0, 0);
    ValueInjective(a, b, c, d, 93, 184, 216, 34);
  }

  lemma ValueInjective(a: byte, b: byte, c: byte, d: byte, a': byte, b': byte, c': byte, d': byte)
    ensures Value(a, b, c, d) == Value(a', b', c', d') <==> (a, b, c, d) == (a', b', c', d')
  {
    if Value(a, b, c, d) == Value(a', b', c', d') {
      TopBits(a, b, c, d);
      TopBits(a', b', c', d');
      assert c * 0x100 + d == c' * 0x100 + d';
    }
  }
}

/**
 * `handle_send` of the agent daemon after signature validation: the witness record, the burst
 * detector and the reply. Hashes, clocks and the GPT responder are parameters.
 */
module SendPath {
  import opened Wrappers
  import opened Bytes
  import opened Text
  import opened Mailbox
  import opened IpAddresses
  import opened Witness
  import opened KairoP
  import opened ClearMiniApi
  import Detector

  const BURST_THRESHOLD: nat := 50
  const BURST_WINDOW_SECONDS: u64 := 10
  const GPT_DESTINATION: string := "gpt://main"

  /** `derive_agent_id`: the `DefaultHasher` value masked with 0x7FFF_FFFF. */
  function DeriveAgentId(hash: string -> u64, pAddress: string): (id: i32)
    ensures 0 <= id < 0x8000_0000
  {
    hash(pAddress) % 0x8000_0000
  }

  /** The text after the last "://" (`split("://").last()`), or all of `s` when there is none. */
  function AfterLastScheme(s: string): (r: string)
    ensures EndsWith(s, r)
    decreases |s|
  {
    if |s| == 0 || EndsWith(s, "://") then ""
    else AfterLastScheme(s[..|s| - 1]) + [s[|s| - 1]]
  }

  /** The piece holds no "://", and it is either all of `s` or follows a "://". */
  lemma {:induction false} AfterLastSchemeSpec(s: string)
    ensures !Contains(AfterLastScheme(s), "://")
    ensures AfterLastScheme(s) == s || EndsWith(s[..|s| - |AfterLastScheme(s)|], "://")
    decreases |s|
  {
    var r := AfterLastScheme(s);
    if |s| == 0 || EndsWith(s, "://") {
      assert !OccursAt(r, "://", 0);
    } else {
      var p := s[..|s| - 1];
      var r' := AfterLastScheme(p);
      AfterLastSchemeSpec(p);
      assert r == r' + [s[|s| - 1]];
      assert s[..|s| - |r|] == p[..|p| - |r'|];
      assert r[|r| - 1] == s[|s| - 1];
      assert EndsWith(r, "://") ==> EndsWith(s, "://");
      NoSchemeAppend(r', s[|s| - 1]);
    }
  }

  /** Appending a character to text without "://" creates one only at the very end. */
  lemma NoSchemeAppend(t: string, c: char)
    requires !Contains(t, "://") && !EndsWith(t + [c], "://")
    ensures !Contains(t + [c], "://")
  {
    var u := t + [c];
    forall i | 0 <= i <= |u|
      ensures !OccursAt(u, "://", i)
    {
      if i + 3 <= |t| {
        assert u[i..i + 3] == t[i..i + 3];
        assert !OccursAt(t, "://", i);
      }
    }
  }

  /**
   * `parse_destination_endpoint`: a socket address after the last "://" gives its encoded ip and
   * port, a bare ip gives port 0, anything else sixteen zeros and port 0. The two `parse`
   * calls are the parameters.
   */
  function ParseDestinationEndpoint(pAddress: string, parseSocket: string -> Option<(IpAddr, u16)>,
                                    parseIp: string -> Option<IpAddr>): (r: (Octets16, u16))
    ensures var st := AfterLastScheme(pAddress);
      && (parseSocket(st).Some? ==> r == (EncodeIp(parseSocket(st).value.0), parseSocket(st).value.1))
      && (parseSocket(st).None? && parseIp(st).Some? ==> r == (EncodeIp(parseIp(st).value), 0))
      && (parseSocket(st).None? && parseIp(st).None? ==> r.0 == Zeros(16) && r.1 == 0)
  {
    var st := AfterLastScheme(pAddress);
    match parseSocket(st)
    case Some((ip, port)) => (EncodeIp(ip), port)
    case None =>
      match parseIp(st)
      case Some(ip) => (EncodeIp(ip), 0)
      case None => (Zeros(16), 0)
  }

  /** The route flag: 1 for the GPT destination, 2 for any other. */
  function RouteFlag(destination: string): (f: u32)
    ensures f == 1 <==> destination == GPT_DESTINATION
    ensures f == 1 || f == 2
  {
    if destination == GPT_DESTINATION then 1 else 2
  }

  /** Whether `detect_burst` warns: 50 hits or more in the window. */
  predicate BurstWarning(count: nat) {
    count >= BURST_THRESHOLD
  }

  /** The daemon's witness and burst state (`CLEAR_MINI` and `DET_DST_10S`). */
  datatype SendState = SendState(cm: ClearMini, det: Detector.Window)

  function InitialState(): (s: SendState)
    ensures s.cm.ring.cap == CAPACITY && Snapshot(s.cm.ring) == []
    ensures s.det.win == 10 * Detector.SECOND && s.det.hits == map[]
  {
    SendState(NewClearMini(), Detector.New(BURST_WINDOW_SECONDS))
  }

  /** The hashes and clock readings one call uses. */
  datatype Env = Env(
    crc32: Bytes -> u32, idHash: string -> u64, endpointHash: (Octets16, u16) -> u64,
    mono: nat, utc: nat, now: int)

  /** `record_witness` then `detect_burst` for one request; returns whether the burst warning fires. */
  function WitnessRequest(st: SendState, env: Env, packet: AiTcpPacket, ip: Octets16, port: u16, flags: u32): (r: (SendState, bool))
    ensures r.0.cm.ring.cap == st.cm.ring.cap && r.0.det.win == st.det.win
    ensures Bounded(st.cm.ring) && st.cm.ring.cap == CAPACITY ==> KeptBefore(Snapshot(st.cm.ring), Snapshot(r.0.cm.ring))
  {
    var src := PAddressRecord(DeriveAgentId(env.idHash, packet.sourcePAddress), Stored(packet.sourcePAddress));
    var dst := PAddressRecord(0, Stored(""));
    var len := |Utf8(packet.payload)| % U32_LIMIT;
    var cm := Record(st.cm, env.crc32, env.mono, env.utc, src, dst, len, flags, ip, port);
    assert Bounded(st.cm.ring) && st.cm.ring.cap == CAPACITY ==> KeptBefore(Snapshot(st.cm.ring), Snapshot(cm.ring)) by {
      if Bounded(st.cm.ring) && st.cm.ring.cap == CAPACITY {
        RecordPushesOne(st.cm, env.crc32, env.mono, env.utc, src, dst, len, flags, ip, port);
      }
    }
    var (det, count) := Detector.Hit(st.det, env.endpointHash(ip, port), env.now);
    (SendState(cm, det), BurstWarning(count))
  }

  /** The HTTP reply: status and body. */
  datatype Reply = Reply(status: nat, body: string)

  /**
   * `handle_send`: 403 for a bad signature; for "gpt://main", the responder's reply (200, with
   * its remote address witnessed under flag 1) or 500 on its error; otherwise the parsed
   * destination is witnessed under flag 2 and the reply is 501.
   */
  function HandleSend(st: SendState, env: Env, packet: AiTcpPacket, valid: bool,
                      gpt: Result<(string, IpAddr, u16), string>,
                      parseSocket: string -> Option<(IpAddr, u16)>,
                      parseIp: string -> Option<IpAddr>): (r: (SendState, Reply, bool))
    ensures !valid ==> r == (st, Reply(403, "Forbidden"), false)
    ensures valid && packet.destinationPAddress == GPT_DESTINATION && gpt.Err? ==>
              r == (st, Reply(500, "Internal Server Error"), false)
    ensures valid && packet.destinationPAddress == GPT_DESTINATION && gpt.Ok? ==> r.1 == Reply(200, gpt.value.0)
    ensures valid && packet.destinationPAddress != GPT_DESTINATION ==> r.1 == Reply(501, "Not Implemented")
  {
    if !valid then (st, Reply(403, "Forbidden"), false)
    else if packet.destinationPAddress == GPT_DESTINATION then
      match gpt
      case Ok((body, addr, port)) =>
        var (st', warned) := WitnessRequest(st, env, packet, EncodeIp(addr), port, RouteFlag(packet.destinationPAddress));
        (st', Reply(200, body), warned)
      case Err(_) => (st, Reply(500, "Internal Server Error"), false)
    else
      var (ip, port) := ParseDestinationEndpoint(packet.destinationPAddress, parseSocket, parseIp);
      var (st', warned) := WitnessRequest(st, env, packet, ip, port, RouteFlag(packet.destinationPAddress));
      (st', Reply(501, "Not Implemented"), warned)
  }

  /** Whether the state changed by one witnessed request: one more record with these fields, one more hit. */
  predicate WitnessedOnce(st: SendState, st': SendState, env: Env, packet: AiTcpPacket, ip: Octets16, port: u16, flags: u32) {
    var s := Snapshot(st'.cm.ring);
    var key := env.endpointHash(ip, port);
    && |s| > 0
    && s[|s| - 1].src == DeriveAgentId(env.idHash, packet.sourcePAddress)
    && s[|s| - 1].dst == 0
    && s[|s| - 1].ip == ip && s[|s| - 1].port == port && s[|s| - 1].flags == flags
    && s[|s| - 1].hash32 == env.crc32(ip)
    && s[|s| - 1].len == |Utf8(packet.payload)| % U32_LIMIT
    && key in st'.det.hits && |st'.det.hits[key]| >= 1
    && (forall k :: k != key ==> Detector.Queue(st'.det, k) == Detector.Queue(st.det, k))
    && (Bounded(st.cm.ring) && st.cm.ring.cap == CAPACITY ==> KeptBefore(Snapshot(st.cm.ring), s))
  }

  /** The records before the newest are the earlier ones, less the oldest once the ring was full. */
  predicate KeptBefore(before: seq<WitnessRecord>, after: seq<WitnessRecord>) {
    && 0 < |after| <= CAPACITY
    && (|before| < CAPACITY ==> after[..|after| - 1] == before)
    && (|before| == CAPACITY ==> after[..|after| - 1] == before[1..])
  }

  /**
   * An accepted request that is not a failed GPT call writes exactly one witness record, flagged
   * 1 for the GPT destination and 2 otherwise, and the warning fires iff the endpoint's window
   * count reaches 50.
   */
  lemma AcceptedIsWitnessed(st: SendState, env: Env, packet: AiTcpPacket,
                            gpt: Result<(string, IpAddr, u16), string>,
                            parseSocket: string -> Option<(IpAddr, u16)>,
                            parseIp: string -> Option<IpAddr>)
    requires packet.destinationPAddress != GPT_DESTINATION || gpt.Ok?
    ensures var r := HandleSend(st, env, packet, true, gpt, parseSocket, parseIp);
      var (ip, port) := if packet.destinationPAddress == GPT_DESTINATION then (EncodeIp(gpt.value.1), gpt.value.2)
                        else ParseDestinationEndpoint(packet.destinationPAddress, parseSocket, parseIp);
      var key := env.endpointHash(ip, port);
      && WitnessedOnce(st, r.0, env, packet, ip, port, if packet.destinationPAddress == GPT_DESTINATION then 1 else 2)
      && (r.2 <==> |r.0.det.hits[key]| >= BURST_THRESHOLD)
  {
  }

  /** The destination record of every witness is the empty nickname: id 0 and 60 zero bytes. */
  lemma EmptyDestinationRecord()
    ensures Stored("") == Zeros(NICKNAME_LEN)
  {
    assert ""[..FitCount("", NICKNAME_LEN)] == "";
  }
}

=== FILE: serializer.dfy ===
/** The Go peer's `Serialize`: a length-prefixed byte layout of an AI-TCP packet. */
module Serializer {
  import opened Wrappers
  import opened Bytes

  datatype Packet = Packet(
    version: byte,
    ephemeralKey: Bytes,
    nonce: Bytes,
    encryptedSeqId: Bytes,
    encryptedPayload: Bytes,
    signature: Bytes)

  /** `byte(len(f))` then `f`: the one-byte prefix keeps only the length modulo 256. */
  function Prefixed8(f: Bytes, rest: Bytes): Bytes {
    [|f| % 256] + f + rest
  }

  /** `PutUint16(uint16(len(f)))` then `f`: a big-endian two-byte prefix, length modulo 65536. */
  function Prefixed16(f: Bytes, rest: Bytes): Bytes {
    ToBE(|f| % 0x1_0000, 2) + f + rest
  }

  /** The encoding: version, then key and nonce after 1-byte lengths, then sequence, payload and signature after 2-byte lengths. */
  function Serialize(p: Packet): (out: Bytes)
    ensures |out| == 1 + 1 + |p.ephemeralKey| + 1 + |p.nonce| + 2 + |p.encryptedSeqId|
                   + 2 + |p.encryptedPayload| + 2 + |p.signature|
    ensures out[0] == p.version
    ensures out[1] == |p.ephemeralKey| % 256
    ensures out[2..2 + |p.ephemeralKey|] == p.ephemeralKey
  {
    [p.version]
    + Prefixed8(p.ephemeralKey,
      Prefixed8(p.nonce,
      Prefixed16(p.encryptedSeqId,
      Prefixed16(p.encryptedPayload,
      Prefixed16(p.signature, [])))))
  }

  /** Whether every field length fits its prefix, so no length is truncated. */
  predicate LengthsFit(p: Packet) {
    && |p.ephemeralKey| < 256 && |p.nonce| < 256
    && |p.encryptedSeqId| < 0x1_0000 && |p.encryptedPayload| < 0x1_0000 && |p.signature| < 0x1_0000
  }

  // ---------------------------------------------------------------------------
  // A reference decoder for the layout: reads each prefix and the bytes it announces.
  // ---------------------------------------------------------------------------

  /** Reads a field after a one-byte length; returns it and the remaining bytes. */
  function Read8(b: Bytes): Option<(Bytes, Bytes)> {
    if |b| < 1 then None
    else
      var n: nat := b[0];
      if |b| < 1 + n then None else Some((b[1..1 + n], b[1 + n..]))
  }

  /** Reads a field after a two-byte big-endian length; returns it and the remaining bytes. */
  function Read16(b: Bytes): Option<(Bytes, Bytes)> {
    if |b| < 2 then None
    else
      var n := FromBE(b[..2]);
      if |b| < 2 + n then None else Some((b[2..2 + n], b[2 + n..]))
  }

  /** Decodes a whole serialized packet; trailing bytes are an error. */
  function Deserialize(b: Bytes): Option<Packet> {
    if |b| < 1 then None
    else
      var ek :- Read8(b[1..]);
      var nonce :- Read8(ek.1);
      var sn :- Read16(nonce.1);
      var payload :- Read16(sn.1);
      var sig :- Read16(payload.1);
      if sig.1 != [] then None
      else Some(Packet(b[0], ek.0, nonce.0, sn.0, payload.0, sig.0))
  }

  lemma Read8Prefixed(f: Bytes, rest: Bytes)
    requires |f| < 256
    ensures Read8(Prefixed8(f, rest)) == Some((f, rest))
  {
    var b := Prefixed8(f, rest);
    assert b[1..1 + |f|] == f;
    assert b[1 + |f|..] == rest;
  }

  lemma Read16Prefixed(f: Bytes, rest: Bytes)
    requires |f| < 0x1_0000
    ensures Read16(Prefixed16(f, rest)) == Some((f, rest))
  {
    var b := Prefixed16(f, rest);
    Pow256Values();
    BERoundTrip(|f|, 2);
    assert b[..2] == ToBE(|f|, 2);
    assert b[2..2 + |f|] == f;
    assert b[2 + |f|..] == rest;
  }

  /** When every length fits its prefix, decoding the encoding recovers each field exactly. */
  lemma RoundTrip(p: Packet)
    requires LengthsFit(p)
    ensures Deserialize(Serialize(p)) == Some(p)
  {
    var s5 := Prefixed16(p.signature, []);
    var s4 := Prefixed16(p.encryptedPayload, s5);
    var s3 := Prefixed16(p.encryptedSeqId, s4);
    var s2 := Prefixed8(p.nonce, s3);
    var s1 := Prefixed8(p.ephemeralKey, s2);
    Read8Prefixed(p.ephemeralKey, s2);
    Read8Prefixed(p.nonce, s3);
    Read16Prefixed(p.encryptedSeqId, s4);
    Read16Prefixed(p.encryptedPayload, s5);
    Read16Prefixed(p.signature, []);
    assert Serialize(p)[1..] == s1;
  }

  /** The encoding is injective on packets whose lengths fit. */
  lemma SerializeInjective(p: Packet, q: Packet)
    requires LengthsFit(p) && LengthsFit(q)
    requires Serialize(p) == Serialize(q)
    ensures p == q
  {
    RoundTrip(p);
    RoundTrip(q);
  }

  /**
   * A 256-byte ephemeral key is announced as length 0, so the encoding no longer decodes to
   * the packet that was serialized.
   */
  lemma LongKeyTruncated(p: Packet)
    requires |p.ephemeralKey| == 256
    ensures Serialize(p)[1] == 0
    ensures Deserialize(Serialize(p)) != Some(p)
  {
    var b := Serialize(p);
    var d := Deserialize(b);
    if d.Some? {
      assert Read8(b[1..]).Some?;
      assert Read8(b[1..]).value.0 == [];
    }
  }
}

=== FILE: text.dfy ===
/** Text helpers the modelled code relies on: decimal formatting, UTF-8, whitespace, joining. */
module Text {
  import opened Wrappers
  import opened Bytes

  // ---------------------------------------------------------------------------
  // Decimal formatting (`format!("{}", n)`, Python's f-string of an int).
  // ---------------------------------------------------------------------------

  predicate IsDigit(c: char) { '0' <= c <= '9' }

  function DigitChar(d: nat): (c: char)
    requires d < 10
    ensures IsDigit(c)
  {
    ('0' as nat + d) as char
  }

  /** The decimal text of a natural number, without leading zeros. */
  function Decimal(n: nat): (s: string)
    ensures |s| >= 1
    ensures forall i :: 0 <= i < |s| ==> IsDigit(s[i])
    ensures n < 10 <==> |s| == 1
  {
    if n < 10 then [DigitChar(n)] else Decimal(n / 10) + [DigitChar(n % 10)]
  }

  /** Different numbers print differently. */
  lemma {:induction false} DecimalInjective(a: nat, b: nat)
    requires Decimal(a) == Decimal(b)
    ensures a == b
  {
    if a >= 10 && b >= 10 {
      var da, db := Decimal(a), Decimal(b);
      assert da[..|da| - 1] == Decimal(a / 10);
      assert db[..|db| - 1] == Decimal(b / 10);
      DecimalInjective(a / 10, b / 10);
      assert DigitChar(a % 10) == da[|da| - 1] == db[|db| - 1] == DigitChar(b % 10);
    }
  }

  /** Prefixes that carry no digit are separated cleanly from a decimal that follows. */
  lemma PrefixedDecimalInjective(p: string, a: nat, b: nat)
    requires p + Decimal(a) == p + Decimal(b)
    ensures a == b
  {
    var x, y := p + Decimal(a), p + Decimal(b);
    assert Decimal(a) == x[|p|..] == y[|p|..] == Decimal(b);
    DecimalInjective(a, b);
  }

  predicate AllDigits(s: string) {
    forall i :: 0 <= i < |s| ==> IsDigit(s[i])
  }

  /** A dot after a digit-only prefix marks where the prefix ends. */
  lemma {:induction false} SplitAtDot(x: string, y: string, u: string, v: string)
    requires AllDigits(x) && AllDigits(u)
    requires x + "." + y == u + "." + v
    ensures x == u && y == v
  {
    var l := x + "." + y;
    var r := u + "." + v;
    assert forall i :: 0 <= i < |x| ==> l[i] == x[i];
    assert forall i :: 0 <= i < |u| ==> r[i] == u[i];
    assert l[|x|] == '.' && r[|u|] == '.';
    assert |x| == |u|;
    assert x == l[..|x|] == r[..|x|] == u;
    assert y == l[|x| + 1..] == r[|x| + 1..] == v;
  }

  /** `"a.b"` with decimals a and b determines both numbers. */
  lemma DottedPairInjective(a: nat, b: nat, c: nat, d: nat)
    requires Decimal(a) + "." + Decimal(b) == Decimal(c) + "." + Decimal(d)
    ensures a == c && b == d
  {
    var x, y, u, v := Decimal(a), Decimal(b), Decimal(c), Decimal(d);
    SplitAtDot(x, y, u, v);
    assert Decimal(a) == Decimal(c) && Decimal(b) == Decimal(d);
    DecimalInjective(a, c);
    DecimalInjective(b, d);
  }

  // ---------------------------------------------------------------------------
  // UTF-8 (RFC 3629), as Rust's `str::as_bytes` and Python's `str.encode()` produce it.
  // ---------------------------------------------------------------------------

  /** The UTF-8 encoding of one Unicode scalar value. */
  function Utf8Char(c: char): (r: Bytes)
    ensures 1 <= |r| <= 4
    ensures |r| == 1 <==> c as int < 0x80
    ensures |r| == 1 ==> r[0] == c as int
  {
    var v := c as int;
    if v < 0x80 then [v]
    else if v < 0x800 then [0xC0 + v / 0x40, 0x80 + v % 0x40]
    else if v < 0x1_0000 then [0xE0 + v / 0x1000, 0x80 + (v / 0x40) % 0x40, 0x80 + v % 0x40]
    else [0xF0 + v / 0x4_0000, 0x80 + (v / 0x1000) % 0x40, 0x80 + (v / 0x40) % 0x40, 0x80 + v % 0x40]
  }

  /** The UTF-8 encoding of a string. */
  function Utf8(s: string): (r: Bytes)
    ensures |r| >= |s|
  {
    if |s| == 0 then [] else Utf8Char(s[0]) + Utf8(s[1..])
  }

  lemma {:induction false} Utf8Append(a: string, b: string)
    ensures Utf8(a + b) == Utf8(a) + Utf8(b)
  {
    if |a| > 0 {
      assert (a + b)[1..] == a[1..] + b;
      Utf8Append(a[1..], b);
    } else {
      assert a + b == b;
    }
  }

  predicate IsAscii(s: string) {
    forall i :: 0 <= i < |s| ==> s[i] as int < 0x80
  }

  /** An ASCII string is one byte per character, and the bytes are the code points. */
  lemma {:induction false} AsciiUtf8(s: string)
    requires IsAscii(s)
    ensures |Utf8(s)| == |s|
    ensures forall i :: 0 <= i < |s| ==> Utf8(s)[i] == s[i] as int
  {
    if |s| > 0 {
      AsciiUtf8(s[1..]);
    }
  }

  // ---------------------------------------------------------------------------
  // Whitespace and trimming.
  // ---------------------------------------------------------------------------

  /** Rust's `char::is_whitespace`: the Unicode White_Space property. */
  predicate IsRustWhitespace(c: char) {
    var v := c as int;
    (0x09 <= v <= 0x0D) || v == 0x20 || v == 0x85 || v == 0xA0 || v == 0x1680
    || (0x2000 <= v <= 0x200A) || v == 0x2028 || v == 0x2029 || v == 0x202F
    || v == 0x205F || v == 0x3000
  }

  /** Python's `str.isspace` for one character; unlike Rust it includes U+001C..U+001F. */
  predicate IsPySpace(c: char) {
    var v := c as int;
    IsRustWhitespace(c) || (0x1C <= v <= 0x1F)
  }

  /** The two whitespace classes differ exactly on the four information separators. */
  lemma WhitespaceClassesDiffer(c: char)
    ensures IsPySpace(c) && !IsRustWhitespace(c) <==> 0x1C <= c as int <= 0x1F
  {
  }

  /** Drops the longest prefix whose characters all satisfy `p`. */
  function TrimStart(s: string, p: char -> bool): (r: string)
    ensures |r| <= |s|
  {
    if |s| > 0 && p(s[0]) then TrimStart(s[1..], p) else s
  }

  /** Drops the longest suffix whose characters all satisfy `p`. */
  function TrimEnd(s: string, p: char -> bool): (r: string)
    ensures |r| <= |s|
  {
    if |s| > 0 && p(s[|s| - 1]) then TrimEnd(s[..|s| - 1], p) else s
  }

  /** What `TrimStart` keeps is a suffix starting at a character `p` rejects; all it drops satisfies `p`. */
  lemma {:induction false} TrimStartSpec(s: string, p: char -> bool)
    ensures TrimStart(s, p) == s[|s| - |TrimStart(s, p)|..]
    ensures |TrimStart(s, p)| > 0 ==> !p(TrimStart(s, p)[0])
    ensures forall i :: 0 <= i < |s| - |TrimStart(s, p)| ==> p(s[i])
  {
    if |s| > 0 && p(s[0]) {
      TrimStartSpec(s[1..], p);
    }
  }

  /** What `TrimEnd` keeps is a prefix ending at a character `p` rejects; all it drops satisfies `p`. */
  lemma {:induction false} TrimEndSpec(s: string, p: char -> bool)
    ensures TrimEnd(s, p) == s[..|TrimEnd(s, p)|]
    ensures |TrimEnd(s, p)| > 0 ==> !p(TrimEnd(s, p)[|TrimEnd(s, p)| - 1])
    ensures forall i :: |TrimEnd(s, p)| <= i < |s| ==> p(s[i])
  {
    if |s| > 0 && p(s[|s| - 1]) {
      TrimEndSpec(s[..|s| - 1], p);
    }
  }

  function Trim(s: string, p: char -> bool): string {
    TrimEnd(TrimStart(s, p), p)
  }

  /** Rust's `str::trim`. */
  function RustTrim(s: string): string { Trim(s, IsRustWhitespace) }

  /** Python's `str.strip()`. */
  function PyStrip(s: string): string { Trim(s, IsPySpace) }

  /** Python's `str.rstrip()`. */
  function PyRStrip(s: string): string { TrimEnd(s, IsPySpace) }

  /** Whether `s` has a character `p` rejects. */
  predicate HasOther(s: string, p: char -> bool) {
    exists i :: 0 <= i < |s| && !p(s[i])
  }

  /** A slice of text with no character outside `p` has none either. */
  lemma NoOtherSlice(s: string, a: nat, b: nat, p: char -> bool)
    requires a <= b <= |s| && !HasOther(s, p)
    ensures !HasOther(s[a..b], p)
  {
    forall m | 0 <= m < b - a ensures p(s[a..b][m]) {
      assert s[a..b][m] == s[a + m];
    }
  }

  /** Trimming leaves something exactly when some character is not trimmable. */
  lemma TrimNonEmpty(s: string, p: char -> bool)
    ensures |Trim(s, p)| > 0 <==> HasOther(s, p)
  {
    var t := TrimStart(s, p);
    TrimStartSpec(s, p);
    TrimEndSpec(t, p);
    if |t| > 0 {
      assert !p(s[|s| - |t|]);
      assert |TrimEnd(t, p)| > 0;
    }
  }

  // ---------------------------------------------------------------------------
  // Sequences of strings.
  // ---------------------------------------------------------------------------

  /** `sep.join(parts)`. */
  function Join(parts: seq<string>, sep: string): string {
    if |parts| == 0 then ""
    else if |parts| == 1 then parts[0]
    else parts[0] + sep + Join(parts[1..], sep)
  }

  lemma {:induction false} JoinNonEmpty(parts: seq<string>, sep: string)
    requires |parts| > 0 && |parts[0]| > 0
    ensures |Join(parts, sep)| > 0
  {
  }

  predicate StartsWith(s: string, prefix: string) {
    |prefix| <= |s| && s[..|prefix|] == prefix
  }

  predicate EndsWith(s: string, suffix: string) {
    |suffix| <= |s| && s[|s| - |suffix|..] == suffix
  }

  /** Whether `needle` occurs in `s` starting at index `i`. */
  predicate OccursAt(s: string, needle: string, i: nat) {
    i + |needle| <= |s| && s[i..i + |needle|] == needle
  }

  predicate Contains(s: string, needle: string) {
    exists i :: 0 <= i <= |s| && OccursAt(s, needle, i)
  }

  /** Whether character `c` occurs in `s` (Rust's `str::contains(char)`). */
  predicate HasChar(s: string, c: char) {
    exists i :: 0 <= i < |s| && s[i] == c
  }

  /** The index of the first `c` in `s` (Rust's `str::find(char)`), if any. */
  function FindChar(s: string, c: char): (r: Option<nat>)
    ensures r.None? <==> !HasChar(s, c)
    ensures r.Some? ==> r.value < |s| && s[r.value] == c && forall i :: 0 <= i < r.value ==> s[i] != c
    decreases |s|
  {
    if |s| == 0 then None
    else if s[0] == c then Some(0)
    else match FindChar(s[1..], c)
      case None => None
      case Some(i) => Some(i + 1)
  }

  /** The first `c` in text that starts with a run free of `c` and then `c` is right after that run. */
  lemma FindCharAfter(run: string, c: char, tail: string)
    requires !HasChar(run, c)
    ensures FindChar(run + [c] + tail, c) == Some(|run|)
  {
    var s := run + [c] + tail;
    assert s[|run|] == c;
    assert forall i :: 0 <= i < |run| ==> s[i] == run[i];
  }
}

=== FILE: trust.dfy ===
/** The five mesh scopes, from the narrowest to the widest. */
module Scopes {
  datatype Scope = Personal | Family | Group | Community | World {
    /** The enum's discriminant: Personal is 0 and World 4. */
    function Level(): (n: nat)
      ensures n <= 4
    {
      match this
      case Personal => 0
      case Family => 1
      case Group => 2
      case Community => 3
      case World => 4
    }
  }

  /** The scope one level up; World has none. */
  function Next(s: Scope): (r: Scope)
    requires s != World
    ensures r.Level() == s.Level() + 1
  {
    match s
    case Personal => Family
    case Family => Group
    case Group => Community
    case Community => World
  }
}

/** Weighted trust scores, the per-scope WAU thresholds and the cosine anomaly test, over reals. */
module TrustCalculator {
  import opened Wrappers
  import opened Scopes

  function Sum(xs: seq<real>): real {
    if |xs| == 0 then 0.0 else xs[0] + Sum(xs[1..])
  }

  /** Every entry lies in [0, 1]. */
  predicate InUnit(xs: seq<real>) {
    forall i :: 0 <= i < |xs| ==> 0.0 <= xs[i] <= 1.0
  }

  lemma {:induction false} SumOfUnitBounded(xs: seq<real>)
    requires InUnit(xs)
    ensures 0.0 <= Sum(xs) <= |xs| as real
    decreases |xs|
  {
    if |xs| > 0 {
      SumOfUnitBounded(xs[1..]);
    }
  }

  /** The peers' mean score, 0 when there are no reviews. */
  function PeerAverage(peerScores: seq<real>): (avg: real)
    ensures |peerScores| == 0 ==> avg == 0.0
    ensures InUnit(peerScores) ==> 0.0 <= avg <= 1.0
  {
    if |peerScores| == 0 then 0.0
    else
      SumOfUnitBoundedIf(peerScores);
      Sum(peerScores) / |peerScores| as real
  }

  lemma SumOfUnitBoundedIf(xs: seq<real>)
    ensures InUnit(xs) ==> 0.0 <= Sum(xs) <= |xs| as real
  {
    if InUnit(xs) {
      SumOfUnitBounded(xs);
    }
  }

  /** The peer reviews a scope asks for before the score is taken at face value. */
  function MinPeerReviews(scope: Scope): (n: nat)
    ensures n >= 1
  {
    match scope
    case Personal => 1
    case Family => 3
    case _ => 5
  }

  /** The weighted score before any penalty or clamp. */
  function RawScore(selfTrust: real, peerScores: seq<real>, gossipAgreement: real): real {
    0.4 * selfTrust + 0.4 * PeerAverage(peerScores) + 0.2 * gossipAgreement
  }

  /** `f64::clamp(x, 0.0, 1.0)`. */
  function Clamp01(x: real): (r: real)
    ensures 0.0 <= r <= 1.0
    ensures 0.0 <= x <= 1.0 ==> r == x
  {
    if x < 0.0 then 0.0 else if x > 1.0 then 1.0 else x
  }

  /**
   * `calculate_trust_score`: the weighted score, halved when there are fewer peer reviews than
   * the scope asks for, clamped to [0, 1].
   */
  function CalculateTrustScore(selfTrust: real, peerScores: seq<real>, gossipAgreement: real, scope: Scope): (r: real)
    ensures 0.0 <= r <= 1.0
  {
    var raw := RawScore(selfTrust, peerScores, gossipAgreement);
    Clamp01(if |peerScores| < MinPeerReviews(scope) then raw * 0.5 else raw)
  }

  /** With every input in [0, 1] the clamp never acts: the score is the weighted sum, halved on too few reviews. */
  lemma ScoreOfUnitInputs(selfTrust: real, peerScores: seq<real>, gossipAgreement: real, scope: Scope)
    requires 0.0 <= selfTrust <= 1.0 && 0.0 <= gossipAgreement <= 1.0 && InUnit(peerScores)
    ensures |peerScores| >= MinPeerReviews(scope) ==>
      CalculateTrustScore(selfTrust, peerScores, gossipAgreement, scope) == RawScore(selfTrust, peerScores, gossipAgreement)
    ensures |peerScores| < MinPeerReviews(scope) ==>
      CalculateTrustScore(selfTrust, peerScores, gossipAgreement, scope) == RawScore(selfTrust, peerScores, gossipAgreement) / 2.0
  {
  }

  /** With no peer reviews the score is at most half of 0.4 self + 0.2 gossip, whatever the scope. */
  lemma NoPeersPenalized(selfTrust: real, gossipAgreement: real, scope: Scope)
    requires 0.0 <= selfTrust <= 1.0 && 0.0 <= gossipAgreement <= 1.0
    ensures CalculateTrustScore(selfTrust, [], gossipAgreement, scope) == (0.4 * selfTrust + 0.2 * gossipAgreement) * 0.5
  {
  }

  /** More self-trust never lowers the score. */
  lemma MonotoneInSelfTrust(s1: real, s2: real, peerScores: seq<real>, gossipAgreement: real, scope: Scope)
    requires s1 <= s2
    ensures CalculateTrustScore(s1, peerScores, gossipAgreement, scope)
         <= CalculateTrustScore(s2, peerScores, gossipAgreement, scope)
  {
  }

  /** The WAU threshold of each scope. */
  function Threshold(scope: Scope): (t: real)
    ensures 0.0 < t < 1.0
  {
    match scope
    case Personal => 0.25
    case Family => 0.50
    case Group => 0.75
    case Community => 0.90
    case World => 0.99
  }

  /** `verify_wa_u`: the score reaches the scope's threshold. */
  function VerifyWaU(trustScore: real, scope: Scope): (ok: bool)
    ensures ok <==> trustScore >= Threshold(scope)
  {
    trustScore >= Threshold(scope)
  }

  /** Thresholds rise with the scope, so passing at a scope passes at every narrower one. */
  lemma PassesNarrowerScopes(trustScore: real, wide: Scope, narrow: Scope)
    requires narrow.Level() <= wide.Level()
    requires VerifyWaU(trustScore, wide)
    ensures VerifyWaU(trustScore, narrow)
  {
  }

  // ---------------------------------------------------------------------------
  // Cosine similarity. `sqrt` is a parameter; `SqrtSound` says it is the real square root.
  // ---------------------------------------------------------------------------

  ghost predicate SqrtSound(sqrt: real -> real) {
    && sqrt(0.0) == 0.0
    && forall x :: x >= 0.0 ==> sqrt(x) >= 0.0 && Sq(sqrt(x)) == x
  }

  /** The dot product over the common prefix (`zip` stops at the shorter vector). */
  function Dot(a: seq<real>, b: seq<real>): real {
    if |a| == 0 || |b| == 0 then 0.0 else a[0] * b[0] + Dot(a[1..], b[1..])
  }

  function Sq(x: real): real {
    x * x
  }

  /** The squared norm of the whole vector. */
  function NormSq(a: seq<real>): (n: real)
    ensures n >= 0.0
  {
    if |a| == 0 then 0.0 else Sq(a[0]) + NormSq(a[1..])
  }

  predicate IsZero(a: seq<real>) {
    forall i :: 0 <= i < |a| ==> a[i] == 0.0
  }

  /** A zero vector has norm 0. */
  lemma {:induction false} ZeroHasNoNorm(a: seq<real>)
    requires IsZero(a)
    ensures NormSq(a) == 0.0
    decreases |a|
  {
    if |a| > 0 {
      assert IsZero(a[1..]);
      ZeroHasNoNorm(a[1..]);
    }
  }

  /** Extra entries past the shorter vector do not enter the dot product, though they enter the norm. */
  lemma {:induction false} DotIgnoresTail(a: seq<real>, b: seq<real>, extra: seq<real>)
    requires |a| <= |b|
    ensures Dot(a, b + extra) == Dot(a, b)
    ensures NormSq(b + extra) == NormSq(b) + NormSq(extra)
    decreases |a| + |b|
  {
    if |a| > 0 {
      assert (b + extra)[1..] == b[1..] + extra;
      DotIgnoresTail(a[1..], b[1..], extra);
    } else {
      NormSqAppend(b, extra);
    }
  }

  lemma {:induction false} NormSqAppend(b: seq<real>, extra: seq<real>)
    ensures NormSq(b + extra) == NormSq(b) + NormSq(extra)
    decreases |b|
  {
    if |b| > 0 {
      assert (b + extra)[1..] == b[1..] + extra;
      NormSqAppend(b[1..], extra);
    } else {
      assert b + extra == extra;
    }
  }

  /** `cosine_similarity`: 0 when either norm is 0. */
  function Cosine(sqrt: real -> real, a: seq<real>, b: seq<real>): (r: real)
    ensures sqrt(NormSq(a)) == 0.0 || sqrt(NormSq(b)) == 0.0 ==> r == 0.0
  {
    CosineOf(Dot(a, b), sqrt(NormSq(a)), sqrt(NormSq(b)))
  }

  /** The similarity from the dot product and the two norms. */
  function CosineOf(dot: real, na: real, nb: real): real {
    if na == 0.0 || nb == 0.0 then 0.0 else dot / (na * nb)
  }

  /** A zero vector on either side has similarity 0. */
  lemma ZeroVectorSimilarity(sqrt: real -> real, a: seq<real>, b: seq<real>)
    requires SqrtSound(sqrt)
    requires IsZero(a) || IsZero(b)
    ensures Cosine(sqrt, a, b) == 0.0
  {
    if IsZero(a) {
      ZeroHasNoNorm(a);
    } else {
      ZeroHasNoNorm(b);
    }
  }

  function Negate(a: seq<real>): (r: seq<real>)
    ensures |r| == |a| && forall i :: 0 <= i < |a| ==> r[i] == -a[i]
  {
    if |a| == 0 then [] else [-a[0]] + Negate(a[1..])
  }

  lemma {:induction false} NegateDotNorm(a: seq<real>)
    ensures Dot(a, Negate(a)) == -NormSq(a) && NormSq(Negate(a)) == NormSq(a) && Dot(a, a) == NormSq(a)
    decreases |a|
  {
    if |a| > 0 {
      assert Negate(a)[1..] == Negate(a[1..]);
      NegateDotNorm(a[1..]);
    }
  }

  /** A vector of positive norm is exactly similar to itself and exactly opposite to its negation. */
  lemma SelfAndOpposite(sqrt: real -> real, a: seq<real>)
    requires SqrtSound(sqrt) && NormSq(a) > 0.0
    ensures Cosine(sqrt, a, a) == 1.0
    ensures Cosine(sqrt, a, Negate(a)) == -1.0
  {
    NegateDotNorm(a);
    var n := NormSq(a);
    RootOfPositive(sqrt, n);
    var s := sqrt(n);
    UnitCosine(s, n);
    assert Cosine(sqrt, a, a) == CosineOf(n, s, s);
    assert Cosine(sqrt, a, Negate(a)) == CosineOf(-n, s, s);
  }

  /** A sound square root of a positive number is positive and squares back to it. */
  lemma RootOfPositive(sqrt: real -> real, n: real)
    requires SqrtSound(sqrt) && n > 0.0
    ensures sqrt(n) > 0.0 && Sq(sqrt(n)) == n
  {
  }

  /** With both norms the root `s` of `n`, a dot product of `n` gives 1 and one of `-n` gives -1. */
  lemma UnitCosine(s: real, n: real)
    requires s > 0.0 && Sq(s) == n && n > 0.0
    ensures CosineOf(n, s, s) == 1.0 && CosineOf(-n, s, s) == -1.0
  {
    DivSelf(n);
  }

  /** `n / n` is 1 and `(-n) / n` is -1. */
  lemma DivSelf(n: real)
    requires n > 0.0
    ensures n / n == 1.0 && (-n) / n == -1.0
  {
    assert (-n) / n == -(n / n);
  }

  /** `check_behavior_anomaly`: similarity strictly below the threshold. */
  function CheckBehaviorAnomaly(sqrt: real -> real, current: seq<real>, baseline: seq<real>, cosineThreshold: real): bool {
    Cosine(sqrt, current, baseline) < cosineThreshold
  }

  /** Against a zero vector on either side the similarity is 0, so any positive threshold flags it. */
  lemma ZeroVectorAnomalous(sqrt: real -> real, current: seq<real>, baseline: seq<real>, cosineThreshold: real)
    requires SqrtSound(sqrt) && (IsZero(current) || IsZero(baseline))
    ensures CheckBehaviorAnomaly(sqrt, current, baseline, cosineThreshold) <==> 0.0 < cosineThreshold
  {
    ZeroVectorSimilarity(sqrt, current, baseline);
  }

  /** At threshold 0.95 an opposite vector is anomalous and the baseline itself is not. */
  lemma OppositeAnomalousSameNot(sqrt: real -> real, baseline: seq<real>)
    requires SqrtSound(sqrt) && NormSq(baseline) > 0.0
    ensures CheckBehaviorAnomaly(sqrt, Negate(baseline), baseline, 0.95)
    ensures !CheckBehaviorAnomaly(sqrt, baseline, baseline, 0.95)
  {
    SelfAndOpposite(sqrt, baseline);
    NegateDotNorm(baseline);
    var n := NormSq(baseline);
    assert NormSq(Negate(baseline)) == n;
    DotSymmetric(Negate(baseline), baseline);
  }

  lemma {:induction false} DotSymmetric(a: seq<real>, b: seq<real>)
    ensures Dot(a, b) == Dot(b, a)
    decreases |a|
  {
    if |a| > 0 && |b| > 0 {
      DotSymmetric(a[1..], b[1..]);
    }
  }
}

/** The per-agent baseline profiles. */
module BaselineProfiles {
  import opened Wrappers
  import opened Bytes

  datatype BehaviorProfile = BehaviorProfile(agentId: string, baselineVector: seq<real>, version: u64)

  type Manager = map<string, BehaviorProfile>

  function New(): (m: Manager)
    ensures forall id :: GetProfile(m, id).None?
  {
    map[]
  }

  function GetProfile(m: Manager, agentId: string): Option<BehaviorProfile> {
    if agentId in m then Some(m[agentId]) else None
  }

  /** `update_profile`: stores the profile under its own agent id, replacing any earlier one, and touches no other agent. */
  function UpdateProfile(m: Manager, p: BehaviorProfile): (r: Manager)
    ensures GetProfile(r, p.agentId) == Some(p)
    ensures forall id :: id != p.agentId ==> GetProfile(r, id) == GetProfile(m, id)
  {
    m[p.agentId := p]
  }

  /** A later update for the same agent overwrites an earlier one completely. */
  lemma UpdateReplaces(m: Manager, p1: BehaviorProfile, p2: BehaviorProfile)
    requires p1.agentId == p2.agentId
    ensures UpdateProfile(UpdateProfile(m, p1), p2) == UpdateProfile(m, p2)
  {
  }
}

/** The auditor: the behaviour check at a fixed threshold against its own profiles. */
module MeshAuditor {
  import opened Wrappers
  import opened TrustCalculator
  import BaselineProfiles

  const AUDIT_THRESHOLD: real := 0.95

  datatype MeshAuditor = MeshAuditor(profileManager: BaselineProfiles.Manager)

  function New(): (a: MeshAuditor)
    ensures forall id :: BaselineProfiles.GetProfile(a.profileManager, id).None?
  {
    MeshAuditor(BaselineProfiles.New())
  }

  /** `verify_agent_behavior`: an agent with no profile is never flagged. */
  function VerifyAgentBehavior(sqrt: real -> real, pm: BaselineProfiles.Manager, agentId: string,
                               current: seq<real>, cosineThreshold: real): (anomalous: bool)
    ensures anomalous <==>
      (&& BaselineProfiles.GetProfile(pm, agentId).Some?
       && Cosine(sqrt, current, BaselineProfiles.GetProfile(pm, agentId).value.baselineVector) < cosineThreshold)
  {
    match BaselineProfiles.GetProfile(pm, agentId)
    case None => false
    case Some(p) => CheckBehaviorAnomaly(sqrt, current, p.baselineVector, cosineThreshold)
  }

  /** `perform_audit`: flags an agent iff it has a profile and its similarity is below 0.95. */
  function PerformAudit(sqrt: real -> real, a: MeshAuditor, agentId: string, current: seq<real>): (anomalous: bool)
    ensures anomalous <==>
      (&& BaselineProfiles.GetProfile(a.profileManager, agentId).Some?
       && Cosine(sqrt, current, BaselineProfiles.GetProfile(a.profileManager, agentId).value.baselineVector) < 0.95)
  {
    VerifyAgentBehavior(sqrt, a.profileManager, agentId, current, AUDIT_THRESHOLD)
  }

  /** A freshly built auditor has no profiles, so it flags nothing. */
  lemma FreshAuditorPasses(sqrt: real -> real, agentId: string, current: seq<real>)
    ensures !PerformAudit(sqrt, New(), agentId, current)
  {
  }

  /**
   * What `perform_audit` decides once a profile is stored: the negation of the baseline is flagged
   * and the baseline itself passes. The source's auditor cannot reach such a state (its profile
   * manager is private and no method of the auditor adds a profile), so this states the audit's
   * logic, not a behaviour of a running auditor.
   */
  lemma AuditWithProfile(sqrt: real -> real, a: MeshAuditor, p: BaselineProfiles.BehaviorProfile)
    requires SqrtSound(sqrt) && NormSq(p.baselineVector) > 0.0
    ensures var a' := MeshAuditor(BaselineProfiles.UpdateProfile(a.profileManager, p));
      PerformAudit(sqrt, a', p.agentId, Negate(p.baselineVector)) && !PerformAudit(sqrt, a', p.agentId, p.baselineVector)
  {
    OppositeAnomalousSameNot(sqrt, p.baselineVector);
  }
}

/** The hysteretic scope state machine driven by WAU scores. */
module ScopeManager {
  import opened Scopes

  datatype Hysteresis = Hysteresis(upMargin: real, downMargin: real)

  datatype WauThresholds = WauThresholds(personal: real, family: real, group: real, community: real,
                                         world: real, hysteresis: Hysteresis)

  datatype MeshScopeManager = MeshScopeManager(thresholds: WauThresholds, currentScope: Scope)

  /** `new` starts at Personal. */
  function New(t: WauThresholds): (m: MeshScopeManager)
    ensures CurrentScope(m) == Personal && m.thresholds == t
  {
    MeshScopeManager(t, Personal)
  }

  function CurrentScope(m: MeshScopeManager): Scope {
    m.currentScope
  }

  /** The configured threshold of a scope. */
  function Threshold(t: WauThresholds, s: Scope): real {
    match s
    case Personal => t.personal
    case Family => t.family
    case Group => t.group
    case Community => t.community
    case World => t.world
  }

  /** The score promotes from `s`: there is a next scope and the score clears its threshold plus the up margin. */
  predicate Promotes(t: WauThresholds, s: Scope, score: real) {
    s != World && score >= Threshold(t, Next(s)) + t.hysteresis.upMargin
  }

  /** The score demotes from `s`: there is a lower scope and the score is under `s`'s threshold minus the down margin. */
  predicate Demotes(t: WauThresholds, s: Scope, score: real) {
    s != Personal && score < Threshold(t, s) - t.hysteresis.downMargin
  }

  /**
   * `update_scope`: up one level on promotion, which is tested first; otherwise down one level
   * on demotion; otherwise unchanged.
   */
  function UpdateScope(m: MeshScopeManager, score: real): (r: MeshScopeManager)
    ensures r.thresholds == m.thresholds
    ensures Promotes(m.thresholds, m.currentScope, score) ==> r.currentScope.Level() == m.currentScope.Level() + 1
    ensures !Promotes(m.thresholds, m.currentScope, score) && Demotes(m.thresholds, m.currentScope, score)
      ==> r.currentScope.Level() + 1 == m.currentScope.Level()
    ensures !Promotes(m.thresholds, m.currentScope, score) && !Demotes(m.thresholds, m.currentScope, score)
      ==> r.currentScope == m.currentScope
  {
    var t := m.thresholds;
    var up := t.hysteresis.upMargin;
    var down := t.hysteresis.downMargin;
    var next := match m.currentScope
      case Personal => if score >= t.family + up then Family else Personal
      case Family =>
        if score >= t.group + up then Group else if score < t.family - down then Personal else Family
      case Group =>
        if score >= t.community + up then Community else if score < t.group - down then Family else Group
      case Community =>
        if score >= t.world + up then World else if score < t.community - down then Group else Community
      case World => if score < t.world - down then Community else World;
    m.(currentScope := next)
  }

  /** Each update moves at most one level; World never rises and Personal never falls. */
  lemma AtMostOneStep(m: MeshScopeManager, score: real)
    ensures var l, l' := m.currentScope.Level(), UpdateScope(m, score).currentScope.Level();
      l' <= l + 1 && l <= l' + 1
    ensures m.currentScope == World ==> UpdateScope(m, score).currentScope != World ==>
      UpdateScope(m, score).currentScope == Community
    ensures m.currentScope == Personal ==> UpdateScope(m, score).currentScope in {Personal, Family}
  {
  }

  /** A score inside the band [threshold(cur) - down, threshold(next) + up) leaves the scope where it is. */
  lemma BandIsStable(m: MeshScopeManager, score: real)
    requires m.currentScope != Personal ==> score >= Threshold(m.thresholds, m.currentScope) - m.thresholds.hysteresis.downMargin
    requires m.currentScope != World ==> score < Threshold(m.thresholds, Next(m.currentScope)) + m.thresholds.hysteresis.upMargin
    ensures UpdateScope(m, score) == m
  {
  }

  /**
   * With margins that do not cancel out (up + down >= 0), the same score never undoes a move:
   * repeating an update that changed the scope does not take it back.
   */
  lemma NoImmediateReversal(m: MeshScopeManager, score: real)
    requires m.thresholds.hysteresis.upMargin + m.thresholds.hysteresis.downMargin >= 0.0
    ensures var m1 := UpdateScope(m, score);
      var m2 := UpdateScope(m1, score);
      m1.currentScope != m.currentScope ==> m2.currentScope != m.currentScope
  {
  }

  /** `thresholds.personal` is never read. */
  lemma PersonalThresholdUnused(m: MeshScopeManager, score: real, p: real)
    ensures UpdateScope(m.(thresholds := m.thresholds.(personal := p)), score).currentScope
         == UpdateScope(m, score).currentScope
  {
  }
}

=== FILE: wrappers.dfy ===
/** Failure-compatible result types shared by every module of the model. */
module Wrappers {

  /** An optional value: Rust's `Option`, Python's `None`-or-value. */
  datatype Option<+T> = None | Some(value: T) {
    predicate IsFailure() { None? }

    function PropagateFailure<U>(): Option<U>
      requires None?
    {
      None
    }

    function Extract(): T
      requires Some?
    {
      value
    }

    function GetOr(default: T): T {
      match this
      case Some(v) => v
      case None => default
    }
  }

  /** Rust's `Result<T, E>`. */
  datatype Result<+T, +E> = Ok(value: T) | Err(error: E) {
    predicate IsFailure() { Err? }

    function PropagateFailure<U>(): Result<U, E>
      requires Err?
    {
      Err(error)
    }

    function Extract(): T
      requires Ok?
    {
      value
    }
  }

  /** `Result<(), E>`: a check that passes or fails with an error. */
  datatype Outcome<+E> = Pass | Fail(error: E) {
    predicate IsFailure() { Fail? }

    function PropagateFailure(): Outcome<E>
      requires Fail?
    {
      this
    }
  }
}

=== FILE: zoning.dfy ===
/**
 * The zoning labels of the shared library. `to_lowercase` is modelled as ASCII lower-casing:
 * the only non-ASCII character Unicode lower-cases into ASCII is the Kelvin sign (to 'k'), and
 * no label contains a 'k', so which labels are recognised comes out the same.
 */
module Zoning {
  import opened Wrappers

  datatype Zone = Public | Sensitive | Restricted | Experimental

  function Lower(c: char): (r: char)
    ensures 'A' <= c <= 'Z' ==> r as int == c as int + 32
    ensures !('A' <= c <= 'Z') ==> r == c
  {
    if 'A' <= c <= 'Z' then (c as int + 32) as char else c
  }

  function LowerAll(s: string): (r: string)
    ensures |r| == |s| && forall i :: 0 <= i < |s| ==> r[i] == Lower(s[i])
  {
    seq(|s|, i requires 0 <= i < |s| => Lower(s[i]))
  }

  /** The label each zone is written as. */
  function Label(z: Zone): string {
    match z
    case Public => "public"
    case Sensitive => "sensitive"
    case Restricted => "restricted"
    case Experimental => "experimental"
  }

  /** `Zone::from_label`: the lower-cased label, if it names a zone. */
  function FromLabel(name: string): (r: Option<Zone>)
    ensures r.Some? ==> Label(r.value) == LowerAll(name)
    ensures r.None? ==> forall z :: Label(z) != LowerAll(name)
  {
    var l := LowerAll(name);
    if l == "public" then Some(Public)
    else if l == "sensitive" then Some(Sensitive)
    else if l == "restricted" then Some(Restricted)
    else if l == "experimental" then Some(Experimental)
    else None
  }

  /** Lower-casing leaves a label as it is. */
  lemma LabelIsLower(z: Zone)
    ensures LowerAll(Label(z)) == Label(z)
  {
    var l := Label(z);
    forall i | 0 <= i < |l| ensures Lower(l[i]) == l[i] {
    }
  }

  /** Every zone's label reads back as that zone, and labels are distinct. */
  lemma LabelRoundTrip(z: Zone)
    ensures FromLabel(Label(z)) == Some(z)
  {
    LabelIsLower(z);
  }

  /** The mapping ignores case: spellings that lower-case alike read alike. */
  lemma CaseInsensitive(a: string, b: string)
    requires LowerAll(a) == LowerAll(b)
    ensures FromLabel(a) == FromLabel(b)
  {
  }

  /** Upper-case spellings are recognised. */
  lemma UpperCaseRecognised()
    ensures FromLabel("PUBLIC") == Some(Public)
    ensures FromLabel("Experimental") == Some(Experimental)
    ensures FromLabel("secret") == None
  {
    assert LowerAll("PUBLIC") == "public";
    assert LowerAll("Experimental") == "experimental";
    assert LowerAll("secret") == "secret";
  }
}
